=== FILE: README.md ===
# KPY Automate: the spreadsheet reconciliation core in Dafny

KPY Automate reads the spreadsheets a supermarket chain's back-office
system exports and reconciles them:

- a sales curve per store ("Curva ABC por Loja");
- the goods received per group ("Entradas por Grupo");
- a stock listing ("Estoque").

It recognises which kind of sheet a file is, extracts normalised records from
each, and joins the stock with the sales curve and a table of average monthly
sales. From that join it builds the stock-out report ("Ruptura"): days of stock
(DDE), stock status, sale status, buyer and the RUPTURA flag, per stock row.

Around that pipeline sit these pieces:

- the group-to-buyer table;
- the lookups into the average-sales table;
- the rule that decides which reports are offered;
- the Brazilian number formatting;
- four small pieces of window state, each modelled on its own: the recent-files
  list of the user's preferences, the per-column filter dictionary of the report
  filter, the store checkboxes with their three macro buttons, and the screen
  classification that sizes the main window.

## How the model is organised

A sheet is a `Frame`: a sequence of column labels and a sequence of rows. Each
row is a sequence of `Cell`s (`Empty`, `Str`, `Int`, `Num`).

Numbers are exact decimals (`Dec`, a mantissa and a count of decimal places),
not binary floats. pandas' coercions are partial parsers that return `Option`.
An exception becomes the `Err` of a `Result`. A caught exception becomes the
value the program falls back to.

The helper modules hold one concept each:

| module | what it holds |
|---|---|
| `Wrappers` | `Option` and `Result` |
| `Text` | Python's string methods on Latin-1 text |
| `Numbers` | the decimal parser behind `float()` and `pd.to_numeric`, `str()` of a number, truncation |
| `Cells` | cells, frames and the pandas coercions |
| `Seqs` | masks, counting, subsequences, de-duplication |
| `Dicts` | insertion-ordered dictionaries |
| `Joins` | `pd.merge(how='left')` |

Each source file of the core has its own module:

| module | source file |
|---|---|
| `CurvaAbc` | `src/models/modelo_curva_abc.py` |
| `Entradas` | `src/models/modelo_entradas.py` |
| `Estoque` | `src/models/modelo_estoque.py` |
| `Identificador` | `src/core/identificador.py` |
| `Ruptura` | `src/models/modelo_ruptura.py` |
| `Compradores` | `src/config/compradores.py` |
| `MediaVendas` | `src/config/media_vendas.py` |
| `Relatorios` | `src/relatorios/relatorios_disponiveis.py` |
| `Helpers` | `src/utils/helpers.py` |
| `ConfigManager` | `src/utils/config_manager.py` |
| `FiltroRelatorio` | `src/ui/filtro_relatorio.py` |
| `FiltroLojas` | `src/ui/filtro.py` |
| `Screen` | `src/utils/screen_config.py` |

Some inputs of the program come from outside it and are parameters here:

- the file read behind the average-sales table (`MediaVendas.GetDf`);
- the saved JSON preferences (`ConfigManager.Carregar`);
- the screen size Tk reports (`Screen.Inicializar`);
- the sheet read from disk (`Identificador.IdentificarArquivo`);
- the reload of a missing average-sales table inside the stock-out report
  (`Ruptura.Processar`);
- the buyer table the stock-out report reads its `COMPRADOR` column from,
  `GRUPO_COMPRADOR` in the program (`Ruptura.Processar`).

## Model

| member | source | states |
|---|---|---|
| `CurvaAbc.Identificar` | src/models/modelo_curva_abc.py:16-31 | a sales curve is recognised exactly when some of the first ten cells of column 0 hold `código` and some hold `loja:`, case aside; a sheet without columns is not one |
| `CurvaAbc.NaturalCodeIsProduct` | src/models/modelo_curva_abc.py:33-45 | every non-negative integer code, as a number or as its text, passes the product test |
| `CurvaAbc.PlaceholdersRejected` | src/models/modelo_curva_abc.py:36-38 | a missing cell and the texts `''`, `'nan'` and `'None'` are never products |
| `CurvaAbc.WithStoreLabels` | src/models/modelo_curva_abc.py:55-60 | the table's labels after the store step are the header's, followed by only the store labels `Loja_Codigo` and `Loja_Nome` the header lacks, each once; a label already there is written into, not added |
| `CurvaAbc.WithStoreLabelsCount` | src/models/modelo_curva_abc.py:55-60 | each store label occurs as often as in the header, and once when the header lacks it; every other label occurs exactly as in the header |
| `CurvaAbc.Fill` | src/models/modelo_curva_abc.py:59-77 | setting the store columns writes the store's code into every column labelled `Loja_Codigo` and its name into every one labelled `Loja_Nome`, and leaves every other column holding the row's own cell |
| `CurvaAbc.Pre` | src/models/modelo_curva_abc.py:59-60 | before the loop a data row keeps its cells outside the store columns, and every store column holds `''`, including a header column of that name |
| `CurvaAbc.Stamp` | src/models/modelo_curva_abc.py:66-77 | the loop changes only the store columns of a row: every column with another label holds the row's own cell |
| `CurvaAbc.StampFromSpec` | src/models/modelo_curva_abc.py:62-77 | every row that is not a marker carries the store of the most recent `Loja:` row above it, and the empty store before the first |
| `CurvaAbc.StampFromWidths` | src/models/modelo_curva_abc.py:59-77 | every stamped row has one cell per label of the table after the store step |
| `CurvaAbc.StoreAfterMarker` | src/models/modelo_curva_abc.py:69-74 | after a marker row, the store in force is the one that row names in cells 1 and 2 |
| `CurvaAbc.StoreAfterRow` | src/models/modelo_curva_abc.py:75-77 | a row that is not a marker leaves the current store unchanged |
| `CurvaAbc.LimparSteps` | src/models/modelo_curva_abc.py:79-85 | removing the marker rows and then the non-products, in two masks, keeps exactly the rows that pass both tests |
| `CurvaAbc.LimparRows` | src/models/modelo_curva_abc.py:79-85 | no kept row starts with `Loja:`, and every kept row starts with a valid product |
| `CurvaAbc.LimparOrder` | src/models/modelo_curva_abc.py:79-85 | the kept rows come from the stamped data rows and keep their order |
| `CurvaAbc.LimparKeeps` | src/models/modelo_curva_abc.py:66-85 | a data row that is no marker and starts with a product is kept, carrying the store in force at it, when the first header label is not a store label (that column is overwritten by the store step) |
| `CurvaAbc.ConvertColumn` | src/models/modelo_curva_abc.py:90-92 | converting one numeric column leaves every other column unchanged; it fails exactly when the label is carried by two columns |
| `CurvaAbc.ConvertColumnValues` | src/models/modelo_curva_abc.py:91-92 | each converted cell holds the number its text reads as once commas become points, and is null when the text is no number |
| `CurvaAbc.ConvertFrom` | src/models/modelo_curva_abc.py:88-92 | the four conversions in turn touch only their own columns, and fail exactly when one of those labels is duplicated |
| `CurvaAbc.OutputLabels` | src/models/modelo_curva_abc.py:53-60 | the output labels start with the header row at index 4, one per column of the sheet, and contain both store labels, at most two labels being added |
| `CurvaAbc.Processar` | src/models/modelo_curva_abc.py:47-99 | labels come from the row at index 4 and data from the rows below it; a short sheet or a duplicated converted label raises with the `Erro no processamento` prefix; otherwise there is one output row per kept row |
| `CurvaAbc.ProcessarCabecalho` | src/models/modelo_curva_abc.py:53-92 | `processar` succeeds exactly when none of `Código`, `Qtd`, `Total R$`, `Loja_Codigo` is carried by two header columns |
| `CurvaAbc.ProcessarReusaLojaCodigo` | src/models/modelo_curva_abc.py:53-60 | a header already carrying `Loja_Codigo` gets no second column of that name, and a header holding only that label processes without error into the labels `Loja_Codigo`, `Loja_Nome` |
| `CurvaAbc.ProcessarRows` | src/models/modelo_curva_abc.py:53-96 | the output has one cell per output label in every row, and outside the converted columns it holds the kept rows unchanged |
| `Entradas.Identificar` | src/models/modelo_entradas.py:15-20 | a goods-received sheet is recognised exactly when one of the first five cells of column 0, lower-cased, holds the report title |
| `Entradas.IsNumero` | src/models/modelo_entradas.py:22-32 | a cell is a product code exactly when it is present and its stripped text starts with a digit |
| `Entradas.EnterFits` | src/models/modelo_entradas.py:69-76 | a `Categoria:` row sets the category (width over 2) and group (width over 5) on its own; what it cannot set stays empty |
| `Entradas.ProductCells` | src/models/modelo_entradas.py:82-91 | a product row yields 12 trimmed cells, padded with `''` past the sheet's width |
| `Entradas.ColetarIsScan` | src/models/modelo_entradas.py:63-100 | the row loop emits exactly the product rows, in order, each with the category and group in force when it is read |
| `Entradas.ExtraidosSpec` | src/models/modelo_entradas.py:63-100 | there is one record per product row; each carries the context of the most recent `Categoria:` row above it; every product row's record is among them |
| `Entradas.ExtraidosCount` | src/models/modelo_entradas.py:104-106 | no record is collected exactly when the sheet has no product row |
| `Entradas.OrdemLabels` | src/models/modelo_entradas.py:168-173 | the output slots list the labels of `ordem_desejada` in its order |
| `Entradas.Slots` | src/models/modelo_entradas.py:175-183 | the shown columns are `ordem_desejada`, then `Col11` exactly when it is kept |
| `Entradas.HasCol11` | src/models/modelo_entradas.py:114-122 | `Col11` is kept exactly when some record has non-blank text in its twelfth cell |
| `Entradas.ConvertSlot` | src/models/modelo_entradas.py:127-150 | codes coerce to integers with 0 for failures; numeric columns hold the number their text reads with a point; the buyer is the group's; text columns stay text |
| `Entradas.TypedRows` | src/models/modelo_entradas.py:127-150 | each converted row holds its record's code as an integer, its group as text and that group's buyer |
| `Entradas.ProcessarCom` | src/models/modelo_entradas.py:45-195 | no columns or no product rows give the empty table; otherwise the columns follow the slots, every row has a non-zero integer code, and every buyer is its group's |
| `Entradas.Processar` | src/models/modelo_entradas.py:128-129 | with the program's table, every output row's buyer is `get_comprador` of its group |
| `Entradas.KeptRows` | src/models/modelo_entradas.py:164-183 | rows that survive the code-0 removal, shown in slot order, start with a non-zero code and hold the group's buyer beside the group |
| `Entradas.ProcessarCount` | src/models/modelo_entradas.py:164-165 | there is one output row per record whose code converts to a non-zero number |
| `Entradas.ProcessarTrace` | src/models/modelo_entradas.py:63-183 | each output row shows a product row of the sheet with the category and group of the most recent category row above it |
| `Estoque.Identificar` | src/models/modelo_estoque.py:16-63 | a stock sheet is recognised exactly when its labels name a code and both stock columns, or one of its first ten rows is a header row |
| `Estoque.FindHeaderFrom` | src/models/modelo_estoque.py:94-102 | the scan returns the first header row in the range, and none exactly when no row of the range is a header |
| `Estoque.HeaderRow` | src/models/modelo_estoque.py:92-102 | the header is the first row among the first 30 whose text holds a code token and both stock titles; with none, nothing is found |
| `Estoque.BrToDot` | src/models/modelo_estoque.py:86-87 | a Brazilian number loses every point and its comma becomes the decimal point: no comma is left, and turning the points back into commas gives the text with its points removed; text without points only has its commas replaced |
| `Estoque.TratarNumeroBr` | src/models/modelo_estoque.py:79-90 | the conversion is total: a missing or empty cell and an unreadable text give 0, numbers keep their value, and a readable text gives the number its stripped text reads as once points are dropped and the comma made a point |
| `Estoque.TratarNumeroBrLe` | src/models/modelo_estoque.py:85-88 | a number written the Brazilian way, an optional minus, digits grouped by `.` and a decimal comma, reads back as the number its digits write |
| `Estoque.TratarNumeroBrFormatado` | src/models/modelo_estoque.py:79-90 | the one-, two- and three-decimal renderings of the report's number formatting read back as the value rounded to that many decimals |
| `Estoque.TratarNumeroBrExemplo` | src/models/modelo_estoque.py:85-88 | `1.234,5` reads as 1234.5 |
| `Estoque.RuleNamesClean` | src/models/modelo_estoque.py:114-152 | no new name in the rule table holds a space or a slash |
| `Estoque.Padronizar` | src/models/modelo_estoque.py:112-153 | a standardised name never holds a space or a slash, and a name no rule applies to only has its spaces and slashes replaced |
| `Estoque.PadronizarRule` | src/models/modelo_estoque.py:114-152 | the earliest rule whose token occurs in the name decides the new name |
| `Estoque.PadronizarStoreStockLabel` | src/models/modelo_estoque.py:114-122 | `Estoque Loja` misses the three earlier rules and becomes `Estoque_Loja` by its own |
| `Estoque.PadronizarStoreStock` | src/models/modelo_estoque.py:114-152 | `Estoque_Loja` misses every earlier rule and becomes `Loja` by the last one |
| `Estoque.PadronizarNotIdempotent` | src/models/modelo_estoque.py:112-153 | standardising twice differs from standardising once: `Estoque Loja` gives `Estoque_Loja`, then `Loja` |
| `Estoque.HeaderLabels` | src/models/modelo_estoque.py:104-110 | one text label per column of the sheet: a missing header cell is labelled `Col<j>`, any other is its text stripped |
| `Estoque.TextRow` | src/models/modelo_estoque.py:186-193 | a copied data row has exactly the header's width, and each of its cells is the sheet cell's text stripped, `''` where the cell is missing or beyond the sheet |
| `Estoque.Headerless` | src/models/modelo_estoque.py:170-199 | the rebuilt table's labels are those of the header row, and its rows are exactly the rows below the header whose first cell looks like a number, as padded text |
| `Estoque.ConvertCell` | src/models/modelo_estoque.py:212-219 | the code becomes an integer with 0 for failures, the two stock columns go through the Brazilian conversion, and other cells stay |
| `Estoque.RenameCols` | src/models/modelo_estoque.py:201-209 | each column takes the standard name of its label's text, so no renamed label holds a space or a slash |
| `Estoque.RenomearNovosNomes` | src/models/modelo_estoque.py:201-209 | renaming through the dictionary of the labels whose standard name differs gives every column its standard name |
| `Estoque.DropZeroCodes` | src/models/modelo_estoque.py:221-223 | the rows kept are exactly those whose code is not 0, in their order |
| `Estoque.Standardize` | src/models/modelo_estoque.py:201-234 | a renamed header that repeats `Codigo`, `Estoque_Loja` or `Estoque_Geral` makes the conversion raise, which is caught and gives the empty table; otherwise the labels are renamed, every row is converted, and with a code column exactly the converted rows whose code is not 0 stay, in order |
| `Estoque.StandardizeKeeps` | src/models/modelo_estoque.py:201-223 | with one code column and no repeated converted label, the rows kept are the conversions of exactly the rows whose code coerces to a non-zero integer, in order |
| `Estoque.Processar` | src/models/modelo_estoque.py:155-235 | no header row and no code label up front give the empty table, and so does a repeated `Codigo`, `Estoque_Loja` or `Estoque_Geral` among the renamed labels; otherwise the labels are the renamed labels of the sheet, or of its header row when no code label is up front, rows are rectangular, no more than the sheet's, and every code is a non-zero integer |
| `Estoque.ProcessarKeeps` | src/models/modelo_estoque.py:170-222 | when no converted label repeats, a processed row is the conversion of a row of the sheet, or of the text rows below its header, whose code coerces to a non-zero integer, and every such row is there |
| `Identificador.Primeiro` | src/core/identificador.py:67-75 | the first candidate that answers yes is chosen, a raising test counts as no, and nothing is chosen exactly when none answers yes |
| `Identificador.PrimeiroModelo` | src/core/identificador.py:67-75 | over the three models in their order, the first whose test answers yes is chosen, and a later one only when every earlier one answers no or raises |
| `Identificador.IdentificarComDf` | src/core/identificador.py:13-18 | Curva ABC wins whenever it recognises the sheet, Entradas only when Curva ABC does not, and Estoque only when neither does; no match gives nothing |
| `Identificador.Amostra` | src/core/identificador.py:34 | the sample keeps the labels and the first twenty rows |
| `Identificador.IdentificarArquivo` | src/core/identificador.py:20-55 | a failed read gives nothing; a chosen model is the one the twenty-row sample selects, paired with the whole sheet |
| `Identificador.AmostraBasta` | src/core/identificador.py:34-45 | deciding on twenty rows gives the same model as deciding on the whole sheet |
| `Identificador.ListarModelos` | src/core/identificador.py:80-82 | the names come in the order the models are tried |
| `Identificador.GetModeloPorNome` | src/core/identificador.py:84-89 | the model found has the name asked for, case aside, and none is found exactly when no name matches |
| `Identificador.NomesDeVolta` | src/core/identificador.py:80-89 | every listed name, written in any case, leads back to its model |
| `Compradores.CompradorIn` | src/config/compradores.py:142-147 | a mapped group gets its buyer; the sentinel comes back exactly for a group the table does not hold |
| `Compradores.BuyerNotSentinel` | src/config/compradores.py:8-139 | no buyer in the table is called `NÃO MAPEADO` |
| `Compradores.GetComprador` | src/config/compradores.py:142-147 | the result is the sentinel exactly when the group is not mapped |
| `Compradores.GruposIn` | src/config/compradores.py:150-154 | the groups listed are exactly those bought by the buyer, without repeats, in table order |
| `Compradores.GetGruposPorComprador` | src/config/compradores.py:150-154 | the program's table lists exactly the buyer's groups, and an unknown buyer gets none |
| `Compradores.EstatisticasIn` | src/config/compradores.py:157-167 | the group total is the number of keys, the buyer total the number of distinct buyers, and the per-buyer counts cover exactly the buyers |
| `Compradores.EstatisticasConsistent` | src/config/compradores.py:157-167 | the per-buyer counts add up to the number of groups, and each equals the number of groups listed for that buyer |
| `MediaVendas.GetDf` | src/config/media_vendas.py:21-43 | a cached table with rows is kept; an empty or missing cache is read again, and a failed read gives the empty table |
| `MediaVendas.GetDfStable` | src/config/media_vendas.py:37-43 | once a table with rows is cached, later calls return it whatever the file holds by then |
| `MediaVendas.MediaPorProdutoLoja` | src/config/media_vendas.py:45-60 | an empty table gives 0; otherwise the `Qtd` of the first row with that code and that store, case aside, or 0 when none; a lookup that raises gives nothing |
| `MediaVendas.Media` | src/config/media_vendas.py:72 | the mean skips missing cells and is NaN exactly when no number is left; times the count it is the sum |
| `MediaVendas.MediaBounds` | src/config/media_vendas.py:72 | a mean lies between the least and the greatest of its numbers |
| `MediaVendas.MediaPorProduto` | src/config/media_vendas.py:62-73 | an empty table or no row with that code gives 0; otherwise the mean `Qtd` over the product's rows |
| `MediaVendas.MediaPorProdutoBounds` | src/config/media_vendas.py:62-73 | the mean across stores lies between the product's least and greatest quantity |
| `MediaVendas.UnicaLinha` | src/config/media_vendas.py:45-73 | for a product on a single row, the mean across stores and the per-store lookup both give that row's quantity |
| `Ruptura.NormalizarCodigo` | src/models/modelo_ruptura.py:23-30 | a missing code gives `''`; otherwise the text before the first point loses its leading zeros and nothing else, so no normalised code holds a point or starts with a zero |
| `Ruptura.NormalizarMesmoCodigo` | src/models/modelo_ruptura.py:23-30 | a positive code written as an integer, as a whole float or as text with leading zeros normalises to the same digits, so the three tables' codes meet |
| `Ruptura.NormalizarIdempotente` | src/models/modelo_ruptura.py:23-30 | normalising a normalised code changes nothing |
| `Ruptura.NormalizarExemplo` | src/models/modelo_ruptura.py:28 | `00123.0` normalises to `123` |
| `Ruptura.NormalizarZero` | src/models/modelo_ruptura.py:26-28 | `0` normalises to `''`, as a missing code does |
| `Ruptura.Dde` | src/models/modelo_ruptura.py:32-52 | empty for a missing input; each of the three zero cases exactly when its inputs are zero; otherwise the stock in whole months when it covers 30 days, else in days |
| `Ruptura.DdeEmMeses` | src/models/modelo_ruptura.py:47-52 | with both figures positive, the DDE is in months exactly when the stock is at least the average |
| `Ruptura.MesesBounds` | src/models/modelo_ruptura.py:48-50 | `k mês(es)` means the stock lasts between 30k and 30(k+1) days |
| `Ruptura.StatusEstoque` | src/models/modelo_ruptura.py:54-65 | empty for a missing input; otherwise the store's and the head office's status, each "with stock" exactly when positive |
| `Ruptura.StatusVenda` | src/models/modelo_ruptura.py:67-72 | `VENDA` exactly when the sales are at least a millionth; missing or smaller sales, negatives included, give `SEM VENDA` |
| `Ruptura.StatusRuptura` | src/models/modelo_ruptura.py:74-84 | `RUPTURA` exactly when the average is positive and the store stock is zero; missing inputs and every other case give `OK` |
| `Ruptura.RupturaEZerado` | src/models/modelo_ruptura.py:40-84 | a stock-out is exactly a product whose DDE reads "Estoque zerado" with positive average sales, and its stock status then starts with `S/ESTQ LJ` |
| `Ruptura.ColunaCodigoDesde` | src/models/modelo_ruptura.py:131-134 | the loop stops at the first label holding `codigo`, case aside, and reports none only when no later label does |
| `Ruptura.ColunaCodigo` | src/models/modelo_ruptura.py:129-137 | the code column is the first label holding `codigo`; the `ValueError` comes exactly when no label does |
| `Ruptura.ParaReal` | src/models/modelo_ruptura.py:147 | a cell that does not convert counts as 0, and a number keeps its value |
| `Ruptura.CurvaPares` | src/models/modelo_ruptura.py:144-147 | the curve is usable exactly when it has a first column, `Loja_Nome` and a fifth column; then each row gives its key and its sales |
| `Ruptura.MediaEfetiva` | src/models/modelo_ruptura.py:102-119 | the average table handed in is used when it has rows, else the reloaded one, else the empty table with its three columns |
| `Ruptura.Mean` | src/models/modelo_ruptura.py:173-174 | times the number of values the mean is their sum, and there is no mean of nothing but 0 |
| `Ruptura.MeanBounds` | src/models/modelo_ruptura.py:173-174 | a mean lies between the least and the greatest value |
| `Ruptura.Agregar` | src/models/modelo_ruptura.py:171-182 | the grouping has one pair per key, each with the mean of that key's values, and every row's key is among them |
| `Ruptura.AgregarComoEscrito` | src/models/modelo_ruptura.py:172-177 | as written, an average table with rows but no `Loja` column raises; with one it groups as intended |
| `Ruptura.AgregarSemLoja` | src/models/modelo_ruptura.py:159-177 | a table with only `Código` and `Qtd` raises as written, while the grouping gives the key `7-` its mean 3 |
| `Ruptura.ChaveAgregada` | src/models/modelo_ruptura.py:173-177 | a key with values in the table has a pair in the grouping |
| `Ruptura.MediaParaMean` | src/models/modelo_ruptura.py:211-229 | after the merge, a stock key's average is the mean of the average rows with that key, and 0 when there are none |
| `Ruptura.Fill0` | src/models/modelo_ruptura.py:195 | a missing head-office stock becomes 0, and a present one is kept |
| `Ruptura.ComMatrizUnica` | src/models/modelo_ruptura.py:184-198 | with unique head-office codes the stock rows stay in order, each with the head office's stock of its code, 0 when there is none |
| `Ruptura.ComVendasUnica` | src/models/modelo_ruptura.py:203-209 | with unique curve keys the rows stay in order, each with the sales of its key, 0 when unmatched |
| `Ruptura.ComMediaUnica` | src/models/modelo_ruptura.py:211-229 | with unique average keys the rows stay in order, each with the average of its key, 0 when unmatched |
| `Ruptura.JuntarUnica` | src/models/modelo_ruptura.py:184-229 | with unique keys on every right side, the three merges keep the stock rows in order and give each its head-office stock, sales and average |
| `Ruptura.Campo` | src/models/modelo_ruptura.py:262-308 | a report column takes the renamed stock column when it exists, and is blank when neither label exists |
| `Ruptura.Comprador` | src/models/modelo_ruptura.py:243-249 | a row gets a real buyer exactly when its group is a non-blank text the buyer table maps; otherwise `NÃO MAPEADO` |
| `Ruptura.ClassificarLinha` | src/models/modelo_ruptura.py:231-311 | a report row shows the merged figures, an integer code and the store; DDE and STATUS DO ESTOQUE are what the store stock, average and head-office stock give; RUPTURA and VENDA agree with the figures beside them; a classifier meeting text raises |
| `Ruptura.Gerar` | src/models/modelo_ruptura.py:231-311 | the report's columns are `colunas_ordem`, with one row per merged row, each that row's classification |
| `Ruptura.GerarCoerente` | src/models/modelo_ruptura.py:231-252 | every row of a report agrees with the average, stock and sales shown beside it |
| `Ruptura.Processar` | src/models/modelo_ruptura.py:86-318 | with the corrected grouping of the averages: no code column gives the `ValueError` and no store column raises; otherwise the report has the ordered columns, at least one row per stock row, and every row is coherent; every stock row's store and code appear in some report row (`Ruptura.ProcessarCobre`) |
| `Ruptura.ProcessarComoEscritoDifere` | src/models/modelo_ruptura.py:172-177 | the report as written agrees with the corrected one except when the average table has rows and no `Loja` column, where as written it raises while the rest of the inputs are usable |
| `Ruptura.ProcessarGera` | src/models/modelo_ruptura.py:123-311 | a successful report is the classification of the merged stock, curve and grouped averages |
| `Ruptura.CurvaChavesUnicas` | src/models/modelo_ruptura.py:144-146 | distinct keys among the curve's rows stay distinct among its pairs |
| `Ruptura.ColunasDaLinha` | src/models/modelo_ruptura.py:284-304 | the report's 18 ordered labels line up with a row's fields: `CÓDIGO` with the code, `MÉDIA VENDA MENSAL` with the average, `STATUS DO ESTOQUE`, `VENDA`, `COMPRADOR` and `RUPTURA` with the texts of those names |
| `Ruptura.ProcessarUnica` | src/models/modelo_ruptura.py:184-311 | with unique curve keys and head-office codes there is exactly one report row per stock row, in order, showing that row's figures, days of stock and stock status |
| `Ruptura.ComMatrizCompleta` | src/models/modelo_ruptura.py:186-199 | every stock row appears in the head-office merge beside every head-office stock its normalised code matches, or beside 0 when none does |
| `Ruptura.ComMatrizAdmitida` | src/models/modelo_ruptura.py:186-199 | every row of the head-office merge is a stock row beside a head-office stock of its code, or beside 0 when its code has none |
| `Ruptura.ComVendasCompleta` | src/models/modelo_ruptura.py:204-228 | every row before the curve merge appears after it beside every curve sale of its key, or beside 0 when the key has none |
| `Ruptura.ComVendasAdmitida` | src/models/modelo_ruptura.py:204-228 | every row after the curve merge is a row from before it beside a curve sale of its key, or 0 when the key has none |
| `Ruptura.ComMediaCompleta` | src/models/modelo_ruptura.py:212-229 | every row before the average merge appears after it beside every average of its key, or beside 0 when the key has none |
| `Ruptura.ComMediaAdmitida` | src/models/modelo_ruptura.py:212-229 | every row after the average merge is a row from before it beside an average of its key, or 0 when the key has none |
| `Ruptura.JuntarCompleta` | src/models/modelo_ruptura.py:184-229 | a merged row is present exactly when it is a stock row beside a head-office stock, a curve sale and an average that the three merges admit for its code and key |
| `Ruptura.JuntarCobre` | src/models/modelo_ruptura.py:184-229 | the three left merges lose no stock row: each one is merged at least once |
| `Ruptura.GerarCompleta` | src/models/modelo_ruptura.py:231-311 | the report holds the classification of every merged row, and every report row classifies some merged row |
| `Ruptura.ProcessarCompleta` | src/models/modelo_ruptura.py:123-311 | a successful report holds the classification of every merged row and nothing else |
| `Ruptura.ProcessarCobre` | src/models/modelo_ruptura.py:123-311 | in a successful report, every stock row has some report row carrying its store and integer code |
| `Relatorios.ListarTodos` | src/relatorios/relatorios_disponiveis.py:363-366 | the two fixed reports come first, then the four conditional ones, each exactly once |
| `Relatorios.GetRelatoriosDisponiveis` | src/relatorios/relatorios_disponiveis.py:334-354 | exactly one report is offered: the stock-out report exactly when a sales curve and a stock sheet are among the types, else the example |
| `Relatorios.DisponiveisPorModelos` | src/relatorios/relatorios_disponiveis.py:343-348 | fed the identified models' names, the stock-out report is offered exactly when Curva ABC and Estoque are both among them |
| `Relatorios.GetRelatorioPorNome` | src/relatorios/relatorios_disponiveis.py:356-361 | the report found has exactly the name asked for, and none is found exactly when no report has it |
| `Relatorios.PorNomeDeVolta` | src/relatorios/relatorios_disponiveis.py:356-366 | every report is found again by its own name |
| `Relatorios.CriarCadeamento` | src/relatorios/relatorios_disponiveis.py:115-117 | the chained key has the three parts and two dashes, and a dash-free code is its text before the first dash |
| `Relatorios.MapaAteSpec` | src/relatorios/relatorios_disponiveis.py:169-177 | a code is in the head-office map exactly when a head-office row carries it, and it holds the stock of the last such row |
| `Relatorios.EstoqueMatriz` | src/relatorios/relatorios_disponiveis.py:203 | the head-office stock of a code is that of its last head-office row, and 0 when there is none |
| `Relatorios.EstoqueLoja` | src/relatorios/relatorios_disponiveis.py:193-200 | the store's stock is that of the first stock row of the product in the store, and 0 when there is none |
| `Relatorios.Classe` | src/relatorios/relatorios_disponiveis.py:205-213 | category and group come from the product's first stock row, and are blank without such a row or column |
| `Relatorios.MediaMensalDe` | src/relatorios/relatorios_disponiveis.py:215-218 | the store's average is used when it is not zero, and otherwise the product's mean across stores |
| `Relatorios.RegistroDe` | src/relatorios/relatorios_disponiveis.py:187-234 | a curve row gives a record exactly when its average lookup succeeds; the record carries the row's code, and its key starts with it |
| `Relatorios.RegistrosDe` | src/relatorios/relatorios_disponiveis.py:186-234 | there is one record per curve row, in order, or the first error a row raised |
| `Relatorios.GerarRuptura` | src/relatorios/relatorios_disponiveis.py:125-234 | no data gives the no-data message and no averages the missing-averages message; missing curve or stock columns give the insufficient-data message or raise; otherwise one record per row |
| `Helpers.Agrupar` | src/utils/helpers.py:27 | thousands grouping adds one separator per three digits, and the last three digits follow the last separator |
| `Helpers.AgruparDeVolta` | src/utils/helpers.py:27 | removing the separators from a grouping gives the digits back |
| `Helpers.AgruparDigitos` | src/utils/helpers.py:27 | a grouping of digits holds only digits and the separator |
| `Helpers.TrocarComoEscritoSpec` | src/utils/helpers.py:27-35 | the three chained replacements swap `,` and `.` character by character on text without `X` |
| `Helpers.TrocarAgrupar` | src/utils/helpers.py:27-35 | swapping a grouping with `,` gives the grouping with `.` |
| `Helpers.TrocarDigitos` | src/utils/helpers.py:27-35 | after the swap, the fixed rendering has its digits grouped with `.` and a decimal comma before the same decimals |
| `Helpers.Fixo` | src/utils/helpers.py:27-35 | a fixed rendering ends in a point and exactly the requested number of decimals |
| `Helpers.LerFixo` | src/utils/helpers.py:27-35 | reading a swapped fixed rendering back gives the value rounded to its decimals: grouping and swap lose nothing |
| `Helpers.ArredondadoPerto` | src/utils/helpers.py:32-33 | the two-decimal value lies within half a hundredth of the original |
| `Helpers.FormatarNumero` | src/utils/helpers.py:26-37 | the three-, two- and one-decimal renderings read back as the value rounded to that many decimals |
| `Helpers.FormatarBr` | src/utils/helpers.py:9-39 | missing or empty gives `''`; a value that is no number comes back as its text; a number gets the rendering its type asks for |
| `Helpers.MoedaEhDecimal2` | src/utils/helpers.py:26-27 | currency is `R$ ` followed by the two-decimal rendering |
| `Helpers.CasasDecimais` | src/utils/helpers.py:30-35 | the three-, two- and one-decimal renderings have exactly that many digits after the decimal comma |
| `Helpers.InteiroSemSeparador` | src/utils/helpers.py:28-29 | `inteiro` writes no separator and reads back as the value truncated toward zero |
| `Helpers.OutroTipoLido` | src/utils/helpers.py:36-37 | any other type writes the plain rendering with a comma, which reads back as the value once the point is restored |
| `ConfigManager.Padroes` | src/utils/config_manager.py:42-50 | the defaults hold the six keys in order, with empty recent-files and favourites lists |
| `ConfigManager.Carregar` | src/utils/config_manager.py:52-59 | without a saved file the defaults stay; with one, the keys are those of the defaults and of the file together, the defaults first |
| `ConfigManager.ObterCarregado` | src/utils/config_manager.py:43-73 | a saved key wins over its default, a default the file does not mention survives, and any other key gives the caller's default |
| `ConfigManager.Obter` | src/utils/config_manager.py:71-73 | the stored value for a present key, the given default otherwise |
| `ConfigManager.Definir` | src/utils/config_manager.py:75-77 | the key reads back the new value and every other key is unchanged |
| `ConfigManager.RemoverPrimeiro` | src/utils/config_manager.py:85-86 | removing drops exactly one occurrence when there is one and nothing otherwise |
| `ConfigManager.RemoverPrimeiroMultiset` | src/utils/config_manager.py:85-86 | the removal takes away one occurrence of the value and no other element |
| `ConfigManager.RemoverPrimeiroPosicao` | src/utils/config_manager.py:85-86 | the occurrence removed is the first one; what is before it stays and what is after it shifts down |
| `ConfigManager.AdicionarRecente` | src/utils/config_manager.py:82-92 | the opened file comes first, and the list keeps between one and ten entries |
| `ConfigManager.RecentesOrdem` | src/utils/config_manager.py:82-92 | the other entries are the old list without the file's first occurrence, in order, cut to nine |
| `ConfigManager.RecenteUnico` | src/utils/config_manager.py:85-89 | a file listed at most once before is listed exactly once after |
| `ConfigManager.AdicionarRecenteIdempotente` | src/utils/config_manager.py:80-92 | opening the same file twice in a row is the same as opening it once |
| `ConfigManager.AdicionarArquivoRecente` | src/utils/config_manager.py:80-92 | it succeeds exactly when the stored setting is a list; then only the recent-files key changes |
| `ConfigManager.PrimeiroRecente` | src/utils/config_manager.py:43-92 | on a fresh start the first opened file is the only recent one |
| `FiltroRelatorio.Colunas` | src/ui/filtro_relatorio.py:32 | the filterable columns are the permitted ones present in the table, in the permitted order |
| `FiltroRelatorio.SucessivosConjuncao` | src/ui/filtro_relatorio.py:218-221 | masks applied one after another keep exactly the rows that pass all of them, so the order of the entries does not matter |
| `FiltroRelatorio.SucessivosSpec` | src/ui/filtro_relatorio.py:218-221 | whatever the test of a cell, the filtered rows are table rows in order, each passing every other column's entry, and every such row is kept |
| `FiltroRelatorio.LinhasSpec` | src/ui/filtro_relatorio.py:218-221 | with the corrected test, the filtered rows are table rows in order, each passing every other column's entry, and every such row is kept |
| `FiltroRelatorio.LinhasComoEscritoSpec` | src/ui/filtro_relatorio.py:218-221 | with `isin` as written, the filtered rows are table rows in order, each passing every other column's entry, and every such row is kept |
| `FiltroRelatorio.Valores` | src/ui/filtro_relatorio.py:286-297 | the options are the distinct texts of the column's present cells among the rows the other entries let through; a missing column offers none |
| `FiltroRelatorio.Marcados` | src/ui/filtro_relatorio.py:283-298 | an option starts ticked exactly when it is already chosen for the column |
| `FiltroRelatorio.Confirmar` | src/ui/filtro_relatorio.py:358-376 | the ticked options become the column's entry, and ticking nothing removes it; every other entry is unchanged |
| `FiltroRelatorio.ConfirmarReabrir` | src/ui/filtro_relatorio.py:283-373 | reopening a column after confirming it ticks exactly what was ticked |
| `FiltroRelatorio.LimparColuna` | src/ui/filtro_relatorio.py:378-383 | only the column's own entry goes |
| `FiltroRelatorio.LimparTodos` | src/ui/filtro_relatorio.py:390-392 | no entry is left |
| `FiltroRelatorio.LimparTodosLinhas` | src/ui/filtro_relatorio.py:390-393 | with no entries nothing is filtered out |
| `FiltroRelatorio.CoerenteMantida` | src/ui/filtro_relatorio.py:358-392 | every operation keeps each entry on a column of the table with at least one value |
| `FiltroRelatorio.AplicarCom` | src/ui/telas/tela_criar_relatorio.py:675-696 | whatever the test of a cell, the callback yields the table's rows under every entry, and nothing exactly when no row passes them all |
| `FiltroRelatorio.AplicarFiltros` | src/ui/telas/tela_criar_relatorio.py:675-696 | with the corrected test, the callback yields the table's rows under every entry, and nothing exactly when no row passes them all |
| `FiltroRelatorio.AplicarFiltrosComoEscrito` | src/ui/telas/tela_criar_relatorio.py:675-696 | with `isin` as written, the callback yields the table's rows under every entry, and nothing exactly when no row passes them all |
| `FiltroRelatorio.IsinNumericoComoEscrito` | src/ui/filtro_relatorio.py:218-221 | as written, a numeric column's offered option `10` keeps no row once ticked, while the text test keeps the row |
| `FiltroRelatorio.OpcaoMantemLinhas` | src/ui/filtro_relatorio.py:218-297 | every offered option, ticked alone, keeps at least one row, and every row it keeps shows that option |
| `FiltroLojas.MacrosDisjuntos` | src/utils/config.py:50-58 | no store belongs to both macros |
| `FiltroLojas.Ordenar` | src/ui/filtro.py:23 | the stores are sorted, and are the same stores with the same multiplicity |
| `FiltroLojas.OrdenadaUnica` | src/ui/filtro.py:23 | a sorted list is the only sorted arrangement of its stores |
| `FiltroLojas.Abrir` | src/ui/filtro.py:23-31 | the window opens with every store ticked and no macro active |
| `FiltroLojas.Alternar` | src/ui/filtro.py:197-234 | the button's flag flips, exactly the stores it covers take the new flag, and nothing else changes |
| `FiltroLojas.SelecionarTodos` | src/ui/filtro.py:242-250 | every store is ticked and the three flags are reset |
| `FiltroLojas.LimparSelecao` | src/ui/filtro.py:256-264 | no store is ticked and the three flags are reset |
| `FiltroLojas.Aplicar` | src/ui/filtro.py:270-276 | the stores handed back are exactly the ticked ones, in sorted order |
| `FiltroLojas.AbrirAplicar` | src/ui/filtro.py:23-276 | opening the window and pressing OK hands back every store, sorted |
| `FiltroLojas.SoEmporio` | src/ui/filtro.py:197-276 | from a cleared window, the EMPÓRIO button alone selects exactly the listed EMPÓRIO stores |
| `FiltroLojas.TresMacrosTodas` | src/ui/filtro.py:197-276 | from a cleared window, the three macro buttons together select every store |
| `FiltroLojas.AlternarDuasVezes` | src/ui/filtro.py:197-234 | pressing a button twice restores its flag and ticks its stores exactly when the flag was on |
| `Screen.Classificar` | src/utils/screen_config.py:29-35 | `pequena` exactly up to width 1366, `media` exactly above 1366 up to 1920, `grande` exactly above 1920 |
| `Screen.ClassificarMonotono` | src/utils/screen_config.py:29-35 | a wider screen is never put in a smaller class |
| `Screen.Limitar` | src/utils/screen_config.py:43-44 | the clamped value lies within the bounds, and a value already within them is kept |
| `Screen.TamanhoJanela` | src/utils/screen_config.py:37-46 | the width lies within 1000 and 1600, the height within 600 and 900, and a truncated share already within them is kept |
| `Screen.TamanhoJanelaMonotono` | src/utils/screen_config.py:37-46 | with the default share, a larger screen never gets a smaller window |
| `Screen.TamanhoJanelaExemplos` | src/utils/screen_config.py:37-46 | a 1920x1080 screen gets 1536x864, and a 1024x600 one is raised to 1000x600 |
| `Screen.FonteTamanho` | src/utils/screen_config.py:48-55 | the font is the base plus the screen class's rank: 0, 1 or 2 points |
| `Screen.FonteMonotona` | src/utils/screen_config.py:48-55 | the font grows with the screen's width, by at most two points |
| `Screen.Informacoes` | src/utils/screen_config.py:57-64 | the record keeps the sides and the ratio text, and its type is the name of the screen's class: `pequena`, `media` or `grande` exactly for the small, medium and large class |
| `Screen.InformacoesDaLargura` | src/utils/screen_config.py:29-64 | for a freshly measured screen the reported type is `pequena` exactly up to width 1366, `media` exactly above it up to 1920, `grande` exactly above 1920 |
| `Screen.Proporcao` | src/utils/screen_config.py:63 | the ratio text is the width's text, an `x`, and the height's text |
| `Screen.ProporcaoDeVolta` | src/utils/screen_config.py:63 | split at its `x`, the ratio text reads back as the two sides |
| `Numbers.ParseRepr` | src/utils/helpers.py:37 | the text `str()` writes for a number reads back as that number |
| `Cells.CoerceIntCases` | src/models/modelo_estoque.py:214 | an integer cell or its text coerces to that integer, and a cell that is no number coerces to 0 |
| `Joins.LeftJoinUnique` | src/models/modelo_ruptura.py:204-209 | with unique right-hand keys a left join has exactly the left rows, in order, each with the right row of its key when there is one |
| `Joins.LeftJoinCompleta` | src/models/modelo_ruptura.py:204-209 | whatever the keys, every left row appears in a left join, beside every right row of its key, and beside nothing only when no right row has its key |
| `Joins.LeftJoinRecebe` | src/models/modelo_ruptura.py:204-209 | every value the right side admits for a left row's key (a match's value, or the default when none matches) appears beside that row |
| `Joins.LeftJoinAdmitido` | src/models/modelo_ruptura.py:204-209 | every row of a left join is a left row beside a value the right side admits for its key |
| `Dicts.FromPairsLast` | src/config/compradores.py:8-139 | in a dictionary literal, the last pair of a key gives its value |
| `Dicts.CounterTotal` | src/config/compradores.py:162-166 | the counts of a `Counter` add up to the number of values counted |

## Left out

- Curve ABC record building in `RelatorioRuptura.gerar`: the sort by category, group and product, the statistics and the text layout of the preview are presentation and are not modelled. The records are modelled in the order of the curve rows.
- `get_resumo`, `get_preview` and every text report layout (padding, truncation, pandas `to_string`): presentation only.
- The `Ult.Ent.` date parsing and formatting in the goods-received sheet: it calls a foreign date library. That column stays as its text.
- Floats: exponent notation, underscores between digits (`float('1_000')`), infinities and NaN arithmetic are not modelled. Numbers are exact decimals, so binary rounding in `f"{x:,.2f}"` is not reproduced.
- Helpers.ArredondadoPerto: stated for two decimals only. The one- and three-decimal renderings are covered by `Helpers.FormatarNumero` reading back as the rounded value.
- Text is Latin-1. Python's full Unicode `lower`, `upper`, `isdigit` and `isspace` are not modelled beyond it, and within it `upper` maps `ß` to itself where Python gives `SS`.
- Cells.CoerceInt: codes are taken as unbounded integers. The source's `pd.to_numeric(..., errors='coerce').fillna(0).astype(int)` (src/models/modelo_estoque.py:214, src/models/modelo_entradas.py:136,147,150) goes through a 64-bit float, which rounds integers above 2^53, and then a 64-bit integer, which cannot hold 2^63 or more; that round trip is not reproduced.
- CurvaAbc.Fill: a store label the header repeats is modelled as every column of that label receiving the store; pandas assignment to a repeated label is taken to behave so.
- Duplicate column labels: lookups take the first column with a label. Where pandas would return several columns, the model names that case as an error or, in the stock sheet's conversion, as the empty table the caught exception gives (`Estoque.LabelRepetido`).
- Estoque.Standardize: a repeated `Estoque_Loja` or `Estoque_Geral` is modelled as raising even on a sheet with no data rows, where pandas' `apply` on an empty selection may not reach the failing assignment.
- Merge collisions: a merge whose right side repeats a label already on the left is modelled as a raise (`Ruptura.Colide`). pandas would suffix the label, and the next read of it would raise.
- Groupby order: pandas sorts the grouped keys, while the model keeps them in order of first appearance. The report keeps the stock's order, so this is not visible.
- The reload of the average-sales table and the reading of the preferences file are inputs, given as parameters.
- The singletons (`MediaVendas`, `ConfigManager`, `ScreenManager`) are modelled as values passed in and returned.
- `ConfigManager.salvar` and the JSON file I/O are not modelled. JSON objects and floats are not among the modelled values.
- The saved preferences are taken as a dictionary. `dict.update` also accepts a JSON list of key-value pairs such as `[["tema", "claro"]]`. Any other top level makes it raise, and so does a list that breaks off midway, which leaves its earlier pairs applied; the error is caught and printed (src/utils/config_manager.py:56-59). Neither case is modelled.
- The Tk and CustomTkinter widgets, colours, tooltips and labels of the filter windows, and the popups, are not modelled. Only the state they change is.
- The sorting of the options in the report filter window is not modelled. The options are modelled in order of first appearance, and the sort changes only their order.
- The report filter's ticked texts are the keys of a dictionary, so two values with the same text give one checkbox. The model reaches this by de-duplicating the texts (`Seqs.Dedup`).
- The screen size comes from Tk and is a parameter.
- Relatorios.GerarRuptura: three raises of the source are not modelled, and the model returns the records. The sort by category, group and product (src/relatorios/relatorios_disponiveis.py:241) raises `TypeError` on a column mixing text and numbers. The count of rows below the average (line 246) raises `TypeError` when an average is text. The preview formatting `f"{x:,.2f}"` (line 263) raises `ValueError` on text.
- Ruptura.Processar: it groups the averages the corrected way (`Ruptura.Agregar`). As written (`Ruptura.ProcessarComoEscrito`) an average table with rows but no `Loja` column raises; `Ruptura.ProcessarComoEscritoDifere` states that this is the only difference.
- FiltroRelatorio.LinhasSpec: it is stated for the corrected test, where a ticked text matches a cell whose text it is. The filter as written uses `isin`, and `FiltroRelatorio.LinhasComoEscritoSpec` states the same for it.
- FiltroRelatorio.AplicarFiltros: it is stated for the corrected test. The callback as written is `FiltroRelatorio.AplicarFiltrosComoEscrito`.
- Threading in the progress bar, the updater, path resolution and logging are not part of this model.

## Findings

| source | as written | input that shows it | evidently intended | confidence | as-written member | corrected member |
|---|---|---|---|---|---|---|
| src/models/modelo_ruptura.py:172-177 | the grouping of the average-sales table asks for `'Loja': 'first' if 'Loja' in df_media.columns else None`; with no `Loja` column the aggregation names a missing column and raises | an average-sales table with columns `Código` and `Qtd` only, one row `7, 3` | the lines before it (159-163) build the key without a store, so the grouping should go ahead and give key `7-` the mean 3 | not executed | `Ruptura.AgregarSemLoja`, `Ruptura.ProcessarComoEscritoDifere` | `Ruptura.Agregar`, `Ruptura.Processar` |
| src/ui/filtro_relatorio.py:218-221 | options are offered as the texts `str(valor)` of the cells, and filtering uses `isin` with those texts, which never equals a number; the callback in src/ui/telas/tela_criar_relatorio.py:678-680 does the same | a `LOJA` column holding the number 10: the option `10` is offered, and ticking it keeps no row | an offered option, ticked, keeps the rows showing it | not executed | `FiltroRelatorio.IsinNumericoComoEscrito`, `FiltroRelatorio.AplicarFiltrosComoEscrito` | `FiltroRelatorio.OpcaoMantemLinhas`, `FiltroRelatorio.AplicarFiltros` |

=== FILE: cells.dfy ===
/** Spreadsheet cells and tables as pandas holds them after `read_excel`:
    a cell is missing (NaN), a string, an integer or a decimal number, and a
    table is a row of column labels over rows of cells. */
module Cells {
  import opened Wrappers
  import opened Text
  import opened Numbers

  /** One cell of a sheet. `Empty` is pandas' missing value (NaN / None). */
  datatype Cell = Empty | Str(s: string) | Int(i: int) | Num(d: Dec)

  type Row = seq<Cell>

  /** A table: its column labels and its rows. Reading past the end of a row
      gives `Empty`, as a ragged sheet is padded with NaN. */
  datatype Frame = Frame(cols: seq<Cell>, rows: seq<Row>)

  /** `pd.DataFrame()`: no columns, no rows. */
  const EmptyFrame := Frame([], [])

  function Width(f: Frame): nat
  {
    |f.cols|
  }

  /** `row[j]`, missing past the end. */
  function At(row: Row, j: int): Cell
  {
    if 0 <= j < |row| then row[j] else Empty
  }

  /** The first `w` cells of a row as the table sees them. */
  function Padded(row: Row, w: nat): (r: Row)
    ensures |r| == w
    ensures forall j :: 0 <= j < w ==> r[j] == At(row, j)
  {
    seq(w, j requires 0 <= j < w => At(row, j))
  }

  /** Python's `str()` of a cell. */
  function CellText(c: Cell): string
  {
    match c
    case Empty => "nan"
    case Str(s) => s
    case Int(i) => IntText(i)
    case Num(d) => Repr(d)
  }

  /** `str(x).strip()` of a cell known not to be missing, `""` for a missing one. */
  function TrimText(c: Cell): string
  {
    if c.Empty? then "" else Strip(CellText(c))
  }

  /** The number a numeric cell holds. */
  function CellNumber(c: Cell): Option<Dec>
  {
    match c
    case Int(i) => Some(Dec(i, 0))
    case Num(d) => Some(d)
    case _ => None
  }

  /** `pd.to_numeric(x, errors='coerce')` of one cell: `None` is NaN. */
  function ToNumber(c: Cell): (r: Option<Dec>)
    ensures c.Empty? ==> r.None?
    ensures c.Int? || c.Num? ==> r == CellNumber(c)
  {
    match c
    case Empty => None
    case Str(s) => ParseNumber(s)
    case Int(i) => Some(Dec(i, 0))
    case Num(d) => Some(d)
  }

  /** `pd.to_numeric(col, errors='coerce').fillna(0).astype(int)` of one cell:
      a number truncated toward zero, 0 when the cell does not convert. */
  function CoerceInt(c: Cell): int
  {
    match ToNumber(c)
    case None => 0
    case Some(d) => Trunc(Val(d))
  }

  /** Any number written out by `str()` converts back to itself. */
  lemma {:induction false} ToNumberOfText(c: Cell)
    requires c.Int? || c.Num?
    ensures ToNumber(Str(CellText(c))).Some?
    ensures Val(ToNumber(Str(CellText(c))).value) == Val(CellNumber(c).value)
  {
    if c.Int? {
      ParseIntText(c.i);
    } else {
      ParseRepr(c.d);
    }
  }

  /** An integer cell, or its text, coerces to the integer itself, and a
      cell that is not a number coerces to 0. */
  lemma {:induction false} CoerceIntCases(c: Cell)
    ensures c.Int? ==> CoerceInt(c) == c.i && CoerceInt(Str(IntText(c.i))) == c.i
    ensures c.Empty? ==> CoerceInt(c) == 0
    ensures c.Str? && ParseNumber(c.s).None? ==> CoerceInt(c) == 0
  {
    if c.Int? {
      ParseIntText(c.i);
      ValWhole(c.i);
      TruncWhole(c.i);
    }
  }

  /** The cell holds the number the parser produced, or is missing when it
      produced none. */
  predicate SameNumber(c: Cell, o: Option<Dec>)
  {
    (c.Empty? <==> o.None?)
    && (o.Some? ==> CellNumber(c).Some? && Val(CellNumber(c).value) == Val(o.value))
  }

  lemma WholeCell(d: Dec)
    requires d.e == 0
    ensures SameNumber(Int(d.m), Some(d))
  {
    assert CellNumber(Int(d.m)).value == d;
  }

  /** One converted entry of a column: an integer when the whole column is
      integral, a decimal or NaN otherwise. */
  function NumericCell(s: string, asInt: bool): (r: Cell)
    requires asInt ==> IsIntLiteral(s)
    ensures SameNumber(r, ParseNumber(s))
    ensures r.Int? <==> asInt
  {
    if asInt then
      var o := ParseNumber(s);
      IntLiteralScale(s);
      WholeCell(o.value);
      Int(o.value.m)
    else match ParseNumber(s)
      case None => Empty
      case Some(d) => Num(d)
  }

  predicate AllIntLiterals(ss: seq<string>)
  {
    forall k :: 0 <= k < |ss| ==> IsIntLiteral(ss[k])
  }

  /** `pd.to_numeric` of a column of strings with `errors='coerce'`: every
      entry keeps the parsed number (NaN for a failure), and the column is of
      integers exactly when every entry is an integer literal. */
  function ToNumericTexts(ss: seq<string>): (r: seq<Cell>)
    ensures |r| == |ss|
    ensures forall k :: 0 <= k < |ss| ==> SameNumber(r[k], ParseNumber(ss[k]))
    ensures |ss| > 0 ==> (AllIntLiterals(ss) <==> forall k :: 0 <= k < |r| ==> r[k].Int?)
  {
    var asInt := AllIntLiterals(ss);
    var r := seq(|ss|, k requires 0 <= k < |ss| => NumericCell(ss[k], asInt));
    assert forall k :: 0 <= k < |ss| ==> r[k] == NumericCell(ss[k], asInt);
    assert forall k :: 0 <= k < |ss| ==> (r[k].Int? <==> asInt);
    r
  }

  /** The position of the first column labelled `name`. */
  function ColIndex(cols: seq<Cell>, name: string): (r: Option<nat>)
    ensures r.Some? ==> r.value < |cols| && cols[r.value] == Str(name)
    ensures r.Some? ==> forall j :: 0 <= j < r.value ==> cols[j] != Str(name)
    ensures r.None? ==> Str(name) !in cols
  {
    if cols == [] then None
    else if cols[0] == Str(name) then Some(0)
    else match ColIndex(cols[1..], name)
      case None => None
      case Some(j) => Some(j + 1)
  }

  predicate HasCol(f: Frame, name: string)
  {
    Str(name) in f.cols
  }

  /** `df[name]` when the label is present: the cells of its first column. */
  function Column(f: Frame, name: string): (r: Option<seq<Cell>>)
    ensures r.Some? <==> HasCol(f, name)
    ensures r.Some? ==> |r.value| == |f.rows|
  {
    match ColIndex(f.cols, name)
    case None => None
    case Some(j) => Some(seq(|f.rows|, i requires 0 <= i < |f.rows| => At(f.rows[i], j)))
  }

  /** The cell of a row under the first column labelled `name`, missing when
      there is no such column. */
  function Get(f: Frame, row: Row, name: string): Cell
  {
    match ColIndex(f.cols, name)
    case None => Empty
    case Some(j) => At(row, j)
  }

  /** Each label written out by `str()`. */
  function LabelTexts(cols: seq<Cell>): (r: seq<string>)
    ensures |r| == |cols|
  {
    seq(|cols|, j requires 0 <= j < |cols| => CellText(cols[j]))
  }

  /** How many columns carry exactly this label. */
  function CountLabel(cols: seq<Cell>, name: string): (r: nat)
    ensures r == 0 <==> Str(name) !in cols
  {
    if cols == [] then 0 else (if cols[0] == Str(name) then 1 else 0) + CountLabel(cols[1..], name)
  }

  /** Counting a label over two runs of labels adds the counts. */
  lemma {:induction false} CountLabelAppend(a: seq<Cell>, b: seq<Cell>, name: string)
    ensures CountLabel(a + b, name) == CountLabel(a, name) + CountLabel(b, name)
  {
    if a == [] {
      assert a + b == b;
    } else {
      assert (a + b)[0] == a[0] && (a + b)[1..] == a[1..] + b;
      CountLabelAppend(a[1..], b, name);
    }
  }

  /** Some of the first `n` cells of column 0, written out and lower-cased,
      holds `sub`: `any(sub in str(x).lower() for x in df.iloc[:n, 0])`. */
  function LeadCellsHold(rows: seq<Row>, n: nat, sub: string): (r: bool)
    ensures r <==> exists i :: 0 <= i < |rows| && i < n && Contains(Lower(CellText(At(rows[i], 0))), sub)
    decreases |rows|
  {
    if rows == [] || n == 0 then false
    else if Contains(Lower(CellText(At(rows[0], 0))), sub) then true
    else
      var r := LeadCellsHold(rows[1..], n - 1, sub);
      assert forall i :: 1 <= i < |rows| ==> rows[i] == rows[1..][i - 1];
      r
  }
}

=== FILE: compradores.dfy ===
/** The product-group to buyer table, and the lookups every report uses to
    say who buys a group. */
module Compradores {
  import opened Seqs
  import opened Dicts

  /** The buyers the table names. */
  datatype Buyer = Anderson | Erilana | AndreiaSilva | Euclides | Glacirene | Joao | Joseane | Marcelo | Renato

  function BuyerName(b: Buyer): string
  {
    match b
    case Anderson => "Anderson"
    case Erilana => "Erilana"
    case AndreiaSilva => "Andreia Silva"
    case Euclides => "Euclides"
    case Glacirene => "Glacirene"
    case Joao => "Joao"
    case Joseane => "Joseane"
    case Marcelo => "Marcelo"
    case Renato => "Renato"
  }

  /** What a group without a buyer gets. */
  const NaoMapeado: string := "N\U{C3}O MAPEADO"

  /** The entries of the table, in the order they are written. */
  const Entries: seq<(string, Buyer)> := [
      ("QUEIJOS ESPECIAIS", Anderson),
      ("EMBUTIDOS/DEFUMADOS", Anderson),
      ("PRESUNTARIA/MORTADELA", Anderson),
      ("QUEIJOS COMODITIES", Anderson),
      ("MARGARINAS/MANTEIGAS", Anderson),
      ("REQUEIJAO/QUEIJOS CREMOSOS", Anderson),
      ("IOGURTES", Anderson),
      ("ANTEPASTOS/SOBREMESAS/APER", Anderson),
      ("MASSAS REFRIGERADAS", Anderson),
      ("BEBIDAS LACTEAS", Anderson),
      ("ARTIGOS CHURRASCO", Erilana),
      ("BAZAR", Erilana),
      ("BOMBONIERE", Erilana),
      ("MERCEARIA DOCE", Erilana),
      ("MATINAIS", Erilana),
      ("PLANTAS", Erilana),
      ("BEBIDAS NAO ALCOOLICAS", AndreiaSilva),
      ("BEBIDAS ALCOOLICAS", AndreiaSilva),
      ("SUPLEMENTOS NUTRICIONAIS", AndreiaSilva),
      ("MAT.P/CONVENIENCIA/PADARIA", Euclides),
      ("MAT.P/COPA E COZINHA", Euclides),
      ("INSUMOS", Euclides),
      ("MAT.SEG.PROT.UNIFORM", Euclides),
      ("MEDICAMENTOS", Euclides),
      ("PECAS P/VEICULOS", Euclides),
      ("MAT.MANUT.MECANICA", Euclides),
      ("SERV.MANUT.VEICULOS", Euclides),
      ("COMBUSTIVEIS", Euclides),
      ("MAT.DE ESCRITORIO", Euclides),
      ("UTENSILIOS E ACESSOR", Euclides),
      ("EQPTOS.USADOS C/COND - GP 2", Euclides),
      ("MAT. DE REFRIGERACAO", Euclides),
      ("MAT.DE LIMPEZA", Euclides),
      ("MAT.DE EMBALAGENS", Euclides),
      ("MAT.DIVERSOS", Euclides),
      ("FERRAM. E ACESSORIOS", Euclides),
      ("MAT.DE IMOBILIZADO", Euclides),
      ("MAT.MANUT.ELETRICA", Euclides),
      ("MAO-DE-OBRA REFORMAS/MANUTENC", Euclides),
      ("OUTROS INVESTIMENTOS", Euclides),
      ("AQUIS. EQUIP. P/REESTUTURACAO", Euclides),
      ("CESTA BASICA - FUNCIONARIOS", Euclides),
      ("MATS/EQUIP.COHATRAC3", Euclides),
      ("OBRAS CIVIS", Euclides),
      ("OLEOS E LUBRIFICANTES", Euclides),
      ("OUTRAS DESP.C/PESSOAL", Euclides),
      ("PROPAGANDAS/PUBLIC.", Euclides),
      ("EVENTOS E COMEMORACOES", Euclides),
      ("MAT. E EMBALAGENS E-COMMERCE", Euclides),
      ("MAT. PARA LAVAGEM VEICULOS", Euclides),
      ("DOAC\U{D5}ES E BRINDES", Euclides),
      ("MATS/EQUIP. COHAMA", Euclides),
      ("DIANTEIRA C/ OSSO", Glacirene),
      ("DIANTEIRA S/ OSSO", Glacirene),
      ("TRASEIRA S/ OSSO", Glacirene),
      ("AVES", Glacirene),
      ("TRASEIRA C/ OSSO", Glacirene),
      ("INDUSTRIALIZADOS", Glacirene),
      ("MIUDOS", Glacirene),
      ("SUINOS", Glacirene),
      ("PONTA DA AGULHA", Glacirene),
      ("OVINOS", Glacirene),
      ("OSSO E SEBO", Glacirene),
      ("PEIXES / MARISCOS", Glacirene),
      ("ANIMAIS", Glacirene),
      ("FRUTAS", Joao),
      ("LEGUMES", Joao),
      ("VERDURAS", Joao),
      ("OVOS", Joao),
      ("CONGELADOS", Joseane),
      ("TEMPEROS/CONDIMENTOS", Joseane),
      ("APERITIVOS/SALGADINHOS", Joseane),
      ("AZEITES/OLEOS", Joseane),
      ("FARINACEOS/FERMENTOS", Joseane),
      ("CONSERVAS", Joseane),
      ("MASSAS", Joseane),
      ("MOLHOS/ATOMATADOS", Joseane),
      ("SOPAS", Joseane),
      ("GRAOS", Joseane),
      ("LIMPEZA", Marcelo),
      ("HIGIENE E PERFUMARIA", Marcelo),
      ("DESCARTAVEIS", Marcelo),
      ("FRUTAS SECAS", Renato),
      ("ROTISSERIA", Renato),
      ("CONFEITARIA DOCE", Renato),
      ("GERAL", Renato),
      ("CONFEITARIA SALGADA", Renato),
      ("BACALHAU", Renato),
      ("MATERIA-PRIMA", Renato),
      ("PADARIA", Renato),
      ("ENCOMENDAS", Renato),
      ("DOCURAS", Renato),
      ("SOBREMESAS / CREMES", Renato),
      ("ACAIS", Renato),
      ("CAFETERIA", Renato),
      ("SANDUICHES TRADICIONAIS", Renato),
      ("ALMOCO", Renato),
      ("ADICIONAIS", Renato),
      ("BEBIDAS", Renato),
      ("LANCHES DA CASA", Renato),
      ("HAMBUGUERES", Renato),
      ("SALGADOS", Renato),
      ("BEIRUTES", Renato),
      ("PADARIA INDUSTRIALIZADO", Renato),
      ("CAFE DA MANHA", Renato),
      ("APERITIVOS WB", Renato),
      ("CREPIOCAS", Renato),
      ("OMELETES", Renato),
      ("PIZZAS", Renato),
      ("SALADAS E PRATOS", Renato),
      ("SALADAS DE FRUTA", Renato),
      ("SUCOS NATURAIS", Renato),
      ("TAPIOCAS", Renato)
    ]

  /** `GRUPO_COMPRADOR`. */
  function GrupoComprador(): (r: Dict<Buyer>)
    ensures Valid(r)
  {
    FromPairs(Entries)
  }

  /** No buyer is called by the sentinel. */
  lemma {:induction false} BuyerNotSentinel(b: Buyer)
    ensures BuyerName(b) != NaoMapeado
  {
  }

  /** `get_comprador(grupo)` over a table: the buyer of the group, or the
      sentinel for a group the table does not hold. */
  function CompradorIn(t: Dict<Buyer>, grupo: string): (r: string)
    ensures r != NaoMapeado <==> grupo in t.vals
    ensures grupo in t.vals ==> r == BuyerName(t.vals[grupo])
  {
    if grupo in t.vals then
      BuyerNotSentinel(t.vals[grupo]);
      BuyerName(t.vals[grupo])
    else NaoMapeado
  }

  function GetComprador(grupo: string): (r: string)
    ensures r != NaoMapeado <==> grupo in GrupoComprador().vals
  {
    CompradorIn(GrupoComprador(), grupo)
  }

  /** The group's buyer is `comprador`. */
  function BoughtBy(t: Dict<Buyer>, comprador: string): string -> bool
  {
    g => CompradorIn(t, g) == comprador
  }

  /** `get_grupos_por_comprador(comprador)` over a table. */
  function GruposIn(t: Dict<Buyer>, comprador: string): (r: seq<string>)
    requires Valid(t)
    ensures IsSubseq(r, t.keys) && Distinct(r)
    ensures forall g :: g in r <==> g in t.vals && CompradorIn(t, g) == comprador
  {
    var r := Filter(t.keys, BoughtBy(t, comprador));
    FilterIsSubseq(t.keys, BoughtBy(t, comprador));
    SubseqDistinct(r, t.keys);
    FilterMembers(t.keys, BoughtBy(t, comprador));
    FilterPasses(t.keys, BoughtBy(t, comprador));
    FilterHolds(t.keys, BoughtBy(t, comprador));
    r
  }

  /** Every group whose buyer is `comprador` is listed. */
  lemma {:induction false} FilterHolds(keys: seq<string>, p: string -> bool)
    ensures forall g :: g in keys && p(g) ==> g in Filter(keys, p)
  {
    forall g | g in keys && p(g)
      ensures g in Filter(keys, p)
    {
      var i :| 0 <= i < |keys| && keys[i] == g;
      FilterContains(keys, p, i);
    }
  }

  function GetGruposPorComprador(comprador: string): (r: seq<string>)
    ensures IsSubseq(r, GrupoComprador().keys)
    ensures forall g :: g in r <==> g in GrupoComprador().vals && GetComprador(g) == comprador
    ensures (forall b :: BuyerName(b) != comprador) ==> r == []
  {
    var r := GruposIn(GrupoComprador(), comprador);
    assert r != [] ==> r[0] in r && GetComprador(r[0]) == BuyerName(GrupoComprador().vals[r[0]]);
    r
  }

  /** The buyer of every key, in table order: `GRUPO_COMPRADOR.values()`. */
  function Buyers(t: Dict<Buyer>): (r: seq<string>)
    requires Valid(t)
    ensures |r| == |t.keys|
  {
    seq(|t.keys|, i requires 0 <= i < |t.keys| => BuyerName(t.vals[t.keys[i]]))
  }

  /** `get_estatisticas_mapeamento()`. */
  datatype Estatisticas = Estatisticas(totalGrupos: nat, totalCompradores: nat, gruposPorComprador: Dict<nat>)

  function EstatisticasIn(t: Dict<Buyer>): (r: Estatisticas)
    requires Valid(t)
    ensures r.totalGrupos == |t.vals|
    ensures r.totalCompradores == |r.gruposPorComprador.keys|
    ensures forall c :: c in r.gruposPorComprador.vals <==> c in Buyers(t)
  {
    KeysCount(t);
    var c := Counter(Buyers(t));
    Estatisticas(|t.keys|, |c.keys|, c)
  }

  function GetEstatisticasMapeamento(): (r: Estatisticas)
    ensures r.totalGrupos == |GrupoComprador().vals|
  {
    EstatisticasIn(GrupoComprador())
  }

  /** The per-buyer counts add up to the number of groups, and each one is
      the number of groups `get_grupos_por_comprador` lists for that buyer. */
  lemma {:induction false} EstatisticasConsistent(t: Dict<Buyer>)
    requires Valid(t)
    ensures SumValues(EstatisticasIn(t).gruposPorComprador.keys, EstatisticasIn(t).gruposPorComprador.vals)
              == EstatisticasIn(t).totalGrupos
    ensures forall c :: c in EstatisticasIn(t).gruposPorComprador.vals ==>
              EstatisticasIn(t).gruposPorComprador.vals[c] == |GruposIn(t, c)|
  {
    var s := EstatisticasIn(t);
    var vs := Buyers(t);
    CounterTotal(vs);
    KeysCount(t);
    forall c | c in s.gruposPorComprador.vals
      ensures s.gruposPorComprador.vals[c] == |GruposIn(t, c)|
    {
      BuyersCount(t, c);
    }
  }

  /** Counting a buyer among the values is counting the groups it buys. */
  lemma {:induction false} BuyersCount(t: Dict<Buyer>, c: string)
    requires Valid(t)
    ensures Count(Buyers(t), Is(c)) == |GruposIn(t, c)|
  {
    var vs := Buyers(t);
    assert vs == Map(t.keys, NameIn(t));
    CountMap(t.keys, NameIn(t), Is(c), BoughtBy(t, c));
    FilterCount(t.keys, BoughtBy(t, c));
  }

  /** The buyer's name of a key, for keys of the table. */
  function NameIn(t: Dict<Buyer>): string -> string
  {
    g => if g in t.vals then BuyerName(t.vals[g]) else NaoMapeado
  }
}

=== FILE: config_manager.dfy ===
/** The user's preferences (`ConfigManager`): fixed defaults overlaid with
    the saved JSON object, key lookup with a default, and the list of the
    ten most recently opened files. Reading and writing the JSON file are
    inputs and outputs of the program and stay outside the model: the saved
    object arrives as a parameter. */
module ConfigManager {
  import opened Wrappers
  import opened Seqs
  import opened Dicts

  /** A JSON value as `json.load` returns it (objects and floats aside). */
  datatype Valor =
    | Texto(s: string)
    | Inteiro(n: int)
    | Booleano(b: bool)
    | Lista(itens: seq<Valor>)
    | Nulo

  type Config = Dict<Valor>

  const Tema := "tema"
  const CorDestaque := "cor_destaque"
  const TamanhoFonte := "tamanho_fonte"
  const ModoCompacto := "modo_compacto"
  const UltimosArquivos := "ultimos_arquivos"
  const Favoritos := "favoritos"

  /** How many recent files are kept. */
  const MaxRecentes := 10

  /** The settings every run starts from, in their order. */
  function Padroes(): (r: Config)
    ensures Valid(r)
    ensures r.keys == [Tema, CorDestaque, TamanhoFonte, ModoCompacto, UltimosArquivos, Favoritos]
    ensures r.vals[UltimosArquivos] == Lista([]) && r.vals[Favoritos] == Lista([])
    ensures r.vals[Tema] == Texto("escuro") && r.vals[TamanhoFonte] == Inteiro(12)
  {
    var ks := [Tema, CorDestaque, TamanhoFonte, ModoCompacto, UltimosArquivos, Favoritos];
    assert Distinct(ks) by {
      assert |Tema| == 4 && |CorDestaque| == 12 && |TamanhoFonte| == 13;
      assert |ModoCompacto| == 13 && |UltimosArquivos| == 16 && |Favoritos| == 9;
      assert TamanhoFonte[0] != ModoCompacto[0];
    }
    Dict(ks, map[Tema := Texto("escuro"), CorDestaque := Texto("#8b0000"),
                 TamanhoFonte := Inteiro(12), ModoCompacto := Booleano(false),
                 UltimosArquivos := Lista([]), Favoritos := Lista([])])
  }

  /** The configuration after start-up. `salvo` is the object read from the
      file, or `None` when there is no file or reading it failed, in which
      case the defaults stay as they are. */
  function Carregar(salvo: Option<Config>): (r: Config)
    requires salvo.Some? ==> Valid(salvo.value)
    ensures Valid(r)
    ensures Padroes().keys <= r.keys
    ensures salvo.None? ==> r == Padroes()
    ensures salvo.Some? ==> forall k :: k in r.vals <==> k in Padroes().vals || k in salvo.value.vals
  {
    match salvo
    case None => Padroes()
    case Some(s) => Update(Padroes(), s)
  }

  /** `config.get(chave, default)`. */
  function Obter(cfg: Config, chave: string, default: Valor): (r: Valor)
    ensures chave in cfg.vals ==> r == cfg.vals[chave]
    ensures chave !in cfg.vals ==> r == default
  {
    Get(cfg, chave, default)
  }

  /** A saved setting wins over its default; a default the file does not
      mention survives; any other key reads as the caller's default. */
  lemma ObterCarregado(salvo: Config, chave: string, default: Valor)
    requires Valid(salvo)
    ensures chave in salvo.vals ==> Obter(Carregar(Some(salvo)), chave, default) == salvo.vals[chave]
    ensures chave !in salvo.vals && chave in Padroes().vals ==>
              Obter(Carregar(Some(salvo)), chave, default) == Padroes().vals[chave]
    ensures chave !in salvo.vals && chave !in Padroes().vals ==>
              Obter(Carregar(Some(salvo)), chave, default) == default
  {
    var r := Carregar(Some(salvo));
    assert r == Update(Padroes(), salvo);
  }

  /** `config.set(chave, valor)`, without the save that follows it. */
  function Definir(cfg: Config, chave: string, valor: Valor): (r: Config)
    requires Valid(cfg)
    ensures Valid(r)
    ensures Obter(r, chave, Nulo) == valor
    ensures forall k, d :: k != chave ==> Obter(r, k, d) == Obter(cfg, k, d)
  {
    Put(cfg, chave, valor)
  }

  /** `list.remove(x)` without the error: the first occurrence of `x` goes,
      everything else stays in order. */
  function RemoverPrimeiro<T(==)>(xs: seq<T>, x: T): (r: seq<T>)
    ensures x in xs ==> |r| == |xs| - 1
    ensures x !in xs ==> r == xs
    decreases |xs|
  {
    if xs == [] then []
    else if xs[0] == x then
      assert xs == [xs[0]] + xs[1..];
      xs[1..]
    else
      var r := [xs[0]] + RemoverPrimeiro(xs[1..], x);
      assert xs == [xs[0]] + xs[1..];
      r
  }

  /** Exactly one occurrence of `x` goes, when there is one. */
  lemma {:induction false} RemoverPrimeiroMultiset<T>(xs: seq<T>, x: T)
    ensures multiset(RemoverPrimeiro(xs, x)) == multiset(xs) - multiset{x}
    decreases |xs|
  {
    if xs != [] {
      assert xs == [xs[0]] + xs[1..];
      RemoverPrimeiroMultiset(xs[1..], x);
      if xs[0] != x {
        assert RemoverPrimeiro(xs, x) == [xs[0]] + RemoverPrimeiro(xs[1..], x);
      }
    }
  }

  /** The element removed is the first one equal to `x`: what comes before
      it is untouched, and what comes after it is shifted down by one. */
  lemma {:induction false} RemoverPrimeiroPosicao<T>(xs: seq<T>, x: T, i: nat)
    requires i < |xs| && xs[i] == x
    requires forall j :: 0 <= j < i ==> xs[j] != x
    ensures RemoverPrimeiro(xs, x) == xs[..i] + xs[i + 1..]
    decreases i
  {
    if i == 0 {
      assert RemoverPrimeiro(xs, x) == xs[1..];
      assert xs[..0] + xs[1..] == xs[1..];
    } else {
      var tail := xs[1..];
      assert forall j :: 0 <= j < i - 1 ==> tail[j] != x by {
        forall j | 0 <= j < i - 1
          ensures tail[j] != x
        {
          assert tail[j] == xs[j + 1];
        }
      }
      RemoverPrimeiroPosicao(tail, x, i - 1);
      assert RemoverPrimeiro(xs, x) == [xs[0]] + RemoverPrimeiro(tail, x);
      assert tail[..i - 1] == xs[1..i];
      assert tail[i..] == xs[i + 1..];
      assert xs[..i] == [xs[0]] + xs[1..i];
      assert [xs[0]] + (xs[1..i] + xs[i + 1..]) == ([xs[0]] + xs[1..i]) + xs[i + 1..];
    }
  }

  /** The removal keeps the remaining elements in their order. */
  lemma {:induction false} RemoverPrimeiroSubseq<T>(xs: seq<T>, x: T)
    ensures IsSubseq(RemoverPrimeiro(xs, x), xs)
    decreases |xs|
  {
    if xs != [] {
      RemoverPrimeiroSubseq(xs[1..], x);
      if xs[0] == x {
        PrefixSubseq(xs[1..], |xs| - 1);
        assert xs[1..][..|xs| - 1] == xs[1..];
        SubseqSkip(xs[1..], xs);
      } else {
        var r := RemoverPrimeiro(xs, x);
        assert r[0] == xs[0] && r[1..] == RemoverPrimeiro(xs[1..], x);
      }
    }
  }

  /** The recent-files list after opening `p`: `p` moves (or is put) in
      front and the list keeps at most ten entries. */
  function AdicionarRecente(recentes: seq<Valor>, p: string): (r: seq<Valor>)
    ensures 1 <= |r| <= MaxRecentes
    ensures r[0] == Texto(p)
    ensures |r| == Min(MaxRecentes, |RemoverPrimeiro(recentes, Texto(p))| + 1)
  {
    ([Texto(p)] + RemoverPrimeiro(recentes, Texto(p)))[..Min(MaxRecentes, |recentes| + (if Texto(p) in recentes then 0 else 1))]
  }

  /** The other entries are the old list without `p`'s first occurrence,
      cut to nine: nothing is invented and their order is kept. */
  lemma {:induction false} RecentesOrdem(recentes: seq<Valor>, p: string)
    ensures AdicionarRecente(recentes, p)[1..] == RemoverPrimeiro(recentes, Texto(p))[..|AdicionarRecente(recentes, p)| - 1]
    ensures IsSubseq(AdicionarRecente(recentes, p)[1..], recentes)
  {
    var r := AdicionarRecente(recentes, p);
    var rest := RemoverPrimeiro(recentes, Texto(p));
    assert r[1..] == rest[..|r| - 1];
    RemoverPrimeiroSubseq(recentes, Texto(p));
    PrefixSubseq(rest, |r| - 1);
    SubseqTrans(r[1..], rest, recentes);
  }

  lemma {:induction false} PrefixSubseq<T>(s: seq<T>, n: nat)
    requires n <= |s|
    ensures IsSubseq(s[..n], s)
    decreases |s|
  {
    if n > 0 {
      PrefixSubseq(s[1..], n - 1);
      assert s[..n][1..] == s[1..][..n - 1];
    } else {
      assert s[..n] == [];
    }
  }

  /** A file listed at most once before is listed exactly once after. */
  lemma {:induction false} RecenteUnico(recentes: seq<Valor>, p: string)
    requires multiset(recentes)[Texto(p)] <= 1
    ensures multiset(AdicionarRecente(recentes, p))[Texto(p)] == 1
  {
    var r := AdicionarRecente(recentes, p);
    var rest := RemoverPrimeiro(recentes, Texto(p));
    assert Texto(p) !in rest by {
      RemoverPrimeiroMultiset(recentes, Texto(p));
      assert multiset(rest)[Texto(p)] == 0;
    }
    assert Texto(p) !in r[1..] by {
      RecentesOrdem(recentes, p);
      assert forall k :: 0 <= k < |r[1..]| ==> r[1..][k] == rest[k];
    }
    assert r == [r[0]] + r[1..];
    assert multiset(r) == multiset{Texto(p)} + multiset(r[1..]);
  }

  /** Opening the same file twice in a row is the same as opening it once. */
  lemma {:induction false} AdicionarRecenteIdempotente(recentes: seq<Valor>, p: string)
    ensures AdicionarRecente(AdicionarRecente(recentes, p), p) == AdicionarRecente(recentes, p)
  {
    var r := AdicionarRecente(recentes, p);
    assert RemoverPrimeiro(r, Texto(p)) == r[1..];
    var r2 := AdicionarRecente(r, p);
    assert |r2| == |r|;
    assert r2 == [Texto(p)] + r[1..];
    assert r == [r[0]] + r[1..];
  }

  /** `adicionar_arquivo_recente(caminho)`, without the save that follows.
      The setting is read with a `[]` default; a saved value that is not a
      list makes `in`, `remove` or `insert` raise. */
  function AdicionarArquivoRecente(cfg: Config, caminho: string): (r: Result<Config>)
    requires Valid(cfg)
    ensures r.Ok? <==> Obter(cfg, UltimosArquivos, Lista([])).Lista?
    ensures r.Ok? ==> Valid(r.value)
    ensures r.Ok? ==> (Obter(r.value, UltimosArquivos, Nulo)
                       == Lista(AdicionarRecente(Obter(cfg, UltimosArquivos, Lista([])).itens, caminho)))
    ensures r.Ok? ==> forall k, d :: k != UltimosArquivos ==> Obter(r.value, k, d) == Obter(cfg, k, d)
  {
    match Obter(cfg, UltimosArquivos, Lista([]))
    case Lista(xs) => Ok(Definir(cfg, UltimosArquivos, Lista(AdicionarRecente(xs, caminho))))
    case Texto(_) => Err("AttributeError: 'str' object has no attribute 'insert'")
    case _ => Err("TypeError: argument of type is not iterable")
  }

  /** After a fresh start with no saved file, the first opened file is the
      only recent one. */
  lemma PrimeiroRecente(caminho: string)
    ensures AdicionarArquivoRecente(Carregar(None), caminho).Ok?
    ensures Obter(AdicionarArquivoRecente(Carregar(None), caminho).value, UltimosArquivos, Nulo)
              == Lista([Texto(caminho)])
  {
  }
}

=== FILE: curva_abc.dfy ===
/** The sales report by store (`ModeloCurvaABC`): its header sits on the
    fifth row, and the products of each store follow a `Loja:` marker row
    that names the store. */
module CurvaAbc {
  import opened Wrappers
  import opened Text
  import opened Numbers
  import opened Cells
  import opened Seqs

  /** `identificar`: among the first ten cells of column 0, one holds
      `código` and one holds `loja:`, case aside. A sheet without columns
      makes the lookup raise, which reads as no match. */
  function Identificar(f: Frame): (r: bool)
    ensures r <==> (Width(f) > 0
      && (exists i :: 0 <= i < |f.rows| && i < 10 && Contains(Lower(CellText(At(f.rows[i], 0))), "código"))
      && (exists i :: 0 <= i < |f.rows| && i < 10 && Contains(Lower(CellText(At(f.rows[i], 0))), "loja:")))
  {
    Width(f) > 0 && LeadCellsHold(f.rows, 10, "código") && LeadCellsHold(f.rows, 10, "loja:")
  }

  /** `_is_valid_product`: a present cell whose stripped text is not a
      placeholder, starts with a digit and reads as a number once its
      decimal comma becomes a point. */
  predicate IsValidProduct(c: Cell)
  {
    !c.Empty? && ProductText(Strip(CellText(c)))
  }

  /** The text test of `_is_valid_product` on an already stripped text. */
  predicate ProductText(v: string)
  {
    v != "" && v != "nan" && v != "None" && PyIsDigit(v[0]) && ParseNumber(ReplaceChar(v, ',', '.')).Some?
  }

  /** Every non-negative integer code, as a number or as its text, is a
      valid product. */
  lemma {:induction false} NaturalCodeIsProduct(n: nat)
    ensures IsValidProduct(Int(n))
    ensures IsValidProduct(Str(NatText(n)))
  {
    var t := NatText(n);
    assert IntText(n) == t;
    NoSpaceInDigits(t);
    StripNoSpace(t);
    assert ReplaceChar(t, ',', '.') == t;
    ParseIntText(n);
    assert t != "nan" && t != "None" by {
      assert IsAsciiDigit(t[0]);
    }
  }

  /** A missing cell and the placeholder texts are not products. */
  lemma {:induction false} PlaceholdersRejected()
    ensures !IsValidProduct(Empty)
    ensures !IsValidProduct(Str("")) && !IsValidProduct(Str("nan")) && !IsValidProduct(Str("None"))
  {
    StripNoSpace("nan");
    StripNoSpace("None");
  }

  /** The labels of the two store columns. */
  const LojaCodigo := "Loja_Codigo"
  const LojaNome := "Loja_Nome"

  /** A label the store step assigns to. */
  predicate IsStoreLabel(c: Cell)
  {
    c == Str(LojaCodigo) || c == Str(LojaNome)
  }

  /** The labels once the two store columns are set: assigning to a label
      the header already carries writes into that column, so only the
      store labels the header lacks are appended, code before name. */
  function WithStoreLabels(h: seq<Cell>): (r: seq<Cell>)
    ensures |h| <= |r| <= |h| + 2 && r[..|h|] == h
    ensures Str(LojaCodigo) in r && Str(LojaNome) in r
    ensures forall j :: |h| <= j < |r| ==> IsStoreLabel(r[j]) && r[j] !in h
    ensures forall i, j :: |h| <= i < j < |r| ==> r[i] != r[j]
  {
    h + (if Str(LojaCodigo) in h then [] else [Str(LojaCodigo)])
      + (if Str(LojaNome) in h then [] else [Str(LojaNome)])
  }

  /** Each store label occurs as often as in the header, and once when the
      header lacks it; every other label occurs exactly as in the header. */
  lemma {:induction false} WithStoreLabelsCount(h: seq<Cell>, name: string)
    ensures CountLabel(WithStoreLabels(h), name) ==
              if (name == LojaCodigo || name == LojaNome) && Str(name) !in h then 1 else CountLabel(h, name)
  {
    var a := if Str(LojaCodigo) in h then [] else [Str(LojaCodigo)];
    var b := if Str(LojaNome) in h then [] else [Str(LojaNome)];
    assert WithStoreLabels(h) == h + (a + b);
    CountLabelAppend(h, a + b, name);
    CountLabelAppend(a, b, name);
    if a != [] {
      assert CountLabel(a, name) == (if a[0] == Str(name) then 1 else 0) + CountLabel(a[1..], name);
    }
    if b != [] {
      assert CountLabel(b, name) == (if b[0] == Str(name) then 1 else 0) + CountLabel(b[1..], name);
    }
  }

  /** A row with the store columns set to `s`: every column labelled
      `Loja_Codigo` holds the store's code, every one labelled `Loja_Nome`
      its name, and every other column the row's own cell. */
  function Fill(row: Row, labels: seq<Cell>, s: Store): (r: Row)
    ensures |r| == |labels|
    ensures forall j :: 0 <= j < |labels| && !IsStoreLabel(labels[j]) ==> r[j] == At(row, j)
    ensures forall j :: 0 <= j < |labels| && labels[j] == Str(LojaCodigo) ==> r[j] == Str(s.code)
    ensures forall j :: 0 <= j < |labels| && labels[j] == Str(LojaNome) ==> r[j] == Str(s.name)
  {
    seq(|labels|, j requires 0 <= j < |labels| =>
      if labels[j] == Str(LojaCodigo) then Str(s.code)
      else if labels[j] == Str(LojaNome) then Str(s.name)
      else At(row, j))
  }

  /** A data row as the store loop sees it: the columns of `labels`, the
      store columns emptied. */
  function Pre(row: Row, labels: seq<Cell>): (r: Row)
    ensures |r| == |labels|
    ensures forall j :: 0 <= j < |labels| && !IsStoreLabel(labels[j]) ==> r[j] == At(row, j)
    ensures forall j :: 0 <= j < |labels| && IsStoreLabel(labels[j]) ==> r[j] == Str("")
  {
    Fill(row, labels, NoStore)
  }

  /** A row that opens a store: its first cell holds `Loja:`. */
  predicate IsMarker(row: Row, labels: seq<Cell>)
  {
    Contains(CellText(At(Pre(row, labels), 0)), "Loja:")
  }

  /** The current store: its code and its name as text. */
  datatype Store = Store(code: string, name: string)

  /** The store before the first marker. */
  const NoStore := Store("", "")

  /** `str(x) if pd.notna(x) else ''`. */
  function StoreText(c: Cell): string
  {
    if c.Empty? then "" else CellText(c)
  }

  /** The store a marker row names: cells 1 and 2 of the row. */
  function StoreOf(row: Row, labels: seq<Cell>): Store
  {
    var p := Pre(row, labels);
    Store(StoreText(At(p, 1)), StoreText(At(p, 2)))
  }

  /** A row as the loop leaves it: a marker keeps empty store columns, any
      other row carries the current store; the other columns are the
      row's own. */
  function Stamp(row: Row, labels: seq<Cell>, cur: Store): (r: Row)
    ensures |r| == |labels|
    ensures forall j :: 0 <= j < |labels| && !IsStoreLabel(labels[j]) ==> r[j] == At(row, j)
  {
    if IsMarker(row, labels) then Pre(row, labels) else Fill(row, labels, cur)
  }

  /** The marker test as a mask. */
  function Marker(labels: seq<Cell>): Row -> bool
  {
    (row: Row) => IsMarker(row, labels)
  }

  function StoreOfRow(labels: seq<Cell>): Row -> Store
  {
    (row: Row) => StoreOf(row, labels)
  }

  function StampWith(labels: seq<Cell>): (Row, Store) -> Row
  {
    (row: Row, cur: Store) => Stamp(row, labels, cur)
  }

  /** The store loop, left to right, starting with store `cur`: a marker
      row sets the current store, every row is stamped with the store
      current when it is read. */
  function StampFrom(rows: seq<Row>, labels: seq<Cell>, cur: Store): (r: seq<Row>)
    ensures |r| == |rows|
  {
    ScanCarry(rows, Marker(labels), StoreOfRow(labels), StampWith(labels), cur)
  }

  /** The store in force at row `i`: that of the most recent marker before
      it, `cur` when there is none. */
  function StoreAt(rows: seq<Row>, labels: seq<Cell>, cur: Store, i: nat): Store
    requires i <= |rows|
  {
    CarryAt(rows, Marker(labels), StoreOfRow(labels), cur, i)
  }

  /** The loop stamps every row that is not a marker with the store of the
      most recent marker above it, and the starting store before the first. */
  lemma {:induction false} StampFromSpec(rows: seq<Row>, labels: seq<Cell>, cur: Store, i: nat)
    requires i < |rows|
    ensures StampFrom(rows, labels, cur)[i] == Stamp(rows[i], labels, StoreAt(rows, labels, cur, i))
  {
    ScanCarrySpec(rows, Marker(labels), StoreOfRow(labels), StampWith(labels), cur, i);
  }

  /** Every stamped row has one cell per label. */
  lemma {:induction false} StampFromWidths(rows: seq<Row>, labels: seq<Cell>, cur: Store)
    ensures forall k :: 0 <= k < |rows| ==> |StampFrom(rows, labels, cur)[k]| == |labels|
  {
    forall k | 0 <= k < |rows|
      ensures |StampFrom(rows, labels, cur)[k]| == |labels|
    {
      StampFromSpec(rows, labels, cur, k);
    }
  }

  /** The store a marker row sets: at the row after a marker, the store in
      force is the one the marker names. */
  lemma {:induction false} StoreAfterMarker(rows: seq<Row>, labels: seq<Cell>, cur: Store, i: nat)
    requires i < |rows| && IsMarker(rows[i], labels)
    ensures StoreAt(rows, labels, cur, i + 1) == StoreOf(rows[i], labels)
  {
    assert Marker(labels)(rows[i]);
  }

  /** A row that is not a marker leaves the store in force unchanged. */
  lemma {:induction false} StoreAfterRow(rows: seq<Row>, labels: seq<Cell>, cur: Store, i: nat)
    requires i < |rows| && !IsMarker(rows[i], labels)
    ensures StoreAt(rows, labels, cur, i + 1) == StoreAt(rows, labels, cur, i)
  {
    assert !Marker(labels)(rows[i]);
  }

  /** The first cell of a stamped row does not hold `Loja:`. */
  predicate NotMarkerRow(row: Row)
  {
    !Contains(CellText(At(row, 0)), "Loja:")
  }

  /** The first cell of a stamped row is a valid product. */
  predicate ProductRow(row: Row)
  {
    IsValidProduct(At(row, 0))
  }

  /** Both masks of steps 4 and 5 at once; they read the first cell only. */
  predicate KeptRow(row: Row)
  {
    KeptCell(At(row, 0))
  }

  predicate KeptCell(c: Cell)
  {
    !Contains(CellText(c), "Loja:") && IsValidProduct(c)
  }

  /** Position of the header row among the rows under the labels. */
  const HeaderIndex := 4

  /** `df_dados`: the rows below the header row. */
  function Dados(f: Frame): seq<Row>
    requires |f.rows| > HeaderIndex
  {
    f.rows[HeaderIndex + 1..]
  }

  /** The header row, one label per column of the sheet. */
  function Header(f: Frame): (r: seq<Cell>)
    requires |f.rows| > HeaderIndex
    ensures |r| == Width(f) && forall j :: 0 <= j < Width(f) ==> r[j] == At(f.rows[HeaderIndex], j)
  {
    Padded(f.rows[HeaderIndex], Width(f))
  }

  /** The labels of the processed table: the header row, then the store
      labels it does not already carry. */
  function OutputLabels(f: Frame): (r: seq<Cell>)
    requires |f.rows| > HeaderIndex
    ensures Width(f) <= |r| <= Width(f) + 2 && r[..Width(f)] == Header(f)
    ensures Str(LojaCodigo) in r && Str(LojaNome) in r
  {
    WithStoreLabels(Header(f))
  }

  /** The rows below the header, stamped, then kept when they are neither
      a marker nor a non-product (steps 1 to 5 of `processar`; the two
      masks are applied at once, see `LimparSteps`). */
  function Limpar(f: Frame): (r: seq<Row>)
    requires |f.rows| > HeaderIndex
  {
    Filter(StampFrom(Dados(f), OutputLabels(f), NoStore), KeptRow)
  }

  /** Dropping the markers, then the rows that are not products, as the
      source does in two steps, is `Limpar`. */
  lemma {:induction false} LimparSteps(f: Frame)
    requires |f.rows| > HeaderIndex
    ensures Filter(Filter(StampFrom(Dados(f), OutputLabels(f), NoStore), NotMarkerRow), ProductRow) == Limpar(f)
  {
    FilterFilter(StampFrom(Dados(f), OutputLabels(f), NoStore), NotMarkerRow, ProductRow, KeptRow);
  }

  /** Every kept row has one cell per output label, and is neither a marker
      nor a non-product. */
  lemma {:induction false} LimparRows(f: Frame)
    requires |f.rows| > HeaderIndex
    ensures forall k :: 0 <= k < |Limpar(f)| ==> |Limpar(f)[k]| == |OutputLabels(f)|
    ensures forall k :: 0 <= k < |Limpar(f)| ==> KeptRow(Limpar(f)[k])
  {
    var labels := OutputLabels(f);
    var stamped := StampFrom(Dados(f), labels, NoStore);
    StampFromWidths(Dados(f), labels, NoStore);
    FilterPasses(stamped, KeptRow);
    FilterKeeps(stamped, KeptRow, (row: Row) => |row| == |labels|);
  }

  /** The kept rows are stamped data rows, in the order of the sheet. */
  lemma {:induction false} LimparOrder(f: Frame)
    requires |f.rows| > HeaderIndex
    ensures forall k :: 0 <= k < |Limpar(f)| ==> Limpar(f)[k] in StampFrom(Dados(f), OutputLabels(f), NoStore)
    ensures IsSubseq(Limpar(f), StampFrom(Dados(f), OutputLabels(f), NoStore))
  {
    var stamped := StampFrom(Dados(f), OutputLabels(f), NoStore);
    FilterIsSubseq(stamped, KeptRow);
    FilterMembers(stamped, KeptRow);
  }

  /** A data row that is not a marker and starts with a valid product is
      kept, carrying the store in force at it, when its first column is
      not one the store step overwrites. */
  lemma {:induction false} LimparKeeps(f: Frame, k: nat)
    requires |f.rows| > HeaderIndex && k < |Dados(f)| && Width(f) > 0
    requires !IsStoreLabel(At(f.rows[HeaderIndex], 0))
    requires KeptRow(Dados(f)[k])
    ensures Stamp(Dados(f)[k], OutputLabels(f), StoreAt(Dados(f), OutputLabels(f), NoStore, k)) in Limpar(f)
  {
    var labels := OutputLabels(f);
    var stamped := StampFrom(Dados(f), labels, NoStore);
    assert labels[0] == Header(f)[0];
    StampFromSpec(Dados(f), labels, NoStore, k);
    FirstCellStamped(Dados(f), labels, NoStore, k);
    KeptByFirstCell(stamped, k, Dados(f)[k]);
  }

  /** A row whose first cell is that of a kept row is kept. */
  lemma {:induction false} KeptByFirstCell(s: seq<Row>, k: nat, b: Row)
    requires k < |s| && At(s[k], 0) == At(b, 0) && KeptRow(b)
    ensures s[k] in Filter(s, KeptRow)
  {
    SameFirstCell(s[k], b);
    FilterContains(s, KeptRow, k);
  }

  /** Stamping keeps the first cell when the first column is not a store
      column. */
  lemma {:induction false} FirstCellStamped(data: seq<Row>, labels: seq<Cell>, cur: Store, k: nat)
    requires k < |data| && |labels| > 0 && !IsStoreLabel(labels[0])
    ensures At(StampFrom(data, labels, cur)[k], 0) == At(data[k], 0)
  {
    StampFromSpec(data, labels, cur, k);
  }

  /** Whether a row is kept depends on its first cell only. */
  lemma SameFirstCell(a: Row, b: Row)
    requires At(a, 0) == At(b, 0) && KeptRow(b)
    ensures KeptRow(a)
  {
  }

  /** The message prefix of every failure of `processar`. */
  const ErrPrefix := "Erro no processamento: "

  /** The columns converted to numbers, in the order they are converted. */
  const NumericLabels := ["Código", "Qtd", "Total R$", "Loja_Codigo"]

  /** The text a cell of a converted column is parsed from. */
  function CommaToPoint(c: Cell): string
  {
    ReplaceChar(CellText(c), ',', '.')
  }

  /** One column of step 6: its cells as text, commas turned into points,
      then `pd.to_numeric(errors='coerce')`. A label shared by two columns
      selects a table, which has no `.str`, and the step fails. */
  function ConvertColumn(cols: seq<Cell>, rows: seq<Row>, name: string): (r: Result<seq<Row>>)
    requires forall k :: 0 <= k < |rows| ==> |rows[k]| == |cols|
    ensures Str(name) !in cols ==> r == Ok(rows)
    ensures r.Err? <==> CountLabel(cols, name) > 1
    ensures r.Ok? ==> |r.value| == |rows| && forall k :: 0 <= k < |rows| ==> |r.value[k]| == |cols|
    ensures r.Ok? ==> forall k, j :: 0 <= k < |rows| && 0 <= j < |cols| && cols[j] != Str(name) ==>
                        r.value[k][j] == rows[k][j]
  {
    match ColIndex(cols, name)
    case None => Ok(rows)
    case Some(j) =>
      if CountLabel(cols, name) > 1 then Err(ErrPrefix + "'DataFrame' object has no attribute 'str'")
      else
        LabelOnce(cols, name, j);
        var texts := seq(|rows|, k requires 0 <= k < |rows| => CommaToPoint(rows[k][j]));
        var vals := ToNumericTexts(texts);
        Ok(SetColumn(rows, j, vals, |cols|))
  }

  /** Every row with column `j` replaced by the matching new value. */
  function SetColumn(rows: seq<Row>, j: nat, vals: seq<Cell>, w: nat): (r: seq<Row>)
    requires |vals| == |rows| && j < w
    requires forall k :: 0 <= k < |rows| ==> |rows[k]| == w
    ensures |r| == |rows| && forall k :: 0 <= k < |rows| ==> |r[k]| == w
    ensures forall k :: 0 <= k < |rows| ==> r[k][j] == vals[k]
    ensures forall k, i :: 0 <= k < |rows| && 0 <= i < w && i != j ==> r[k][i] == rows[k][i]
  {
    seq(|rows|, k requires 0 <= k < |rows| => rows[k][j := vals[k]])
  }

  /** Every cell of a converted column holds the number its text, with
      commas as points, reads as, and is missing when the text is not a
      number. */
  lemma {:induction false} ConvertColumnValues(cols: seq<Cell>, rows: seq<Row>, name: string)
    requires forall k :: 0 <= k < |rows| ==> |rows[k]| == |cols|
    requires ConvertColumn(cols, rows, name).Ok?
    ensures forall k, j :: 0 <= k < |rows| && 0 <= j < |cols| && cols[j] == Str(name) ==>
              SameNumber(ConvertColumn(cols, rows, name).value[k][j], ParseNumber(CommaToPoint(rows[k][j])))
  {
    match ColIndex(cols, name)
    case None =>
    case Some(j) =>
      LabelOnce(cols, name, j);
      var texts := seq(|rows|, k requires 0 <= k < |rows| => CommaToPoint(rows[k][j]));
      var vals := ToNumericTexts(texts);
      assert ConvertColumn(cols, rows, name).value == SetColumn(rows, j, vals, |cols|);
  }

  /** A label that occurs once occurs only at its first position. */
  lemma {:induction false} LabelOnce(cols: seq<Cell>, name: string, j: nat)
    requires ColIndex(cols, name) == Some(j) && CountLabel(cols, name) == 1
    ensures forall i :: 0 <= i < |cols| && cols[i] == Str(name) ==> i == j
  {
    if cols[0] == Str(name) {
      assert j == 0;
      assert CountLabel(cols[1..], name) == 0;
      forall i | 1 <= i < |cols|
        ensures cols[i] != Str(name)
      {
        assert cols[i] == cols[1..][i - 1];
      }
    } else {
      assert ColIndex(cols[1..], name) == Some(j - 1);
      LabelOnce(cols[1..], name, j - 1);
      forall i | 1 <= i < |cols| && cols[i] == Str(name)
        ensures i == j
      {
        assert cols[1..][i - 1] == cols[i];
      }
    }
  }

  /** Step 6: the numeric labels from position `i` on, one after another. */
  function ConvertFrom(cols: seq<Cell>, rows: seq<Row>, i: nat): (r: Result<seq<Row>>)
    requires i <= |NumericLabels|
    requires forall k :: 0 <= k < |rows| ==> |rows[k]| == |cols|
    ensures r.Ok? ==> |r.value| == |rows| && forall k :: 0 <= k < |rows| ==> |r.value[k]| == |cols|
    ensures r.Ok? ==> forall k, j :: 0 <= k < |rows| && 0 <= j < |cols| && cols[j] !in LabelCells(i) ==>
                        r.value[k][j] == rows[k][j]
    ensures r.Err? <==> exists n :: i <= n < |NumericLabels| && CountLabel(cols, NumericLabels[n]) > 1
    ensures r.Err? ==> ErrPrefix <= r.msg
    decreases |NumericLabels| - i
  {
    if i == |NumericLabels| then Ok(rows)
    else match ConvertColumn(cols, rows, NumericLabels[i])
      case Err(e) =>
        assert ErrPrefix <= e;
        Err(e)
      case Ok(next) => ConvertFrom(cols, next, i + 1)
  }

  /** The labels of the numeric columns from position `i` on. */
  function LabelCells(i: nat): (r: set<Cell>)
    requires i <= |NumericLabels|
    ensures forall n :: i <= n < |NumericLabels| ==> Str(NumericLabels[n]) in r
  {
    set n | i <= n < |NumericLabels| :: Str(NumericLabels[n])
  }

  /** `processar`: the labels come from the fifth row, the data from the
      rows below it; a sheet too short for a header row, or a converted
      label carried by two columns, fails with the `processar` message. */
  function Processar(f: Frame): (r: Result<Frame>)
    ensures |f.rows| <= HeaderIndex ==> r == Err(ErrPrefix + "single positional indexer is out-of-bounds")
    ensures r.Err? ==> ErrPrefix <= r.msg
    ensures r.Ok? ==> |f.rows| > HeaderIndex && r.value.cols == OutputLabels(f) && |r.value.rows| == |Limpar(f)|
    ensures |f.rows| > HeaderIndex ==>
              (r.Ok? <==> forall n :: 0 <= n < |NumericLabels| ==> CountLabel(OutputLabels(f), NumericLabels[n]) <= 1)
  {
    if |f.rows| <= HeaderIndex then Err(ErrPrefix + "single positional indexer is out-of-bounds")
    else
      LimparRows(f);
      var cols := OutputLabels(f);
      match ConvertFrom(cols, Limpar(f), 0)
      case Err(e) => Err(e)
      case Ok(rows) => Ok(Frame(cols, rows))
  }

  /** Whether `processar` succeeds is read off the header row alone: it
      does exactly when no converted label, `Loja_Codigo` included, is
      carried by two header columns. */
  lemma {:induction false} ProcessarCabecalho(f: Frame)
    requires |f.rows| > HeaderIndex
    ensures Processar(f).Ok? <==> forall n :: 0 <= n < |NumericLabels| ==> CountLabel(Header(f), NumericLabels[n]) <= 1
  {
    forall n | 0 <= n < |NumericLabels|
      ensures CountLabel(OutputLabels(f), NumericLabels[n]) <= 1 <==> CountLabel(Header(f), NumericLabels[n]) <= 1
    {
      WithStoreLabelsCount(Header(f), NumericLabels[n]);
    }
  }

  /** A header that already carries `Loja_Codigo` keeps that single column
      for the store code: the table has no second one, and `processar`
      succeeds when the header's one label is `Loja_Codigo`. */
  lemma {:induction false} ProcessarReusaLojaCodigo(f: Frame)
    requires |f.rows| > HeaderIndex && Str(LojaCodigo) in Header(f)
    ensures CountLabel(OutputLabels(f), LojaCodigo) == CountLabel(Header(f), LojaCodigo)
    ensures |OutputLabels(f)| <= Width(f) + 1
    ensures Header(f) == [Str(LojaCodigo)] ==> Processar(f).Ok? && OutputLabels(f) == [Str(LojaCodigo), Str(LojaNome)]
  {
    WithStoreLabelsCount(Header(f), LojaCodigo);
    if Header(f) == [Str(LojaCodigo)] {
      var h := Header(f);
      assert OutputLabels(f) == h + [Str(LojaNome)];
      forall n | 0 <= n < |NumericLabels|
        ensures CountLabel(h, NumericLabels[n]) <= 1
      {
        assert CountLabel(h, NumericLabels[n]) == (if h[0] == Str(NumericLabels[n]) then 1 else 0) + CountLabel(h[1..], NumericLabels[n]);
      }
      ProcessarCabecalho(f);
    }
  }

  /** The processed table is rectangular, and outside the converted
      columns it holds the kept rows unchanged. */
  lemma {:induction false} ProcessarRows(f: Frame)
    requires Processar(f).Ok?
    ensures forall k :: 0 <= k < |Processar(f).value.rows| ==> |Processar(f).value.rows[k]| == |OutputLabels(f)|
    ensures forall k, j ::
              (0 <= k < |Processar(f).value.rows| && 0 <= j < |OutputLabels(f)|
               && Processar(f).value.cols[j] !in LabelCells(0)) ==>
                Processar(f).value.rows[k][j] == At(Limpar(f)[k], j)
  {
    LimparRows(f);
    var cols := OutputLabels(f);
    var rows := ConvertFrom(cols, Limpar(f), 0).value;
    assert Processar(f).value == Frame(cols, rows);
  }
}

=== FILE: dicts.dfy ===
/** Python's `dict`: a map that also remembers the order in which its keys
    were first inserted, which is the order `.keys()`, `.items()` and
    iteration use. */
module Dicts {
  import opened Seqs

  /** Keys are strings: column names, setting names, group names. */
  datatype Dict<V> = Dict(keys: seq<string>, vals: map<string, V>)

  /** The order lists every key of the map exactly once. */
  ghost predicate Valid<V>(d: Dict<V>)
  {
    Distinct(d.keys) && (forall k :: k in d.vals <==> k in d.keys)
  }

  function Empty<V>(): (r: Dict<V>)
    ensures Valid(r) && r.keys == []
  {
    Dict([], map[])
  }

  /** `d.get(k, default)`. */
  function Get<V>(d: Dict<V>, k: string, default: V): V
  {
    if k in d.vals then d.vals[k] else default
  }

  /** `d[k] = v`: a new key goes last, an existing key keeps its place. */
  function Put<V>(d: Dict<V>, k: string, v: V): (r: Dict<V>)
    requires Valid(d)
    ensures Valid(r)
    ensures r.vals == d.vals[k := v]
    ensures k in d.vals ==> r.keys == d.keys
    ensures k !in d.vals ==> r.keys == d.keys + [k]
  {
    if k in d.vals then Dict(d.keys, d.vals[k := v])
    else
      var r := Dict(d.keys + [k], d.vals[k := v]);
      assert forall i :: 0 <= i < |d.keys| ==> r.keys[i] == d.keys[i];
      r
  }

  /** `d.pop(k, None)`: the key leaves both the map and the order. */
  function Remove<V>(d: Dict<V>, k: string): (r: Dict<V>)
    requires Valid(d)
    ensures Valid(r)
    ensures r.vals == d.vals - {k}
    ensures IsSubseq(r.keys, d.keys)
  {
    var ks := Filter(d.keys, Other(k));
    FilterIsSubseq(d.keys, Other(k));
    FilterMembers(d.keys, Other(k));
    FilterPasses(d.keys, Other(k));
    SubseqDistinct(ks, d.keys);
    FilterKeepsOthers(d.keys, k);
    Dict(ks, d.vals - {k})
  }

  lemma {:induction false} FilterKeepsOthers(keys: seq<string>, k: string)
    ensures forall x :: x in keys && x != k ==> x in Filter(keys, Other(k))
  {
    forall x | x in keys && x != k
      ensures x in Filter(keys, Other(k))
    {
      var i :| 0 <= i < |keys| && keys[i] == x;
      FilterContains(keys, Other(k), i);
    }
  }

  function Other(k: string): string -> bool
  {
    x => x != k
  }

  /** `d.update(e)`, and `{**d, **e}`: every entry of `e` is written over `d`
      in `e`'s order. */
  function Update<V>(d: Dict<V>, e: Dict<V>): (r: Dict<V>)
    requires Valid(d) && Valid(e)
    ensures Valid(r)
    ensures forall k :: k in r.vals <==> k in d.vals || k in e.vals
    ensures forall k :: k in e.vals ==> r.vals[k] == e.vals[k]
    ensures forall k :: k in d.vals && k !in e.vals ==> r.vals[k] == d.vals[k]
    ensures d.keys <= r.keys
  {
    UpdateFrom(d, e.keys, e.vals)
  }

  /** Writes the entries of `m` under the keys `ks`, in order. */
  function UpdateFrom<V>(d: Dict<V>, ks: seq<string>, m: map<string, V>): (r: Dict<V>)
    requires Valid(d)
    ensures Valid(r)
    ensures forall k :: k in r.vals <==> k in d.vals || (k in ks && k in m)
    ensures forall k :: k in ks && k in m ==> r.vals[k] == m[k]
    ensures forall k :: k in d.vals && !(k in ks && k in m) ==> r.vals[k] == d.vals[k]
    ensures d.keys <= r.keys
    decreases |ks|
  {
    if ks == [] then d
    else
      var d' := if ks[0] in m then Put(d, ks[0], m[ks[0]]) else d;
      var r := UpdateFrom(d', ks[1..], m);
      assert forall k :: k in ks <==> k == ks[0] || k in ks[1..];
      r
  }

  /** A dictionary literal `{k1: v1, k2: v2, ...}`: a repeated key keeps its
      last value (`FromPairsLast`). */
  function FromPairs<V>(ps: seq<(string, V)>): (r: Dict<V>)
    ensures Valid(r)
    ensures forall k :: k in r.vals <==> exists i :: 0 <= i < |ps| && ps[i].0 == k
    ensures |r.keys| <= |ps|
    decreases |ps|
  {
    if ps == [] then Empty()
    else
      var d := FromPairs(ps[..|ps| - 1]);
      var last := ps[|ps| - 1];
      var r := Put(d, last.0, last.1);
      assert forall i :: 0 <= i < |ps| - 1 ==> ps[..|ps| - 1][i] == ps[i];
      r
  }

  /** The last pair of a key gives its value. */
  lemma {:induction false} FromPairsLast<V>(ps: seq<(string, V)>, i: nat)
    requires i < |ps| && forall j :: i < j < |ps| ==> ps[j].0 != ps[i].0
    ensures ps[i].0 in FromPairs(ps).vals && FromPairs(ps).vals[ps[i].0] == ps[i].1
    decreases |ps|
  {
    if i < |ps| - 1 {
      var q := ps[..|ps| - 1];
      assert q[i] == ps[i];
      forall j | i < j < |q|
        ensures q[j].0 != q[i].0
      {
        assert q[j] == ps[j];
      }
      FromPairsLast(q, i);
    }
  }

  /** The number of keys. */
  lemma {:induction false} KeysCount<V>(d: Dict<V>)
    requires Valid(d)
    ensures |d.keys| == |d.vals|
  {
    DistinctCard(d.keys);
    assert d.vals.Keys == set k | k in d.keys;
  }

  lemma {:induction false} DistinctCard(s: seq<string>)
    requires Distinct(s)
    ensures |set k | k in s| == |s|
  {
    if s != [] {
      assert Distinct(s[1..]) by {
        assert forall i :: 0 <= i < |s[1..]| ==> s[1..][i] == s[i + 1];
      }
      DistinctCard(s[1..]);
      assert s[0] !in s[1..] by {
        forall i | 0 <= i < |s[1..]|
          ensures s[1..][i] != s[0]
        {
          assert s[1..][i] == s[i + 1];
        }
      }
      assert (set k | k in s) == (set k | k in s[1..]) + {s[0]};
    }
  }

  /** `dict(Counter(vs))`: each distinct value, in order of first occurrence,
      with the number of times it occurs. */
  function Counter(vs: seq<string>): (r: Dict<nat>)
    ensures Valid(r)
    ensures r.keys == Dedup(vs)
    ensures forall v :: v in r.vals <==> v in vs
    ensures forall v :: v in r.vals ==> r.vals[v] == Count(vs, Is(v))
  {
    var ds := Dedup(vs);
    Dict(ds, map v | v in ds :: Count(vs, Is(v)))
  }

  /** The values under the keys `ks`, added up. */
  function SumValues(ks: seq<string>, m: map<string, nat>): nat
    requires forall k :: k in ks ==> k in m
  {
    if ks == [] then 0 else m[ks[0]] + SumValues(ks[1..], m)
  }

  /** The counts of a `Counter` add up to the number of values counted. */
  lemma {:induction false} CounterTotal(vs: seq<string>)
    ensures SumValues(Counter(vs).keys, Counter(vs).vals) == |vs|
  {
    var c := Counter(vs);
    SumValuesCounts(c.keys, c.vals, vs);
    SumCountsAll(c.keys, vs);
  }

  lemma {:induction false} SumValuesCounts(ks: seq<string>, m: map<string, nat>, vs: seq<string>)
    requires forall k :: k in ks ==> k in m && m[k] == Count(vs, Is(k))
    ensures SumValues(ks, m) == SumCounts(ks, vs)
  {
    if ks != [] {
      SumValuesCounts(ks[1..], m, vs);
    }
  }
}

=== FILE: entradas.dfy ===
/** The goods-received report by product group (`ModeloEntradas`): product
    rows grouped under `Categoria:` marker rows that name the category and
    the group, flattened into one table with the group's buyer. */
module Entradas {
  import opened Text
  import opened Numbers
  import opened Cells
  import opened Seqs
  import opened Dicts
  import opened Compradores

  /** The title the report carries in its first rows. */
  const Titulo := "entradas produtos por grupo"

  /** `identificar`: one of the first five cells of column 0, lower-cased,
      holds the report's title. A sheet without columns makes the lookup
      raise, which reads as no match. */
  function Identificar(f: Frame): (r: bool)
    ensures r <==> (Width(f) > 0
      && exists i :: 0 <= i < |f.rows| && i < 5 && Contains(Lower(CellText(At(f.rows[i], 0))), Titulo))
  {
    Width(f) > 0 && LeadCellsHold(f.rows, 5, Titulo)
  }

  /** `_is_numero`: a present cell whose stripped text starts with a digit.
      The placeholder texts the program also rejects start with a letter,
      so the test is the leading digit alone. */
  function IsNumero(c: Cell): (r: bool)
    ensures r <==> !c.Empty? && Strip(CellText(c)) != [] && PyIsDigit(Strip(CellText(c))[0])
  {
    if c.Empty? then false
    else
      var v := Strip(CellText(c));
      if v == "" || v == "nan" || v == "None" then false
      else PyIsDigit(v[0])
  }

  /** The category and group in force while the rows are read. */
  datatype Contexto = Contexto(catCodigo: string, catNome: string, grupoCodigo: string, grupoNome: string)

  const SemContexto := Contexto("", "", "", "")

  /** A row whose first cell, stripped, holds `Categoria:`. */
  predicate IsCategoria(row: Row)
  {
    Contains(TrimText(At(row, 0)), "Categoria:")
  }

  /** A product row: not a category row, and its first cell is a number. */
  predicate IsProduto(row: Row)
  {
    !IsCategoria(row) && IsNumero(At(row, 0))
  }

  /** A code cell as text without its leading zeros, `''` when missing. */
  function CodeText(c: Cell): string
  {
    if c.Empty? then "" else LStripChar(CellText(c), '0')
  }

  /** A name cell as text, `''` when missing. */
  function NameText(c: Cell): string
  {
    if c.Empty? then "" else CellText(c)
  }

  /** A category row sets the category from cells 1 and 2 when the sheet
      has more than two columns, and the group from cells 4 and 5 when it
      has more than five. */
  function Enter(ctx: Contexto, row: Row, w: nat): (r: Contexto)
  {
    var c := if w > 2 then ctx.(catCodigo := CodeText(At(row, 1)), catNome := NameText(At(row, 2))) else ctx;
    if w > 5 then c.(grupoCodigo := CodeText(At(row, 4)), grupoNome := NameText(At(row, 5))) else c
  }

  /** The fields a sheet of width `w` can never set are still empty. */
  predicate Fits(ctx: Contexto, w: nat)
  {
    (w <= 2 ==> ctx.catCodigo == "" && ctx.catNome == "")
    && (w <= 5 ==> ctx.grupoCodigo == "" && ctx.grupoNome == "")
  }

  /** Within one sheet a category row sets the context on its own: what it
      leaves alone was never set. */
  lemma EnterFits(ctx: Contexto, row: Row, w: nat)
    requires Fits(ctx, w)
    ensures Fits(Enter(ctx, row, w), w)
    ensures Enter(ctx, row, w) == Enter(SemContexto, row, w)
  {
  }

  /** One emitted record: the first twelve cells stripped (`''` for a
      missing one or past the sheet's width), the context, and an empty
      buyer. */
  type Record = seq<string>

  const Width12 := 12
  const RecordWidth := 17

  function ProductCells(row: Row, w: nat): (r: seq<string>)
    ensures |r| == Width12
    ensures forall j :: 0 <= j < Width12 ==> r[j] == if j < w then TrimText(At(row, j)) else ""
  {
    seq(Width12, j requires 0 <= j < Width12 => if j < w then TrimText(At(row, j)) else "")
  }

  function Emit(row: Row, w: nat, ctx: Contexto): (r: Record)
    ensures |r| == RecordWidth
  {
    ProductCells(row, w) + [ctx.catCodigo, ctx.catNome, ctx.grupoCodigo, ctx.grupoNome, ""]
  }

  /** The loop over the rows as the program writes it: a category row
      updates the context and is not emitted, a product row is emitted with
      the context, any other row is skipped. */
  function Coletar(rows: seq<Row>, w: nat, ctx: Contexto): (r: seq<Record>)
    ensures forall k :: 0 <= k < |r| ==> |r[k]| == RecordWidth
  {
    if rows == [] then []
    else if IsCategoria(rows[0]) then Coletar(rows[1..], w, Enter(ctx, rows[0], w))
    else if IsNumero(At(rows[0], 0)) then [Emit(rows[0], w, ctx)] + Coletar(rows[1..], w, ctx)
    else Coletar(rows[1..], w, ctx)
  }

  function ContextOf(w: nat): Row -> Contexto
  {
    (row: Row) => Enter(SemContexto, row, w)
  }

  function Tag(row: Row, ctx: Contexto): (Row, Contexto)
  {
    (row, ctx)
  }

  /** Every row paired with the context in force when it is read. */
  function Tagged(rows: seq<Row>, w: nat, cur: Contexto): (r: seq<(Row, Contexto)>)
    ensures |r| == |rows|
  {
    ScanCarry(rows, IsCategoria, ContextOf(w), Tag, cur)
  }

  /** The context in force at row `i`: the one the most recent category row
      before it sets, the empty one before the first. */
  function ContextAt(rows: seq<Row>, w: nat, i: nat): Contexto
    requires i <= |rows|
  {
    CarryAt(rows, IsCategoria, ContextOf(w), SemContexto, i)
  }

  predicate ProductPair(p: (Row, Contexto))
  {
    IsProduto(p.0)
  }

  function EmitPair(w: nat): ((Row, Contexto)) -> Record
  {
    (p: (Row, Contexto)) => Emit(p.0, w, p.1)
  }

  /** The loop is the product rows, each with its context, in order. */
  lemma {:induction false} ColetarIsScan(rows: seq<Row>, w: nat, cur: Contexto)
    requires Fits(cur, w)
    ensures Coletar(rows, w, cur) == Map(Filter(Tagged(rows, w, cur), ProductPair), EmitPair(w))
  {
    if rows != [] {
      var next := if IsCategoria(rows[0]) then ContextOf(w)(rows[0]) else cur;
      var t := Tagged(rows, w, cur);
      assert t == [(rows[0], cur)] + Tagged(rows[1..], w, next);
      assert t[0] == (rows[0], cur) && t[1..] == Tagged(rows[1..], w, next);
      EnterFits(cur, rows[0], w);
      ColetarIsScan(rows[1..], w, next);
      var tail := Filter(Tagged(rows[1..], w, next), ProductPair);
      if IsProduto(rows[0]) {
        assert Filter(t, ProductPair) == [(rows[0], cur)] + tail;
        MapCons((rows[0], cur), tail, EmitPair(w));
      } else {
        assert Filter(t, ProductPair) == tail;
      }
    }
  }

  /** The records `processar` collects from a sheet. */
  function Extraidos(f: Frame): seq<Record>
  {
    Coletar(f.rows, Width(f), SemContexto)
  }

  /** `rec` is what product row `i` of the sheet emits with the context in
      force there. */
  ghost predicate EmittedBy(rows: seq<Row>, w: nat, rec: Record)
  {
    exists i :: 0 <= i < |rows| && IsProduto(rows[i]) && rec == Emit(rows[i], w, ContextAt(rows, w, i))
  }

  /** Row `i` is tagged with the context in force there. */
  lemma TaggedAt(rows: seq<Row>, w: nat)
    ensures forall i :: 0 <= i < |rows| ==> Tagged(rows, w, SemContexto)[i] == (rows[i], ContextAt(rows, w, i))
  {
    forall i | 0 <= i < |rows|
      ensures Tagged(rows, w, SemContexto)[i] == (rows[i], ContextAt(rows, w, i))
    {
      ScanCarrySpec(rows, IsCategoria, ContextOf(w), Tag, SemContexto, i);
    }
  }

  /** Every record is the image of a product row, and every product row's
      image is a record. */
  lemma {:induction false} ExtraidosImages(f: Frame)
    ensures forall k :: 0 <= k < |Extraidos(f)| ==>
              ImageOf(Tagged(f.rows, Width(f), SemContexto), ProductPair, EmitPair(Width(f)), Extraidos(f)[k])
    ensures forall j :: 0 <= j < |f.rows| && ProductPair(Tagged(f.rows, Width(f), SemContexto)[j]) ==>
              EmitPair(Width(f))(Tagged(f.rows, Width(f), SemContexto)[j]) in Extraidos(f)
  {
    var t := Tagged(f.rows, Width(f), SemContexto);
    ColetarIsScan(f.rows, Width(f), SemContexto);
    FilterMap(t, ProductPair, EmitPair(Width(f)), Extraidos(f));
  }

  /** There is one record per product row, each carrying the category and
      group of the most recent category row above it, and every product
      row has its record. */
  lemma {:induction false} ExtraidosSpec(f: Frame)
    ensures |Extraidos(f)| == Count(f.rows, IsProduto)
    ensures forall k :: 0 <= k < |Extraidos(f)| ==> EmittedBy(f.rows, Width(f), Extraidos(f)[k])
    ensures forall i :: 0 <= i < |f.rows| && IsProduto(f.rows[i]) ==>
              Emit(f.rows[i], Width(f), ContextAt(f.rows, Width(f), i)) in Extraidos(f)
  {
    ExtraidosLength(f);
    ExtraidosEmitted(f);
    ExtraidosCovers(f);
  }

  lemma {:induction false} ExtraidosLength(f: Frame)
    ensures |Extraidos(f)| == Count(f.rows, IsProduto)
  {
    var t := Tagged(f.rows, Width(f), SemContexto);
    ColetarIsScan(f.rows, Width(f), SemContexto);
    TaggedAt(f.rows, Width(f));
    FilterCount(t, ProductPair);
    CountSame(t, ProductPair, f.rows, IsProduto);
  }

  lemma {:induction false} ExtraidosEmitted(f: Frame)
    ensures forall k :: 0 <= k < |Extraidos(f)| ==> EmittedBy(f.rows, Width(f), Extraidos(f)[k])
  {
    ExtraidosImages(f);
    TaggedAt(f.rows, Width(f));
    forall k | 0 <= k < |Extraidos(f)|
      ensures EmittedBy(f.rows, Width(f), Extraidos(f)[k])
    {
      ImageEmitted(f.rows, Width(f), Extraidos(f)[k]);
    }
  }

  lemma ImageEmitted(rows: seq<Row>, w: nat, rec: Record)
    requires forall i :: 0 <= i < |rows| ==> Tagged(rows, w, SemContexto)[i] == (rows[i], ContextAt(rows, w, i))
    requires ImageOf(Tagged(rows, w, SemContexto), ProductPair, EmitPair(w), rec)
    ensures EmittedBy(rows, w, rec)
  {
    var t := Tagged(rows, w, SemContexto);
    var i :| 0 <= i < |t| && ProductPair(t[i]) && rec == EmitPair(w)(t[i]);
    assert t[i] == (rows[i], ContextAt(rows, w, i));
    assert IsProduto(rows[i]) && rec == Emit(rows[i], w, ContextAt(rows, w, i));
  }

  lemma {:induction false} ExtraidosCovers(f: Frame)
    ensures forall i :: 0 <= i < |f.rows| && IsProduto(f.rows[i]) ==>
              Emit(f.rows[i], Width(f), ContextAt(f.rows, Width(f), i)) in Extraidos(f)
  {
    var rows, w := f.rows, Width(f);
    var t := Tagged(rows, w, SemContexto);
    ExtraidosImages(f);
    TaggedAt(rows, w);
    forall i | 0 <= i < |rows| && IsProduto(rows[i])
      ensures Emit(rows[i], w, ContextAt(rows, w, i)) in Extraidos(f)
    {
      assert ProductPair(t[i]);
    }
  }

  lemma ExtraidoFrom(f: Frame, m: nat)
    requires m < |Extraidos(f)|
    ensures EmittedBy(f.rows, Width(f), Extraidos(f)[m])
  {
    ExtraidosEmitted(f);
  }

  lemma ExtraidosCount(f: Frame)
    ensures Extraidos(f) == [] <==> Count(f.rows, IsProduto) == 0
  {
    ExtraidosLength(f);
  }
  /** The column labels of the collected table, one per record slot. */
  const Labels: seq<string> := ["Codigo", "Produto", "Peças", "Qtd", "Unid", "Custo Md", "Total", "Pr. Vda",
    "Markup", "Margem", "Ult.Ent.", "Col11", "Codigo Categoria", "Categoria", "Codigo Grupo", "Grupo", "Comprador"]

  const Col11Slot := 11
  const GrupoSlot := 15
  const CompradorSlot := 16

  /** `ordem_desejada`. */
  const OrdemDesejada: seq<string> := ["Codigo", "Produto", "Categoria", "Grupo", "Comprador", "Qtd", "Unid",
    "Custo Md", "Total", "Pr. Vda", "Markup", "Margem", "Ult.Ent.", "Peças", "Codigo Categoria", "Codigo Grupo"]

  /** The slot of each label of `ordem_desejada`. */
  const OrdemSlots: seq<nat> := [0, 1, 13, 15, 16, 3, 4, 5, 6, 7, 8, 9, 10, 2, 12, 14]

  /** The slots list the labels of `ordem_desejada` in its order. */
  lemma OrdemLabels()
    ensures |OrdemSlots| == |OrdemDesejada|
    ensures forall k :: 0 <= k < |OrdemSlots| ==> Labels[OrdemSlots[k]] == OrdemDesejada[k]
  {
  }

  /** Slots converted to integers with failures as 0: the product,
      category and group codes. */
  predicate IsIntSlot(j: nat)
  {
    j == 0 || j == 12 || j == 14
  }

  /** Slots converted with `to_numeric` after a comma becomes a point. */
  predicate IsNumericSlot(j: nat)
  {
    j == 2 || j == 3 || 5 <= j <= 9
  }

  /** The slots the output shows, in order: `ordem_desejada`, then `Col11`
      when it is kept. */
  function Slots(col11: bool): (r: seq<nat>)
    ensures forall k :: 0 <= k < |r| ==> r[k] < RecordWidth
    ensures |r| == |OrdemSlots| + (if col11 then 1 else 0) && r[..|OrdemSlots|] == OrdemSlots
    ensures col11 ==> r[|OrdemSlots|] == Col11Slot
  {
    if col11 then OrdemSlots + [Col11Slot] else OrdemSlots
  }

  lemma SlotsHead(col11: bool)
    ensures Slots(col11)[0] == 0 && Slots(col11)[2] == 13
    ensures Slots(col11)[3] == GrupoSlot && Slots(col11)[4] == CompradorSlot
  {
    assert Slots(col11)[..|OrdemSlots|] == OrdemSlots;
  }

  /** Some record has text in its twelfth cell. */
  function HasCol11(recs: seq<Record>): (r: bool)
    ensures r <==> exists k :: 0 <= k < |recs| && Strip(Slot(recs[k], Col11Slot)) != ""
  {
    if recs == [] then false
    else if Strip(Slot(recs[0], Col11Slot)) != "" then true
    else
      var r := HasCol11(recs[1..]);
      assert forall k :: 1 <= k < |recs| ==> recs[k] == recs[1..][k - 1];
      r
  }

  function Slot(rec: Record, j: nat): string
  {
    if j < |rec| then rec[j] else ""
  }

  function SlotOf(j: nat): Record -> string
  {
    (rec: Record) => Slot(rec, j)
  }

  /** The cell of one converted slot, for one record. */
  function AsCode(s: string): Cell
  {
    Int(CoerceInt(Str(s)))
  }

  function PointText(s: string): string
  {
    ReplaceChar(s, ',', '.')
  }

  function BuyerCell(t: Dict<Buyer>): string -> Cell
  {
    (grupo: string) => Str(CompradorIn(t, grupo))
  }

  /** One column of the table after the conversions: the buyer column is
      looked up from the group, the codes become integers (0 for a
      failure), the numeric columns go through `to_numeric` with a point
      for the comma, and the other columns stay text. */
  /** The texts of one slot, record by record. */
  function Column(recs: seq<Record>, j: nat): (r: seq<string>)
    ensures |r| == |recs| && forall k :: 0 <= k < |recs| ==> r[k] == Slot(recs[k], j)
  {
    Map(recs, SlotOf(j))
  }

  /** `pd.to_numeric(col.astype(str).str.replace(',', '.'), errors='coerce')`. */
  function NumericColumn(col: seq<string>): (r: seq<Cell>)
    ensures |r| == |col|
    ensures forall k :: 0 <= k < |col| ==> SameNumber(r[k], ParseNumber(PointText(col[k])))
  {
    ToNumericTexts(Map(col, PointText))
  }

  function ConvertSlot(recs: seq<Record>, j: nat, t: Dict<Buyer>): (r: seq<Cell>)
    ensures |r| == |recs|
    ensures IsNumericSlot(j) ==> forall k :: 0 <= k < |recs| ==>
              SameNumber(r[k], ParseNumber(PointText(Slot(recs[k], j))))
    ensures j == CompradorSlot ==> forall k :: 0 <= k < |recs| ==> r[k] == Str(CompradorIn(t, Slot(recs[k], GrupoSlot)))
    ensures IsIntSlot(j) ==> forall k :: 0 <= k < |recs| ==> r[k] == AsCode(Slot(recs[k], j))
    ensures !IsIntSlot(j) && !IsNumericSlot(j) && j != CompradorSlot ==>
              forall k :: 0 <= k < |recs| ==> r[k] == Str(Slot(recs[k], j))
  {
    if j == CompradorSlot then Map(Column(recs, GrupoSlot), BuyerCell(t))
    else if IsIntSlot(j) then Map(Column(recs, j), AsCode)
    else if IsNumericSlot(j) then NumericColumn(Column(recs, j))
    else Map(Column(recs, j), (s: string) => Str(s))
  }

  /** Every slot converted. */
  function Converted(recs: seq<Record>, t: Dict<Buyer>): (r: seq<seq<Cell>>)
    ensures |r| == RecordWidth
    ensures forall j :: 0 <= j < RecordWidth ==> r[j] == ConvertSlot(recs, j, t)
  {
    seq(RecordWidth, j requires 0 <= j < RecordWidth => ConvertSlot(recs, j, t))
  }

  /** The converted table, row by row, before the zero codes go. */
  function Typed(recs: seq<Record>, t: Dict<Buyer>): (r: seq<Row>)
    ensures |r| == |recs|
    ensures forall k :: 0 <= k < |r| ==> |r[k]| == RecordWidth
    ensures forall k, j :: 0 <= k < |r| && 0 <= j < RecordWidth ==> r[k][j] == Converted(recs, t)[j][k]
  {
    var cols := Converted(recs, t);
    seq(|recs|, k requires 0 <= k < |recs| => seq(RecordWidth, j requires 0 <= j < RecordWidth => cols[j][k]))
  }

  /** Each converted row holds its record's code as an integer, its group
      as text, and that group's buyer. */
  lemma {:induction false} TypedRows(recs: seq<Record>, t: Dict<Buyer>)
    ensures forall k :: 0 <= k < |recs| ==> TypedRow(Typed(recs, t)[k], t)
    ensures forall k :: 0 <= k < |recs| ==> Typed(recs, t)[k][0] == AsCode(Slot(recs[k], 0))
    ensures forall k :: 0 <= k < |recs| ==> Typed(recs, t)[k][GrupoSlot] == Str(Slot(recs[k], GrupoSlot))
  {
    var cols := Converted(recs, t);
    assert IsIntSlot(0);
    assert cols[0] == ConvertSlot(recs, 0, t);
    assert cols[GrupoSlot] == ConvertSlot(recs, GrupoSlot, t);
    assert cols[CompradorSlot] == ConvertSlot(recs, CompradorSlot, t);
  }

  /** `df_final['Codigo'] != 0`. */
  predicate NonZeroCode(row: Row)
  {
    At(row, 0) != Int(0)
  }

  /** The row's cells in the order of the slots. */
  function Pick(slots: seq<nat>): Row -> Row
  {
    (row: Row) => Map(slots, (j: nat) => At(row, j))
  }

  /** A converted row: the code is an integer and the buyer is that of the
      group. */
  predicate TypedRow(row: Row, t: Dict<Buyer>)
  {
    |row| == RecordWidth && row[0].Int? && row[GrupoSlot].Str?
    && row[CompradorSlot] == Str(CompradorIn(t, row[GrupoSlot].s))
  }

  /** `processar`, with `t` as the group to buyer table. A sheet without
      columns raises on its first cell and, like a sheet without product
      rows, gives the empty table. */
  function ProcessarCom(f: Frame, t: Dict<Buyer>): (r: Frame)
    ensures Width(f) == 0 || Count(f.rows, IsProduto) == 0 ==> r == EmptyFrame
    ensures Width(f) > 0 && Count(f.rows, IsProduto) > 0 ==>
              r.cols == Map(Slots(HasCol11(Extraidos(f))), LabelOf)
    ensures forall k :: 0 <= k < |r.rows| ==> |r.rows[k]| == |r.cols| >= |OrdemSlots|
    ensures forall k :: 0 <= k < |r.rows| ==> r.rows[k][0].Int? && r.rows[k][0].i != 0
    ensures forall k :: 0 <= k < |r.rows| ==> r.rows[k][3].Str? && r.rows[k][4] == Str(CompradorIn(t, r.rows[k][3].s))
  {
    ExtraidosCount(f);
    if Width(f) == 0 then EmptyFrame
    else
      var recs := Extraidos(f);
      if recs == [] then EmptyFrame
      else
        var slots := Slots(HasCol11(recs));
        var typed := Typed(recs, t);
        TypedRows(recs, t);
        SlotsHead(HasCol11(recs));
        KeptRows(typed, slots, t);
        Frame(Map(slots, LabelOf), Map(Filter(typed, NonZeroCode), Pick(slots)))
  }

  /** `processar` with the program's buyer table. */
  function Processar(f: Frame): (r: Frame)
    ensures forall k :: 0 <= k < |r.rows| ==>
              |r.rows[k]| > 4 && r.rows[k][3].Str? && r.rows[k][4] == Str(GetComprador(r.rows[k][3].s))
  {
    ProcessarCom(f, GrupoComprador())
  }

  function LabelOf(j: nat): Cell
  {
    if j < |Labels| then Str(Labels[j]) else Empty
  }

  /** The rows that survive are converted rows with a non-zero code; shown
      in the order of the slots, the code comes first and the group and its
      buyer fourth and fifth. */
  lemma {:induction false} KeptRows(typed: seq<Row>, slots: seq<nat>, t: Dict<Buyer>)
    requires forall k :: 0 <= k < |typed| ==> TypedRow(typed[k], t)
    requires |slots| >= 5 && slots[0] == 0 && slots[3] == GrupoSlot && slots[4] == CompradorSlot
    ensures forall k :: 0 <= k < |Filter(typed, NonZeroCode)| ==>
              var row := Pick(slots)(Filter(typed, NonZeroCode)[k]);
              |row| == |slots| && row[0].Int? && row[0].i != 0
              && row[3].Str? && row[4] == Str(CompradorIn(t, row[3].s))
  {
    FilterPasses(typed, NonZeroCode);
    FilterKeeps(typed, NonZeroCode, (row: Row) => TypedRow(row, t));
  }

  /** The record's code is not 0 once converted. */
  predicate CodeNonZero(rec: Record)
  {
    CoerceInt(Str(Slot(rec, 0))) != 0
  }

  /** `row` shows product row `i` of the sheet: its code converted, and the
      category and group in force at it. */
  ghost predicate RowFromProduct(f: Frame, row: Row)
  {
    exists i :: 0 <= i < |f.rows| && IsProduto(f.rows[i]) && |row| > 3
      && row[0] == AsCode(TrimText(At(f.rows[i], 0)))
      && row[2] == Str(ContextAt(f.rows, Width(f), i).catNome)
      && row[3] == Str(ContextAt(f.rows, Width(f), i).grupoNome)
  }

  /** One output row per record whose code converts to a non-zero number. */
  lemma {:induction false} ProcessarCount(f: Frame, t: Dict<Buyer>)
    ensures |ProcessarCom(f, t).rows| == if Width(f) == 0 then 0 else Count(Extraidos(f), CodeNonZero)
  {
    var recs := Extraidos(f);
    if Width(f) > 0 && recs != [] {
      var typed := Typed(recs, t);
      ExtraidosCount(f);
      assert |ProcessarCom(f, t).rows| == |Filter(typed, NonZeroCode)|;
      TypedRows(recs, t);
      FilterCount(typed, NonZeroCode);
      CountSame(typed, NonZeroCode, recs, CodeNonZero);
    } else if Width(f) > 0 {
      assert Count(recs, CodeNonZero) == 0;
    }
  }

  /** Each output row shows a product row of the sheet, with the category
      and group of the most recent category row above it. */
  lemma {:induction false} ProcessarTrace(f: Frame, t: Dict<Buyer>)
    ensures forall k :: 0 <= k < |ProcessarCom(f, t).rows| ==> RowFromProduct(f, ProcessarCom(f, t).rows[k])
  {
    var recs := Extraidos(f);
    if Width(f) > 0 && recs != [] {
      var slots := Slots(HasCol11(recs));
      var kept := Filter(Typed(recs, t), NonZeroCode);
      ExtraidosCount(f);
      assert ProcessarCom(f, t).rows == Map(kept, Pick(slots));
      SlotsHead(HasCol11(recs));
      KeptTrace(f, t, recs, slots);
    }
  }

  lemma {:induction false} KeptTrace(f: Frame, t: Dict<Buyer>, recs: seq<Record>, slots: seq<nat>)
    requires Width(f) > 0 && recs == Extraidos(f)
    requires |slots| >= 4 && slots[0] == 0 && slots[2] == 13 && slots[3] == GrupoSlot
    ensures forall k :: 0 <= k < |Filter(Typed(recs, t), NonZeroCode)| ==>
              RowFromProduct(f, Pick(slots)(Filter(Typed(recs, t), NonZeroCode)[k]))
  {
    var typed := Typed(recs, t);
    var kept := Filter(typed, NonZeroCode);
    FilterMembers(typed, NonZeroCode);
    forall k | 0 <= k < |kept|
      ensures RowFromProduct(f, Pick(slots)(kept[k]))
    {
      var m :| 0 <= m < |typed| && typed[m] == kept[k];
      TypedAt(recs, t, m);
      TracedRow(f, recs, typed[m], slots, m);
    }
  }

  /** The converted row of record `m` holds its code, product and group. */
  lemma TypedAt(recs: seq<Record>, t: Dict<Buyer>, m: nat)
    requires m < |recs|
    ensures |Typed(recs, t)[m]| == RecordWidth
    ensures Typed(recs, t)[m][0] == AsCode(Slot(recs[m], 0))
    ensures Typed(recs, t)[m][13] == Str(Slot(recs[m], 13))
    ensures Typed(recs, t)[m][GrupoSlot] == Str(Slot(recs[m], GrupoSlot))
  {
    TypedRows(recs, t);
    TypedText(recs, t, 13);
  }

  /** The row converted from record `m` shows the product row it was
      emitted for. */
  lemma TracedRow(f: Frame, recs: seq<Record>, row: Row, slots: seq<nat>, m: nat)
    requires Width(f) > 0 && recs == Extraidos(f) && m < |recs|
    requires |row| == RecordWidth && row[0] == AsCode(Slot(recs[m], 0))
    requires row[13] == Str(Slot(recs[m], 13)) && row[GrupoSlot] == Str(Slot(recs[m], GrupoSlot))
    requires |slots| >= 4 && slots[0] == 0 && slots[2] == 13 && slots[3] == GrupoSlot
    ensures RowFromProduct(f, Pick(slots)(row))
  {
    ExtraidoFrom(f, m);
    var i :| 0 <= i < |f.rows| && IsProduto(f.rows[i])
      && recs[m] == Emit(f.rows[i], Width(f), ContextAt(f.rows, Width(f), i));
    TracedRowAt(f, recs[m], row, slots, i);
  }

  /** The same, for the record emitted at product row `i`. */
  lemma TracedRowAt(f: Frame, rec: Record, row: Row, slots: seq<nat>, i: nat)
    requires Width(f) > 0 && i < |f.rows| && IsProduto(f.rows[i])
    requires rec == Emit(f.rows[i], Width(f), ContextAt(f.rows, Width(f), i))
    requires |row| == RecordWidth && row[0] == AsCode(Slot(rec, 0))
    requires row[13] == Str(Slot(rec, 13)) && row[GrupoSlot] == Str(Slot(rec, GrupoSlot))
    requires |slots| >= 4 && slots[0] == 0 && slots[2] == 13 && slots[3] == GrupoSlot
    ensures RowFromProduct(f, Pick(slots)(row))
  {
    var ctx := ContextAt(f.rows, Width(f), i);
    EmitSlots(f.rows[i], Width(f), ctx);
    var out := Pick(slots)(row);
    PickAt(slots, row);
    assert out[0] == AsCode(TrimText(At(f.rows[i], 0)));
    assert out[2] == Str(ctx.catNome) && out[3] == Str(ctx.grupoNome);
  }

  lemma PickAt(slots: seq<nat>, row: Row)
    ensures |Pick(slots)(row)| == |slots|
    ensures forall k :: 0 <= k < |slots| ==> Pick(slots)(row)[k] == At(row, slots[k])
  {
  }

  /** A text slot is carried over as it is. */
  lemma TypedText(recs: seq<Record>, t: Dict<Buyer>, j: nat)
    requires j < RecordWidth && !IsIntSlot(j) && !IsNumericSlot(j) && j != CompradorSlot
    ensures forall m :: 0 <= m < |recs| ==> Typed(recs, t)[m][j] == Str(Slot(recs[m], j))
  {
    assert Converted(recs, t)[j] == ConvertSlot(recs, j, t);
  }

  /** Where a record keeps the code, the category and the group. */
  lemma EmitSlots(row: Row, w: nat, ctx: Contexto)
    requires w > 0
    ensures Slot(Emit(row, w, ctx), 0) == TrimText(At(row, 0))
    ensures Slot(Emit(row, w, ctx), 13) == ctx.catNome
    ensures Slot(Emit(row, w, ctx), GrupoSlot) == ctx.grupoNome
  {
  }
}

=== FILE: estoque.dfy ===
/** The stock report (`ModeloEstoque`): recognising the layout, finding the
    header row of a sheet read without one, standardising the column names
    and converting codes and stock quantities. */
module Estoque {
  import opened Wrappers
  import opened Text
  import opened Numbers
  import opened Cells
  import opened Seqs
  import Helpers

  /** A code token in a row's text: `'Código'` or `'CODIGO'`. */
  predicate HasCodeWord(t: string)
  {
    Contains(t, "Código") || Contains(t, "CODIGO")
  }

  /** The text of a header row: a code token and both stock titles. */
  predicate IsHeaderText(t: string)
  {
    HasCodeWord(t) && Contains(t, "Estoque Loja") && Contains(t, "Estoque Geral")
  }

  /** `[str(x) for x in cells if pd.notna(x)]` */
  function PresentTexts(cs: seq<Cell>): (r: seq<string>)
    ensures |r| <= |cs|
  {
    if cs == [] then []
    else (if cs[0].Empty? then [] else [CellText(cs[0])]) + PresentTexts(cs[1..])
  }

  /** `' '.join(...)` of a row's non-missing cells. */
  function RowText(row: Row, w: nat): string
  {
    Join(PresentTexts(Padded(row, w)), " ")
  }

  predicate IsHeaderRow(f: Frame, i: nat)
    requires i < |f.rows|
  {
    IsHeaderText(RowText(f.rows[i], Width(f)))
  }

  /** The scan of rows `i`, `i + 1`, ... below `min(limit, len(df))`. */
  function FindHeaderFrom(f: Frame, i: nat, limit: nat): (r: Option<nat>)
    requires i <= Min(limit, |f.rows|)
    ensures r.Some? ==> i <= r.value < Min(limit, |f.rows|) && IsHeaderRow(f, r.value)
    ensures r.Some? ==> forall k :: i <= k < r.value ==> !IsHeaderRow(f, k)
    ensures r.None? ==> forall k :: i <= k < Min(limit, |f.rows|) ==> !IsHeaderRow(f, k)
    decreases Min(limit, |f.rows|) - i
  {
    if i == Min(limit, |f.rows|) then None
    else if IsHeaderRow(f, i) then Some(i)
    else FindHeaderFrom(f, i + 1, limit)
  }

  /** `_encontrar_linha_cabecalho` with the scan bounded by `limit` rows. */
  function FindHeader(f: Frame, limit: nat): (r: Option<nat>)
    ensures r.Some? ==> r.value < limit && r.value < |f.rows| && IsHeaderRow(f, r.value)
    ensures r.Some? ==> forall k :: 0 <= k < r.value ==> !IsHeaderRow(f, k)
    ensures r.None? ==> forall k :: 0 <= k < Min(limit, |f.rows|) ==> !IsHeaderRow(f, k)
  {
    FindHeaderFrom(f, 0, limit)
  }

  /** `_encontrar_linha_cabecalho`: the first header row among the first 30. */
  function HeaderRow(f: Frame): (r: Option<nat>)
    ensures r.Some? ==> r.value < 30 && r.value < |f.rows| && IsHeaderRow(f, r.value)
    ensures r.Some? ==> forall k :: 0 <= k < r.value ==> !IsHeaderRow(f, k)
    ensures r.None? ==> forall k :: 0 <= k < 30 && k < |f.rows| ==> !IsHeaderRow(f, k)
  {
    FindHeader(f, 30)
  }

  /** `str(col).strip()` of a column label. */
  function LabelText(c: Cell): string
  {
    Strip(CellText(c))
  }

  predicate IsCodeLabel(t: string)
  {
    Contains(t, "Código") || Contains(t, "CODIGO") || Contains(t, "codigo")
  }

  /** The first test of `identificar`: the labels already name a code column
      and both stock columns. */
  predicate LabelsNameStock(cols: seq<Cell>)
  {
    (exists j :: 0 <= j < |cols| && IsCodeLabel(LabelText(cols[j])))
    && (exists j :: 0 <= j < |cols| && Contains(LabelText(cols[j]), "Estoque Loja"))
    && (exists j :: 0 <= j < |cols| && Contains(LabelText(cols[j]), "Estoque Geral"))
  }

  /** `identificar`: the labels name the stock columns, or one of the first
      ten rows is a header row. */
  function Identificar(f: Frame): (r: bool)
    ensures r <==> LabelsNameStock(f.cols)
                   || exists i :: 0 <= i < Min(10, |f.rows|) && IsHeaderRow(f, i)
  {
    LabelsNameStock(f.cols) || FindHeader(f, 10).Some?
  }

  /** `_is_numero`: a number, or a text whose first character is a digit. */
  predicate IsNumero(c: Cell)
  {
    match c
    case Empty => false
    case Int(_) => true
    case Num(_) => true
    case Str(s) =>
      var v := Strip(s);
      v != "" && v != "nan" && v != "None" && PyIsDigit(v[0])
  }

  /** The Brazilian notation rewritten for the parser: thousands points
      dropped, the decimal comma turned into a point. */
  function BrToDot(t: string): (r: string)
    ensures '.' !in t ==> r == ReplaceChar(t, ',', '.')
    ensures ',' !in r
    ensures ReplaceChar(r, '.', ',') == RemoveChar(t, '.')
  {
    if '.' !in t then
      RemoveCharAbsent(t, '.');
      ReplaceChar(RemoveChar(t, '.'), ',', '.')
    else ReplaceChar(RemoveChar(t, '.'), ',', '.')
  }

  /** `_tratar_numero_br`: total, 0 for missing, empty or unreadable text. */
  function TratarNumeroBr(c: Cell): (r: Dec)
    ensures c.Empty? || c == Str("") ==> Val(r) == 0.0
    ensures c.Int? || c.Num? ==> Val(r) == Val(CellNumber(c).value)
    ensures c.Str? && ParseNumber(BrToDot(Strip(c.s))).None? ==> Val(r) == 0.0
    ensures c.Str? && c.s != "" && ParseNumber(BrToDot(Strip(c.s))).Some? ==>
              r == ParseNumber(BrToDot(Strip(c.s))).value
  {
    ValWhole(0);
    match c
    case Empty => Dec(0, 0)
    case Int(i) => Dec(i, 0)
    case Num(d) => d
    case Str(s) =>
      if s == "" then Dec(0, 0)
      else ParseNumber(BrToDot(Strip(s))).GetOr(Dec(0, 0))
  }

  /** A Brazilian number, digits grouped with `.` and a decimal comma,
      reads back as the number its digits write. */
  lemma {:induction false} TratarNumeroBrLe(sg: string, ip: string, fr: string)
    requires sg == "-" || sg == ""
    requires |ip| > 0 && AllDigits(ip) && AllDigits(fr)
    ensures AllDigits(ip + fr)
    ensures TratarNumeroBr(Str(sg + Helpers.Agrupar(ip, '.') + "," + fr))
            == Dec(if sg == "-" then -(DigitsValue(ip + fr) as int) else DigitsValue(ip + fr), |fr|)
  {
    var g := Helpers.Agrupar(ip, '.');
    var s := sg + g + "," + fr;
    assert AllDigits(ip + fr) by {
      assert forall i :: 0 <= i < |ip + fr| ==> (ip + fr)[i] == if i < |ip| then ip[i] else fr[i - |ip|];
    }
    var v := Dec(if sg == "-" then -(DigitsValue(ip + fr) as int) else DigitsValue(ip + fr), |fr|);
    Helpers.AgruparDigitos(ip, '.');
    forall i | 0 <= i < |s|
      ensures !IsSpace(s[i])
    {
      if |sg| <= i < |sg| + |g| {
        assert s[i] == g[i - |sg|];
      } else if i >= |sg| + |g| + 1 {
        assert s[i] == fr[i - |sg| - |g| - 1];
      }
    }
    StripNoSpace(s);
    Helpers.SemMilhar(sg, ip, fr);
    Helpers.VirgulaPonto(sg, ip, fr);
    ParseFixed(sg + (ip + "." + fr), sg, ip, fr, v);
    assert BrToDot(s) == sg + (ip + "." + fr);
  }

  /** The one-, two- and three-decimal renderings of `formatar_br` read
      back as the value rounded to their number of decimals. */
  lemma {:induction false} TratarNumeroBrFormatado(d: Dec, t: Helpers.Tipo)
    requires t == Helpers.Decimal3 || t == Helpers.Decimal2 || t == Helpers.Decimal1
    ensures TratarNumeroBr(Str(Helpers.FormatarNumero(d, t))) == Helpers.Arredondado(Val(d), Helpers.Casas(t))
  {
    var x, n := Val(d), Helpers.Casas(t);
    Helpers.PartesFixo(x, n);
    var sg, ip, fr := Helpers.Sinal(x), Helpers.Inteira(x, n), Helpers.Fracao(x, n);
    Helpers.TrocarDigitos(sg, ip, fr);
    assert Helpers.FormatarNumero(d, t) == sg + Helpers.Agrupar(ip, '.') + "," + fr;
    TratarNumeroBrLe(sg, ip, fr);
  }

  /** `"1.234,5"` reads as 1234.5. */
  lemma {:induction false} TratarNumeroBrExemplo(ip: string, fr: string)
    requires ip == "1234" && fr == "5"
    ensures Helpers.Agrupar(ip, '.') + "," + fr == "1.234,5"
    ensures Val(TratarNumeroBr(Str(Helpers.Agrupar(ip, '.') + "," + fr))) == 1234.5
    ensures Val(TratarNumeroBr(Str("1.234,5"))) == 1234.5
  {
    DozeMilTrezentos(ip, fr);
    MilAgrupado(ip, fr);
    TratarNumeroBrLe("", ip, fr);
  }

  lemma MilAgrupado(ip: string, fr: string)
    requires ip == "1234" && fr == "5"
    ensures Helpers.Agrupar(ip, '.') + "," + fr == "1.234,5"
    ensures "" + Helpers.Agrupar(ip, '.') + "," + fr == Helpers.Agrupar(ip, '.') + "," + fr
  {
    assert ip[..1] == "1" && ip[1..] == "234";
    assert Helpers.Agrupar(ip, '.') == "1.234";
  }

  lemma DozeMilTrezentos(ip: string, fr: string)
    requires ip == "1234" && fr == "5"
    ensures |ip| > 0 && AllDigits(ip) && AllDigits(fr)
    ensures AllDigits(ip + fr) && DigitsValue(ip + fr) == 12345
    ensures Val(Dec(12345, 1)) == 1234.5
  {
    assert Pow10(1) == 10;
    assert ip + fr == "12345";
    assert "12345"[..4] == "1234" && "1234"[..3] == "123" && "123"[..2] == "12" && "12"[..1] == "1";
  }

  /** The rule table of `_padronizar_nome_coluna`, in the order the rules
      are tried: a name holding any of rule `i`'s tokens gets its new name. */
  const RuleCount := 19

  function RuleTokens(i: nat): seq<string>
  {
    match i
    case 0 => ["Código", "CODIGO"]
    case 1 => ["Descrição"]
    case 2 => ["Abreviação"]
    case 3 => ["Estoque Loja"]
    case 4 => ["Estoque Geral"]
    case 5 => ["Unid"]
    case 6 => ["Marca"]
    case 7 => ["Modelo"]
    case 8 => ["NCM"]
    case 9 => ["Referência"]
    case 10 => ["Classificação"]
    case 11 => ["Categoria"]
    case 12 => ["Grupo"]
    case 13 => ["Sub-grupo"]
    case 14 => ["Fornec/Razão Social"]
    case 15 => ["Fornec/Nome Fantasia"]
    case 16 => ["Linha"]
    case 17 => ["Especie", "Espécie"]
    case _ => ["LOJA", "Loja"]
  }

  function RuleName(i: nat): string
  {
    match i
    case 0 => "Codigo"
    case 1 => "Descricao"
    case 2 => "Abreviacao"
    case 3 => "Estoque_Loja"
    case 4 => "Estoque_Geral"
    case 5 => "Unid"
    case 6 => "Marca"
    case 7 => "Modelo"
    case 8 => "NCM"
    case 9 => "Referencia"
    case 10 => "Classificacao"
    case 11 => "Categoria"
    case 12 => "Grupo"
    case 13 => "Sub_Grupo"
    case 14 => "Fornecedor_Razao"
    case 15 => "Fornecedor_Fantasia"
    case 16 => "Linha"
    case 17 => "Especie"
    case _ => "Loja"
  }

  predicate HasAnyToken(nome: string, tokens: seq<string>)
  {
    exists k :: 0 <= k < |tokens| && Contains(nome, tokens[k])
  }

  /** No new name of the table holds a space or a slash. */
  lemma {:induction false} RuleNamesClean(i: nat)
    ensures ' ' !in RuleName(i) && '/' !in RuleName(i)
  {
    if i < 5 {
      RuleNamesClean0(i);
    } else if i < 10 {
      RuleNamesClean5(i);
    } else if i < 14 {
      RuleNamesClean10(i);
    } else if i == 14 {
      assert RuleName(14) == "Fornecedor_Razao";
    } else {
      RuleNamesClean15(i);
    }
  }

  lemma {:induction false} RuleNamesClean0(i: nat)
    requires i < 5
    ensures ' ' !in RuleName(i) && '/' !in RuleName(i)
  {
    match i
    case 0 => case 1 => case 2 => case 3 => case _ =>
  }

  lemma {:induction false} RuleNamesClean5(i: nat)
    requires 5 <= i < 10
    ensures ' ' !in RuleName(i) && '/' !in RuleName(i)
  {
    match i
    case 5 => case 6 => case 7 => case 8 => case _ =>
  }

  lemma {:induction false} RuleNamesClean10(i: nat)
    requires 10 <= i < 14
    ensures ' ' !in RuleName(i) && '/' !in RuleName(i)
  {
    match i
    case 10 => case 11 => case 12 => case _ =>
  }

  lemma {:induction false} RuleNamesClean15(i: nat)
    requires 15 <= i
    ensures ' ' !in RuleName(i) && '/' !in RuleName(i)
  {
    match i
    case 15 => case 16 => case 17 => case _ =>
  }

  /** Whether rule `k` applies to the name. */
  function RuleHit(nome: string): nat -> bool
  {
    (k: nat) => HasAnyToken(nome, RuleTokens(k))
  }

  /** The first rule from position `i` on whose tokens occur in the name. */
  function FirstRule(nome: string, i: nat): (r: Option<nat>)
    requires i <= RuleCount
  {
    FirstFrom(RuleHit(nome), i, RuleCount)
  }

  /** `_padronizar_nome_coluna` on a stripped name: the first rule whose
      token occurs wins; otherwise spaces and slashes become underscores. */
  function Padronizar(nome: string): (r: string)
    ensures ' ' !in r && '/' !in r
    ensures (forall k :: 0 <= k < RuleCount ==> !HasAnyToken(nome, RuleTokens(k)))
            ==> r == ReplaceChar(ReplaceChar(nome, ' ', '_'), '/', '_')
  {
    FirstFromSpec(RuleHit(nome), 0, RuleCount);
    match FirstRule(nome, 0)
    case Some(i) =>
      RuleNamesClean(i);
      RuleName(i)
    case None => ReplaceChar(ReplaceChar(nome, ' ', '_'), '/', '_')
  }

  /** The earliest rule that applies decides the new name. */
  lemma {:induction false} PadronizarRule(nome: string, k: nat)
    requires k < RuleCount && HasAnyToken(nome, RuleTokens(k))
    requires forall j :: 0 <= j < k ==> !HasAnyToken(nome, RuleTokens(j))
    ensures Padronizar(nome) == RuleName(k)
  {
    var p := RuleHit(nome);
    FirstFromSpec(p, 0, RuleCount);
    assert p(k);
    var i := FirstFrom(p, 0, RuleCount).value;
    assert p(i);
    assert !(i < k);
    assert !(k < i);
    assert FirstRule(nome, 0) == Some(k);
  }

  /** A rule each of whose tokens holds a character the name lacks does not
      apply to it. */
  lemma {:induction false} Miss(nome: string, i: nat, c: char)
    requires c !in nome && forall k :: 0 <= k < |RuleTokens(i)| ==> c in RuleTokens(i)[k]
    ensures !HasAnyToken(nome, RuleTokens(i))
  {
    var t := RuleTokens(i);
    forall k | 0 <= k < |t|
      ensures !Contains(nome, t[k])
    {
      NotContainsChar(nome, t[k], c);
    }
  }

  /** The store stock title is renamed by its own rule. */
  lemma {:induction false} PadronizarStoreStockLabel(a: string)
    requires a == "Estoque Loja"
    ensures Padronizar(a) == RuleName(3) == "Estoque_Loja"
  {
    EstoqueLojaLabelMisses(a);
    ContainsAt(a, RuleTokens(3)[0], 0);
    PadronizarRule(a, 3);
  }

  /** Rules 0 to 2 apply neither to the store stock title nor to its
      standardised name. */
  lemma {:induction false} EstoqueLojaLabelMisses(a: string)
    requires a == "Estoque Loja" || a == "Estoque_Loja"
    ensures forall j :: 0 <= j < 3 ==> !HasAnyToken(a, RuleTokens(j))
  {
    Miss(a, 0, 'C');
    Miss(a, 1, 'D');
    Miss(a, 2, 'A');
  }

  /** Rules 3 to 17 do not apply to the standardised store stock name, a
      few at a time: each holds a character the name lacks in every token. */
  lemma {:induction false} EstoqueLojaMisses3(nome: string)
    requires nome == "Estoque_Loja"
    ensures forall j :: 3 <= j < 6 ==> !HasAnyToken(nome, RuleTokens(j))
  {
    Miss(nome, 3, ' ');
    Miss(nome, 4, ' ');
    Miss(nome, 5, 'U');
  }

  lemma {:induction false} EstoqueLojaMisses6(nome: string)
    requires nome == "Estoque_Loja"
    ensures forall j :: 6 <= j < 9 ==> !HasAnyToken(nome, RuleTokens(j))
  {
    Miss(nome, 6, 'M');
    Miss(nome, 7, 'M');
    Miss(nome, 8, 'N');
  }

  lemma {:induction false} EstoqueLojaMisses9(nome: string)
    requires nome == "Estoque_Loja"
    ensures forall j :: 9 <= j < 12 ==> !HasAnyToken(nome, RuleTokens(j))
  {
    Miss(nome, 9, 'R');
    Miss(nome, 10, 'C');
    Miss(nome, 11, 'C');
  }

  lemma {:induction false} EstoqueLojaMisses12(nome: string)
    requires nome == "Estoque_Loja"
    ensures forall j :: 12 <= j < 14 ==> !HasAnyToken(nome, RuleTokens(j))
  {
    Miss(nome, 12, 'G');
    Miss(nome, 13, 'S');
  }

  lemma {:induction false} EstoqueLojaMisses14(nome: string)
    requires nome == "Estoque_Loja"
    ensures forall j :: 14 <= j < 16 ==> !HasAnyToken(nome, RuleTokens(j))
  {
    Miss(nome, 14, 'F');
    Miss(nome, 15, 'F');
  }

  lemma {:induction false} EstoqueLojaMisses16(nome: string)
    requires nome == "Estoque_Loja"
    ensures forall j :: 16 <= j < 18 ==> !HasAnyToken(nome, RuleTokens(j))
  {
    Miss(nome, 16, 'n');
    Miss(nome, 17, 'p');
  }

  lemma {:induction false} EstoqueLojaMissesAll(nome: string)
    requires nome == "Estoque_Loja"
    ensures forall j :: 0 <= j < 18 ==> !HasAnyToken(nome, RuleTokens(j))
  {
    EstoqueLojaLabelMisses(nome);
    EstoqueLojaMisses3(nome);
    EstoqueLojaMisses6(nome);
    EstoqueLojaMisses9(nome);
    EstoqueLojaMisses12(nome);
    EstoqueLojaMisses14(nome);
    EstoqueLojaMisses16(nome);
  }

  /** Rule 18, the `Loja` rule, applies to the standardised store stock name. */
  lemma {:induction false} EstoqueLojaHitsLoja()
    ensures HasAnyToken("Estoque_Loja", RuleTokens(18))
  {
    assert RuleTokens(18)[1] == "Loja";
    assert "Estoque_Loja"[8..12] == "Loja";
    ContainsAt("Estoque_Loja", "Loja", 8);
  }

  /** The `Loja` rule renames the standardised store stock name. */
  lemma {:induction false} PadronizarStoreStock(nome: string)
    requires nome == "Estoque_Loja"
    ensures Padronizar(nome) == RuleName(18) == "Loja"
  {
    EstoqueLojaMissesAll(nome);
    EstoqueLojaHitsLoja();
    PadronizarRule(nome, 18);
  }

  /** Standardising twice is not standardising once: the store stock column
      becomes `Estoque_Loja`, which the `Loja` rule then renames. */
  lemma {:induction false} PadronizarNotIdempotent()
    ensures Padronizar(Padronizar("Estoque Loja")) == "Loja" != Padronizar("Estoque Loja")
  {
    var nome := "Estoque Loja";
    PadronizarStoreStockLabel(nome);
    var e := Padronizar(nome);
    PadronizarStoreStock(e);
  }

  /** The new label of a column. */
  function NovoNome(col: Cell): string
  {
    Padronizar(LabelText(col))
  }

  /** `_extrair_colunas_do_cabecalho`: the header row's texts, `Col<j>` for
      a missing cell. */
  function HeaderLabels(row: Row, w: nat): (r: seq<Cell>)
    ensures |r| == w
    ensures forall j :: 0 <= j < w && At(row, j).Empty? ==> r[j] == Str("Col" + NatText(j))
    ensures forall j :: 0 <= j < w && !At(row, j).Empty? ==> r[j] == Str(LabelText(At(row, j)))
  {
    seq(w, j requires 0 <= j < w =>
      if At(row, j).Empty? then Str("Col" + NatText(j)) else Str(LabelText(At(row, j))))
  }

  /** A data row of a sheet without header: its first cell looks like a code. */
  predicate IsDataRow(row: Row)
  {
    IsNumero(At(row, 0))
  }

  /** A data row as the headerless path copies it: each cell as stripped
      text, `""` for a missing one, padded to the header width. */
  function TextRow(row: Row, w: nat): (r: Row)
    ensures |r| == w
    ensures forall j :: 0 <= j < w ==> r[j] == Str(TrimText(At(row, j)))
    ensures forall j :: 0 <= j < w && At(row, j).Empty? ==> r[j] == Str("")
  {
    seq(w, j requires 0 <= j < w => Str(TrimText(At(row, j))))
  }

  /** The rows below row `h`. */
  function Below(f: Frame, h: nat): seq<Row>
    requires h < |f.rows|
  {
    f.rows[h + 1..]
  }

  /** A row as text in a table of width `w`. */
  function TextOf(w: nat): Row -> Row
  {
    (row: Row) => TextRow(row, w)
  }

  /** The table rebuilt from the header found at row `h`: every row is the
      text of a data row below the header, and every data row below the
      header is there. */
  function Headerless(f: Frame, h: nat): (r: Frame)
    requires h < |f.rows|
    ensures r.cols == HeaderLabels(f.rows[h], Width(f))
    ensures Width(r) == Width(f)
    ensures |r.rows| < |f.rows|
    ensures forall k :: 0 <= k < |r.rows| ==> |r.rows[k]| == Width(f)
    ensures forall k :: 0 <= k < |r.rows| ==> ImageOf(Below(f, h), IsDataRow, TextOf(Width(f)), r.rows[k])
    ensures forall j :: 0 <= j < |Below(f, h)| && IsDataRow(Below(f, h)[j]) ==> TextRow(Below(f, h)[j], Width(f)) in r.rows
  {
    var w := Width(f);
    var kept := Filter(Below(f, h), IsDataRow);
    var rows := seq(|kept|, k requires 0 <= k < |kept| => TextRow(kept[k], w));
    FilterMap(Below(f, h), IsDataRow, TextOf(w), rows);
    var r := Frame(HeaderLabels(f.rows[h], w), rows);
    assert r.rows == rows;
    r
  }

  /** A cell after the conversions of `processar`: codes to integers, stock
      quantities through `_tratar_numero_br`. */
  function ConvertCell(col: Cell, c: Cell): (r: Cell)
    ensures col == Str("Codigo") ==> r == Int(CoerceInt(c))
    ensures col == Str("Estoque_Loja") || col == Str("Estoque_Geral") ==> r == Num(TratarNumeroBr(c))
    ensures col !in {Str("Codigo"), Str("Estoque_Loja"), Str("Estoque_Geral")} ==> r == c
  {
    if col == Str("Codigo") then Int(CoerceInt(c))
    else if col == Str("Estoque_Loja") || col == Str("Estoque_Geral") then Num(TratarNumeroBr(c))
    else c
  }

  function ConvertRow(cols: seq<Cell>, row: Row): (r: Row)
    ensures |r| == |cols|
    ensures forall j :: 0 <= j < |cols| ==> r[j] == ConvertCell(cols[j], At(row, j))
  {
    seq(|cols|, j requires 0 <= j < |cols| => ConvertCell(cols[j], At(row, j)))
  }

  /** The renamed labels: each is `_padronizar_nome_coluna` of its label. */
  function RenameCols(cols: seq<Cell>): (r: seq<Cell>)
    ensures |r| == |cols|
    ensures forall j :: 0 <= j < |r| ==> r[j] == Str(Padronizar(LabelText(cols[j])))
    ensures forall j :: 0 <= j < |r| ==> r[j].Str? && ' ' !in r[j].s && '/' !in r[j].s
  {
    seq(|cols|, j requires 0 <= j < |cols| => Str(NovoNome(cols[j])))
  }

  /** The new label of a column, as a cell. */
  function NovoRotulo(): Cell -> Cell
  {
    (col: Cell) => Str(NovoNome(col))
  }

  /** `novos_nomes`, filled label by label: a label whose new label `novo`
      gives differs from it is mapped to that label. */
  function NovosNomes(cols: seq<Cell>, novo: Cell -> Cell): (r: map<Cell, Cell>)
    ensures forall c :: c in r <==> c in cols && novo(c) != c
    ensures forall c :: c in r ==> r[c] == novo(c)
  {
    if cols == [] then map[]
    else
      var m := NovosNomes(cols[..|cols| - 1], novo);
      var col := cols[|cols| - 1];
      assert cols == cols[..|cols| - 1] + [col];
      if novo(col) != col then m[col := novo(col)] else m
  }

  /** `df.rename(columns=novos)`: a label with an entry takes it, the others
      stay. */
  function Renomear(cols: seq<Cell>, novos: map<Cell, Cell>): (r: seq<Cell>)
    ensures |r| == |cols|
  {
    seq(|cols|, j requires 0 <= j < |cols| => if cols[j] in novos then novos[cols[j]] else cols[j])
  }

  /** Renaming through the dictionary the loop builds gives every column
      its standard name: a label left out of the dictionary already is it. */
  lemma {:induction false} RenomearNovosNomes(cols: seq<Cell>)
    ensures Renomear(cols, NovosNomes(cols, NovoRotulo())) == RenameCols(cols)
  {
    RenomearCom(cols, NovoRotulo());
    RenameColsRotulos(cols);
  }

  /** Every label under `novo`, in order. */
  function Rotulos(cols: seq<Cell>, novo: Cell -> Cell): (r: seq<Cell>)
    ensures |r| == |cols|
  {
    seq(|cols|, j requires 0 <= j < |cols| => novo(cols[j]))
  }

  lemma RenameColsRotulos(cols: seq<Cell>)
    ensures RenameCols(cols) == Rotulos(cols, NovoRotulo())
  {
    assert forall j :: 0 <= j < |cols| ==> RenameCols(cols)[j] == NovoRotulo()(cols[j]);
  }

  /** Renaming through the dictionary of the labels `novo` changes gives
      every column its label under `novo`. */
  lemma RenomearCom(cols: seq<Cell>, novo: Cell -> Cell)
    ensures Renomear(cols, NovosNomes(cols, novo)) == Rotulos(cols, novo)
  {
    var novos := NovosNomes(cols, novo);
    forall j | 0 <= j < |cols|
      ensures Renomear(cols, novos)[j] == novo(cols[j])
    {
      assert cols[j] in cols;
    }
  }

  /** The mask `df['Codigo'] != 0` with the code in column `j`. */
  function KeepCode(j: nat): Row -> bool
  {
    (row: Row) => At(row, j) != Int(0)
  }

  /** `df[df['Codigo'] != 0]` over rows of width `w` whose code cell is an
      integer. */
  function DropZeroCodes(rows: seq<Row>, j: nat, w: nat): (r: seq<Row>)
    requires forall k :: 0 <= k < |rows| ==> |rows[k]| == w && j < w && rows[k][j].Int?
    ensures |r| <= |rows|
    ensures IsSubseq(r, rows)
    ensures forall k :: 0 <= k < |r| ==> |r[k]| == w && j < w && r[k][j].Int? && r[k][j].i != 0
    ensures forall k :: 0 <= k < |rows| && rows[k][j] != Int(0) ==> rows[k] in r
  {
    var r := Filter(rows, KeepCode(j));
    FilterIsSubseq(rows, KeepCode(j));
    FilterPasses(rows, KeepCode(j));
    FilterKeeps(rows, KeepCode(j), (row: Row) => |row| == w && j < w && row[j].Int?);
    forall k | 0 <= k < |rows| && rows[k][j] != Int(0)
      ensures rows[k] in r
    {
      FilterContains(rows, KeepCode(j), k);
    }
    r
  }

  function ConvertRows(cols: seq<Cell>, rows: seq<Row>): (r: seq<Row>)
    ensures |r| == |rows|
    ensures forall k :: 0 <= k < |r| ==> r[k] == ConvertRow(cols, rows[k])
  {
    seq(|rows|, i requires 0 <= i < |rows| => ConvertRow(cols, rows[i]))
  }

  /** Rows whose code cell is a non-zero integer read back non-zero codes. */
  lemma {:induction false} CodesNonZero(cols: seq<Cell>, rows: seq<Row>, j: nat)
    requires ColIndex(cols, "Codigo") == Some(j)
    requires forall k :: 0 <= k < |rows| ==> j < |rows[k]| && rows[k][j].Int? && rows[k][j].i != 0
    ensures forall k :: 0 <= k < |rows| ==>
      Get(Frame(cols, rows), rows[k], "Codigo").Int? && Get(Frame(cols, rows), rows[k], "Codigo").i != 0
  {
    forall k | 0 <= k < |rows|
      ensures Get(Frame(cols, rows), rows[k], "Codigo") == rows[k][j]
    {
    }
  }

  /** Conversion followed by the removal of code 0, the codes being in
      column `j`. */
  function ConvertAndDrop(cols: seq<Cell>, rows: seq<Row>, j: nat): (r: seq<Row>)
    requires ColIndex(cols, "Codigo") == Some(j)
    ensures |r| <= |rows|
    ensures forall k :: 0 <= k < |r| ==> |r[k]| == |cols|
    ensures forall k :: 0 <= k < |r| ==>
      Get(Frame(cols, r), r[k], "Codigo").Int? && Get(Frame(cols, r), r[k], "Codigo").i != 0
  {
    var converted := ConvertRows(cols, rows);
    assert forall k :: 0 <= k < |converted| ==> converted[k][j] == Int(CoerceInt(At(rows[k], j)));
    var kept := DropZeroCodes(converted, j, |cols|);
    CodesNonZero(cols, kept, j);
    kept
  }

  /** Two columns carry a label that is converted: `df[col]` then selects a
      table. `pd.to_numeric` raises on a table of codes; on a table of
      stocks `_tratar_numero_br` swallows its own error and yields one 0.0
      per column, a series indexed by the repeated label, whose assignment
      back raises. */
  predicate LabelRepetido(cols: seq<Cell>)
  {
    CountLabel(cols, "Codigo") > 1 || CountLabel(cols, "Estoque_Loja") > 1 || CountLabel(cols, "Estoque_Geral") > 1
  }

  /** Renaming, conversion and the removal of code 0. A repeated converted
      label makes the conversion raise, which gives the empty table. */
  function Standardize(base: Frame): (r: Frame)
    ensures r == EmptyFrame || r.cols == RenameCols(base.cols)
    ensures LabelRepetido(RenameCols(base.cols)) ==> r == EmptyFrame
    ensures ColIndex(RenameCols(base.cols), "Codigo").None? && !LabelRepetido(RenameCols(base.cols)) ==>
              r.cols == RenameCols(base.cols) && r.rows == ConvertRows(r.cols, base.rows)
    ensures ColIndex(RenameCols(base.cols), "Codigo").Some? && !LabelRepetido(RenameCols(base.cols)) ==>
              r.cols == RenameCols(base.cols)
              && r.rows == Filter(ConvertRows(r.cols, base.rows), KeepCode(ColIndex(RenameCols(base.cols), "Codigo").value))
    ensures forall k :: 0 <= k < |r.rows| ==> |r.rows[k]| == |r.cols|
    ensures |r.rows| <= |base.rows|
    ensures HasCol(r, "Codigo") ==> forall k :: 0 <= k < |r.rows| ==>
      Get(r, r.rows[k], "Codigo").Int? && Get(r, r.rows[k], "Codigo").i != 0
  {
    var cols := RenameCols(base.cols);
    if LabelRepetido(cols) then EmptyFrame
    else match ColIndex(cols, "Codigo")
      case None => Frame(cols, ConvertRows(cols, base.rows))
      case Some(j) => Frame(cols, ConvertAndDrop(cols, base.rows, j))
  }

  /** A row whose code cell coerces to a non-zero integer. */
  function CodigoNaoZero(j: nat): Row -> bool
  {
    (row: Row) => CoerceInt(At(row, j)) != 0
  }

  function Converter(cols: seq<Cell>): Row -> Row
  {
    (row: Row) => ConvertRow(cols, row)
  }

  /** With one `Codigo` column, the standardised rows are the conversions
      of exactly the rows whose code coerces to a non-zero integer, in
      their order. */
  lemma {:induction false} StandardizeKeeps(base: Frame)
    requires ColIndex(RenameCols(base.cols), "Codigo").Some?
    requires !LabelRepetido(RenameCols(base.cols))
    ensures var r := Standardize(base);
            var j := ColIndex(RenameCols(base.cols), "Codigo").value;
            r.rows == Map(Filter(base.rows, CodigoNaoZero(j)), Converter(r.cols))
            && (forall k :: 0 <= k < |r.rows| ==> ImageOf(base.rows, CodigoNaoZero(j), Converter(r.cols), r.rows[k]))
            && (forall i :: 0 <= i < |base.rows| && CodigoNaoZero(j)(base.rows[i]) ==> ConvertRow(r.cols, base.rows[i]) in r.rows)
  {
    var cols := RenameCols(base.cols);
    var j := ColIndex(cols, "Codigo").value;
    var r := Standardize(base);
    assert r.cols == cols && r.rows == Filter(ConvertRows(cols, base.rows), KeepCode(j));
    ConvertKeeps(cols, j, base.rows);
    FilterMap(base.rows, CodigoNaoZero(j), Converter(cols), r.rows);
  }

  /** The converted rows whose code is not 0 are the conversions of the
      rows whose code coerces to a non-zero integer. */
  lemma {:induction false} ConvertKeeps(cols: seq<Cell>, j: nat, rows: seq<Row>)
    requires ColIndex(cols, "Codigo") == Some(j)
    ensures Filter(ConvertRows(cols, rows), KeepCode(j)) == Map(Filter(rows, CodigoNaoZero(j)), Converter(cols))
  {
    var g := Converter(cols);
    assert ConvertRows(cols, rows) == Map(rows, g);
    forall i | 0 <= i < |rows|
      ensures CodigoNaoZero(j)(rows[i]) == KeepCode(j)(g(rows[i]))
    {
      assert ConvertRow(cols, rows[i])[j] == Int(CoerceInt(At(rows[i], j)));
    }
    FilterOfMap(rows, g, KeepCode(j), CodigoNaoZero(j));
  }

  /** `tem_cabecalho`: one of the first five labels holds `'Código'`. */
  predicate HasCodeLabelUpFront(f: Frame)
  {
    exists j :: 0 <= j < Min(5, |f.cols|) && Contains(CellText(f.cols[j]), "Código")
  }

  /** `processar`: the table as read when one of its first five labels
      holds `'Código'`, else the table rebuilt below the header row; no
      header row gives the empty table. */
  function Processar(f: Frame): (r: Frame)
    ensures !HasCodeLabelUpFront(f) && HeaderRow(f).None? ==> r == EmptyFrame
    ensures HasCodeLabelUpFront(f) && !LabelRepetido(RenameCols(f.cols)) ==>
              r.cols == RenameCols(f.cols)
    ensures HasCodeLabelUpFront(f) && LabelRepetido(RenameCols(f.cols)) ==> r == EmptyFrame
    ensures !HasCodeLabelUpFront(f) && HeaderRow(f).Some?
            && !LabelRepetido(RenameCols(HeaderLabels(f.rows[HeaderRow(f).value], Width(f)))) ==>
              r.cols == RenameCols(HeaderLabels(f.rows[HeaderRow(f).value], Width(f)))
    ensures !HasCodeLabelUpFront(f) && HeaderRow(f).Some?
            && LabelRepetido(RenameCols(HeaderLabels(f.rows[HeaderRow(f).value], Width(f)))) ==>
              r == EmptyFrame
    ensures forall k :: 0 <= k < |r.rows| ==> |r.rows[k]| == |r.cols|
    ensures HasCol(r, "Codigo") ==> forall k :: 0 <= k < |r.rows| ==>
      Get(r, r.rows[k], "Codigo").Int? && Get(r, r.rows[k], "Codigo").i != 0
    ensures |r.rows| <= |f.rows|
  {
    if HasCodeLabelUpFront(f) then Standardize(f)
    else match HeaderRow(f)
      case None => EmptyFrame
      case Some(h) =>
        Standardize(Headerless(f, h))
  }

  /** The table the standardisation starts from: the sheet as read, the
      table rebuilt below the header row, or none without a header row. */
  function Lida(f: Frame): (r: Option<Frame>)
    ensures HasCodeLabelUpFront(f) ==> r == Some(f)
    ensures !HasCodeLabelUpFront(f) && HeaderRow(f).None? ==> r.None?
    ensures !HasCodeLabelUpFront(f) && HeaderRow(f).Some? ==> r == Some(Headerless(f, HeaderRow(f).value))
  {
    if HasCodeLabelUpFront(f) then Some(f)
    else match HeaderRow(f)
      case None => None
      case Some(h) => Some(Headerless(f, h))
  }

  /** A row of the processed table is the conversion of a row of the table
      read whose code coerces to a non-zero integer, and every such row is
      there: in the sheet as read when a label up front names the code,
      else among the texts of the data rows below the header. */
  lemma {:induction false} ProcessarKeeps(f: Frame)
    requires Lida(f).Some?
    requires ColIndex(RenameCols(Lida(f).value.cols), "Codigo").Some?
    requires !LabelRepetido(RenameCols(Lida(f).value.cols))
    ensures var base := Lida(f).value;
            var r := Processar(f);
            var j := ColIndex(RenameCols(base.cols), "Codigo").value;
            r.cols == RenameCols(base.cols)
            && (forall k :: 0 <= k < |r.rows| ==> ImageOf(base.rows, CodigoNaoZero(j), Converter(r.cols), r.rows[k]))
            && (forall i :: 0 <= i < |base.rows| && CodigoNaoZero(j)(base.rows[i]) ==> ConvertRow(r.cols, base.rows[i]) in r.rows)
  {
    assert Processar(f) == Standardize(Lida(f).value);
    StandardizeKeeps(Lida(f).value);
  }
}

=== FILE: filtro_lojas.dfy ===
/** The store filter window (`JanelaFiltro`): the available stores sorted,
    one tick per store (all ticked at first), and three macro buttons that
    tick or untick the EMPÓRIO stores, the MERCEARIA stores, or every other
    store. OK hands the ticked stores, in sorted order, to the caller. The
    widgets and button colours are not modelled. */
module FiltroLojas {
  import opened Seqs

  /** `MACROS['emporio']`. */
  const Emporio: seq<string> := ["PONTA D AREIA", "CALHAU", "PENINSULA PTA AREIA", "COHAMA",
                                 "EMPORIO FRIBAL TERESINA", "EMPORIO IMPERATRIZ", "TURU"]

  /** `MACROS['mercearia']`. */
  const Mercearia: seq<string> := ["CURVA DO 90", "MERCEARIA SANTA INES", "MERCEARIA MAIOBAO"]

  /** No store belongs to both macros. */
  lemma MacrosDisjuntos()
    ensures forall s :: s in Emporio ==> s !in Mercearia
  {
    forall s | s in Emporio
      ensures s !in Mercearia
    {
      assert |Mercearia[0]| == 11 && |Mercearia[1]| == 20 && |Mercearia[2]| == 17;
      assert |s| in {13, 6, 19, 23, 18, 4};
    }
  }

  // ---------------------------------------------------------------------
  // Python's `sorted` on strings: code-point lexicographic order
  // ---------------------------------------------------------------------

  /** `a <= b` for Python strings. */
  predicate LexLe(a: string, b: string)
    decreases |a|
  {
    a == [] || (b != [] && (a[0] < b[0] || (a[0] == b[0] && LexLe(a[1..], b[1..]))))
  }

  lemma {:induction false} LexRefl(a: string)
    ensures LexLe(a, a)
    decreases |a|
  {
    if a != [] {
      LexRefl(a[1..]);
    }
  }

  lemma {:induction false} LexTotal(a: string, b: string)
    ensures LexLe(a, b) || LexLe(b, a)
    decreases |a|
  {
    if a != [] && b != [] && a[0] == b[0] {
      LexTotal(a[1..], b[1..]);
    }
  }

  lemma {:induction false} LexTrans(a: string, b: string, c: string)
    requires LexLe(a, b) && LexLe(b, c)
    ensures LexLe(a, c)
    decreases |a|
  {
    if a != [] && a[0] == b[0] && b[0] == c[0] {
      LexTrans(a[1..], b[1..], c[1..]);
    }
  }

  lemma {:induction false} LexAntisym(a: string, b: string)
    requires LexLe(a, b) && LexLe(b, a)
    ensures a == b
    decreases |a|
  {
    if a != [] {
      LexAntisym(a[1..], b[1..]);
      assert a == [a[0]] + a[1..] && b == [b[0]] + b[1..];
    }
  }

  predicate Ordenada(s: seq<string>)
  {
    forall i, j :: 0 <= i < j < |s| ==> LexLe(s[i], s[j])
  }

  /** An element below every element of a sorted list can go in front. */
  lemma OrdenadaCons(h: string, t: seq<string>)
    requires Ordenada(t) && forall k :: 0 <= k < |t| ==> LexLe(h, t[k])
    ensures Ordenada([h] + t)
  {
    var r := [h] + t;
    forall i, j | 0 <= i < j < |r|
      ensures LexLe(r[i], r[j])
    {
      assert r[j] == t[j - 1];
      if i > 0 {
        assert r[i] == t[i - 1];
      }
    }
  }

  /** Below the head of a sorted list is below all of it. */
  lemma AbaixoDaCabeca(x: string, s: seq<string>)
    requires Ordenada(s) && s != [] && LexLe(x, s[0])
    ensures forall k :: 0 <= k < |s| ==> LexLe(x, s[k])
  {
    forall k | 0 < k < |s|
      ensures LexLe(x, s[k])
    {
      LexTrans(x, s[0], s[k]);
    }
  }

  /** Puts `x` into its place in a sorted list. */
  function Inserir(x: string, s: seq<string>): (r: seq<string>)
    requires Ordenada(s)
    ensures Ordenada(r)
    ensures multiset(r) == multiset(s) + multiset{x}
    decreases |s|
  {
    if s == [] then [x]
    else if LexLe(x, s[0]) then
      AbaixoDaCabeca(x, s);
      OrdenadaCons(x, s);
      [x] + s
    else
      OrdenadaCauda(s);
      var rest := Inserir(x, s[1..]);
      LexTotal(x, s[0]);
      assert forall k :: 0 <= k < |s[1..]| ==> LexLe(s[0], s[1..][k]) by {
        forall k | 0 <= k < |s[1..]|
          ensures LexLe(s[0], s[1..][k])
        {
          assert s[1..][k] == s[k + 1];
        }
      }
      PrimeiroMenor(s[0], rest, x, s[1..]);
      OrdenadaCons(s[0], rest);
      assert s == [s[0]] + s[1..];
      [s[0]] + rest
  }

  /** The head of a sorted list is below everything inserted after it. */
  lemma PrimeiroMenor(h: string, rest: seq<string>, x: string, t: seq<string>)
    requires LexLe(h, x)
    requires forall k :: 0 <= k < |t| ==> LexLe(h, t[k])
    requires multiset(rest) == multiset(t) + multiset{x}
    ensures forall k :: 0 <= k < |rest| ==> LexLe(h, rest[k])
  {
    forall k | 0 <= k < |rest|
      ensures LexLe(h, rest[k])
    {
      assert rest[k] in multiset(rest);
      if rest[k] != x {
        assert rest[k] in multiset(t);
        assert rest[k] in t;
      }
    }
  }

  /** `sorted(lojas)`. */
  function Ordenar(s: seq<string>): (r: seq<string>)
    ensures Ordenada(r)
    ensures multiset(r) == multiset(s)
    ensures |r| == |s|
    decreases |s|
  {
    if s == [] then []
    else
      assert s == s[..|s| - 1] + [s[|s| - 1]];
      var r := Inserir(s[|s| - 1], Ordenar(s[..|s| - 1]));
      assert |r| == |multiset(r)|;
      r
  }

  /** The head of a sorted list is below each of its elements. */
  lemma MenorDeTodos(a: seq<string>, x: string)
    requires Ordenada(a) && x in a
    ensures LexLe(a[0], x)
  {
    var i :| 0 <= i < |a| && a[i] == x;
    if i == 0 {
      LexRefl(x);
    }
  }

  lemma OrdenadaCauda(a: seq<string>)
    requires Ordenada(a) && a != []
    ensures Ordenada(a[1..])
    ensures multiset(a[1..]) == multiset(a) - multiset{a[0]}
  {
    assert forall i :: 0 <= i < |a[1..]| ==> a[1..][i] == a[i + 1];
    assert a == [a[0]] + a[1..];
  }

  /** Two sorted arrangements of the same elements start alike. */
  lemma CabecasIguais(a: seq<string>, b: seq<string>)
    requires Ordenada(a) && Ordenada(b) && multiset(a) == multiset(b) && a != []
    ensures b != [] && a[0] == b[0]
  {
    assert a[0] in multiset(b);
    assert b != [];
    assert b[0] in multiset(a);
    MenorDeTodos(a, b[0]);
    MenorDeTodos(b, a[0]);
    LexAntisym(a[0], b[0]);
  }

  /** A sorted list is the only sorted arrangement of its elements. */
  lemma {:induction false} OrdenadaUnica(a: seq<string>, b: seq<string>)
    requires Ordenada(a) && Ordenada(b) && multiset(a) == multiset(b)
    ensures a == b
    decreases |a|
  {
    if a == [] {
      assert |b| == |multiset(b)| == 0;
    } else {
      CabecasIguais(a, b);
      OrdenadaCauda(a);
      OrdenadaCauda(b);
      OrdenadaUnica(a[1..], b[1..]);
      assert a == [a[0]] + a[1..] && b == [b[0]] + b[1..];
    }
  }

  /** A subsequence of a sorted list is sorted. */
  lemma {:induction false} SubseqOrdenada(a: seq<string>, b: seq<string>)
    requires IsSubseq(a, b) && Ordenada(b)
    ensures Ordenada(a)
    decreases |b|
  {
    if a != [] {
      assert Ordenada(b[1..]) by {
        assert forall i :: 0 <= i < |b[1..]| ==> b[1..][i] == b[i + 1];
      }
      if a[0] == b[0] {
        SubseqOrdenada(a[1..], b[1..]);
        SubseqMembers(a[1..], b[1..]);
        forall i, j | 0 <= i < j < |a|
          ensures LexLe(a[i], a[j])
        {
          assert a[j] == a[1..][j - 1];
          if i > 0 {
            assert a[i] == a[1..][i - 1];
          } else {
            assert a[j] in b[1..];
            var k :| 0 <= k < |b[1..]| && b[1..][k] == a[j];
            assert b[k + 1] == a[j];
          }
        }
      } else {
        SubseqOrdenada(a, b[1..]);
      }
    }
  }

  // ---------------------------------------------------------------------
  // The window's state
  // ---------------------------------------------------------------------

  /** The sorted stores, their ticks, and the three macro flags. */
  datatype Janela = Janela(lojas: seq<string>, marcadas: seq<bool>,
                           emporio: bool, mercearia: bool, outros: bool)

  predicate Valida(j: Janela)
  {
    |j.marcadas| == |j.lojas| && Ordenada(j.lojas)
  }

  /** The window as it opens: every store ticked, no macro active. */
  function Abrir(disponiveis: seq<string>): (r: Janela)
    ensures Valida(r)
    ensures multiset(r.lojas) == multiset(disponiveis)
    ensures forall i :: 0 <= i < |r.marcadas| ==> r.marcadas[i]
    ensures !r.emporio && !r.mercearia && !r.outros
  {
    var ls := Ordenar(disponiveis);
    Janela(ls, seq(|ls|, i => true), false, false, false)
  }

  /** The stores a button acts on. */
  datatype Macro = MacroEmporio | MacroMercearia | MacroOutros

  predicate NoMacro(m: Macro, loja: string)
  {
    match m
    case MacroEmporio => loja in Emporio
    case MacroMercearia => loja in Mercearia
    case MacroOutros => loja !in Emporio + Mercearia
  }

  function Flag(j: Janela, m: Macro): bool
  {
    match m
    case MacroEmporio => j.emporio
    case MacroMercearia => j.mercearia
    case MacroOutros => j.outros
  }

  /** `_toggle_macro_*`: the button's flag flips, and exactly the stores it
      covers take the new flag as their tick. */
  function Alternar(j: Janela, m: Macro): (r: Janela)
    requires Valida(j)
    ensures Valida(r) && r.lojas == j.lojas
    ensures Flag(r, m) == !Flag(j, m)
    ensures forall m' :: m' != m ==> Flag(r, m') == Flag(j, m')
    ensures forall i :: 0 <= i < |j.lojas| && NoMacro(m, j.lojas[i]) ==> r.marcadas[i] == Flag(r, m)
    ensures forall i :: 0 <= i < |j.lojas| && !NoMacro(m, j.lojas[i]) ==> r.marcadas[i] == j.marcadas[i]
  {
    var novo := !Flag(j, m);
    var ms := seq(|j.lojas|, i requires 0 <= i < |j.lojas| => if NoMacro(m, j.lojas[i]) then novo else j.marcadas[i]);
    match m
    case MacroEmporio => j.(marcadas := ms, emporio := novo)
    case MacroMercearia => j.(marcadas := ms, mercearia := novo)
    case MacroOutros => j.(marcadas := ms, outros := novo)
  }

  /** `_selecionar_todos`: every store ticked, the flags reset. */
  function SelecionarTodos(j: Janela): (r: Janela)
    requires Valida(j)
    ensures Valida(r) && r.lojas == j.lojas
    ensures forall i :: 0 <= i < |r.marcadas| ==> r.marcadas[i]
    ensures !r.emporio && !r.mercearia && !r.outros
  {
    Janela(j.lojas, seq(|j.lojas|, i => true), false, false, false)
  }

  /** `_limpar_selecao`: no store ticked, the flags reset. */
  function LimparSelecao(j: Janela): (r: Janela)
    requires Valida(j)
    ensures Valida(r) && r.lojas == j.lojas
    ensures forall i :: 0 <= i < |r.marcadas| ==> !r.marcadas[i]
    ensures !r.emporio && !r.mercearia && !r.outros
  {
    Janela(j.lojas, seq(|j.lojas|, i => false), false, false, false)
  }

  /** `_aplicar`: the ticked stores, in the window's sorted order. */
  function Aplicar(j: Janela): (r: seq<string>)
    requires Valida(j)
    ensures IsSubseq(r, j.lojas)
    ensures Ordenada(r)
    ensures forall v :: v in r <==> exists i :: 0 <= i < |j.lojas| && j.marcadas[i] && j.lojas[i] == v
  {
    var r := Selecionados(j.lojas, j.marcadas);
    SubseqOrdenada(r, j.lojas);
    r
  }

  /** Opening the window and pressing OK hands back every store, sorted. */
  lemma AbrirAplicar(disponiveis: seq<string>)
    ensures Aplicar(Abrir(disponiveis)) == Ordenar(disponiveis)
  {
    var j := Abrir(disponiveis);
    var r := Aplicar(j);
    SubseqMembers(r, j.lojas);
    assert multiset(r) == multiset(j.lojas) by {
      SelecionadosTodos(j.lojas, j.marcadas);
    }
    OrdenadaUnica(r, Ordenar(disponiveis));
  }

  lemma {:induction false} SelecionadosTodos<T(!new)>(xs: seq<T>, ms: seq<bool>)
    requires |ms| == |xs| && forall i :: 0 <= i < |ms| ==> ms[i]
    ensures Selecionados(xs, ms) == xs
    decreases |xs|
  {
    if xs != [] {
      SelecionadosTodos(xs[1..], ms[1..]);
    }
  }

  /** From a cleared window, the EMPÓRIO button alone selects exactly the
      EMPÓRIO stores that are listed. */
  lemma SoEmporio(j: Janela)
    requires Valida(j)
    ensures forall v :: v in Aplicar(Alternar(LimparSelecao(j), MacroEmporio)) <==> v in j.lojas && v in Emporio
  {
  }

  /** From a cleared window, pressing all three buttons selects every store:
      the macros cover the stores between them. */
  lemma TresMacrosTodas(j: Janela)
    requires Valida(j)
    ensures Aplicar(Alternar(Alternar(Alternar(LimparSelecao(j), MacroEmporio), MacroMercearia), MacroOutros)) == j.lojas
  {
    var k := Alternar(Alternar(Alternar(LimparSelecao(j), MacroEmporio), MacroMercearia), MacroOutros);
    forall i | 0 <= i < |k.marcadas|
      ensures k.marcadas[i]
    {
      var s := j.lojas[i];
      if s !in Emporio && s !in Mercearia {
        assert s !in Emporio + Mercearia;
      }
    }
    SelecionadosTodos(k.lojas, k.marcadas);
  }

  /** Pressing a button twice leaves its flag as it was and its stores
      ticked exactly when the flag is on. */
  lemma AlternarDuasVezes(j: Janela, m: Macro)
    requires Valida(j)
    ensures Flag(Alternar(Alternar(j, m), m), m) == Flag(j, m)
    ensures forall i :: 0 <= i < |j.lojas| && NoMacro(m, j.lojas[i]) ==>
              Alternar(Alternar(j, m), m).marcadas[i] == Flag(j, m)
    ensures forall i :: 0 <= i < |j.lojas| && !NoMacro(m, j.lojas[i]) ==>
              Alternar(Alternar(j, m), m).marcadas[i] == j.marcadas[i]
  {
  }
}

=== FILE: filtro_relatorio.dfy ===
/** The report filter window (`JanelaFiltroRelatorio`): a dictionary from
    column name to the values the user ticked, the faceted options offered
    for a column (drawn from the rows the other columns' filters let
    through), and the operations that confirm, clear and apply it. The
    widgets themselves are not modelled; a confirmed choice arrives as the
    option list and one tick per option. */
module FiltroRelatorio {
  import opened Wrappers
  import opened Seqs
  import opened Cells
  import Dicts
  import Text

  /** `filtros_ativos`: column name to the ticked option texts. */
  type Filtros = Dicts.Dict<seq<string>>

  /** How a cell is tested against a column's ticked texts. */
  type Casa = (Cell, seq<string>) -> bool

  /** `colunas`: the permitted columns the table has, in the permitted order. */
  function Colunas(f: Frame, permitidas: seq<string>): (r: seq<string>)
    ensures IsSubseq(r, permitidas)
    ensures forall c :: c in r <==> c in permitidas && HasCol(f, c)
  {
    var p := (c: string) => HasCol(f, c);
    FilterIsSubseq(permitidas, p);
    FilterMembers(permitidas, p);
    FilterPasses(permitidas, p);
    forall c | c in permitidas && HasCol(f, c)
      ensures c in Filter(permitidas, p)
    {
      var k :| 0 <= k < |permitidas| && permitidas[k] == c;
      FilterContains(permitidas, p, k);
    }
    Filter(permitidas, p)
  }

  /** `series.isin(valores)` with text values: a text cell equal to one of
      them. A number is never equal to a text, and a missing cell never
      matches. */
  predicate IsinComoEscrito(c: Cell, vs: seq<string>)
  {
    c.Str? && c.s in vs
  }

  /** The test the window means: the cell is present and its text is one of
      the option texts it was offered under. */
  predicate Isin(c: Cell, vs: seq<string>)
  {
    !c.Empty? && CellText(c) in vs
  }

  /** Whether column `k`'s entry takes part: it has ticked values, the table
      has the column, and it is not the column whose options are being
      computed. */
  predicate Aplica(f: Frame, k: string, vs: seq<string>, ignorar: Option<string>)
  {
    vs != [] && HasCol(f, k) && ignorar != Some(k)
  }

  /** The mask one entry applies to the rows. */
  function Mascara(f: Frame, k: string, vs: seq<string>, casa: Casa): Row -> bool
  {
    (row: Row) => casa(Get(f, row, k), vs)
  }

  /** The rows left after applying the entries in dictionary order, one
      mask after another (`df = df[df[c].isin(valores)]` in a loop). */
  function Sucessivos(f: Frame, rows: seq<Row>, ks: seq<string>, m: map<string, seq<string>>,
                      ignorar: Option<string>, casa: Casa): seq<Row>
    requires forall k :: k in ks ==> k in m
    decreases |ks|
  {
    if ks == [] then rows
    else
      var k := ks[0];
      var rows' := if Aplica(f, k, m[k], ignorar) then Filter(rows, Mascara(f, k, m[k], casa)) else rows;
      Sucessivos(f, rows', ks[1..], m, ignorar, casa)
  }

  /** A row passes every entry that takes part. */
  predicate PassaTodas(f: Frame, ks: seq<string>, m: map<string, seq<string>>,
                       ignorar: Option<string>, casa: Casa, row: Row)
    requires forall k :: k in ks ==> k in m
    decreases |ks|
  {
    ks == [] ||
    ((Aplica(f, ks[0], m[ks[0]], ignorar) ==> casa(Get(f, row, ks[0]), m[ks[0]]))
     && PassaTodas(f, ks[1..], m, ignorar, casa, row))
  }

  function Passa(f: Frame, ks: seq<string>, m: map<string, seq<string>>,
                 ignorar: Option<string>, casa: Casa): Row -> bool
    requires forall k :: k in ks ==> k in m
  {
    (row: Row) => PassaTodas(f, ks, m, ignorar, casa, row)
  }

  /** `PassaTodas` read as a conjunction over the keys. */
  lemma {:induction false} PassaTodasSpec(f: Frame, ks: seq<string>, m: map<string, seq<string>>,
                                          ignorar: Option<string>, casa: Casa, row: Row)
    requires forall k :: k in ks ==> k in m
    ensures PassaTodas(f, ks, m, ignorar, casa, row) <==>
              forall i :: 0 <= i < |ks| && Aplica(f, ks[i], m[ks[i]], ignorar) ==> casa(Get(f, row, ks[i]), m[ks[i]])
    decreases |ks|
  {
    if ks != [] {
      PassaTodasSpec(f, ks[1..], m, ignorar, casa, row);
      assert forall i :: 1 <= i < |ks| ==> ks[i] == ks[1..][i - 1];
    }
  }

  /** Masks applied one after another keep exactly the rows that pass them
      all, so the dictionary's order does not matter. */
  lemma {:induction false} SucessivosConjuncao(f: Frame, rows: seq<Row>, ks: seq<string>, m: map<string, seq<string>>,
                                               ignorar: Option<string>, casa: Casa)
    requires forall k :: k in ks ==> k in m
    ensures Sucessivos(f, rows, ks, m, ignorar, casa) == Filter(rows, Passa(f, ks, m, ignorar, casa))
    decreases |ks|
  {
    var all := Passa(f, ks, m, ignorar, casa);
    if ks == [] {
      FilterAll(rows, all);
    } else {
      var k := ks[0];
      var rest := Passa(f, ks[1..], m, ignorar, casa);
      if Aplica(f, k, m[k], ignorar) {
        var mk := Mascara(f, k, m[k], casa);
        SucessivosConjuncao(f, Filter(rows, mk), ks[1..], m, ignorar, casa);
        FilterFilter(rows, mk, rest, all);
      } else {
        var sim := (row: Row) => true;
        SucessivosConjuncao(f, rows, ks[1..], m, ignorar, casa);
        FilterAll(rows, sim);
        FilterFilter(rows, sim, rest, all);
      }
    }
  }

  /** The rows of the table under the active filters, leaving out
      `ignorar`'s own entry when given. */
  function Linhas(f: Frame, filtros: Filtros, ignorar: Option<string>): seq<Row>
    requires Dicts.Valid(filtros)
  {
    Sucessivos(f, f.rows, filtros.keys, filtros.vals, ignorar, Isin)
  }

  /** The same rows with pandas' `isin`, as the window is written. */
  function LinhasComoEscrito(f: Frame, filtros: Filtros, ignorar: Option<string>): seq<Row>
    requires Dicts.Valid(filtros)
  {
    Sucessivos(f, f.rows, filtros.keys, filtros.vals, ignorar, IsinComoEscrito)
  }

  /** The filtered rows are table rows in their order; each passes every
      entry that takes part, and every table row that passes them is kept,
      whatever the test of a cell against the ticked texts. */
  lemma {:induction false} SucessivosSpec(f: Frame, filtros: Filtros, ignorar: Option<string>, casa: Casa)
    requires Dicts.Valid(filtros)
    ensures var linhas := Sucessivos(f, f.rows, filtros.keys, filtros.vals, ignorar, casa);
            IsSubseq(linhas, f.rows)
            && (forall j :: 0 <= j < |linhas| ==> PassaTodas(f, filtros.keys, filtros.vals, ignorar, casa, linhas[j]))
            && (forall j :: 0 <= j < |f.rows| && PassaTodas(f, filtros.keys, filtros.vals, ignorar, casa, f.rows[j]) ==>
                  f.rows[j] in linhas)
  {
    var p := Passa(f, filtros.keys, filtros.vals, ignorar, casa);
    SucessivosConjuncao(f, f.rows, filtros.keys, filtros.vals, ignorar, casa);
    FilterIsSubseq(f.rows, p);
    FilterPasses(f.rows, p);
    forall j | 0 <= j < |f.rows| && PassaTodas(f, filtros.keys, filtros.vals, ignorar, casa, f.rows[j])
      ensures f.rows[j] in Filter(f.rows, p)
    {
      FilterContains(f.rows, p, j);
    }
  }

  /** The rows under the corrected test: table rows in their order, each
      passing every entry that takes part, and every table row that passes
      them kept. */
  lemma {:induction false} LinhasSpec(f: Frame, filtros: Filtros, ignorar: Option<string>)
    requires Dicts.Valid(filtros)
    ensures IsSubseq(Linhas(f, filtros, ignorar), f.rows)
    ensures forall j :: 0 <= j < |Linhas(f, filtros, ignorar)| ==>
              PassaTodas(f, filtros.keys, filtros.vals, ignorar, Isin, Linhas(f, filtros, ignorar)[j])
    ensures forall j :: 0 <= j < |f.rows| && PassaTodas(f, filtros.keys, filtros.vals, ignorar, Isin, f.rows[j]) ==>
              f.rows[j] in Linhas(f, filtros, ignorar)
  {
    SucessivosSpec(f, filtros, ignorar, Isin);
  }

  /** The same for the rows as the window is written, under pandas' `isin`:
      a row is kept exactly when each entry taking part finds the row's
      cell, as text, among its ticked texts. */
  lemma {:induction false} LinhasComoEscritoSpec(f: Frame, filtros: Filtros, ignorar: Option<string>)
    requires Dicts.Valid(filtros)
    ensures IsSubseq(LinhasComoEscrito(f, filtros, ignorar), f.rows)
    ensures forall j :: 0 <= j < |LinhasComoEscrito(f, filtros, ignorar)| ==>
              PassaTodas(f, filtros.keys, filtros.vals, ignorar, IsinComoEscrito, LinhasComoEscrito(f, filtros, ignorar)[j])
    ensures forall j :: 0 <= j < |f.rows| && PassaTodas(f, filtros.keys, filtros.vals, ignorar, IsinComoEscrito, f.rows[j]) ==>
              f.rows[j] in LinhasComoEscrito(f, filtros, ignorar)
  {
    SucessivosSpec(f, filtros, ignorar, IsinComoEscrito);
  }

  /** A row's cell in column `c` is present. */
  function Preenchida(f: Frame, c: string): Row -> bool
  {
    (row: Row) => !Get(f, row, c).Empty?
  }

  /** `str()` of a row's cell in column `c`. */
  function TextoEm(f: Frame, c: string): Row -> string
  {
    (row: Row) => CellText(Get(f, row, c))
  }

  /** The options offered for column `c`: the distinct texts of its present
      cells among the rows the other entries let through. A column the
      table lacks offers nothing (the error is caught and shown). Their
      sorting is not modelled. */
  function Valores(f: Frame, filtros: Filtros, c: string): (r: seq<string>)
    requires Dicts.Valid(filtros)
    ensures Distinct(r)
    ensures !HasCol(f, c) ==> r == []
    ensures forall k :: 0 <= k < |r| ==> ImageOf(Linhas(f, filtros, Some(c)), Preenchida(f, c), TextoEm(f, c), r[k])
    ensures forall j :: 0 <= j < |Linhas(f, filtros, Some(c))| && Preenchida(f, c)(Linhas(f, filtros, Some(c))[j]) ==>
              TextoEm(f, c)(Linhas(f, filtros, Some(c))[j]) in r
  {
    if !HasCol(f, c) then []
    else
      var linhas := Linhas(f, filtros, Some(c));
      var textos := Map(Filter(linhas, Preenchida(f, c)), TextoEm(f, c));
      FilterMap(linhas, Preenchida(f, c), TextoEm(f, c), textos);
      Dedup(textos)
  }

  /** Which options start ticked: those already chosen for the column. */
  function Marcados(valores: seq<string>, filtros: Filtros, c: string): (r: seq<bool>)
    ensures |r| == |valores|
    ensures forall i :: 0 <= i < |valores| ==> (r[i] <==> valores[i] in Dicts.Get(filtros, c, []))
  {
    Map(valores, (v: string) => v in Dicts.Get(filtros, c, []))
  }

  /** `_confirmar_filtro_coluna`: the ticked options become the column's
      entry; with nothing ticked the entry goes. */
  function Confirmar(filtros: Filtros, c: string, valores: seq<string>, marcas: seq<bool>): (r: Filtros)
    requires Dicts.Valid(filtros) && |marcas| == |valores|
    ensures Dicts.Valid(r)
    ensures Selecionados(valores, marcas) != [] ==> c in r.vals && r.vals[c] == Selecionados(valores, marcas)
    ensures Selecionados(valores, marcas) == [] ==> c !in r.vals
    ensures forall k :: k != c ==> (k in r.vals <==> k in filtros.vals)
    ensures forall k :: k != c && k in r.vals ==> r.vals[k] == filtros.vals[k]
  {
    var sel := Selecionados(valores, marcas);
    if sel != [] then Dicts.Put(filtros, c, sel) else Dicts.Remove(filtros, c)
  }

  /** Reopening a column after confirming it ticks exactly what was ticked. */
  lemma ConfirmarReabrir(filtros: Filtros, c: string, valores: seq<string>, marcas: seq<bool>)
    requires Dicts.Valid(filtros) && |marcas| == |valores| && Distinct(valores)
    ensures Marcados(valores, Confirmar(filtros, c, valores, marcas), c) == marcas
  {
    var r := Marcados(valores, Confirmar(filtros, c, valores, marcas), c);
    var sel := Selecionados(valores, marcas);
    forall i | 0 <= i < |valores|
      ensures r[i] == marcas[i]
    {
      if valores[i] in sel {
        var j :| 0 <= j < |valores| && marcas[j] && valores[j] == valores[i];
        assert j == i;
      }
    }
  }

  /** `_limpar_filtro_coluna`: only the column's own entry goes. */
  function LimparColuna(filtros: Filtros, c: string): (r: Filtros)
    requires Dicts.Valid(filtros)
    ensures Dicts.Valid(r)
    ensures c !in r.vals
    ensures forall k :: k != c ==> (k in r.vals <==> k in filtros.vals)
    ensures forall k :: k != c && k in r.vals ==> r.vals[k] == filtros.vals[k]
  {
    Dicts.Remove(filtros, c)
  }

  /** `_limpar_filtros`: no entries at all. */
  function LimparTodos(): (r: Filtros)
    ensures Dicts.Valid(r) && r.vals == map[]
  {
    Dicts.Empty()
  }

  /** With no entries, nothing is filtered out. */
  lemma LimparTodosLinhas(f: Frame, ignorar: Option<string>)
    ensures Linhas(f, LimparTodos(), ignorar) == f.rows
  {
  }

  /** What the window keeps between steps: each entry names a column of the
      table and holds at least one ticked value. */
  ghost predicate Coerente(f: Frame, filtros: Filtros)
  {
    Dicts.Valid(filtros) && forall k :: k in filtros.vals ==> HasCol(f, k) && filtros.vals[k] != []
  }

  /** Every operation of the window keeps it coherent. */
  lemma CoerenteMantida(f: Frame, filtros: Filtros, c: string, valores: seq<string>, marcas: seq<bool>)
    requires Coerente(f, filtros) && |marcas| == |valores| && HasCol(f, c)
    ensures Coerente(f, Confirmar(filtros, c, valores, marcas))
    ensures Coerente(f, LimparColuna(filtros, c))
    ensures Coerente(f, LimparTodos())
  {
  }

  /** The report's filter callback with the test `casa`: the table's rows
      under every entry, or `None` when none is left (a warning, and the
      shown table stays). */
  function AplicarCom(f: Frame, filtros: Filtros, casa: Casa): (r: Option<seq<Row>>)
    requires Dicts.Valid(filtros)
    ensures r.Some? <==> exists j :: 0 <= j < |f.rows| && PassaTodas(f, filtros.keys, filtros.vals, None, casa, f.rows[j])
    ensures r.Some? ==> IsSubseq(r.value, f.rows)
    ensures r.Some? ==> r.value == Sucessivos(f, f.rows, filtros.keys, filtros.vals, None, casa)
  {
    SucessivosSpec(f, filtros, None, casa);
    var linhas := Sucessivos(f, f.rows, filtros.keys, filtros.vals, None, casa);
    assert linhas != [] ==> PassaTodas(f, filtros.keys, filtros.vals, None, casa, linhas[0]) && linhas[0] in f.rows by {
      if linhas != [] {
        SubseqMembers(linhas, f.rows);
      }
    }
    if linhas == [] then None else Some(linhas)
  }

  /** The callback with the corrected test. */
  function AplicarFiltros(f: Frame, filtros: Filtros): (r: Option<seq<Row>>)
    requires Dicts.Valid(filtros)
    ensures r.Some? <==> exists j :: 0 <= j < |f.rows| && PassaTodas(f, filtros.keys, filtros.vals, None, Isin, f.rows[j])
    ensures r.Some? ==> IsSubseq(r.value, f.rows) && r.value == Linhas(f, filtros, None)
  {
    AplicarCom(f, filtros, Isin)
  }

  /** The callback as written, with pandas' `isin`. */
  function AplicarFiltrosComoEscrito(f: Frame, filtros: Filtros): (r: Option<seq<Row>>)
    requires Dicts.Valid(filtros)
    ensures r.Some? <==> exists j :: 0 <= j < |f.rows| && PassaTodas(f, filtros.keys, filtros.vals, None, IsinComoEscrito, f.rows[j])
    ensures r.Some? ==> IsSubseq(r.value, f.rows) && r.value == LinhasComoEscrito(f, filtros, None)
  {
    AplicarCom(f, filtros, IsinComoEscrito)
  }

  /** A cell of the column, the text it is offered under, and the rows with
      it ticked: the option matches that row. */
  lemma OpcaoCasa(c: Cell, v: string, vs: seq<string>)
    requires !c.Empty? && CellText(c) == v && v in vs
    ensures Isin(c, vs)
  {
  }

  /** With the window as written, a numeric column's offered option, once
      ticked and applied, keeps no row: a store column holding the number
      10 offers "10", and confirming it empties the table. */
  lemma IsinNumericoComoEscrito()
    ensures Valores(Frame([Str("LOJA")], [[Int(10)]]), LimparTodos(), "LOJA") == ["10"]
    ensures LinhasComoEscrito(Frame([Str("LOJA")], [[Int(10)]]),
                              Confirmar(LimparTodos(), "LOJA", ["10"], [true]), None) == []
    ensures Linhas(Frame([Str("LOJA")], [[Int(10)]]),
                   Confirmar(LimparTodos(), "LOJA", ["10"], [true]), None) == [[Int(10)]]
  {
    var f := Frame([Str("LOJA")], [[Int(10)]]);
    assert ColIndex(f.cols, "LOJA") == Some(0);
    assert CellText(Int(10)) == "10" by { assert Text.IntText(10) == "10"; }
    var filtros := Confirmar(LimparTodos(), "LOJA", ["10"], [true]);
    assert Selecionados(["10"], [true]) == ["10"];
    assert filtros.keys == ["LOJA"] && filtros.vals == map["LOJA" := ["10"]];
    assert Get(f, f.rows[0], "LOJA") == Int(10);
    assert f.rows[1..] == [];
    var comoEscrito := Mascara(f, "LOJA", ["10"], IsinComoEscrito);
    var corrigida := Mascara(f, "LOJA", ["10"], Isin);
    assert !comoEscrito(f.rows[0]);
    assert Isin(Int(10), ["10"]);
    assert corrigida(f.rows[0]);
    assert Filter(f.rows[1..], comoEscrito) == [] && Filter(f.rows[1..], corrigida) == [];
    assert Filter(f.rows, comoEscrito) == [];
    assert Filter(f.rows, corrigida) == [[Int(10)]];
    assert Linhas(f, LimparTodos(), Some("LOJA")) == f.rows;
    assert Filter([[Int(10)]], Preenchida(f, "LOJA")) == [[Int(10)]];
  }

  /** The entries after ticking `v` alone for column `c`. */
  function SoUm(filtros: Filtros, c: string, v: string): (r: Filtros)
    requires Dicts.Valid(filtros)
    ensures Dicts.Valid(r) && c in r.vals && r.vals[c] == [v]
    ensures forall k :: k != c ==> (k in r.vals <==> k in filtros.vals)
    ensures forall k :: k != c && k in r.vals ==> r.vals[k] == filtros.vals[k]
  {
    assert Selecionados([v], [true]) == [v];
    Confirmar(filtros, c, [v], [true])
  }

  /** A row the other entries let through, whose cell in `c` reads `v`,
      passes the entries with `v` ticked for `c`. */
  lemma {:induction false} SoUmPassa(f: Frame, filtros: Filtros, c: string, v: string, row: Row)
    requires Dicts.Valid(filtros) && HasCol(f, c)
    requires PassaTodas(f, filtros.keys, filtros.vals, Some(c), Isin, row)
    requires Preenchida(f, c)(row) && TextoEm(f, c)(row) == v
    ensures PassaTodas(f, SoUm(filtros, c, v).keys, SoUm(filtros, c, v).vals, None, Isin, row)
  {
    var g := SoUm(filtros, c, v);
    PassaTodasSpec(f, filtros.keys, filtros.vals, Some(c), Isin, row);
    PassaTodasSpec(f, g.keys, g.vals, None, Isin, row);
    forall q | 0 <= q < |g.keys| && Aplica(f, g.keys[q], g.vals[g.keys[q]], None)
      ensures Isin(Get(f, row, g.keys[q]), g.vals[g.keys[q]])
    {
      var k := g.keys[q];
      if k != c {
        assert k in filtros.vals;
        var q' :| 0 <= q' < |filtros.keys| && filtros.keys[q'] == k;
        assert Aplica(f, filtros.keys[q'], filtros.vals[filtros.keys[q']], Some(c));
      }
    }
  }

  /** Every row that passes the entries with `v` ticked for `c` reads `v`
      in that column. */
  lemma {:induction false} SoUmCasa(f: Frame, filtros: Filtros, c: string, v: string, row: Row)
    requires Dicts.Valid(filtros) && HasCol(f, c)
    requires PassaTodas(f, SoUm(filtros, c, v).keys, SoUm(filtros, c, v).vals, None, Isin, row)
    ensures Preenchida(f, c)(row) && TextoEm(f, c)(row) == v
  {
    var g := SoUm(filtros, c, v);
    PassaTodasSpec(f, g.keys, g.vals, None, Isin, row);
    var q :| 0 <= q < |g.keys| && g.keys[q] == c;
    assert Aplica(f, g.keys[q], g.vals[g.keys[q]], None);
  }

  /** With the intended test, every offered option, once ticked alone and
      applied with the other entries, keeps at least one row, and every
      row it keeps has that option's text in the column. */
  lemma OpcaoMantemLinhas(f: Frame, filtros: Filtros, c: string, v: string)
    requires Dicts.Valid(filtros) && v in Valores(f, filtros, c)
    ensures Linhas(f, SoUm(filtros, c, v), None) != []
    ensures forall j :: 0 <= j < |Linhas(f, SoUm(filtros, c, v), None)| ==>
              Preenchida(f, c)(Linhas(f, SoUm(filtros, c, v), None)[j])
              && TextoEm(f, c)(Linhas(f, SoUm(filtros, c, v), None)[j]) == v
  {
    OpcaoAchaLinha(f, filtros, c, v);
    OpcaoMostrada(f, filtros, c, v);
  }

  /** A row showing the offered option passes the filter with it ticked
      alone. */
  lemma OpcaoAchaLinha(f: Frame, filtros: Filtros, c: string, v: string)
    requires Dicts.Valid(filtros) && v in Valores(f, filtros, c)
    ensures Linhas(f, SoUm(filtros, c, v), None) != []
  {
    var g := SoUm(filtros, c, v);
    var linhas := Linhas(f, filtros, Some(c));
    assert HasCol(f, c);
    var k :| 0 <= k < |Valores(f, filtros, c)| && Valores(f, filtros, c)[k] == v;
    assert ImageOf(linhas, Preenchida(f, c), TextoEm(f, c), v);
    var j :| 0 <= j < |linhas| && Preenchida(f, c)(linhas[j]) && v == TextoEm(f, c)(linhas[j]);
    var row := linhas[j];
    LinhasSpec(f, filtros, Some(c));
    SubseqMembers(linhas, f.rows);
    assert row in linhas;
    var i :| 0 <= i < |f.rows| && f.rows[i] == row;
    SoUmPassa(f, filtros, c, v, row);
    LinhasSpec(f, g, None);
    assert row in Linhas(f, g, None);
  }

  /** Every row the option ticked alone keeps shows it. */
  lemma OpcaoMostrada(f: Frame, filtros: Filtros, c: string, v: string)
    requires Dicts.Valid(filtros) && HasCol(f, c)
    ensures forall j :: 0 <= j < |Linhas(f, SoUm(filtros, c, v), None)| ==>
              Preenchida(f, c)(Linhas(f, SoUm(filtros, c, v), None)[j])
              && TextoEm(f, c)(Linhas(f, SoUm(filtros, c, v), None)[j]) == v
  {
    var g := SoUm(filtros, c, v);
    LinhasSpec(f, g, None);
    forall j' | 0 <= j' < |Linhas(f, g, None)|
      ensures Preenchida(f, c)(Linhas(f, g, None)[j']) && TextoEm(f, c)(Linhas(f, g, None)[j']) == v
    {
      SoUmCasa(f, filtros, c, v, Linhas(f, g, None)[j']);
    }
  }
}

=== FILE: helpers.dfy ===
/** `formatar_br`: numbers written the Brazilian way, with `.` between
    thousands and `,` before the decimals. The number is first rendered as
    Python's `f"{x:,.Nf}"` does (`,` between thousands, `.` before the
    decimals, rounding half to even), then the two separators are swapped. */
module Helpers {
  import opened Wrappers
  import opened Text
  import opened Numbers
  import opened Cells

  /** The thousands grouping of a run of digits: `sep` before every group
      of three counted from the right. */
  function Agrupar(ip: string, sep: char): (r: string)
    ensures |ip| > 0 ==> |r| == |ip| + (|ip| - 1) / 3
    ensures |ip| <= 3 ==> r == ip
    ensures |ip| > 3 ==> r[|r| - 4] == sep && r[|r| - 3..] == ip[|ip| - 3..]
    decreases |ip|
  {
    if |ip| <= 3 then ip
    else Agrupar(ip[..|ip| - 3], sep) + [sep] + ip[|ip| - 3..]
  }

  /** Removing the separators from a grouping gives the digits back. */
  lemma {:induction false} AgruparDeVolta(ip: string, sep: char)
    requires sep !in ip
    ensures RemoveChar(Agrupar(ip, sep), sep) == ip
    decreases |ip|
  {
    if |ip| <= 3 {
      RemoveCharAbsent(ip, sep);
    } else {
      var hi, lo := ip[..|ip| - 3], ip[|ip| - 3..];
      assert ip == hi + lo;
      assert sep !in hi && sep !in lo;
      AgruparDeVolta(hi, sep);
      var g := Agrupar(hi, sep);
      calc {
        RemoveChar(Agrupar(ip, sep), sep);
        RemoveChar(g + [sep] + lo, sep);
        { RemoveCharAppend(g + [sep], lo, sep); }
        RemoveChar(g + [sep], sep) + RemoveChar(lo, sep);
        { RemoveCharAppend(g, [sep], sep); RemoveCharAbsent(lo, sep); }
        RemoveChar(g, sep) + RemoveChar([sep], sep) + lo;
        { assert RemoveChar([sep], sep) == []; }
        hi + lo;
      }
    }
  }

  /** A grouping of digits holds only digits and the separator. */
  lemma {:induction false} AgruparDigitos(ip: string, sep: char)
    requires AllDigits(ip)
    ensures forall i :: 0 <= i < |Agrupar(ip, sep)| ==>
              Agrupar(ip, sep)[i] == sep || IsAsciiDigit(Agrupar(ip, sep)[i])
    decreases |ip|
  {
    if |ip| > 3 {
      var hi, lo := ip[..|ip| - 3], ip[|ip| - 3..];
      assert AllDigits(hi) by { assert forall j :: 0 <= j < |hi| ==> hi[j] == ip[j]; }
      assert AllDigits(lo) by { assert forall j :: 0 <= j < |lo| ==> lo[j] == ip[|ip| - 3 + j]; }
      AgruparDigitos(hi, sep);
      var g := Agrupar(hi, sep);
      var r := Agrupar(ip, sep);
      assert r == g + [sep] + lo;
      forall i | 0 <= i < |r|
        ensures r[i] == sep || IsAsciiDigit(r[i])
      {
        if i < |g| {
          assert r[i] == g[i];
        } else if i > |g| {
          assert r[i] == lo[i - |g| - 1];
        }
      }
    }
  }

  /** One character after the swap: `,` and `.` trade places. */
  function Trocado(c: char): char
  {
    if c == ',' then '.' else if c == '.' then ',' else c
  }

  /** `.replace(',', 'X').replace('.', ',').replace('X', '.')`, step by
      step as the program writes it. */
  function TrocarComoEscrito(s: string): string
  {
    ReplaceChar(ReplaceChar(ReplaceChar(s, ',', 'X'), '.', ','), 'X', '.')
  }

  /** The swap one character at a time: `,` and `X` become `.`, `.`
      becomes `,`, and the rest stays. */
  function Trocar(s: string): (r: string)
    ensures |r| == |s|
  {
    seq(|s|, i requires 0 <= i < |s| => if s[i] == 'X' then '.' else Trocado(s[i]))
  }

  /** The three replacements are the character-wise swap; on a text without
      `'X'` every `,` becomes `.`, every `.` becomes `,` and the rest
      stays. */
  lemma TrocarComoEscritoSpec(s: string)
    ensures TrocarComoEscrito(s) == Trocar(s)
    ensures 'X' !in s ==> forall i :: 0 <= i < |s| ==> Trocar(s)[i] == Trocado(s[i])
  {
    var a := ReplaceChar(s, ',', 'X');
    var b := ReplaceChar(a, '.', ',');
    assert forall i :: 0 <= i < |s| ==> TrocarComoEscrito(s)[i] == Trocar(s)[i];
  }

  /** The swap works character by character, so it distributes over
      concatenation. */
  lemma TrocarAppend(a: string, b: string)
    requires 'X' !in a && 'X' !in b
    ensures Trocar(a + b) == Trocar(a) + Trocar(b)
  {
    var l, r := Trocar(a + b), Trocar(a) + Trocar(b);
    forall i | 0 <= i < |l|
      ensures l[i] == r[i]
    {
      if i < |a| {
        assert (a + b)[i] == a[i];
      } else {
        assert (a + b)[i] == b[i - |a|];
      }
    }
  }

  /** Text without separators is left alone by the swap. */
  lemma TrocarSemSeparador(s: string)
    requires 'X' !in s && ',' !in s && '.' !in s
    ensures Trocar(s) == s
  {
  }

  /** Swapping a grouping with `,` gives the grouping with `.`. */
  lemma {:induction false} TrocarAgrupar(ip: string)
    requires AllDigits(ip)
    ensures Trocar(Agrupar(ip, ',')) == Agrupar(ip, '.')
    decreases |ip|
  {
    if |ip| > 3 {
      var hi, lo := ip[..|ip| - 3], ip[|ip| - 3..];
      TrocarAgrupar(hi);
      var g := Agrupar(hi, ',');
      assert AllDigits(hi) by { assert forall j :: 0 <= j < |hi| ==> hi[j] == ip[j]; }
      assert AllDigits(lo) by { assert forall j :: 0 <= j < |lo| ==> lo[j] == ip[|ip| - 3 + j]; }
      AgruparDigitos(hi, ',');
      assert 'X' !in g;
      calc {
        Trocar(Agrupar(ip, ','));
        Trocar(g + [','] + lo);
        { TrocarAppend(g + [','], lo); }
        Trocar(g + [',']) + Trocar(lo);
        { TrocarAppend(g, [',']); TrocarSemSeparador(lo); }
        Trocar(g) + Trocar([',']) + lo;
        { assert Trocar([',']) == ['.']; }
        Agrupar(hi, '.') + ['.'] + lo;
      }
    }
  }

  /** `"-"` for a negative value (Python keeps the sign even when the
      rounded digits are all zero). */
  function Sinal(x: real): string
  {
    if x < 0.0 then "-" else ""
  }

  function AbsR(x: real): real
  {
    if x < 0.0 then -x else x
  }

  /** The magnitude rounded to `n` decimals, in units of `10^-n`. */
  function Unidades(x: real, n: nat): nat
  {
    RoundHalfEven(AbsR(x) * Pow10(n) as real)
  }

  /** The digits of the rounded magnitude, zero-padded so that at least one
      is left before the point. */
  function Digitos(x: real, n: nat): (r: string)
    ensures |r| >= n + 1 && AllDigits(r)
  {
    ZeroPad(NatText(Unidades(x, n)), n + 1)
  }

  function Inteira(x: real, n: nat): string
  {
    var s := Digitos(x, n);
    s[..|s| - n]
  }

  function Fracao(x: real, n: nat): string
  {
    var s := Digitos(x, n);
    s[|s| - n..]
  }

  /** `x` rounded to `n` decimals, with its sign. */
  function Arredondado(x: real, n: nat): Dec
  {
    Dec(if x < 0.0 then -(Unidades(x, n) as int) else Unidades(x, n), n)
  }

  /** `f"{x:,.Nf}"` with an exact value: sign, the integer digits grouped by
      thousands with `,`, a `.` and exactly `n` decimals. */
  function Fixo(x: real, n: nat): (r: string)
    ensures |r| > n && r[|r| - n - 1] == '.' && AllDigits(r[|r| - n..])
  {
    var r := Sinal(x) + Agrupar(Inteira(x, n), ',') + "." + Fracao(x, n);
    assert r[|r| - n..] == Fracao(x, n);
    r
  }

  /** How a Brazilian number is read back: drop the thousands `.`, then turn
      the decimal `,` into a point. */
  function LerBr(t: string): Option<Dec>
  {
    ParseNumber(ReplaceChar(RemoveChar(t, '.'), ',', '.'))
  }

  /** A sign, digits grouped with `,`, a point and decimals, after the
      swap: digits grouped with `.`, a comma and the same decimals. */
  lemma {:induction false} TrocarDigitos(sg: string, ip: string, fr: string)
    requires sg == "-" || sg == ""
    requires AllDigits(ip) && AllDigits(fr)
    ensures Trocar(sg + Agrupar(ip, ',') + "." + fr) == sg + Agrupar(ip, '.') + "," + fr
  {
    var g := Agrupar(ip, ',');
    AgruparDigitos(ip, ',');
    assert 'X' !in g;
    TrocarAppend(sg + g + ".", fr);
    TrocarAppend(sg + g, ".");
    TrocarAppend(sg, g);
    TrocarAgrupar(ip);
    TrocarSemSeparador(sg);
    TrocarSemSeparador(fr);
  }

  /** Dropping the thousands points of a Brazilian rendering. */
  lemma {:induction false} SemMilhar(sg: string, ip: string, fr: string)
    requires sg == "-" || sg == ""
    requires AllDigits(ip) && AllDigits(fr)
    ensures RemoveChar(sg + Agrupar(ip, '.') + "," + fr, '.') == sg + ip + "," + fr
  {
    var g := Agrupar(ip, '.');
    assert '.' !in ip;
    AgruparDeVolta(ip, '.');
    RemoveCharAppend(sg + g + ",", fr, '.');
    RemoveCharAppend(sg + g, ",", '.');
    RemoveCharAppend(sg, g, '.');
    RemoveCharAbsent(sg, '.');
    RemoveCharAbsent(",", '.');
    RemoveCharAbsent(fr, '.');
  }

  /** Turning the decimal comma back into a point. */
  lemma {:induction false} VirgulaPonto(sg: string, ip: string, fr: string)
    requires sg == "-" || sg == ""
    requires AllDigits(ip) && AllDigits(fr)
    ensures ReplaceChar(sg + ip + "," + fr, ',', '.') == sg + (ip + "." + fr)
  {
    var u := sg + ip + "," + fr;
    var lit := sg + (ip + "." + fr);
    var v := ReplaceChar(u, ',', '.');
    forall i | 0 <= i < |v|
      ensures v[i] == lit[i]
    {
      if i < |sg| {
        assert u[i] == sg[i] && lit[i] == sg[i];
      } else if i < |sg| + |ip| {
        assert u[i] == ip[i - |sg|] && lit[i] == ip[i - |sg|];
      } else if i > |sg| + |ip| {
        assert u[i] == fr[i - |sg| - |ip| - 1] && lit[i] == fr[i - |sg| - |ip| - 1];
      }
    }
  }

  /** A swapped fixed rendering of given digits reads back as the number
      those digits write. */
  lemma {:induction false} LerDigitos(sg: string, ip: string, fr: string, v: Dec)
    requires sg == "-" || sg == ""
    requires |ip| > 0 && AllDigits(ip) && AllDigits(fr)
    requires AllDigits(ip + fr) && v == Dec(if sg == "-" then -(DigitsValue(ip + fr) as int) else DigitsValue(ip + fr), |fr|)
    ensures LerBr(Trocar(sg + Agrupar(ip, ',') + "." + fr)) == Some(v)
  {
    TrocarDigitos(sg, ip, fr);
    SemMilhar(sg, ip, fr);
    VirgulaPonto(sg, ip, fr);
    ParseFixed(sg + (ip + "." + fr), sg, ip, fr, v);
  }

  /** The pieces of the fixed rendering of `x`. */
  lemma {:induction false} PartesFixo(x: real, n: nat)
    ensures Fixo(x, n) == Sinal(x) + Agrupar(Inteira(x, n), ',') + "." + Fracao(x, n)
    ensures AllDigits(Inteira(x, n)) && AllDigits(Fracao(x, n))
    ensures |Inteira(x, n)| > 0 && |Fracao(x, n)| == n
    ensures AllDigits(Inteira(x, n) + Fracao(x, n)) && DigitsValue(Inteira(x, n) + Fracao(x, n)) == Unidades(x, n)
  {
    FixedDigitsValue(Unidades(x, n), n, Inteira(x, n), Fracao(x, n));
  }

  /** Reading back `formatar_br`'s fixed renderings gives the value rounded
      to `n` decimals: the grouping and the swapped separators lose
      nothing. */
  lemma {:induction false} LerFixo(x: real, n: nat)
    ensures LerBr(Trocar(Fixo(x, n))) == Some(Arredondado(x, n))
  {
    PartesFixo(x, n);
    LerDigitos(Sinal(x), Inteira(x, n), Fracao(x, n), Arredondado(x, n));
  }

  /** The rounded value lies within half a unit of the last decimal of
      `x`. */
  lemma ArredondadoPerto(x: real)
    ensures -0.5 <= Val(Arredondado(x, 2)) * 100.0 - x * 100.0 <= 0.5
  {
    assert Pow10(2) == 100 by {
      assert Pow10(1) == 10;
    }
    var d := Arredondado(x, 2);
    var u := Unidades(x, 2) as real;
    assert Val(d) * 100.0 == d.m as real;
    assert AbsR(x) * 100.0 - 0.5 <= u <= AbsR(x) * 100.0 + 0.5;
  }

  /** The value `float(valor)` reads from a cell: `None` is the error. */
  function Numero(c: Cell): Option<Dec>
  {
    ToNumber(c)
  }

  /** The `tipo` argument: one of the five named renderings, or any other
      text. */
  datatype Tipo = Moeda | Inteiro | Decimal3 | Decimal2 | Decimal1 | Outro

  function TipoDe(tipo: string): Tipo
  {
    if tipo == "moeda" then Moeda
    else if tipo == "inteiro" then Inteiro
    else if tipo == "decimal_3" then Decimal3
    else if tipo == "decimal_2" then Decimal2
    else if tipo == "decimal_1" then Decimal1
    else Outro
  }

  /** A number rendered the way `tipo` asks. The fixed renderings read back
      as the value rounded to their number of decimals. */
  function FormatarNumero(d: Dec, t: Tipo): (r: string)
    ensures t == Decimal3 ==> LerBr(r) == Some(Arredondado(Val(d), 3))
    ensures t == Decimal2 ==> LerBr(r) == Some(Arredondado(Val(d), 2))
    ensures t == Decimal1 ==> LerBr(r) == Some(Arredondado(Val(d), 1))
  {
    var x := Val(d);
    match t
    case Moeda => Trocar("R$ " + Fixo(x, 2))
    case Inteiro => IntText(Trunc(x))
    case Decimal3 => LerFixo(x, 3); Trocar(Fixo(x, 3))
    case Decimal2 => LerFixo(x, 2); Trocar(Fixo(x, 2))
    case Decimal1 => LerFixo(x, 1); Trocar(Fixo(x, 1))
    case Outro => ReplaceChar(Repr(d), '.', ',')
  }

  /** `formatar_br(valor, tipo)`: nothing for a missing or empty value, the
      value as it was when it is not a number, and otherwise the rendering
      `tipo` names. */
  function FormatarBr(valor: Cell, tipo: string): (r: string)
    ensures valor.Empty? || valor == Str("") ==> r == ""
    ensures !valor.Empty? && valor != Str("") && Numero(valor).None? ==> r == CellText(valor)
    ensures Numero(valor).Some? ==> r == FormatarNumero(Numero(valor).value, TipoDe(tipo))
  {
    if valor.Empty? || valor == Str("") then ""
    else match Numero(valor)
      case None => CellText(valor)
      case Some(d) => FormatarNumero(d, TipoDe(tipo))
  }

  /** A currency value is `"R$ "` followed by the two-decimal rendering. */
  lemma {:induction false} MoedaEhDecimal2(d: Dec)
    ensures FormatarNumero(d, Moeda) == "R$ " + FormatarNumero(d, Decimal2)
  {
    var x := Val(d);
    PartesFixo(x, 2);
    SemXFixo(Sinal(x), Inteira(x, 2), Fracao(x, 2));
    TrocarAppend("R$ ", Fixo(x, 2));
    TrocarSemSeparador("R$ ");
  }

  /** A fixed rendering holds no `'X'`. */
  lemma SemXFixo(sg: string, ip: string, fr: string)
    requires sg == "-" || sg == ""
    requires AllDigits(ip) && AllDigits(fr)
    ensures 'X' !in sg + Agrupar(ip, ',') + "." + fr
  {
    var g := Agrupar(ip, ',');
    var t := sg + g + "." + fr;
    AgruparDigitos(ip, ',');
    forall i | 0 <= i < |t|
      ensures t[i] != 'X'
    {
      if |sg| <= i < |sg| + |g| {
        assert t[i] == g[i - |sg|];
      }
    }
  }

  /** The number of decimals each fixed rendering writes. */
  function Casas(t: Tipo): nat
  {
    match t
    case Decimal3 => 3
    case Decimal1 => 1
    case _ => 2
  }

  /** A three-, two- or one-decimal value has exactly that many digits after
      its decimal comma. */
  lemma {:induction false} CasasDecimais(d: Dec, t: Tipo)
    requires t == Decimal3 || t == Decimal2 || t == Decimal1
    ensures var r := FormatarNumero(d, t); var n := Casas(t);
              |r| > n && r[|r| - n - 1] == ',' && AllDigits(r[|r| - n..])
  {
    var x, n := Val(d), Casas(t);
    PartesFixo(x, n);
    var sg, ip, fr := Sinal(x), Inteira(x, n), Fracao(x, n);
    TrocarDigitos(sg, ip, fr);
    var r := sg + Agrupar(ip, '.') + "," + fr;
    assert FormatarNumero(d, t) == r;
    assert r[|r| - n..] == fr;
  }

  /** `'inteiro'` truncates toward zero and writes no separator; the text
      reads back as that integer. */
  lemma {:induction false} InteiroSemSeparador(d: Dec)
    ensures '.' !in FormatarNumero(d, Inteiro) && ',' !in FormatarNumero(d, Inteiro)
    ensures ParseNumber(FormatarNumero(d, Inteiro)) == Some(Dec(Trunc(Val(d)), 0))
  {
    var n := Trunc(Val(d));
    assert FormatarNumero(d, Inteiro) == IntText(n);
    ParseIntText(n);
    IntTextChars(n);
  }

  /** `str()` of an integer writes only a sign and digits. */
  lemma IntTextChars(n: int)
    ensures '.' !in IntText(n) && ',' !in IntText(n)
  {
    var t := NatText(Abs(n));
    assert AllDigits(t);
    assert IntText(n) == SignText(n) + t;
  }

  /** Any other `tipo` writes `str(float)` with its point turned into a
      comma; putting the point back reads the value again. */
  lemma {:induction false} OutroTipoLido(d: Dec)
    ensures ParseNumber(ReplaceChar(FormatarNumero(d, Outro), ',', '.')).Some?
    ensures Val(ParseNumber(ReplaceChar(FormatarNumero(d, Outro), ',', '.')).value) == Val(d)
  {
    assert FormatarNumero(d, Outro) == ReplaceChar(Repr(d), '.', ',');
    ParseRepr(d);
    ReprChars(d);
    PontoVirgulaVolta(Repr(d));
  }

  /** Turning points into commas and back restores a text without commas. */
  lemma PontoVirgulaVolta(s: string)
    requires ',' !in s
    ensures ReplaceChar(ReplaceChar(s, '.', ','), ',', '.') == s
  {
    var u := ReplaceChar(ReplaceChar(s, '.', ','), ',', '.');
    forall i | 0 <= i < |s|
      ensures u[i] == s[i]
    {
      assert s[i] != ',';
    }
  }

  /** `str()` of a float writes only a sign, digits and a point. */
  lemma ReprChars(d: Dec)
    ensures ',' !in Repr(d)
  {
    var c := Canon(d);
    if c.e == 0 {
      assert IntText(c.m) + ".0" == SignText(c.m) + NatText(Abs(c.m)) + ".0";
    } else {
      var s := ZeroPad(NatText(Abs(c.m)), c.e + 1);
      assert AllDigits(s);
      assert FixedDigits(Abs(c.m), c.e) == s[..|s| - c.e] + "." + s[|s| - c.e..];
    }
  }
}

=== FILE: identificador.dfy ===
/** `IdentificadorModelos`: decides which kind of report a sheet is by asking
    the sheet models, in a fixed order of priority, whether they recognise
    it. */
module Identificador {
  import opened Wrappers
  import opened Text
  import opened Cells
  import opened Seqs
  import CurvaAbc
  import Entradas
  import Estoque

  /** The position of the first candidate whose test answers yes. A test
      that raises (`None`) is skipped like one that answers no. */
  function Primeiro<M>(ms: seq<M>, test: M -> Option<bool>): (r: Option<nat>)
    ensures r.Some? ==> r.value < |ms| && test(ms[r.value]) == Some(true)
    ensures r.Some? ==> forall k :: 0 <= k < r.value ==> test(ms[k]) != Some(true)
    ensures r.None? <==> forall k :: 0 <= k < |ms| ==> test(ms[k]) != Some(true)
  {
    FirstFromSpec(Aceita(ms, test), 0, |ms|);
    assert forall k :: 0 <= k < |ms| ==> (Aceita(ms, test)(k) <==> test(ms[k]) == Some(true));
    FirstFrom(Aceita(ms, test), 0, |ms|)
  }

  function Aceita<M>(ms: seq<M>, test: M -> Option<bool>): nat -> bool
  {
    (i: nat) => i < |ms| && test(ms[i]) == Some(true)
  }

  /** The sheet models that take part in the identification. */
  datatype Modelo = ModeloCurvaAbc | ModeloEntradas | ModeloEstoque

  /** Each model's `nome`. */
  function Nome(m: Modelo): string
  {
    match m
    case ModeloCurvaAbc => "Curva ABC por Loja"
    case ModeloEntradas => "Entradas por Grupo"
    case ModeloEstoque => "Estoque"
  }

  /** `self.modelos`, in the order they are tried. */
  const Modelos: seq<Modelo> := [ModeloCurvaAbc, ModeloEntradas, ModeloEstoque]

  /** Each model's `identificar` on a table. All three catch their own
      errors and answer no, so none of them raises. */
  function Reconhece(f: Frame): Modelo -> Option<bool>
  {
    (m: Modelo) =>
      match m
      case ModeloCurvaAbc => Some(CurvaAbc.Identificar(f))
      case ModeloEntradas => Some(Entradas.Identificar(f))
      case ModeloEstoque => Some(Estoque.Identificar(f))
  }

  /** `identificar_com_df`: Curva ABC wins whenever it recognises the table,
      Entradas only when Curva ABC does not, Estoque only when neither of
      the others does, and nothing when no model recognises it. */
  function IdentificarComDf(f: Frame): (r: Option<Modelo>)
    ensures r == Some(ModeloCurvaAbc) <==> CurvaAbc.Identificar(f)
    ensures r == Some(ModeloEntradas) <==> !CurvaAbc.Identificar(f) && Entradas.Identificar(f)
    ensures r == Some(ModeloEstoque) <==>
              !CurvaAbc.Identificar(f) && !Entradas.Identificar(f) && Estoque.Identificar(f)
    ensures r.None? <==>
              !CurvaAbc.Identificar(f) && !Entradas.Identificar(f) && !Estoque.Identificar(f)
  {
    var test := Reconhece(f);
    assert test(ModeloCurvaAbc) == Some(CurvaAbc.Identificar(f));
    assert test(ModeloEntradas) == Some(Entradas.Identificar(f));
    assert test(ModeloEstoque) == Some(Estoque.Identificar(f));
    PrimeiroModelo(test)
  }

  /** The loop over `self.modelos`: the first model whose test answers yes. */
  function PrimeiroModelo(test: Modelo -> Option<bool>): (r: Option<Modelo>)
    ensures r == Some(ModeloCurvaAbc) <==> test(ModeloCurvaAbc) == Some(true)
    ensures r == Some(ModeloEntradas) <==>
              test(ModeloCurvaAbc) != Some(true) && test(ModeloEntradas) == Some(true)
    ensures r == Some(ModeloEstoque) <==>
              test(ModeloCurvaAbc) != Some(true) && test(ModeloEntradas) != Some(true)
              && test(ModeloEstoque) == Some(true)
  {
    assert Modelos[0] == ModeloCurvaAbc && Modelos[1] == ModeloEntradas && Modelos[2] == ModeloEstoque;
    match Primeiro(Modelos, test)
    case None => None
    case Some(i) => Some(Modelos[i])
  }

  /** `pd.read_excel(caminho, nrows=20)`: the labels and the first twenty
      rows. */
  function Amostra(f: Frame): (r: Frame)
    ensures r.cols == f.cols && |r.rows| == Min(20, |f.rows|)
    ensures forall i :: 0 <= i < |r.rows| ==> r.rows[i] == f.rows[i]
  {
    Frame(f.cols, f.rows[..Min(20, |f.rows|)])
  }

  /** `identificar(caminho)`, with the sheet as read from the file (`None`
      when reading fails): the model chosen on the first twenty rows,
      together with the whole table. */
  function IdentificarArquivo(leitura: Option<Frame>): (r: Option<(Modelo, Frame)>)
    ensures leitura.None? ==> r.None?
    ensures r.Some? ==> leitura == Some(r.value.1) && IdentificarComDf(Amostra(r.value.1)) == Some(r.value.0)
    ensures leitura.Some? && IdentificarComDf(Amostra(leitura.value)).Some? ==> r.Some?
  {
    match leitura
    case None => None
    case Some(f) =>
      match IdentificarComDf(Amostra(f))
      case None => None
      case Some(m) => Some((m, f))
  }

  /** Some of the first `n` cells of column 0 hold `sub`, whether the rows
      are cut after `m >= n` of them or not. */
  lemma {:induction false} LeadCellsPrefix(rows: seq<Row>, m: nat, n: nat, sub: string)
    requires n <= m
    ensures LeadCellsHold(rows[..Min(m, |rows|)], n, sub) == LeadCellsHold(rows, n, sub)
  {
    var cut := rows[..Min(m, |rows|)];
    if LeadCellsHold(rows, n, sub) {
      var i :| 0 <= i < |rows| && i < n && Contains(Lower(CellText(At(rows[i], 0))), sub);
      assert cut[i] == rows[i];
    }
    if LeadCellsHold(cut, n, sub) {
      var i :| 0 <= i < |cut| && i < n && Contains(Lower(CellText(At(cut[i], 0))), sub);
      assert cut[i] == rows[i];
    }
  }

  /** The stock model decides on the labels and the first ten rows, all of
      which the sample keeps. */
  lemma {:induction false} EstoqueNaAmostra(f: Frame)
    ensures Estoque.Identificar(Amostra(f)) == Estoque.Identificar(f)
  {
    var a := Amostra(f);
    assert Width(a) == Width(f);
    if Estoque.Identificar(f) && !Estoque.LabelsNameStock(f.cols) {
      var i :| 0 <= i < Min(10, |f.rows|) && Estoque.IsHeaderRow(f, i);
      assert Estoque.IsHeaderRow(a, i);
    }
    if Estoque.Identificar(a) && !Estoque.LabelsNameStock(a.cols) {
      var i :| 0 <= i < Min(10, |a.rows|) && Estoque.IsHeaderRow(a, i);
      assert Estoque.IsHeaderRow(f, i);
    }
  }

  /** Reading only twenty rows never changes the verdict: every model looks
      at the first ten rows at most. */
  lemma {:induction false} AmostraBasta(f: Frame)
    ensures IdentificarComDf(Amostra(f)) == IdentificarComDf(f)
  {
    var a := Amostra(f);
    assert a.rows == f.rows[..Min(20, |f.rows|)];
    LeadCellsPrefix(f.rows, 20, 10, "código");
    LeadCellsPrefix(f.rows, 20, 10, "loja:");
    LeadCellsPrefix(f.rows, 20, 5, "entradas produtos por grupo");
    assert CurvaAbc.Identificar(a) == CurvaAbc.Identificar(f);
    assert Entradas.Identificar(a) == Entradas.Identificar(f);
    EstoqueNaAmostra(f);
  }

  /** `listar_modelos`: the names in the order the models are tried. */
  function ListarModelos(): (r: seq<string>)
    ensures |r| == |Modelos|
    ensures forall k :: 0 <= k < |r| ==> r[k] == Nome(Modelos[k])
  {
    Map(Modelos, Nome)
  }

  function MesmoNome(nome: string): Modelo -> Option<bool>
  {
    (m: Modelo) => Some(Lower(Nome(m)) == Lower(nome))
  }

  /** `get_modelo_por_nome`: the first model whose name equals `nome`, case
      aside, and nothing when none does. */
  function GetModeloPorNome(nome: string): (r: Option<Modelo>)
    ensures r.Some? ==> Lower(Nome(r.value)) == Lower(nome)
    ensures r.None? <==> forall k :: 0 <= k < |Modelos| ==> Lower(Nome(Modelos[k])) != Lower(nome)
  {
    match Primeiro(Modelos, MesmoNome(nome))
    case None => None
    case Some(i) => Some(Modelos[i])
  }

  /** The names `listar_modelos` gives lead back to their models, written
      in any case. */
  lemma NomesDeVolta(k: nat, nome: string)
    requires k < |Modelos| && Lower(nome) == Lower(ListarModelos()[k])
    ensures GetModeloPorNome(nome) == Some(Modelos[k])
  {
    NomesDistintos();
  }

  /** No two names are equal once lower-cased. */
  lemma NomesDistintos()
    ensures forall i, j :: 0 <= i < j < |Modelos| ==> Lower(Nome(Modelos[i])) != Lower(Nome(Modelos[j]))
  {
    assert Lower(Nome(ModeloCurvaAbc))[0] == 'c';
    assert Lower(Nome(ModeloEntradas))[1] == 'n';
    assert Lower(Nome(ModeloEstoque))[1] == 's';
  }
}

=== FILE: joins.dfy ===
/** pandas' `merge(how='left', on=key)` over rows with a text key: every
    row of the left table is kept, in order, once for each right row with
    the same key (in the right table's order), or once without a partner
    when there is none. */
module Joins {
  import opened Wrappers
  import opened Seqs

  function KeyIs<R>(kr: R -> string, k: string): R -> bool
  {
    (x: R) => kr(x) == k
  }

  /** The right rows whose key is `k`, in their order. */
  function Matches<R>(right: seq<R>, kr: R -> string, k: string): seq<R>
  {
    Filter(right, KeyIs(kr, k))
  }

  /** One left row with each of its partners, or alone. */
  function Pairs<L, R>(l: L, ms: seq<R>): (r: seq<(L, Option<R>)>)
    ensures |r| == if ms == [] then 1 else |ms|
    ensures forall i :: 0 <= i < |r| ==> r[i].0 == l
    ensures ms == [] ==> r == [(l, None)]
    ensures forall i :: 0 <= i < |ms| ==> r[i] == (l, Some(ms[i]))
  {
    if ms == [] then [(l, None)] else Map(ms, (m: R) => (l, Some(m)))
  }

  function LeftJoin<L, R>(left: seq<L>, right: seq<R>, kl: L -> string, kr: R -> string): (r: seq<(L, Option<R>)>)
    ensures |r| >= |left|
    decreases |left|
  {
    if left == [] then []
    else Pairs(left[0], Matches(right, kr, kl(left[0]))) + LeftJoin(left[1..], right, kl, kr)
  }

  /** Every row of the join pairs a left row with a right row of the same
      key, or with none. */
  lemma {:induction false} LeftJoinPartners<L, R>(left: seq<L>, right: seq<R>, kl: L -> string, kr: R -> string)
    ensures forall j :: 0 <= j < |LeftJoin(left, right, kl, kr)| ==> LeftJoin(left, right, kl, kr)[j].0 in left
    ensures forall j :: 0 <= j < |LeftJoin(left, right, kl, kr)| && LeftJoin(left, right, kl, kr)[j].1.Some? ==>
              LeftJoin(left, right, kl, kr)[j].1.value in right
              && kr(LeftJoin(left, right, kl, kr)[j].1.value) == kl(LeftJoin(left, right, kl, kr)[j].0)
    decreases |left|
  {
    if left != [] {
      var ms := Matches(right, kr, kl(left[0]));
      var head := Pairs(left[0], ms);
      var tail := LeftJoin(left[1..], right, kl, kr);
      LeftJoinPartners(left[1..], right, kl, kr);
      FilterMembers(right, KeyIs(kr, kl(left[0])));
      FilterPasses(right, KeyIs(kr, kl(left[0])));
      var r := head + tail;
      forall j | 0 <= j < |r|
        ensures r[j].0 in left
        ensures r[j].1.Some? ==> r[j].1.value in right && kr(r[j].1.value) == kl(r[j].0)
      {
        if j < |head| {
          assert r[j] == head[j];
        } else {
          assert r[j] == tail[j - |head|];
          assert r[j].0 in left[1..];
        }
      }
    }
  }

  /** Some row of the join is made from left row `x`. */
  ghost predicate Presente<L, R>(r: seq<(L, Option<R>)>, x: L)
  {
    exists j :: 0 <= j < |r| && r[j].0 == x
  }

  /** Every left row is in the join. */
  lemma {:induction false} LeftJoinCobre<L, R>(left: seq<L>, right: seq<R>, kl: L -> string, kr: R -> string)
    ensures forall i :: 0 <= i < |left| ==> Presente(LeftJoin(left, right, kl, kr), left[i])
    decreases |left|
  {
    if left != [] {
      var head := Pairs(left[0], Matches(right, kr, kl(left[0])));
      var tail := LeftJoin(left[1..], right, kl, kr);
      LeftJoinCobre(left[1..], right, kl, kr);
      var r := head + tail;
      assert LeftJoin(left, right, kl, kr) == r;
      forall i | 0 <= i < |left|
        ensures Presente(r, left[i])
      {
        if i == 0 {
          assert r[0] == head[0];
        } else {
          assert left[1..][i - 1] == left[i];
          var j' :| 0 <= j' < |tail| && tail[j'].0 == left[i];
          assert r[|head| + j'] == tail[j'];
        }
      }
    }
  }

  /** Beside every left row stands every right row of its key. */
  lemma {:induction false} LeftJoinTodosPares<L, R>(left: seq<L>, right: seq<R>, kl: L -> string, kr: R -> string)
    ensures forall i, m :: 0 <= i < |left| && 0 <= m < |right| && kr(right[m]) == kl(left[i]) ==>
              (left[i], Some(right[m])) in LeftJoin(left, right, kl, kr)
    decreases |left|
  {
    if left != [] {
      var ms := Matches(right, kr, kl(left[0]));
      var head := Pairs(left[0], ms);
      var tail := LeftJoin(left[1..], right, kl, kr);
      LeftJoinTodosPares(left[1..], right, kl, kr);
      var r := head + tail;
      assert LeftJoin(left, right, kl, kr) == r;
      forall i, m | 0 <= i < |left| && 0 <= m < |right| && kr(right[m]) == kl(left[i])
        ensures (left[i], Some(right[m])) in r
      {
        if i == 0 {
          FilterContains(right, KeyIs(kr, kl(left[0])), m);
          var q :| 0 <= q < |ms| && ms[q] == right[m];
          assert r[q] == head[q];
        } else {
          assert left[1..][i - 1] == left[i];
          assert (left[i], Some(right[m])) in tail;
        }
      }
    }
  }

  /** A row of the join without a partner has a key no right row has. */
  lemma {:induction false} LeftJoinSemPar<L, R>(left: seq<L>, right: seq<R>, kl: L -> string, kr: R -> string)
    ensures forall j :: 0 <= j < |LeftJoin(left, right, kl, kr)| && LeftJoin(left, right, kl, kr)[j].1.None? ==>
              forall x :: x in right ==> kr(x) != kl(LeftJoin(left, right, kl, kr)[j].0)
    decreases |left|
  {
    if left != [] {
      var ms := Matches(right, kr, kl(left[0]));
      var head := Pairs(left[0], ms);
      var tail := LeftJoin(left[1..], right, kl, kr);
      LeftJoinSemPar(left[1..], right, kl, kr);
      var r := head + tail;
      assert LeftJoin(left, right, kl, kr) == r;
      forall j | 0 <= j < |r| && r[j].1.None?
        ensures forall x :: x in right ==> kr(x) != kl(r[j].0)
      {
        if j < |head| {
          assert r[j] == head[j];
          assert ms == [];
          forall x | x in right
            ensures kr(x) != kl(left[0])
          {
            var m :| 0 <= m < |right| && right[m] == x;
            if kr(x) == kl(left[0]) {
              FilterContains(right, KeyIs(kr, kl(left[0])), m);
              assert false;
            }
          }
        } else {
          assert r[j] == tail[j - |head|];
        }
      }
    }
  }

  /** Every left row is in the join; beside it stands every right row of
      its key; and a row without a partner has a key no right row has. */
  lemma {:induction false} LeftJoinCompleta<L, R>(left: seq<L>, right: seq<R>, kl: L -> string, kr: R -> string)
    ensures forall i :: 0 <= i < |left| ==> Presente(LeftJoin(left, right, kl, kr), left[i])
    ensures forall i, m :: 0 <= i < |left| && 0 <= m < |right| && kr(right[m]) == kl(left[i]) ==>
              (left[i], Some(right[m])) in LeftJoin(left, right, kl, kr)
    ensures forall j :: 0 <= j < |LeftJoin(left, right, kl, kr)| && LeftJoin(left, right, kl, kr)[j].1.None? ==>
              forall x :: x in right ==> kr(x) != kl(LeftJoin(left, right, kl, kr)[j].0)
  {
    LeftJoinCobre(left, right, kl, kr);
    LeftJoinTodosPares(left, right, kl, kr);
    LeftJoinSemPar(left, right, kl, kr);
  }

  /** The value a row receives from its partner, `d` without one. */
  function ValOr<R, V>(o: Option<R>, val: R -> V, d: V): V
  {
    match o
    case None => d
    case Some(x) => val(x)
  }

  /** The values a left row of key `k` can receive from the merge: that of
      each right row with key `k`, or `d` when no right row has it. */
  predicate Admite<R(==), V(==)>(right: seq<R>, kr: R -> string, val: R -> V, d: V, k: string, v: V)
  {
    (exists m :: 0 <= m < |right| && kr(right[m]) == k && v == val(right[m]))
    || ((forall x :: x in right ==> kr(x) != k) && v == d)
  }

  /** Some value is always admitted for key `k`: a matching row's value, or
      the default when no row matches. */
  lemma AdmiteAlgum<R, V>(right: seq<R>, kr: R -> string, val: R -> V, d: V, k: string) returns (v: V)
    ensures Admite(right, kr, val, d, k, v)
  {
    if m :| 0 <= m < |right| && kr(right[m]) == k {
      v := val(right[m]);
    } else {
      v := d;
    }
  }


  /** Some row of the join is made from left row `x` and receives `v`. */
  ghost predicate RecebeValor<L, R, V>(r: seq<(L, Option<R>)>, x: L, val: R -> V, d: V, v: V)
  {
    exists j :: 0 <= j < |r| && r[j].0 == x && ValOr(r[j].1, val, d) == v
  }

  /** Every value admitted for a left row's key reaches that row. */
  lemma {:induction false} LeftJoinRecebe<L, R, V>(left: seq<L>, right: seq<R>, kl: L -> string, kr: R -> string, val: R -> V, d: V)
    ensures forall i, v :: 0 <= i < |left| && Admite(right, kr, val, d, kl(left[i]), v) ==>
              RecebeValor(LeftJoin(left, right, kl, kr), left[i], val, d, v)
  {
    var r := LeftJoin(left, right, kl, kr);
    LeftJoinCompleta(left, right, kl, kr);
    LeftJoinPartners(left, right, kl, kr);
    forall i, v | 0 <= i < |left| && Admite(right, kr, val, d, kl(left[i]), v)
      ensures RecebeValor(r, left[i], val, d, v)
    {
      if exists m :: 0 <= m < |right| && kr(right[m]) == kl(left[i]) && v == val(right[m]) {
        var m :| 0 <= m < |right| && kr(right[m]) == kl(left[i]) && v == val(right[m]);
        var j :| 0 <= j < |r| && r[j] == (left[i], Some(right[m]));
        assert ValOr(r[j].1, val, d) == v;
      } else {
        assert Presente(r, left[i]);
        var j :| 0 <= j < |r| && r[j].0 == left[i];
        assert r[j].1.None?;
        assert ValOr(r[j].1, val, d) == v;
      }
    }
  }

  /** Every row of the join is made from a left row and receives a value
      admitted for its key. */
  lemma {:induction false} LeftJoinAdmitido<L, R, V>(left: seq<L>, right: seq<R>, kl: L -> string, kr: R -> string, val: R -> V, d: V)
    ensures forall j :: 0 <= j < |LeftJoin(left, right, kl, kr)| ==>
              LeftJoin(left, right, kl, kr)[j].0 in left
              && Admite(right, kr, val, d, kl(LeftJoin(left, right, kl, kr)[j].0), ValOr(LeftJoin(left, right, kl, kr)[j].1, val, d))
  {
    var r := LeftJoin(left, right, kl, kr);
    LeftJoinCompleta(left, right, kl, kr);
    LeftJoinPartners(left, right, kl, kr);
    forall j | 0 <= j < |r|
      ensures Admite(right, kr, val, d, kl(r[j].0), ValOr(r[j].1, val, d))
    {
      if r[j].1.Some? {
        var x := r[j].1.value;
        var m :| 0 <= m < |right| && right[m] == x;
      }
    }
  }

  /** No two right rows share a key. */
  predicate UniqueKeys<R>(right: seq<R>, kr: R -> string)
  {
    forall i, j :: 0 <= i < j < |right| ==> kr(right[i]) != kr(right[j])
  }

  /** With unique keys a row has at most one partner. */
  lemma {:induction false} MatchesUnique<R>(right: seq<R>, kr: R -> string, k: string)
    requires UniqueKeys(right, kr)
    ensures |Matches(right, kr, k)| <= 1
    ensures Matches(right, kr, k) == [] <==> forall x :: x in right ==> kr(x) != k
    ensures Matches(right, kr, k) != [] ==> Matches(right, kr, k)[0] in right && kr(Matches(right, kr, k)[0]) == k
    decreases |right|
  {
    var p := KeyIs(kr, k);
    FilterMembers(right, p);
    FilterPasses(right, p);
    if right != [] {
      assert UniqueKeys(right[1..], kr) by {
        forall i, j | 0 <= i < j < |right[1..]|
          ensures kr(right[1..][i]) != kr(right[1..][j])
        {
          assert right[1..][i] == right[i + 1] && right[1..][j] == right[j + 1];
        }
      }
      MatchesUnique(right[1..], kr, k);
      if p(right[0]) {
        assert forall x :: x in right[1..] ==> kr(x) != k by {
          forall x | x in right[1..]
            ensures kr(x) != k
          {
            var j :| 0 <= j < |right[1..]| && right[1..][j] == x;
            assert right[j + 1] == x;
          }
        }
        assert Filter(right, p) == [right[0]] + Filter(right[1..], p);
      } else {
        assert Filter(right, p) == Filter(right[1..], p);
        assert forall x :: x in right ==> x == right[0] || x in right[1..];
      }
    }
  }

  /** With unique right keys the join has exactly the left rows, in their
      order, each with the right row of its key when there is one. */
  lemma {:induction false} LeftJoinUnique<L, R>(left: seq<L>, right: seq<R>, kl: L -> string, kr: R -> string)
    requires UniqueKeys(right, kr)
    ensures |LeftJoin(left, right, kl, kr)| == |left|
    ensures forall i :: 0 <= i < |left| ==> LeftJoin(left, right, kl, kr)[i].0 == left[i]
    ensures forall i :: 0 <= i < |left| ==>
              (LeftJoin(left, right, kl, kr)[i].1.None? <==> forall x :: x in right ==> kr(x) != kl(left[i]))
    ensures forall i :: 0 <= i < |left| && LeftJoin(left, right, kl, kr)[i].1.Some? ==>
              LeftJoin(left, right, kl, kr)[i].1.value in right
              && kr(LeftJoin(left, right, kl, kr)[i].1.value) == kl(left[i])
    decreases |left|
  {
    if left != [] {
      var ms := Matches(right, kr, kl(left[0]));
      MatchesUnique(right, kr, kl(left[0]));
      LeftJoinUnique(left[1..], right, kl, kr);
      var head := Pairs(left[0], ms);
      var tail := LeftJoin(left[1..], right, kl, kr);
      assert |head| == 1;
      var r := head + tail;
      forall i | 0 <= i < |left|
        ensures r[i].0 == left[i]
        ensures r[i].1.None? <==> forall x :: x in right ==> kr(x) != kl(left[i])
        ensures r[i].1.Some? ==> r[i].1.value in right && kr(r[i].1.value) == kl(left[i])
      {
        if i > 0 {
          assert r[i] == tail[i - 1] && left[1..][i - 1] == left[i];
        }
      }
    }
  }

  /** The partner of a row under unique keys, read off the right table
      directly. */
  function Partner<R>(right: seq<R>, kr: R -> string, k: string): Option<R>
  {
    var ms := Matches(right, kr, k);
    if ms == [] then None else Some(ms[0])
  }

  /** Under unique keys, the join pairs each left row with its partner. */
  lemma {:induction false} LeftJoinIsLookup<L, R>(left: seq<L>, right: seq<R>, kl: L -> string, kr: R -> string)
    requires UniqueKeys(right, kr)
    ensures LeftJoin(left, right, kl, kr) == Map(left, (l: L) => (l, Partner(right, kr, kl(l))))
    decreases |left|
  {
    if left != [] {
      MatchesUnique(right, kr, kl(left[0]));
      LeftJoinIsLookup(left[1..], right, kl, kr);
      var g := (l: L) => (l, Partner(right, kr, kl(l)));
      assert left == [left[0]] + left[1..];
      MapCons(left[0], left[1..], g);
      assert Pairs(left[0], Matches(right, kr, kl(left[0]))) == [g(left[0])];
    }
  }

  /** Under unique keys, the partner of `k` is the right row with key `k`,
      and there is none exactly when no right row has that key. */
  lemma PartnerSpec<R>(right: seq<R>, kr: R -> string, k: string)
    requires UniqueKeys(right, kr)
    ensures Partner(right, kr, k).None? <==> forall x :: x in right ==> kr(x) != k
    ensures Partner(right, kr, k).Some? ==>
              Partner(right, kr, k).value in right && kr(Partner(right, kr, k).value) == k
    ensures forall i :: 0 <= i < |right| && kr(right[i]) == k ==> Partner(right, kr, k) == Some(right[i])
  {
    MatchesUnique(right, kr, k);
    forall i | 0 <= i < |right| && kr(right[i]) == k
      ensures Partner(right, kr, k) == Some(right[i])
    {
      var x := Partner(right, kr, k).value;
      var j :| 0 <= j < |right| && right[j] == x;
      assert kr(right[j]) == k;
    }
  }
}

=== FILE: media_vendas.dfy ===
/** `MediaVendas`: the table of average monthly sales per product and store,
    read once from a bundled workbook and then queried in memory. The
    workbook as read (`None` when it is missing or unreadable) is a
    parameter. */
module MediaVendas {
  import opened Wrappers
  import opened Text
  import opened Numbers
  import opened Cells
  import opened Seqs

  const CodigoCol := "C\U{F3}digo"
  const LojaCol := "Loja"
  const QtdCol := "Qtd"

  /** `_carregar_dados`: the table read, or an empty table when the file is
      missing or reading it fails. */
  function Carregar(leitura: Option<Frame>): Frame
  {
    match leitura
    case None => EmptyFrame
    case Some(f) => f
  }

  /** `get_df`: the cached table is used while it has rows, and the file is
      read again whenever it has none. The new cache is returned with the
      table. */
  function GetDf(cache: Option<Frame>, leitura: Option<Frame>): (r: (Frame, Option<Frame>))
    ensures r.1 == Some(r.0)
    ensures cache.Some? && |cache.value.rows| > 0 ==> r.0 == cache.value
    ensures (cache.None? || |cache.value.rows| == 0) && leitura.None? ==> r.0 == EmptyFrame
    ensures (cache.None? || |cache.value.rows| == 0) && leitura.Some? ==> r.0 == leitura.value
  {
    match cache
    case Some(f) =>
      if |f.rows| > 0 then (f, cache) else (Carregar(leitura), Some(Carregar(leitura)))
    case None => (Carregar(leitura), Some(Carregar(leitura)))
  }

  /** Once a table with rows has been cached, every later `get_df` returns
      it, whatever the file holds by then. */
  lemma {:induction false} GetDfStable(cache: Option<Frame>, leitura: Option<Frame>, depois: seq<Option<Frame>>)
    requires |GetDf(cache, leitura).0.rows| > 0
    ensures Replay(GetDf(cache, leitura).1, depois) == GetDf(cache, leitura).1
    decreases |depois|
  {
    if depois != [] {
      var c := GetDf(cache, leitura).1;
      assert GetDf(c, depois[0]).1 == c;
      GetDfStable(c, depois[0], depois[1..]);
    }
  }

  /** The cache after a sequence of `get_df` calls, each seeing the file as
      given. */
  function Replay(cache: Option<Frame>, leituras: seq<Option<Frame>>): Option<Frame>
    decreases |leituras|
  {
    if leituras == [] then cache else Replay(GetDf(cache, leituras[0]).1, leituras[1..])
  }

  /** `col.str.upper()` of one cell: a cell that is not text gives NaN,
      which equals nothing. */
  function UpperText(c: Cell): Option<string>
  {
    if c.Str? then Some(Upper(c.s)) else None
  }

  /** `.str` is only available on a column that holds text. */
  predicate TextColumn(f: Frame, name: string)
  {
    exists i :: 0 <= i < |f.rows| && Get(f, f.rows[i], name).Str?
  }

  /** The row's code, written out, is `str(codigo)`. */
  function MesmoCodigo(f: Frame, codigo: Cell): Row -> bool
  {
    (row: Row) => CellText(Get(f, row, CodigoCol)) == CellText(codigo)
  }

  /** The row's code is `codigo` and its store is `loja`, case aside. */
  function MesmaLoja(f: Frame, codigo: Cell, loja: Cell): Row -> bool
  {
    (row: Row) => MesmoCodigo(f, codigo)(row) && UpperText(Get(f, row, LojaCol)) == Some(Upper(CellText(loja)))
  }

  /** The first row where `p` holds. */
  function Primeira(rows: seq<Row>, p: Row -> bool): (r: Option<nat>)
    ensures r.Some? ==> r.value < |rows| && p(rows[r.value])
    ensures r.Some? ==> forall k :: 0 <= k < r.value ==> !p(rows[k])
    ensures r.None? <==> forall k :: 0 <= k < |rows| ==> !p(rows[k])
  {
    FirstFromSpec(Linha(rows, p), 0, |rows|);
    assert forall k :: 0 <= k < |rows| ==> (Linha(rows, p)(k) <==> p(rows[k]));
    FirstFrom(Linha(rows, p), 0, |rows|)
  }

  function Linha(rows: seq<Row>, p: Row -> bool): nat -> bool
  {
    (i: nat) => i < |rows| && p(rows[i])
  }

  /** The table can be filtered by code and store: both columns exist and
      the store column holds text. */
  predicate PorLojaConsultavel(f: Frame)
  {
    HasCol(f, CodigoCol) && HasCol(f, LojaCol) && TextColumn(f, LojaCol)
  }

  /** `get_media_por_produto_loja` on the table `get_df` gave: `None` when
      the lookup raises. An empty table gives 0; otherwise the `Qtd` of the
      first row with that code and store, and 0 when there is none. */
  function MediaPorProdutoLoja(f: Frame, codigo: Cell, loja: Cell): (r: Option<Cell>)
    ensures |f.rows| == 0 ==> r == Some(Int(0))
    ensures |f.rows| > 0 && !PorLojaConsultavel(f) ==> r.None?
    ensures |f.rows| > 0 && PorLojaConsultavel(f) ==>
              (forall i :: 0 <= i < |f.rows| ==> !MesmaLoja(f, codigo, loja)(f.rows[i])) ==> r == Some(Int(0))
    ensures |f.rows| > 0 && PorLojaConsultavel(f) ==>
              forall i :: 0 <= i < |f.rows| && MesmaLoja(f, codigo, loja)(f.rows[i])
                          && (forall k :: 0 <= k < i ==> !MesmaLoja(f, codigo, loja)(f.rows[k])) ==>
                r == (if HasCol(f, QtdCol) then Some(Get(f, f.rows[i], QtdCol)) else None)
  {
    if |f.rows| == 0 then Some(Int(0))
    else if !PorLojaConsultavel(f) then None
    else match Primeira(f.rows, MesmaLoja(f, codigo, loja))
      case None => Some(Int(0))
      case Some(i) => if HasCol(f, QtdCol) then Some(Get(f, f.rows[i], QtdCol)) else None
  }

  /** The mean of a column, as pandas computes it: missing cells are
      skipped, and with none left the mean is NaN (`None`). */
  function Media(cs: seq<Cell>): (r: Option<real>)
    requires forall k :: 0 <= k < |cs| ==> !cs[k].Str?
    ensures r.None? <==> Numeros(cs) == 0
    ensures r.Some? ==> r.value * (Numeros(cs) as real) == Soma(cs)
  {
    if Numeros(cs) == 0 then None else Some(Soma(cs) / (Numeros(cs) as real))
  }

  predicate TemNumero(c: Cell)
  {
    CellNumber(c).Some?
  }

  /** The number a cell holds, 0 for one without. */
  function Valor(c: Cell): real
  {
    if TemNumero(c) then Val(CellNumber(c).value) else 0.0
  }

  /** The sum of the numbers in the cells. */
  function Soma(cs: seq<Cell>): real
  {
    if cs == [] then 0.0 else Valor(cs[0]) + Soma(cs[1..])
  }

  /** How many cells hold a number. */
  function Numeros(cs: seq<Cell>): nat
  {
    if cs == [] then 0 else (if TemNumero(cs[0]) then 1 else 0) + Numeros(cs[1..])
  }

  /** `n` copies of `x` added up. */
  function Vezes(x: real, n: nat): real
  {
    if n == 0 then 0.0 else x + Vezes(x, n - 1)
  }

  lemma {:induction false} VezesIsProduct(x: real, n: nat)
    ensures Vezes(x, n) == x * (n as real)
  {
    if n > 0 {
      VezesIsProduct(x, n - 1);
      Succ(x, n - 1);
    }
  }

  lemma Succ(x: real, n: nat)
    ensures x * (n as real) + x == x * ((n + 1) as real)
  {
  }

  /** The numbers of the cells add up to between `n` times the least and
      `n` times the greatest of them. */
  lemma {:induction false} SomaBounds(cs: seq<Cell>, lo: real, hi: real)
    requires forall k :: 0 <= k < |cs| && TemNumero(cs[k]) ==> lo <= Valor(cs[k]) <= hi
    ensures Vezes(lo, Numeros(cs)) <= Soma(cs) <= Vezes(hi, Numeros(cs))
  {
    if cs != [] {
      assert forall k :: 1 <= k < |cs| ==> cs[1..][k - 1] == cs[k];
      SomaBounds(cs[1..], lo, hi);
    }
  }

  lemma DivBounds(s: real, n: real, lo: real, hi: real)
    requires n > 0.0 && lo * n <= s <= hi * n
    ensures lo <= s / n <= hi
  {
  }

  /** A mean lies between the least and the greatest of its numbers. */
  lemma MediaBounds(cs: seq<Cell>, lo: real, hi: real)
    requires forall k :: 0 <= k < |cs| ==> !cs[k].Str?
    requires forall k :: 0 <= k < |cs| && TemNumero(cs[k]) ==> lo <= Valor(cs[k]) <= hi
    ensures Media(cs).Some? ==> lo <= Media(cs).value <= hi
  {
    if Media(cs).Some? {
      SomaBounds(cs, lo, hi);
      Entre(Soma(cs), Numeros(cs), lo, hi, Media(cs).value);
    }
  }

  /** A sum of `n` numbers between `lo` and `hi`, divided by `n`, stays
      between them. */
  lemma Entre(s: real, n: nat, lo: real, hi: real, v: real)
    requires n > 0 && Vezes(lo, n) <= s <= Vezes(hi, n) && v == s / (n as real)
    ensures lo <= v <= hi
  {
    VezesIsProduct(lo, n);
    VezesIsProduct(hi, n);
    DivBounds(s, n as real, lo, hi);
  }

  /** The average sales of a product across stores. */
  datatype MediaProduto = Zero | Mean(x: real) | NaN

  /** The `Qtd` cells of the rows. */
  function QtdCells(f: Frame, rows: seq<Row>): (r: seq<Cell>)
    ensures |r| == |rows| && forall k :: 0 <= k < |rows| ==> r[k] == Get(f, rows[k], QtdCol)
  {
    Map(rows, (row: Row) => Get(f, row, QtdCol))
  }

  predicate SemTexto(cs: seq<Cell>)
  {
    forall k :: 0 <= k < |cs| ==> !cs[k].Str?
  }

  /** `get_media_por_produto` on the table `get_df` gave: `None` when it
      raises. An empty table, or no row with that code, gives 0; otherwise
      the mean `Qtd` over every row with that code, NaN when none of them
      has a quantity. */
  function MediaPorProduto(f: Frame, codigo: Cell): (r: Option<MediaProduto>)
    ensures |f.rows| == 0 ==> r == Some(Zero)
    ensures |f.rows| > 0 && !HasCol(f, CodigoCol) ==> r.None?
    ensures |f.rows| > 0 && HasCol(f, CodigoCol) && Count(f.rows, MesmoCodigo(f, codigo)) == 0 ==> r == Some(Zero)
    ensures r.Some? && r.value.Mean? ==>
              var qs := QtdCells(f, Filter(f.rows, MesmoCodigo(f, codigo)));
              SemTexto(qs) && Media(qs) == Some(r.value.x)
    ensures r.Some? && r.value.NaN? ==> Numeros(QtdCells(f, Filter(f.rows, MesmoCodigo(f, codigo)))) == 0
  {
    if |f.rows| == 0 then Some(Zero)
    else if !HasCol(f, CodigoCol) then None
    else
      var rows := Filter(f.rows, MesmoCodigo(f, codigo));
      FilterCount(f.rows, MesmoCodigo(f, codigo));
      if |rows| == 0 then Some(Zero)
      else if !HasCol(f, QtdCol) then None
      else
        MediaDe(QtdCells(f, rows))
  }

  /** The mean of the quantities: `None` when one is text (the mean
      raises), NaN when none is a number. */
  function MediaDe(qs: seq<Cell>): (r: Option<MediaProduto>)
    ensures r.None? <==> !SemTexto(qs)
    ensures r.Some? ==> r.value != Zero
    ensures r.Some? && r.value.Mean? ==>
              SemTexto(qs) && Media(qs) == Some(r.value.x)
    ensures r.Some? && r.value.NaN? ==> Numeros(qs) == 0
  {
    if !SemTexto(qs) then None
    else match Media(qs)
      case None => Some(NaN)
      case Some(x) => Some(Mean(x))
  }

  /** The mean across stores lies between the least and the greatest
      quantity of the product. */
  lemma {:induction false} MediaPorProdutoBounds(f: Frame, codigo: Cell, lo: real, hi: real)
    requires forall i :: 0 <= i < |f.rows| && MesmoCodigo(f, codigo)(f.rows[i]) && TemNumero(Get(f, f.rows[i], QtdCol)) ==>
               lo <= Valor(Get(f, f.rows[i], QtdCol)) <= hi
    ensures MediaPorProduto(f, codigo).Some? && MediaPorProduto(f, codigo).value.Mean? ==>
              lo <= MediaPorProduto(f, codigo).value.x <= hi
  {
    var r := MediaPorProduto(f, codigo);
    if r.Some? && r.value.Mean? {
      var qs := QtdCells(f, Filter(f.rows, MesmoCodigo(f, codigo)));
      QtdsEntre(f, codigo, lo, hi, qs);
      MediaBounds(qs, lo, hi);
    }
  }

  /** The product's quantities, once filtered, keep their bounds. */
  lemma QtdsEntre(f: Frame, codigo: Cell, lo: real, hi: real, qs: seq<Cell>)
    requires forall i :: 0 <= i < |f.rows| && MesmoCodigo(f, codigo)(f.rows[i]) && TemNumero(Get(f, f.rows[i], QtdCol)) ==>
               lo <= Valor(Get(f, f.rows[i], QtdCol)) <= hi
    requires qs == QtdCells(f, Filter(f.rows, MesmoCodigo(f, codigo)))
    ensures forall k :: 0 <= k < |qs| && TemNumero(qs[k]) ==> lo <= Valor(qs[k]) <= hi
  {
    var rows := Filter(f.rows, MesmoCodigo(f, codigo));
    FilterMembers(f.rows, MesmoCodigo(f, codigo));
    FilterPasses(f.rows, MesmoCodigo(f, codigo));
    forall k | 0 <= k < |qs| && TemNumero(qs[k])
      ensures lo <= Valor(qs[k]) <= hi
    {
      var i :| 0 <= i < |f.rows| && f.rows[i] == rows[k];
    }
  }

  /** The rows that carry exactly one product. */
  predicate Unica(f: Frame, codigo: Cell, i: nat)
  {
    i < |f.rows| && MesmoCodigo(f, codigo)(f.rows[i])
    && forall k :: 0 <= k < |f.rows| && k != i ==> !MesmoCodigo(f, codigo)(f.rows[k])
  }

  /** When a single row carries the product, its mean across stores is that
      row's quantity, which is also what the per-store lookup finds for it. */
  lemma {:induction false} UnicaLinha(f: Frame, codigo: Cell, i: nat)
    requires Unica(f, codigo, i) && PorLojaConsultavel(f) && HasCol(f, QtdCol)
    requires Get(f, f.rows[i], LojaCol).Str? && TemNumero(Get(f, f.rows[i], QtdCol))
    ensures MediaPorProduto(f, codigo) == Some(Mean(Valor(Get(f, f.rows[i], QtdCol))))
    ensures MediaPorProdutoLoja(f, codigo, Get(f, f.rows[i], LojaCol)) == Some(Get(f, f.rows[i], QtdCol))
  {
    UnicaMedia(f, codigo, i);
    UnicaLoja(f, codigo, i);
  }

  lemma {:induction false} UnicaMedia(f: Frame, codigo: Cell, i: nat)
    requires Unica(f, codigo, i) && HasCol(f, CodigoCol) && HasCol(f, QtdCol)
    requires TemNumero(Get(f, f.rows[i], QtdCol))
    ensures MediaPorProduto(f, codigo) == Some(Mean(Valor(Get(f, f.rows[i], QtdCol))))
  {
    var p := MesmoCodigo(f, codigo);
    UnicaFilter(f.rows, p, i);
    var qs := QtdCells(f, Filter(f.rows, p));
    var q := Get(f, f.rows[i], QtdCol);
    assert qs == [q];
    MediaDeUm(q);
  }

  /** The mean of a single quantity is that quantity. */
  lemma MediaDeUm(q: Cell)
    requires TemNumero(q)
    ensures MediaDe([q]) == Some(Mean(Valor(q)))
  {
    assert [q][1..] == [];
    assert Soma([q]) == Valor(q);
    assert Numeros([q]) == 1;
  }

  lemma {:induction false} UnicaLoja(f: Frame, codigo: Cell, i: nat)
    requires Unica(f, codigo, i) && PorLojaConsultavel(f) && HasCol(f, QtdCol)
    requires Get(f, f.rows[i], LojaCol).Str?
    ensures MediaPorProdutoLoja(f, codigo, Get(f, f.rows[i], LojaCol)) == Some(Get(f, f.rows[i], QtdCol))
  {
    var loja := Get(f, f.rows[i], LojaCol);
    assert CellText(loja) == loja.s;
    assert MesmaLoja(f, codigo, loja)(f.rows[i]);
    assert forall k :: 0 <= k < i ==> !MesmaLoja(f, codigo, loja)(f.rows[k]);
  }

  /** Filtering keeps exactly the one row that passes. */
  lemma {:induction false} UnicaFilter(s: seq<Row>, p: Row -> bool, i: nat)
    requires i < |s| && p(s[i]) && forall k :: 0 <= k < |s| && k != i ==> !p(s[k])
    ensures Filter(s, p) == [s[i]]
  {
    FilterCount(s, p);
    CountOne(s, p, i);
    FilterMembers(s, p);
    FilterPasses(s, p);
    var j :| 0 <= j < |s| && s[j] == Filter(s, p)[0];
    assert p(s[j]);
  }

  /** A condition that holds at exactly one position is counted once. */
  lemma {:induction false} CountOne(s: seq<Row>, p: Row -> bool, i: nat)
    requires i < |s| && p(s[i]) && forall k :: 0 <= k < |s| && k != i ==> !p(s[k])
    ensures Count(s, p) == 1
  {
    if i == 0 {
      CountNone(s[1..], p);
    } else {
      assert !p(s[0]);
      assert forall k :: 0 <= k < |s[1..]| && k != i - 1 ==> s[1..][k] == s[k + 1];
      CountOne(s[1..], p, i - 1);
    }
  }

  lemma {:induction false} CountNone(s: seq<Row>, p: Row -> bool)
    requires forall k :: 0 <= k < |s| ==> !p(s[k])
    ensures Count(s, p) == 0
  {
    if s != [] {
      assert forall k :: 0 <= k < |s[1..]| ==> s[1..][k] == s[k + 1];
      CountNone(s[1..], p);
    }
  }
}

=== FILE: numbers.dfy ===
/** Decimal numbers as the program sees them: the float parser behind
    Python's `float(s)` and `pd.to_numeric`, `str()` of a float, and the
    integer conversions `int(x)` and rounding. Values are exact. */
module Numbers {
  import opened Wrappers
  import opened Text

  /** The number `m / 10^e`; `e` counts the digits after the point. */
  datatype Dec = Dec(m: int, e: nat)

  function Val(d: Dec): real
  {
    d.m as real / Pow10(d.e) as real
  }

  /** A number without digits after the point is its integer. */
  lemma ValWhole(m: int)
    ensures Val(Dec(m, 0)) == m as real
  {
    assert Pow10(0) == 1;
  }

  function Abs(x: int): nat
  {
    if x < 0 then -x else x
  }

  lemma ShiftVal(m: int, e: nat)
    requires e > 0 && m % 10 == 0
    ensures Val(Dec(m / 10, e - 1)) == Val(Dec(m, e))
  {
    var p := Pow10(e - 1) as real;
    assert Pow10(e) as real == 10.0 * p;
    assert m as real == 10.0 * (m / 10) as real;
  }

  /** Drops trailing zeros after the point, keeping the value. */
  function Canon(d: Dec): (r: Dec)
    ensures Val(r) == Val(d)
    ensures r.e == 0 || r.m % 10 != 0
    ensures r.e <= d.e
    decreases d.e
  {
    if d.e > 0 && d.m % 10 == 0 then
      ShiftVal(d.m, d.e);
      Canon(Dec(d.m / 10, d.e - 1))
    else d
  }

  /** Python's `str()` of a float holding the value of `d` (positional
      notation; the shortest form, so trailing zeros go and `.0` marks an
      integral value). */
  function Repr(d: Dec): string
  {
    var c := Canon(d);
    if c.e == 0 then IntText(c.m) + ".0"
    else SignText(c.m) + FixedDigits(Abs(c.m), c.e)
  }

  /** `"-"` for a negative number, nothing otherwise. */
  function SignText(m: int): string
  {
    if m < 0 then "-" else ""
  }

  /** The digits of `a / 10^e` with exactly `e` digits after the point:
      the digits of `a`, zero-padded so that one is left before the point. */
  function FixedDigits(a: nat, e: nat): string
  {
    var s := ZeroPad(NatText(a), e + 1);
    s[..|s| - e] + "." + s[|s| - e..]
  }

  /** The body of a number literal: `ip` before the first point, `frac` after it. */
  function SplitPoint(body: string): (r: (string, string))
    ensures |r.0| <= |body| && (|r.0| < |body| ==> |r.1| < |body| - |r.0|)
    ensures |r.0| == |body| ==> r.1 == ""
  {
    var ip := BeforeFirst(body, '.');
    (ip, if |ip| < |body| then body[|ip| + 1..] else "")
  }

  /** `body` with any leading sign removed. */
  function Unsigned(t: string): (r: string)
    ensures |r| <= |t|
  {
    if |t| > 0 && (t[0] == '-' || t[0] == '+') then t[1..] else t
  }

  /** The decimal parser behind `float(s)` and `pd.to_numeric`: surrounding
      whitespace, an optional sign, digits with at most one point and at
      least one digit. `None` is the `ValueError` (or `NaN` under coercion). */
  function ParseNumber(s: string): (r: Option<Dec>)
    ensures r.Some? ==> 0 < |s| && r.value.e < |s|
  {
    var t := Strip(s);
    ParseBody(|t| > 0 && t[0] == '-', Unsigned(t))
  }

  /** The unsigned part of a literal: digits with at most one point. */
  function ParseBody(neg: bool, body: string): (r: Option<Dec>)
    ensures r.Some? ==> 0 < |body| && r.value.e < |body|
  {
    var (ip, frac) := SplitPoint(body);
    if AllDigits(ip) && AllDigits(frac) && |ip| + |frac| > 0 then
      AllDigitsAppend(ip, frac);
      var m: int := DigitsValue(ip + frac);
      Some(Dec(if neg then -m else m, |frac|))
    else None
  }

  /** A literal that `pd.to_numeric` reads as an integer: it parses and has no point. */
  predicate IsIntLiteral(s: string)
  {
    ParseNumber(s).Some? && '.' !in s
  }

  lemma {:induction false} SplitNoPoint(x: string)
    requires '.' !in x
    ensures SplitPoint(x) == (x, "")
  {
    assert BeforeFirst(x, '.') == x;
  }

  /** A literal without a point has no digits after it. */
  lemma {:induction false} IntLiteralScale(s: string)
    requires IsIntLiteral(s)
    ensures ParseNumber(s).value.e == 0
  {
    var t := Strip(s);
    StripKeeps(s, '.');
    var body := Unsigned(t);
    assert '.' !in body;
    SplitNoPoint(body);
  }

  lemma {:induction false} SplitAtPoint(x: string, y: string)
    requires '.' !in x && '.' !in y
    ensures SplitPoint(x + "." + y) == (x, y)
  {
    var b := x + "." + y;
    var ip := BeforeFirst(b, '.');
    BeforeFirstAt(x, y, '.');
    assert b[|x| + 1..] == y;
  }

  lemma NoSpaceInDigits(s: string)
    requires AllDigits(s)
    ensures forall i :: 0 <= i < |s| ==> !IsSpace(s[i])
  {
  }

  /** A sign followed by text without whitespace is its own stripped form. */
  lemma {:induction false} SignedStrip(sign: string, body: string)
    requires sign == "-" || sign == ""
    requires forall i :: 0 <= i < |body| ==> !IsSpace(body[i])
    ensures Strip(sign + body) == sign + body
  {
    var s := sign + body;
    assert forall i :: 0 <= i < |s| ==> !IsSpace(s[i]);
    StripNoSpace(s);
  }

  /** Dropping the sign of a signed literal leaves its body. */
  lemma {:induction false} SignedUnsigned(sign: string, body: string)
    requires sign == "-" || sign == ""
    requires |body| > 0 && body[0] != '-' && body[0] != '+'
    ensures Unsigned(sign + body) == body
  {
    if sign == "" {
      assert sign + body == body;
    } else {
      assert (sign + body)[1..] == body;
    }
  }

  /** The parser applied to an already stripped signed literal. */
  lemma {:induction false} ParseSigned(sign: string, body: string)
    requires sign == "-" || sign == ""
    requires |body| > 0 && body[0] != '-' && body[0] != '+'
    requires forall i :: 0 <= i < |body| ==> !IsSpace(body[i])
    ensures ParseNumber(sign + body) == ParseBody(sign == "-", body)
  {
    SignedStrip(sign, body);
    SignedUnsigned(sign, body);
  }

  /** A run of digits without a point reads as an integer. */
  lemma {:induction false} BodyDigits(neg: bool, digits: string)
    requires |digits| > 0 && AllDigits(digits)
    ensures ParseBody(neg, digits) == Some(Dec(if neg then -(DigitsValue(digits) as int) else DigitsValue(digits), 0))
  {
    SplitNoPoint(digits);
    assert digits + "" == digits;
  }

  /** Digits, a point and digits read as a decimal with `|frac|` places. */
  lemma {:induction false} BodyFixed(neg: bool, ip: string, frac: string)
    requires |ip| > 0 && AllDigits(ip) && AllDigits(frac)
    ensures AllDigits(ip + frac)
    ensures ParseBody(neg, ip + "." + frac)
         == Some(Dec(if neg then -(DigitsValue(ip + frac) as int) else DigitsValue(ip + frac), |frac|))
  {
    SplitAtPoint(ip, frac);
    AllDigitsAppend(ip, frac);
  }

  /** `float(str(n))` reads back `n`. */
  lemma {:induction false} ParseIntText(n: int)
    ensures ParseNumber(IntText(n)) == Some(Dec(n, 0))
  {
    var digits := NatText(Abs(n));
    var sign := SignText(n);
    assert IntText(n) == sign + digits;
    assert digits[0] != '-' && digits[0] != '+';
    NoSpaceInDigits(digits);
    ParseSigned(sign, digits);
    BodyDigits(n < 0, digits);
    NatTextValue(Abs(n));
  }

  /** `pd.to_numeric` reads `str(n)` back as an integer. */
  lemma {:induction false} IntTextIsIntLiteral(n: int)
    ensures IsIntLiteral(IntText(n))
  {
    ParseIntText(n);
    var digits := NatText(Abs(n));
    assert IntText(n) == SignText(n) + digits;
    assert '.' !in digits;
  }

  /** `str()` of a signed fixed-point literal parses to its digits. */
  lemma {:induction false} ParseFixed(lit: string, sign: string, ip: string, frac: string, v: Dec)
    requires sign == "-" || sign == ""
    requires |ip| > 0 && AllDigits(ip) && AllDigits(frac)
    requires lit == sign + (ip + "." + frac)
    requires AllDigits(ip + frac) && v == Dec(if sign == "-" then -(DigitsValue(ip + frac) as int) else DigitsValue(ip + frac), |frac|)
    ensures ParseNumber(lit) == Some(v)
  {
    var body := ip + "." + frac;
    assert body[0] == ip[0];
    assert forall i :: 0 <= i < |body| ==> !IsSpace(body[i]);
    ParseSigned(sign, body);
    BodyFixed(sign == "-", ip, frac);
  }

  /** The value of a fixed-point rendering. */
  lemma {:induction false} FixedDigitsValue(a: nat, e: nat, ip: string, frac: string)
    requires var s := ZeroPad(NatText(a), e + 1); ip == s[..|s| - e] && frac == s[|s| - e..]
    ensures FixedDigits(a, e) == ip + "." + frac
    ensures |ip| > 0 && |frac| == e && AllDigits(ip) && AllDigits(frac)
    ensures AllDigits(ip + frac) && DigitsValue(ip + frac) == a
  {
    var s := ZeroPad(NatText(a), e + 1);
    assert ip + frac == s;
    NatTextValue(a);
  }

  /** `str()` of an integral float is the integer followed by `.0`. */
  lemma {:induction false} ParseWholeRepr(m: int)
    ensures ParseNumber(IntText(m) + ".0") == Some(Dec(10 * m, 1))
  {
    var ip := NatText(Abs(m));
    var sign := SignText(m);
    assert IntText(m) + ".0" == sign + (ip + "." + "0");
    DigitsValueAppend(ip, "0");
    NatTextValue(Abs(m));
    assert Pow10(1) == 10;
    assert DigitsValue("0") == 0;
    assert DigitsValue(ip + "0") == 10 * Abs(m);
    ParseFixed(IntText(m) + ".0", sign, ip, "0", Dec(10 * m, 1));
  }

  lemma ShiftWhole(m: int)
    ensures Val(Dec(10 * m, 1)) == Val(Dec(m, 0))
  {
    assert Pow10(1) == 10 && Pow10(0) == 1;
    assert (10 * m) as real == 10.0 * m as real;
  }

  /** `str()` of a float with a fractional part parses to its canonical digits. */
  lemma {:induction false} ParseFracRepr(c: Dec)
    requires c.e > 0
    ensures ParseNumber(SignText(c.m) + FixedDigits(Abs(c.m), c.e)) == Some(c)
  {
    var a := Abs(c.m);
    var s := ZeroPad(NatText(a), c.e + 1);
    var ip, frac := s[..|s| - c.e], s[|s| - c.e..];
    FixedDigitsValue(a, c.e, ip, frac);
    ParseFixed(SignText(c.m) + FixedDigits(a, c.e), SignText(c.m), ip, frac, c);
  }

  /** `float(str(x))` reads back the value of `x`: `Repr` and `ParseNumber`
      are partners. */
  lemma {:induction false} ParseRepr(d: Dec)
    ensures ParseNumber(Repr(d)).Some?
    ensures Val(ParseNumber(Repr(d)).value) == Val(d)
  {
    var c := Canon(d);
    if c.e == 0 {
      ParseWholeRepr(c.m);
      ShiftWhole(c.m);
    } else {
      ParseFracRepr(c);
    }
  }

  /** Python's `int(x)` on a float: truncation toward zero. */
  function Trunc(x: real): (r: int)
    ensures x >= 0.0 ==> 0 <= r && r as real <= x < r as real + 1.0
    ensures x < 0.0 ==> r <= 0 && r as real - 1.0 < x <= r as real
  {
    if x >= 0.0 then x.Floor else -((-x).Floor)
  }

  /** Truncating an integer leaves it unchanged. */
  lemma TruncWhole(m: int)
    ensures Trunc(m as real) == m
  {
    if m < 0 {
      assert -(m as real) == (-m) as real;
    }
  }

  /** Rounding half to even of a non-negative value, as Python's fixed-point
      formatting does with an exact value. */
  function RoundHalfEven(y: real): (r: int)
    requires y >= 0.0
    ensures 0 <= r
    ensures y - 0.5 <= r as real <= y + 0.5
  {
    var f := y.Floor;
    var frac := y - f as real;
    if frac > 0.5 then f + 1
    else if frac < 0.5 then f
    else if f % 2 == 0 then f else f + 1
  }
}

=== FILE: relatorios.dfy ===
/** The report catalogue (`GerenciadorRelatorios`) and the stock-out report
    built directly from the combined table (`RelatorioRuptura.gerar`): which
    reports are offered for the sheets loaded, how a report is found by name,
    and the records the stock-out report computes for each sales row. */
module Relatorios {
  import opened Wrappers
  import opened Text
  import opened Numbers
  import opened Cells
  import opened Seqs
  import Identificador
  import MediaVendas
  import Ruptura

  // ---------------------------------------------------------------------
  // The catalogue

  datatype Relatorio = RelRaw | RelExemplo | RelVendas | RelEntradas | RelComparativo | RelRuptura

  /** Each report's `nome`, as shown in the report list. */
  function Nome(r: Relatorio): string
  {
    match r
    case RelRaw => "\U{1F4CB} Dados Combinados (Raw)"
    case RelExemplo => "\U{1F4C1} Modelo 1 - Relat\U{F3}rio Exemplo"
    case RelVendas => "\U{1F4C8} An\U{E1}lise de Vendas por Loja"
    case RelEntradas => "\U{1F4CA} An\U{E1}lise de Entradas por Categoria"
    case RelComparativo => "\U{1F504} Comparativo Vendas x Entradas"
    case RelRuptura => "\U{1F4C9} Ruptura - An\U{E1}lise de Disponibilidade"
  }

  /** `self.relatorios`, always present. */
  const Fixos: seq<Relatorio> := [RelRaw, RelExemplo]

  /** `self.relatorios_condicionais`, offered only for some sheets. */
  const Condicionais: seq<Relatorio> := [RelVendas, RelEntradas, RelComparativo, RelRuptura]

  /** `listar_todos_relatorios`: the fixed reports, then the conditional
      ones; every report appears exactly once. */
  function ListarTodos(): (r: seq<Relatorio>)
    ensures |r| == |Fixos| + |Condicionais|
    ensures Distinct(r)
    ensures forall x: Relatorio :: x in r
    ensures r[..|Fixos|] == Fixos
  {
    var r := Fixos + Condicionais;
    assert r[0] == RelRaw && r[1] == RelExemplo && r[2] == RelVendas;
    assert r[3] == RelEntradas && r[4] == RelComparativo && r[5] == RelRuptura;
    assert forall x: Relatorio :: x in r by {
      forall x: Relatorio
        ensures x in r
      {
        if x.RelRaw? { assert r[0] == x; }
        else if x.RelExemplo? { assert r[1] == x; }
        else if x.RelVendas? { assert r[2] == x; }
        else if x.RelEntradas? { assert r[3] == x; }
        else if x.RelComparativo? { assert r[4] == x; }
        else { assert r[5] == x; }
      }
    }
    r
  }

  const CurvaAbcNome := "Curva ABC por Loja"
  const EstoqueNome := "Estoque"

  /** `get_relatorios_disponiveis`: the stock-out report when both a sales
      curve and a stock sheet were identified, and otherwise only the
      example report. A missing list behaves as an empty one. */
  function GetRelatoriosDisponiveis(tipos: seq<string>): (r: seq<Relatorio>)
    ensures |r| == 1
    ensures r == [RelRuptura] <==> CurvaAbcNome in tipos && EstoqueNome in tipos
    ensures r != [RelRuptura] ==> r == [RelExemplo]
  {
    if tipos != [] && CurvaAbcNome in tipos && EstoqueNome in tipos then [RelRuptura]
    else [RelExemplo]
  }

  /** Fed with the names of the identified sheet models, the stock-out report
      is offered exactly when a Curva ABC and a stock sheet are among them. */
  lemma {:induction false} DisponiveisPorModelos(ms: seq<Identificador.Modelo>)
    ensures GetRelatoriosDisponiveis(Map(ms, Identificador.Nome)) == [RelRuptura] <==>
              Identificador.ModeloCurvaAbc in ms && Identificador.ModeloEstoque in ms
  {
    var ns := Map(ms, Identificador.Nome);
    NomeDoModelo(ms, Identificador.ModeloCurvaAbc);
    NomeDoModelo(ms, Identificador.ModeloEstoque);
  }

  /** A model's name is among the names of `ms` exactly when the model is. */
  lemma NomeDoModelo(ms: seq<Identificador.Modelo>, m: Identificador.Modelo)
    ensures Identificador.Nome(m) in Map(ms, Identificador.Nome) <==> m in ms
  {
    var ns := Map(ms, Identificador.Nome);
    if Identificador.Nome(m) in ns {
      var i :| 0 <= i < |ns| && ns[i] == Identificador.Nome(m);
      NomesModelosDistintos(ms[i], m);
    }
    if m in ms {
      var i :| 0 <= i < |ms| && ms[i] == m;
      assert ns[i] == Identificador.Nome(m);
    }
  }

  lemma NomesModelosDistintos(a: Identificador.Modelo, b: Identificador.Modelo)
    requires Identificador.Nome(a) == Identificador.Nome(b)
    ensures a == b
  {
    assert |Identificador.Nome(Identificador.ModeloEstoque)| == 7;
    assert Identificador.Nome(Identificador.ModeloCurvaAbc)[0] == 'C';
    assert Identificador.Nome(Identificador.ModeloEntradas)[0] == 'E';
  }

  function MesmoNome(nome: string): Relatorio -> Option<bool>
  {
    (r: Relatorio) => Some(Nome(r) == nome)
  }

  /** `get_relatorio_por_nome`: the first report, in listing order, whose
      name is exactly `nome`, and nothing when none is. */
  function GetRelatorioPorNome(nome: string): (r: Option<Relatorio>)
    ensures r.Some? ==> Nome(r.value) == nome
    ensures r.None? <==> forall x: Relatorio :: Nome(x) != nome
  {
    var todos := ListarTodos();
    match Identificador.Primeiro(todos, MesmoNome(nome))
    case None =>
      assert forall x: Relatorio :: Nome(x) != nome by {
        forall x: Relatorio
          ensures Nome(x) != nome
        {
          assert x in todos;
          var k :| 0 <= k < |todos| && todos[k] == x;
          assert MesmoNome(nome)(todos[k]) != Some(true);
        }
      }
      None
    case Some(i) => Some(todos[i])
  }

  /** Every report is found again by its own name. */
  lemma PorNomeDeVolta(x: Relatorio)
    ensures GetRelatorioPorNome(Nome(x)) == Some(x)
  {
    NomesDistintos(GetRelatorioPorNome(Nome(x)).value, x);
  }

  lemma NomesDistintos(a: Relatorio, b: Relatorio)
    requires Nome(a) == Nome(b)
    ensures a == b
  {
    assert |Nome(RelRaw)| == 24 && |Nome(RelExemplo)| == 30 && |Nome(RelVendas)| == 28;
    assert |Nome(RelEntradas)| == 35 && |Nome(RelComparativo)| == 31 && |Nome(RelRuptura)| == 38;
  }

  // ---------------------------------------------------------------------
  // The stock-out report from the combined table

  const SemDadosTexto := "Nenhum dado para gerar relat\U{F3}rio"

  /** `_criar_cadeamento`: code, product and store joined by dashes. */
  function CriarCadeamento(codigo: string, produto: Cell, loja: Cell): (r: string)
    ensures |r| == |codigo| + |CellText(produto)| + |CellText(loja)| + 2
    ensures '-' !in codigo ==> BeforeFirst(r, '-') == codigo
  {
    var resto := CellText(produto) + "-" + CellText(loja);
    assert codigo + "-" + resto == codigo + ['-'] + resto;
    assert '-' !in codigo ==> BeforeFirst(codigo + ['-'] + resto, '-') == codigo by {
      if '-' !in codigo {
        BeforeFirstAt(codigo, resto, '-');
      }
    }
    codigo + "-" + resto
  }

  /** pandas' `==` between two cells: text equals the same text, numbers
      equal numbers of the same value, and a missing cell equals nothing. */
  predicate CellEq(a: Cell, b: Cell)
  {
    if a.Empty? || b.Empty? then false
    else if a.Str? || b.Str? then a == b
    else Val(CellNumber(a).value) == Val(CellNumber(b).value)
  }

  /** The stock columns keep their combined-table labels here; the report
      renames `Codigo` to `Código`, which changes no value. */
  const CodigoEstoque := "Codigo"
  const LojaEstoque := "Loja"
  const EstoqueLojaCol := "Estoque_Loja"

  /** The stock row's code as text, `astype(str)`. */
  function CodigoDe(f: Frame, row: Row): string
  {
    CellText(Get(f, row, CodigoEstoque))
  }

  /** A stock row of the head office for the product `codigo`. */
  function DaMatriz(f: Frame, codigo: string): Row -> bool
  {
    (row: Row) => Get(f, row, LojaEstoque) == Str(Ruptura.NomeMatriz) && CodigoDe(f, row) == codigo
  }

  /** `estoque_matriz` after its loop has seen the first `n` rows: each
      head-office row writes its stock under its code. */
  function MapaAte(f: Frame, n: nat): map<string, Cell>
    requires n <= |f.rows|
  {
    if n == 0 then map[]
    else
      var row := f.rows[n - 1];
      if Get(f, row, LojaEstoque) == Str(Ruptura.NomeMatriz)
      then MapaAte(f, n - 1)[CodigoDe(f, row) := Get(f, row, EstoqueLojaCol)]
      else MapaAte(f, n - 1)
  }

  /** A code is in the head-office map exactly when some head-office row
      carries it, and then it holds the stock of the last such row. */
  lemma {:induction false} MapaAteSpec(f: Frame, n: nat, codigo: string)
    requires n <= |f.rows|
    ensures codigo in MapaAte(f, n) <==> LastBefore(f.rows, DaMatriz(f, codigo), n).Some?
    ensures codigo in MapaAte(f, n) ==>
              MapaAte(f, n)[codigo] == Get(f, f.rows[LastBefore(f.rows, DaMatriz(f, codigo), n).value], EstoqueLojaCol)
  {
    if n > 0 {
      MapaAteSpec(f, n - 1, codigo);
    }
  }

  /** `estoque_matriz.get(codigo, 0)`: the stock of the last head-office row
      of the product, and 0 when the head office has no row for it. */
  function EstoqueMatriz(f: Frame, codigo: string): (r: Cell)
    ensures LastBefore(f.rows, DaMatriz(f, codigo), |f.rows|).None? ==> r == Int(0)
    ensures LastBefore(f.rows, DaMatriz(f, codigo), |f.rows|).Some? ==>
              r == Get(f, f.rows[LastBefore(f.rows, DaMatriz(f, codigo), |f.rows|).value], EstoqueLojaCol)
  {
    MapaAteSpec(f, |f.rows|, codigo);
    var m := MapaAte(f, |f.rows|);
    if codigo in m then m[codigo] else Int(0)
  }

  /** A stock row of the product `codigo`. */
  function DoProduto(f: Frame, codigo: string): Row -> bool
  {
    (row: Row) => CodigoDe(f, row) == codigo
  }

  /** A stock row of the product `codigo` in the store `loja`. */
  function NaLoja(f: Frame, codigo: string, loja: Cell): Row -> bool
  {
    (row: Row) => CodigoDe(f, row) == codigo && CellEq(Get(f, row, LojaEstoque), loja)
  }

  /** The store's stock of the product: that of the first stock row of the
      product in the store, and 0 when there is none. */
  function EstoqueLoja(f: Frame, codigo: string, loja: Cell): (r: Cell)
    ensures (forall i :: 0 <= i < |f.rows| ==> !NaLoja(f, codigo, loja)(f.rows[i])) ==> r == Int(0)
    ensures forall i :: 0 <= i < |f.rows| && NaLoja(f, codigo, loja)(f.rows[i])
                        && (forall k :: 0 <= k < i ==> !NaLoja(f, codigo, loja)(f.rows[k])) ==>
              r == Get(f, f.rows[i], EstoqueLojaCol)
  {
    match MediaVendas.Primeira(f.rows, NaLoja(f, codigo, loja))
    case None => Int(0)
    case Some(i) => Get(f, f.rows[i], EstoqueLojaCol)
  }

  /** The category or group of the product: the `col` cell of the first
      stock row of the product, and an empty text when there is no such row
      or no such column. */
  function Classe(f: Frame, codigo: string, col: string): (r: Cell)
    ensures !HasCol(f, col) ==> r == Str("")
    ensures (forall i :: 0 <= i < |f.rows| ==> !DoProduto(f, codigo)(f.rows[i])) ==> r == Str("")
    ensures forall i :: 0 <= i < |f.rows| && DoProduto(f, codigo)(f.rows[i])
                        && (forall k :: 0 <= k < i ==> !DoProduto(f, codigo)(f.rows[k])) ==>
              r == (if HasCol(f, col) then Get(f, f.rows[i], col) else Str(""))
  {
    match MediaVendas.Primeira(f.rows, DoProduto(f, codigo))
    case None => Str("")
    case Some(i) => if HasCol(f, col) then Get(f, f.rows[i], col) else Str("")
  }

  /** The monthly average a record shows: the store's own figure, or the
      product's mean across stores when the store's figure is zero. */
  datatype MediaMensal = DaLoja(c: Cell) | DoProdutoTodo(m: MediaVendas.MediaProduto)

  /** `media_vendas_val == 0` for a cell: a number of value zero. */
  predicate CellZero(c: Cell)
  {
    CellNumber(c).Some? && Val(CellNumber(c).value) == 0.0
  }

  /** The average sales of `codigo` in `loja`, falling back to the product's
      mean across stores when the store's figure is zero; `None` when a
      lookup raises. */
  function MediaMensalDe(media: Frame, codigo: string, loja: Cell): (r: Option<MediaMensal>)
    ensures r.Some? && r.value.DaLoja? ==>
              MediaVendas.MediaPorProdutoLoja(media, Str(codigo), loja) == Some(r.value.c) && !CellZero(r.value.c)
    ensures r.Some? && r.value.DoProdutoTodo? ==>
              MediaVendas.MediaPorProduto(media, Str(codigo)) == Some(r.value.m)
              && MediaVendas.MediaPorProdutoLoja(media, Str(codigo), loja).Some?
              && CellZero(MediaVendas.MediaPorProdutoLoja(media, Str(codigo), loja).value)
    ensures MediaVendas.MediaPorProdutoLoja(media, Str(codigo), loja).None? ==> r.None?
    ensures |media.rows| == 0 ==> r == Some(DoProdutoTodo(MediaVendas.Zero))
  {
    match MediaVendas.MediaPorProdutoLoja(media, Str(codigo), loja)
    case None => None
    case Some(c) =>
      if !CellZero(c) then Some(DaLoja(c))
      else match MediaVendas.MediaPorProduto(media, Str(codigo))
        case None => None
        case Some(m) => Some(DoProdutoTodo(m))
  }

  /** One line of the stock-out report. */
  datatype Registro = Registro(
    categoria: Cell,
    grupo: Cell,
    cadeamento: string,
    codigo: string,
    produto: Cell,
    estqLoja: Cell,
    estqMatriz: Cell,
    vendas: Cell,
    media: MediaMensal)

  const CodigoCurva := "C\U{F3}digo"

  /** The record of one sales row of the combined table, or the error an
      average lookup raised. */
  function RegistroDe(f: Frame, media: Frame, row: Row): (r: Result<Registro>)
    ensures r.Ok? <==> MediaMensalDe(media, CellText(Get(f, row, CodigoCurva)), Get(f, row, "Loja_Nome")).Some?
    ensures r.Ok? ==> r.value.codigo == CellText(Get(f, row, CodigoCurva))
    ensures r.Ok? && '-' !in r.value.codigo ==> BeforeFirst(r.value.cadeamento, '-') == r.value.codigo
  {
    var codigo := CellText(Get(f, row, CodigoCurva));
    var loja := Get(f, row, "Loja_Nome");
    match MediaMensalDe(media, codigo, loja)
    case None => Err(Ruptura.KeyError)
    case Some(m) =>
      Ok(Registro(
        categoria := Classe(f, codigo, "Categoria"),
        grupo := Classe(f, codigo, "Grupo"),
        cadeamento := CriarCadeamento(codigo, Get(f, row, "Produto"), loja),
        codigo := codigo,
        produto := Get(f, row, "Produto"),
        estqLoja := EstoqueLoja(f, codigo, loja),
        estqMatriz := EstoqueMatriz(f, codigo),
        vendas := Get(f, row, "Qtd"),
        media := m))
  }

  function Registrar(f: Frame, media: Frame): Row -> Result<Registro>
  {
    (row: Row) => RegistroDe(f, media, row)
  }

  /** The loop over the sales rows: one record per row, in order, or the
      first error a row raised. */
  function RegistrosDe(f: Frame, media: Frame): (r: Result<seq<Registro>>)
    ensures r.Ok? <==> forall i :: 0 <= i < |f.rows| ==> RegistroDe(f, media, f.rows[i]).Ok?
    ensures r.Ok? ==> |r.value| == |f.rows| && forall i :: 0 <= i < |f.rows| ==> RegistroDe(f, media, f.rows[i]) == Ok(r.value[i])
  {
    var g := Registrar(f, media);
    assert forall i :: 0 <= i < |f.rows| ==> g(f.rows[i]) == RegistroDe(f, media, f.rows[i]);
    Todas(f.rows, g)
  }

  /** What `gerar` ends with: a message, or the records of the report. */
  datatype Saida = SemDados | SemMedia | Insuficiente | Registros(regs: seq<Registro>)

  /** The table holds sales-curve columns. */
  predicate TemCurva(f: Frame)
  {
    HasCol(f, "Loja_Nome") && HasCol(f, "Qtd")
  }

  /** The sales-curve columns the report selects are all there. */
  predicate CurvaLegivel(f: Frame)
  {
    HasCol(f, CodigoCurva) && HasCol(f, "Produto") && HasCol(f, "Total R$")
  }

  /** The table holds stock columns. */
  predicate TemEstoque(f: Frame)
  {
    HasCol(f, EstoqueLojaCol)
  }

  /** `RelatorioRuptura.gerar` on the combined table (`None` when there is
      none) with the average-sales table `get_df` gives: a message when
      there is no data, no average or not both kinds of sheet, an error
      when a selected column is missing or a lookup raises, and otherwise
      one record per row of the table, in order. The sort by category,
      group and product and the summary text are not modelled. */
  function GerarRuptura(df: Option<Frame>, media: Frame): (r: Result<Saida>)
    ensures df.None? || |df.value.rows| == 0 ==> r == Ok(SemDados)
    ensures df.Some? && |df.value.rows| > 0 && |media.rows| == 0 ==> r == Ok(SemMedia)
    ensures df.Some? && |df.value.rows| > 0 && |media.rows| > 0 ==>
              var f := df.value;
              (TemCurva(f) && !CurvaLegivel(f) ==> r == Err(Ruptura.KeyError))
              && (!TemCurva(f) || !TemEstoque(f) ==> r.Err? || r == Ok(Insuficiente))
              && (r == Ok(Insuficiente) <==> !TemCurva(f) || (CurvaLegivel(f) && !TemEstoque(f)))
              && (TemCurva(f) && CurvaLegivel(f) && TemEstoque(f) && (!HasCol(f, LojaEstoque) || !HasCol(f, CodigoEstoque)) ==>
                    r == Err(Ruptura.KeyError))
    ensures r.Ok? && r.value.Registros? ==>
              df.Some? && |r.value.regs| == |df.value.rows|
              && forall i :: 0 <= i < |df.value.rows| ==> RegistroDe(df.value, media, df.value.rows[i]) == Ok(r.value.regs[i])
    ensures df.Some? && |df.value.rows| > 0 && |media.rows| > 0 && TemCurva(df.value) && CurvaLegivel(df.value)
            && TemEstoque(df.value) && HasCol(df.value, LojaEstoque) && HasCol(df.value, CodigoEstoque) ==>
              (r.Ok? <==> forall i :: 0 <= i < |df.value.rows| ==> RegistroDe(df.value, media, df.value.rows[i]).Ok?)
  {
    if df.None? || |df.value.rows| == 0 then Ok(SemDados)
    else if |media.rows| == 0 then Ok(SemMedia)
    else
      var f := df.value;
      if TemCurva(f) && !CurvaLegivel(f) then Err(Ruptura.KeyError)
      else if !TemCurva(f) || !TemEstoque(f) then Ok(Insuficiente)
      else if !HasCol(f, LojaEstoque) || !HasCol(f, CodigoEstoque) then Err(Ruptura.KeyError)
      else match RegistrosDe(f, media)
        case Err(msg) => Err(msg)
        case Ok(regs) => Ok(Registros(regs))
  }
}

=== FILE: ruptura.dfy ===
/** `ModeloRuptura`: the stock-out report. The processed stock table is the
    base; each stock row gets the stock of the head-office store, the
    month's sales from the ABC curve and the average monthly sales, and is
    then classified. */
module Ruptura {
  import opened Wrappers
  import opened Text
  import opened Numbers
  import opened Cells
  import opened Seqs
  import Dicts
  import opened Compradores
  import opened Joins
  import MediaVendas

  /** `_normalizar_codigo`: a missing code gives the empty text; anything
      else is written out, cut at its first point and stripped of leading
      zeros. */
  function NormalizarCodigo(c: Cell): (r: string)
    ensures c.Empty? ==> r == ""
    ensures !c.Empty? ==> var cut := BeforeFirst(CellText(c), '.');
              |r| <= |cut| && r == cut[|cut| - |r|..] && forall i :: 0 <= i < |cut| - |r| ==> cut[i] == '0'
    ensures '.' !in r
    ensures r == [] || r[0] != '0'
  {
    if c.Empty? then ""
    else
      var cut := BeforeFirst(CellText(c), '.');
      var r := LStripChar(cut, '0');
      assert forall i :: 0 <= i < |r| ==> r[i] == cut[|cut| - |r| + i];
      r
  }

  /** Normalising a normalised code changes nothing. */
  lemma NormalizarIdempotente(c: Cell)
    ensures NormalizarCodigo(Str(NormalizarCodigo(c))) == NormalizarCodigo(c)
  {
    var r := NormalizarCodigo(c);
    BeforeFirstNone(r, '.');
  }

  lemma BeforeFirstNone(s: string, sep: char)
    requires sep !in s
    ensures BeforeFirst(s, sep) == s
  {
  }

  /** A positive code reads the same whether the sheet holds it as an
      integer, as a float, or as text with leading zeros: the stock's and
      the curve's codes meet on its decimal digits. */
  lemma {:induction false} NormalizarMesmoCodigo(n: nat, zeros: string)
    requires n > 0
    requires forall i :: 0 <= i < |zeros| ==> zeros[i] == '0'
    ensures NormalizarCodigo(Int(n)) == NatText(n)
    ensures NormalizarCodigo(Num(Dec(n, 0))) == NatText(n)
    ensures NormalizarCodigo(Str(zeros + NatText(n))) == NatText(n)
  {
    var t := NatText(n);
    NatTextLead(n);
    assert AllDigits(t);
    assert '.' !in t;
    BeforeFirstNone(t, '.');
    assert IntText(n) == t;
    assert LStripChar(t, '0') == t;
    assert Repr(Dec(n, 0)) == t + ".0";
    BeforeFirstAt(t, "0", '.');
    assert t + ".0" == t + ['.'] + "0";
    var z := zeros + t;
    assert '.' !in z by {
      assert forall i :: 0 <= i < |z| ==> z[i] == if i < |zeros| then zeros[i] else t[i - |zeros|];
    }
    BeforeFirstNone(z, '.');
    LStripZeros(zeros, t);
  }

  /** `str(n)` of a positive number does not start with a zero. */
  lemma {:induction false} NatTextLead(n: nat)
    requires n > 0
    ensures |NatText(n)| > 0 && NatText(n)[0] != '0'
  {
    if n >= 10 {
      NatTextLead(n / 10);
      assert NatText(n) == NatText(n / 10) + [DigitChar(n % 10)];
    }
  }

  /** Stripping leading zeros from zeros followed by a text that does not
      start with one leaves that text. */
  lemma {:induction false} LStripZeros(zeros: string, t: string)
    requires forall i :: 0 <= i < |zeros| ==> zeros[i] == '0'
    requires |t| > 0 && t[0] != '0'
    ensures LStripChar(zeros + t, '0') == t
  {
    var s := zeros + t;
    var r := LStripChar(s, '0');
    assert s[|zeros|] == t[0];
    assert forall i :: 0 <= i < |zeros| ==> s[i] == zeros[i];
    assert r == s[|s| - |t|..] == t;
  }

  /** Zeros in front and a decimal part go: `"00123.0"` gives `"123"`. */
  lemma NormalizarExemplo()
    ensures NormalizarCodigo(Str("00123.0")) == "123"
  {
    CorteExemplo();
    ZerosExemplo();
  }

  lemma CorteExemplo()
    ensures BeforeFirst("00123.0", '.') == "00123"
  {
    BeforeFirstAt("00123", "0", '.');
    assert "00123.0" == "00123" + ['.'] + "0";
  }

  lemma ZerosExemplo()
    ensures LStripChar("00123", '0') == "123"
  {
    assert LStripChar("00123", '0') == LStripChar("0123", '0') == LStripChar("123", '0');
  }

  /** A code of zeros normalises to nothing, as a missing code does. */
  lemma NormalizarZero()
    ensures NormalizarCodigo(Str("0")) == ""
    ensures NormalizarCodigo(Empty) == ""
  {
    BeforeFirstNone("0", '.');
    assert LStripChar("0", '0') == LStripChar("", '0');
  }

  /** A quantity as a row hands it to a classifier: missing (NaN), a
      number, or text. */
  datatype Quantia = Falta | Valor(v: real) | Texto

  function QuantiaDe(c: Cell): Quantia
  {
    match c
    case Empty => Falta
    case Str(_) => Texto
    case Int(i) => Valor(i as real)
    case Num(d) => Valor(Val(d))
  }

  /** Python's `x == 0`: only a number can equal 0. */
  predicate Zero(q: Quantia)
  {
    q == Valor(0.0)
  }

  const EstoqueEVendaZerados := "Estoque e venda zerados"
  const EstoqueZerado := "Estoque zerado"
  const SemVenda := "Sem venda"
  const TypeError := "TypeError"

  /** The stock expressed in days of average sales. */
  function Dias(estoque: real, media: real): real
    requires media != 0.0
  {
    (estoque / media) * 30.0
  }

  function Meses(dias: real): string
  {
    IntText((dias / 30.0).Floor) + " m\U{EA}s(es)"
  }

  function DiasTexto(dias: real): string
  {
    IntText(Trunc(dias)) + " dia(s)"
  }

  /** `_calcular_dde`: empty when either input is missing; the three zero
      cases by name; otherwise the stock in whole months of average sales
      when it lasts at least thirty days, in whole days when it does not.
      Dividing text by a number raises. */
  function Dde(estoque: Quantia, media: Quantia): (r: Result<string>)
    ensures estoque.Falta? || media.Falta? ==> r == Ok("")
    ensures !estoque.Falta? && !media.Falta? ==>
              (r == Ok(EstoqueEVendaZerados) <==> Zero(estoque) && Zero(media))
    ensures !estoque.Falta? && !media.Falta? ==>
              (r == Ok(EstoqueZerado) <==> Zero(estoque) && !Zero(media))
    ensures !estoque.Falta? && !media.Falta? ==>
              (r == Ok(SemVenda) <==> !Zero(estoque) && Zero(media))
    ensures r.Err? <==> !Zero(estoque) && !Zero(media) && !estoque.Falta? && !media.Falta?
                        && (estoque.Texto? || media.Texto?)
    ensures estoque.Valor? && media.Valor? && estoque.v != 0.0 && media.v != 0.0 ==>
              r == Ok(if Dias(estoque.v, media.v) >= 30.0 then Meses(Dias(estoque.v, media.v))
                      else DiasTexto(Dias(estoque.v, media.v)))
  {
    if estoque.Falta? || media.Falta? then Ok("")
    else if Zero(estoque) && Zero(media) then Ok(EstoqueEVendaZerados)
    else if Zero(estoque) then Ok(EstoqueZerado)
    else if Zero(media) then Ok(SemVenda)
    else if estoque.Texto? || media.Texto? then Err(TypeError)
    else
      var dias := Dias(estoque.v, media.v);
      var m, d := Meses(dias), DiasTexto(dias);
      assert m[|m| - 1] == ')' && d[|d| - 1] == ')';
      if dias >= 30.0 then Ok(Meses(dias)) else Ok(DiasTexto(dias))
  }

  /** With stock and average sales both positive, the DDE is given in months
      exactly when the stock covers at least one month of average sales. */
  lemma DdeEmMeses(estoque: real, media: real)
    requires estoque > 0.0 && media > 0.0
    ensures Dias(estoque, media) >= 30.0 <==> estoque >= media
  {
    var q := estoque / media;
    assert q * media == estoque;
    if q >= 1.0 {
      assert q * media >= 1.0 * media;
    } else {
      assert q * media < 1.0 * media;
    }
  }

  /** `k mês(es)` means the stock lasts between `30k` and `30(k+1)` days. */
  lemma MesesBounds(dias: real)
    ensures 30.0 * ((dias / 30.0).Floor as real) <= dias < 30.0 * (((dias / 30.0).Floor + 1) as real)
  {
  }

  const ComEstoqueLoja := "C/ESTQ LJ"
  const SemEstoqueLoja := "S/ESTQ LJ"
  const ComEstoqueMatriz := "C/ESTQ MTZ"
  const SemEstoqueMatriz := "S/ESTQ MTZ"

  /** `estoque > 0` for a number; text cannot be compared and raises. */
  predicate Positivo(q: Quantia)
  {
    q.Valor? && q.v > 0.0
  }

  /** `_status_estoque`: empty when either stock is missing; otherwise the
      store's status and the head office's, each "with stock" exactly when
      positive. */
  function StatusEstoque(loja: Quantia, matriz: Quantia): (r: Result<string>)
    ensures loja.Falta? || matriz.Falta? ==> r == Ok("")
    ensures r.Err? <==> !loja.Falta? && !matriz.Falta? && (loja.Texto? || matriz.Texto?)
    ensures loja.Valor? && matriz.Valor? ==>
              r == Ok((if loja.v > 0.0 then ComEstoqueLoja else SemEstoqueLoja) + " "
                      + (if matriz.v > 0.0 then ComEstoqueMatriz else SemEstoqueMatriz))
  {
    if loja.Falta? || matriz.Falta? then Ok("")
    else if loja.Texto? || matriz.Texto? then Err(TypeError)
    else
      Ok((if Positivo(loja) then ComEstoqueLoja else SemEstoqueLoja) + " "
         + (if Positivo(matriz) then ComEstoqueMatriz else SemEstoqueMatriz))
  }

  const Venda := "VENDA"
  const SemVendaStatus := "SEM VENDA"

  /** `_status_venda`: no sale when the sales are missing or below a
      millionth, negative sales included. */
  function StatusVenda(vendas: Quantia): (r: Result<string>)
    ensures r == Ok(Venda) <==> vendas.Valor? && vendas.v >= 0.000001
    ensures r == Ok(SemVendaStatus) <==> vendas.Falta? || (vendas.Valor? && vendas.v < 0.000001)
    ensures r.Err? <==> vendas.Texto?
  {
    match vendas
    case Falta => Ok(SemVendaStatus)
    case Texto => Err(TypeError)
    case Valor(v) => if v < 0.000001 then Ok(SemVendaStatus) else Ok(Venda)
  }

  const RupturaStatus := "RUPTURA"
  const OkStatus := "OK"

  /** `_status_ruptura`: a stock-out is a product that sells on average
      and has no stock in the store; missing inputs give no stock-out. */
  function StatusRuptura(media: Quantia, estoque: Quantia): (r: Result<string>)
    ensures r == Ok(RupturaStatus) <==> Positivo(media) && Zero(estoque)
    ensures r.Err? <==> media.Texto? && !estoque.Falta?
    ensures r.Ok? ==> r.value in {RupturaStatus, OkStatus}
  {
    if media.Falta? || estoque.Falta? then Ok(OkStatus)
    else if media.Texto? then Err(TypeError)
    else if Positivo(media) && Zero(estoque) then Ok(RupturaStatus)
    else Ok(OkStatus)
  }

  /** A stock-out is exactly a product whose DDE reads "stock at zero" and
      whose average sales are positive; its stock status then starts with
      "no stock in the store". */
  lemma RupturaEZerado(media: Quantia, estoque: Quantia, matriz: real)
    ensures StatusRuptura(media, estoque) == Ok(RupturaStatus) <==>
              Dde(estoque, media) == Ok(EstoqueZerado) && Positivo(media)
    ensures StatusRuptura(media, estoque) == Ok(RupturaStatus) ==>
              StatusEstoque(estoque, Valor(matriz)).Ok?
              && SemEstoqueLoja <= StatusEstoque(estoque, Valor(matriz)).value
  {
    if StatusRuptura(media, estoque) == Ok(RupturaStatus) {
      var s := StatusEstoque(estoque, Valor(matriz)).value;
      var tail := " " + (if matriz > 0.0 then ComEstoqueMatriz else SemEstoqueMatriz);
      assert s == SemEstoqueLoja + tail;
    }
  }

  // ---------------------------------------------------------------------
  // Keys

  const NomeMatriz := "COMCARNE MATRIZ SAO LUIS"
  const SemColunaCodigo := "N\U{E3}o foi poss\U{ED}vel encontrar coluna de c\U{F3}digo no estoque"
  const AttributeError := "AttributeError"
  const KeyError := "KeyError"
  const IndexError := "IndexError"

  /** `'codigo' in col.lower()` for one label; a label that is not text has
      no `lower` and raises (`None`). */
  function RotuloCodigo(c: Cell): Option<bool>
  {
    if c.Str? then Some(Contains(Lower(c.s), "codigo")) else None
  }

  /** The loop over the stock labels from position `i`: the first label
      that names a code, an error at the first label that is not text, or
      the `ValueError` when no label names a code. */
  function ColunaCodigoDesde(cols: seq<Cell>, i: nat): (r: Result<nat>)
    requires i <= |cols|
    ensures r.Ok? ==> i <= r.value < |cols| && RotuloCodigo(cols[r.value]) == Some(true)
    ensures r.Ok? ==> forall j :: i <= j < r.value ==> RotuloCodigo(cols[j]) == Some(false)
    ensures r == Err(SemColunaCodigo) <==> forall j :: i <= j < |cols| ==> RotuloCodigo(cols[j]) == Some(false)
    ensures r == Err(AttributeError) ==>
              exists j :: i <= j < |cols| && RotuloCodigo(cols[j]).None?
                          && forall k :: i <= k < j ==> RotuloCodigo(cols[k]) == Some(false)
    ensures r.Err? ==> r == Err(SemColunaCodigo) || r == Err(AttributeError)
    decreases |cols| - i
  {
    if i == |cols| then Err(SemColunaCodigo)
    else match RotuloCodigo(cols[i])
      case None =>
        assert |SemColunaCodigo| != |AttributeError|;
        Err(AttributeError)
      case Some(true) => Ok(i)
      case Some(false) => ColunaCodigoDesde(cols, i + 1)
  }

  /** The stock's code column. */
  function ColunaCodigo(cols: seq<Cell>): (r: Result<nat>)
    ensures r.Ok? ==> r.value < |cols| && RotuloCodigo(cols[r.value]) == Some(true)
    ensures r.Ok? ==> forall j :: 0 <= j < r.value ==> RotuloCodigo(cols[j]) == Some(false)
    ensures r == Err(SemColunaCodigo) <==> forall j :: 0 <= j < |cols| ==> RotuloCodigo(cols[j]) == Some(false)
  {
    ColunaCodigoDesde(cols, 0)
  }

  /** A stock row's `Codigo_Norm`. */
  function NormEstoque(ce: nat): Row -> string
  {
    (s: Row) => NormalizarCodigo(At(s, ce))
  }

  /** A stock row's `Cadeamento`: code and store. */
  function ChaveEstoque(e: Frame, ce: nat): Row -> string
  {
    (s: Row) => NormalizarCodigo(At(s, ce)) + "-" + CellText(Get(e, s, "Loja"))
  }

  /** `pd.to_numeric(x, errors='coerce')` followed by `fillna(0)`. */
  function ParaReal(c: Cell): (r: real)
    ensures ToNumber(c).None? ==> r == 0.0
    ensures ToNumber(c).Some? ==> r == Val(ToNumber(c).value)
  {
    match ToNumber(c)
    case None => 0.0
    case Some(d) => Val(d)
  }

  // ---------------------------------------------------------------------
  // The ABC curve: one (key, sales) pair per curve row

  /** A curve row's `Codigo_Norm`, from its first column. */
  function NormCurva(row: Row): string
  {
    NormalizarCodigo(At(row, 0))
  }

  function ChaveCurva(c: Frame, row: Row): string
  {
    NormCurva(row) + "-" + CellText(Get(c, row, "Loja_Nome"))
  }

  /** How many columns the curve gains from `Codigo_Norm` and `Cadeamento`:
      an existing label keeps its place, a new one is appended. */
  function NovasCount(c: Frame): nat
  {
    (if HasCol(c, "Codigo_Norm") then 0 else 1) + (if HasCol(c, "Cadeamento") then 0 else 1)
  }

  /** The appended columns' cells for one row, in order. */
  function Novas(c: Frame, row: Row): (r: seq<Cell>)
    ensures |r| == NovasCount(c)
  {
    (if HasCol(c, "Codigo_Norm") then [] else [Str(NormCurva(row))])
    + (if HasCol(c, "Cadeamento") then [] else [Str(ChaveCurva(c, row))])
  }

  /** `df_curva.iloc[:, 4]` once both columns are set, for one row. */
  function Quinta(c: Frame, row: Row): (r: Cell)
    requires Width(c) + NovasCount(c) > 4
  {
    if 4 < Width(c) then
      if c.cols[4] == Str("Codigo_Norm") then Str(NormCurva(row))
      else if c.cols[4] == Str("Cadeamento") then Str(ChaveCurva(c, row))
      else At(row, 4)
    else Novas(c, row)[4 - Width(c)]
  }

  /** One curve row as the merge sees it: its key and its sales. */
  function ParCurva(c: Frame): Row -> (string, real)
    requires Width(c) + NovasCount(c) > 4
  {
    (row: Row) => (ChaveCurva(c, row), ParaReal(Quinta(c, row)))
  }

  /** The curve as the merge sees it: each row's key and its sales, the
      fifth column read as a number with 0 for anything else. Without a
      first column, a `Loja_Nome` column or a fifth column it raises. */
  function CurvaPares(c: Frame): (r: Result<seq<(string, real)>>)
    ensures r.Ok? <==> Width(c) > 0 && HasCol(c, "Loja_Nome") && Width(c) + NovasCount(c) > 4
    ensures r.Ok? ==> |r.value| == |c.rows|
    ensures r.Ok? ==> forall i :: 0 <= i < |c.rows| ==>
                        r.value[i].0 == ChaveCurva(c, c.rows[i]) && r.value[i].1 == ParaReal(Quinta(c, c.rows[i]))
  {
    if Width(c) == 0 then Err(IndexError)
    else if !HasCol(c, "Loja_Nome") then Err(KeyError)
    else if Width(c) + NovasCount(c) <= 4 then Err(IndexError)
    else Ok(Map(c.rows, ParCurva(c)))
  }

  // ---------------------------------------------------------------------
  // The average-sales table, grouped by key

  const CodigoMedia := "C\U{F3}digo"

  /** The labels of the empty stand-in table. */
  const VaziaMedia := Frame([Str(CodigoMedia), Str("Loja"), Str("Qtd")], [])

  /** The average-sales table the report uses: the one handed in or, when
      none was, the one the reload gives (`recarga`, `None` when the reload
      raises); a table without rows becomes an empty one with the labels
      `Código`, `Loja` and `Qtd`. */
  function MediaEfetiva(media: Option<Frame>, recarga: Option<Frame>): (r: Frame)
    ensures media.Some? && |media.value.rows| > 0 ==> r == media.value
    ensures media.None? && recarga.Some? && |recarga.value.rows| > 0 ==> r == recarga.value
    ensures |r.rows| == 0 ==> r == VaziaMedia
    ensures r == VaziaMedia || r == media.GetOr(recarga.GetOr(EmptyFrame))
  {
    var f := if media.Some? then media.value else recarga.GetOr(EmptyFrame);
    if |f.rows| == 0 then VaziaMedia else f
  }

  /** An average-sales row's `Cadeamento`: its normalised `Código` (empty
      without that column), a dash, and its store (nothing without one). */
  function MediaChave(m: Frame): Row -> string
  {
    (row: Row) =>
      (if HasCol(m, CodigoMedia) then NormalizarCodigo(Get(m, row, CodigoMedia)) else "")
      + "-" + (if HasCol(m, "Loja") then CellText(Get(m, row, "Loja")) else "")
  }

  /** An average-sales row's `Media_Vendas`: its `Qtd` as a number, 0 when
      it is not one or there is no such column. */
  function MediaValor(m: Frame): Row -> real
  {
    (row: Row) => if HasCol(m, "Qtd") then ParaReal(Get(m, row, "Qtd")) else 0.0
  }

  function SomaR(vs: seq<real>): real
  {
    if vs == [] then 0.0 else vs[0] + SomaR(vs[1..])
  }

  /** The arithmetic mean, 0 for no values. */
  function Mean(vs: seq<real>): (r: real)
    ensures vs != [] ==> r * (|vs| as real) == SomaR(vs)
    ensures vs == [] ==> r == 0.0
  {
    if vs == [] then 0.0 else SomaR(vs) / (|vs| as real)
  }

  lemma {:induction false} SomaRBounds(vs: seq<real>, lo: real, hi: real)
    requires forall k :: 0 <= k < |vs| ==> lo <= vs[k] <= hi
    ensures MediaVendas.Vezes(lo, |vs|) <= SomaR(vs) <= MediaVendas.Vezes(hi, |vs|)
  {
    if vs != [] {
      SomaRBounds(vs[1..], lo, hi);
    }
  }

  /** A mean lies between the least and the greatest value. */
  lemma MeanBounds(vs: seq<real>, lo: real, hi: real)
    requires vs != []
    requires forall k :: 0 <= k < |vs| ==> lo <= vs[k] <= hi
    ensures lo <= Mean(vs) <= hi
  {
    SomaRBounds(vs, lo, hi);
    MediaVendas.VezesIsProduct(lo, |vs|);
    MediaVendas.VezesIsProduct(hi, |vs|);
    MediaVendas.DivBounds(SomaR(vs), |vs| as real, lo, hi);
  }

  /** The `Media_Vendas` of the rows whose key is `k`. */
  function ValoresDaChave(m: Frame, k: string): seq<real>
  {
    Map(Matches(m.rows, MediaChave(m), k), MediaValor(m))
  }

  function Chave(p: (string, real)): string
  {
    p.0
  }

  /** `groupby('Cadeamento').agg({'Media_Vendas': 'mean', ...})` without the
      store entry: one pair per key with the mean of that key's values.
      pandas sorts the keys; the pairs here come in order of first
      appearance, which the report cannot tell apart since the merge keeps
      the stock's order. */
  function Agregar(m: Frame): (r: seq<(string, real)>)
    ensures UniqueKeys(r, Chave)
    ensures forall i :: 0 <= i < |r| ==>
              ValoresDaChave(m, r[i].0) != [] && r[i].1 == Mean(ValoresDaChave(m, r[i].0))
    ensures forall j :: 0 <= j < |m.rows| ==> exists i :: 0 <= i < |r| && r[i].0 == MediaChave(m)(m.rows[j])
    ensures |m.rows| == 0 ==> r == []
  {
    AgrupadoMedias(m);
    AgrupadoCobre(m);
    Agrupado(m)
  }

  /** One pair per distinct key, in order of first appearance. */
  function Agrupado(m: Frame): (r: seq<(string, real)>)
    ensures UniqueKeys(r, Chave)
    ensures |m.rows| == 0 ==> r == []
  {
    Map(Dedup(Map(m.rows, MediaChave(m))), (k: string) => (k, Mean(ValoresDaChave(m, k))))
  }

  /** Each key of the grouping has values, and its pair holds their mean. */
  lemma AgrupadoMedias(m: Frame)
    ensures var r := Agrupado(m);
            forall i :: 0 <= i < |r| ==>
              ValoresDaChave(m, r[i].0) != [] && r[i].1 == Mean(ValoresDaChave(m, r[i].0))
  {
    var ks := Dedup(Map(m.rows, MediaChave(m)));
    var r := Agrupado(m);
    forall i | 0 <= i < |r|
      ensures ValoresDaChave(m, r[i].0) != []
    {
      var j :| 0 <= j < |m.rows| && Map(m.rows, MediaChave(m))[j] == ks[i];
      FilterContains(m.rows, KeyIs(MediaChave(m), ks[i]), j);
    }
  }

  /** Every row's key has a pair in the grouping. */
  lemma AgrupadoCobre(m: Frame)
    ensures var r := Agrupado(m);
            forall j :: 0 <= j < |m.rows| ==> exists i :: 0 <= i < |r| && r[i].0 == MediaChave(m)(m.rows[j])
  {
    var ks := Dedup(Map(m.rows, MediaChave(m)));
    var r := Agrupado(m);
    forall j | 0 <= j < |m.rows|
      ensures exists i :: 0 <= i < |r| && r[i].0 == MediaChave(m)(m.rows[j])
    {
      assert Map(m.rows, MediaChave(m))[j] in ks;
    }
  }

  /** The grouping as the code stands: with rows but no `Loja` column, the
      aggregation names a column that does not exist and raises, although
      the code before it was written to do without that column. */
  function AgregarComoEscrito(m: Frame): (r: Result<seq<(string, real)>>)
    ensures |m.rows| > 0 && !HasCol(m, "Loja") ==> r == Err(KeyError)
    ensures |m.rows| == 0 || HasCol(m, "Loja") ==> r == Ok(Agregar(m))
  {
    if |m.rows| > 0 && !HasCol(m, "Loja") then Err(KeyError) else Ok(Agregar(m))
  }

  /** An average-sales table with codes and quantities but no store column:
      the code as written raises, the grouping gives the product's mean. */
  lemma AgregarSemLoja()
    ensures AgregarComoEscrito(Frame([Str(CodigoMedia), Str("Qtd")], [[Int(7), Int(3)]])) == Err(KeyError)
    ensures Agregar(Frame([Str(CodigoMedia), Str("Qtd")], [[Int(7), Int(3)]])) == [("7-", 3.0)]
  {
    var m := Frame([Str(CodigoMedia), Str("Qtd")], [[Int(7), Int(3)]]);
    assert !HasCol(m, "Loja");
    SemLojaLinha(m.cols, m.rows, m.rows[0]);
    AgregarUmaLinha(m);
  }

  /** A table of one row groups into that row's key and value. */
  lemma AgregarUmaLinha(m: Frame)
    requires |m.rows| == 1
    ensures Agregar(m) == [(MediaChave(m)(m.rows[0]), MediaValor(m)(m.rows[0]))]
  {
    var k, v := MediaChave(m)(m.rows[0]), MediaValor(m)(m.rows[0]);
    assert Map(m.rows, MediaChave(m)) == [k];
    assert Dedup([k]) == [k];
    assert Matches(m.rows, MediaChave(m), k) == m.rows;
    assert ValoresDaChave(m, k) == [v];
    assert SomaR([v]) == v + SomaR([v][1..]);
    assert Mean([v]) == v;
  }

  /** The one row of that table: key `7-` and value 3. */
  lemma SemLojaLinha(cols: seq<Cell>, rows: seq<Row>, row: Row)
    requires cols == [Str(CodigoMedia), Str("Qtd")] && row == [Int(7), Int(3)]
    ensures MediaChave(Frame(cols, rows))(row) == "7-"
    ensures MediaValor(Frame(cols, rows))(row) == 3.0
  {
    SemLojaChave(cols, rows, row);
    SemLojaValor(cols, rows, row);
  }

  lemma SemLojaValor(cols: seq<Cell>, rows: seq<Row>, row: Row)
    requires cols == [Str(CodigoMedia), Str("Qtd")] && row == [Int(7), Int(3)]
    ensures MediaValor(Frame(cols, rows))(row) == 3.0
  {
    SemLojaCelulas(cols, rows, row);
    assert ParaReal(Int(3)) == 3.0 by {
      ValWhole(3);
    }
  }

  lemma SemLojaChave(cols: seq<Cell>, rows: seq<Row>, row: Row)
    requires cols == [Str(CodigoMedia), Str("Qtd")] && row == [Int(7), Int(3)]
    ensures MediaChave(Frame(cols, rows))(row) == "7-"
  {
    SemLojaCelulas(cols, rows, row);
    SeteNormalizado(7);
  }

  lemma SemLojaCelulas(cols: seq<Cell>, rows: seq<Row>, row: Row)
    requires cols == [Str(CodigoMedia), Str("Qtd")] && row == [Int(7), Int(3)]
    ensures var m := Frame(cols, rows);
            HasCol(m, CodigoMedia) && HasCol(m, "Qtd") && !HasCol(m, "Loja")
            && Get(m, row, CodigoMedia) == Int(7) && Get(m, row, "Qtd") == Int(3)
  {
    assert cols[0] == Str(CodigoMedia) && cols[1] == Str("Qtd");
  }

  lemma SeteNormalizado(n: nat)
    requires n == 7
    ensures NormalizarCodigo(Int(n)) == "7"
  {
    NormalizarMesmoCodigo(n, "");
    assert NatText(n) == "7";
  }

  /** The average a key receives from the merge (0 when it matches
      nothing). */
  function MediaPara(agg: seq<(string, real)>, k: string): real
  {
    match Partner(agg, Chave, k)
    case None => 0.0
    case Some(p) => p.1
  }

  /** A key with values in the table has a pair in the grouping. */
  lemma ChaveAgregada(m: Frame, k: string) returns (i: nat)
    requires ValoresDaChave(m, k) != []
    ensures i < |Agregar(m)| && Agregar(m)[i].0 == k
  {
    var agg := Agregar(m);
    var j := LinhaDaChave(m, k);
    assert exists i :: 0 <= i < |agg| && agg[i].0 == MediaChave(m)(m.rows[j]);
    i :| 0 <= i < |agg| && agg[i].0 == k;
  }

  /** A key with values is the key of some row. */
  lemma LinhaDaChave(m: Frame, k: string) returns (j: nat)
    requires ValoresDaChave(m, k) != []
    ensures j < |m.rows| && MediaChave(m)(m.rows[j]) == k
  {
    var ms := Matches(m.rows, MediaChave(m), k);
    FilterMembers(m.rows, KeyIs(MediaChave(m), k));
    FilterPasses(m.rows, KeyIs(MediaChave(m), k));
    j :| 0 <= j < |m.rows| && m.rows[j] == ms[0];
  }

  /** After the merge, a stock key's average is the mean of the average-sales
      rows with the same key, and 0 when there are none. */
  lemma MediaParaMean(m: Frame, k: string)
    ensures ValoresDaChave(m, k) != [] ==> MediaPara(Agregar(m), k) == Mean(ValoresDaChave(m, k))
    ensures ValoresDaChave(m, k) == [] ==> MediaPara(Agregar(m), k) == 0.0
  {
    var agg := Agregar(m);
    PartnerSpec(agg, Chave, k);
    if ValoresDaChave(m, k) != [] {
      var i := ChaveAgregada(m, k);
    }
  }

  // ---------------------------------------------------------------------
  // The three merges, the stock table as the base

  /** The head office's rows of the stock table. */
  function EhMatriz(e: Frame): Row -> bool
  {
    (s: Row) => Get(e, s, "Loja") == Str(NomeMatriz)
  }

  function LinhasMatriz(e: Frame): seq<Row>
  {
    Filter(e.rows, EhMatriz(e))
  }

  /** `fillna(0)`. */
  function Fill0(c: Cell): (r: Cell)
    ensures r.Empty? == false
    ensures !c.Empty? ==> r == c
  {
    if c.Empty? then Int(0) else c
  }

  /** The head-office stock a stock row receives from its partner row. */
  function EstoqueMatrizDe(e: Frame, m: Option<Row>): Cell
  {
    match m
    case None => Int(0)
    case Some(x) => Fill0(Get(e, x, "Estoque_Loja"))
  }

  function ComMatrizPar(e: Frame): ((Row, Option<Row>)) -> (Row, Cell)
  {
    (p: (Row, Option<Row>)) => (p.0, EstoqueMatrizDe(e, p.1))
  }

  function SemMatriz(s: Row): (Row, Cell)
  {
    (s, Int(0))
  }

  /** Step 2: with a head-office row in the table, every stock row is merged
      on its code with the head office's rows; without one, every row gets
      0. */
  function ComMatriz(e: Frame, ce: nat): (r: seq<(Row, Cell)>)
    ensures |r| >= |e.rows|
  {
    if LinhasMatriz(e) != [] then
      Map(LeftJoin(e.rows, LinhasMatriz(e), NormEstoque(ce), NormEstoque(ce)), ComMatrizPar(e))
    else Map(e.rows, SemMatriz)
  }

  /** The head-office stock of a stock row when codes are unique among the
      head office's rows. */
  function MatrizPara(e: Frame, ce: nat, s: Row): Cell
  {
    EstoqueMatrizDe(e, Partner(LinhasMatriz(e), NormEstoque(ce), NormEstoque(ce)(s)))
  }

  /** With unique codes at the head office, step 2 keeps the stock rows in
      order and gives each the head office's stock of the same code: its
      `Estoque_Loja` with a missing value read as 0, and 0 when the head
      office does not stock the code. */
  lemma {:induction false} ComMatrizUnica(e: Frame, ce: nat)
    requires UniqueKeys(LinhasMatriz(e), NormEstoque(ce))
    ensures |ComMatriz(e, ce)| == |e.rows|
    ensures forall i :: 0 <= i < |e.rows| ==> ComMatriz(e, ce)[i] == (e.rows[i], MatrizPara(e, ce, e.rows[i]))
    ensures forall i, j :: (0 <= i < |e.rows| && 0 <= j < |LinhasMatriz(e)|
                            && NormEstoque(ce)(LinhasMatriz(e)[j]) == NormEstoque(ce)(e.rows[i])) ==>
              ComMatriz(e, ce)[i].1 == Fill0(Get(e, LinhasMatriz(e)[j], "Estoque_Loja"))
    ensures forall i :: 0 <= i < |e.rows| && NormEstoque(ce)(e.rows[i]) !in Map(LinhasMatriz(e), NormEstoque(ce)) ==>
              ComMatriz(e, ce)[i].1 == Int(0)
  {
    var ms := LinhasMatriz(e);
    var n := NormEstoque(ce);
    if ms != [] {
      LeftJoinIsLookup(e.rows, ms, n, n);
    }
    forall i | 0 <= i < |e.rows|
      ensures ComMatriz(e, ce)[i] == (e.rows[i], MatrizPara(e, ce, e.rows[i]))
    {
      if ms == [] {
        assert Partner(ms, n, n(e.rows[i])) == None;
      }
    }
    forall i | 0 <= i < |e.rows|
      ensures n(e.rows[i]) !in Map(ms, n) ==> MatrizPara(e, ce, e.rows[i]) == Int(0)
      ensures forall j :: 0 <= j < |ms| && n(ms[j]) == n(e.rows[i]) ==>
                MatrizPara(e, ce, e.rows[i]) == Fill0(Get(e, ms[j], "Estoque_Loja"))
    {
      PartnerSpec(ms, n, n(e.rows[i]));
    }
  }

  /** The sales a key receives from a merge: the partner's value, 0 when it
      has none (`fillna(0)`). */
  function ValorDe(o: Option<(string, real)>): real
  {
    match o
    case None => 0.0
    case Some(p) => p.1
  }

  function ChaveBase(e: Frame, ce: nat): ((Row, Cell)) -> string
  {
    (b: (Row, Cell)) => ChaveEstoque(e, ce)(b.0)
  }

  function ComVendasPar(): (((Row, Cell), Option<(string, real)>)) -> (Row, Cell, real)
  {
    (p: ((Row, Cell), Option<(string, real)>)) => (p.0.0, p.0.1, ValorDe(p.1))
  }

  /** Step 3: the merge with the curve on the key, sales 0 when unmatched. */
  function ComVendas(e: Frame, ce: nat, base: seq<(Row, Cell)>, curva: seq<(string, real)>): (r: seq<(Row, Cell, real)>)
    ensures |r| >= |base|
  {
    Map(LeftJoin(base, curva, ChaveBase(e, ce), Chave), ComVendasPar())
  }

  /** With unique curve keys, step 3 keeps its input rows in order and gives
      each the sales of the curve row with its key, 0 when there is none. */
  lemma {:induction false} ComVendasUnica(e: Frame, ce: nat, base: seq<(Row, Cell)>, curva: seq<(string, real)>)
    requires UniqueKeys(curva, Chave)
    ensures |ComVendas(e, ce, base, curva)| == |base|
    ensures forall i :: 0 <= i < |base| ==>
              ComVendas(e, ce, base, curva)[i] == (base[i].0, base[i].1, MediaPara(curva, ChaveEstoque(e, ce)(base[i].0)))
  {
    LeftJoinIsLookup(base, curva, ChaveBase(e, ce), Chave);
  }

  function ChaveTrio(e: Frame, ce: nat): ((Row, Cell, real)) -> string
  {
    (b: (Row, Cell, real)) => ChaveEstoque(e, ce)(b.0)
  }

  function ComMediaPar(): (((Row, Cell, real), Option<(string, real)>)) -> (Row, Cell, real, real)
  {
    (p: ((Row, Cell, real), Option<(string, real)>)) => (p.0.0, p.0.1, p.0.2, ValorDe(p.1))
  }

  function SemMedia(b: (Row, Cell, real)): (Row, Cell, real, real)
  {
    (b.0, b.1, b.2, 0.0)
  }

  /** Step 4: the merge with the grouped averages, or 0 for every row when
      there are none. */
  function ComMedia(e: Frame, ce: nat, base: seq<(Row, Cell, real)>, agg: seq<(string, real)>): (r: seq<(Row, Cell, real, real)>)
    ensures |r| >= |base|
  {
    if agg != [] then Map(LeftJoin(base, agg, ChaveTrio(e, ce), Chave), ComMediaPar())
    else Map(base, SemMedia)
  }

  /** With unique keys among the averages (grouping guarantees them), step 4
      keeps its input rows in order and gives each the average of its key, 0
      when there is none. */
  lemma {:induction false} ComMediaUnica(e: Frame, ce: nat, base: seq<(Row, Cell, real)>, agg: seq<(string, real)>)
    requires UniqueKeys(agg, Chave)
    ensures |ComMedia(e, ce, base, agg)| == |base|
    ensures forall i :: 0 <= i < |base| ==>
              ComMedia(e, ce, base, agg)[i] == (base[i].0, base[i].1, base[i].2, MediaPara(agg, ChaveEstoque(e, ce)(base[i].0)))
  {
    if agg != [] {
      LeftJoinIsLookup(base, agg, ChaveTrio(e, ce), Chave);
    } else {
      assert forall k :: Partner(agg, Chave, k) == None;
    }
  }

  function Juntar(e: Frame, ce: nat, curva: seq<(string, real)>, agg: seq<(string, real)>): (r: seq<(Row, Cell, real, real)>)
    ensures |r| >= |e.rows|
  {
    ComMedia(e, ce, ComVendas(e, ce, ComMatriz(e, ce), curva), agg)
  }

  // ---------------------------------------------------------------------
  // The report's rows

  /** The report's columns, in order. */
  const ColunasOrdem: seq<string> := [
    "CATEGORIA", "GRUPO", "C\U{D3}DIGO", "PRODUTO", "ESTQ LOJA", "ESTQ MATRIZ",
    "VENDAS M\U{CA}S ATUAL", "M\U{C9}DIA VENDA MENSAL", "DDE", "LOJA",
    "STATUS DO ESTOQUE", "VENDA", "COMPRADOR", "RUPTURA", "Valor Estoque",
    "Pre\U{E7}o", "Subgrupo", "Forn"]

  /** One row of the report, one field per column of `ColunasOrdem`, in
      that order. */
  datatype Linha = Linha(
    categoria: Cell, grupo: Cell, codigo: int, produto: Cell,
    estqLoja: Cell, estqMatriz: Cell, vendas: real, media: real,
    dde: string, loja: Cell, statusEstoque: string, venda: string,
    comprador: string, ruptura: string, valorEstoque: string, preco: string,
    subgrupo: Cell, forn: Cell)

  datatype Relatorio = Relatorio(colunas: seq<string>, linhas: seq<Linha>)

  /** What a cell of the report shows: a cell carried over from the
      tables, a computed figure, the integer code, or a computed text. */
  datatype Mostrado = Celula(c: Cell) | Figura(x: real) | Inteiro(i: int) | Escrito(s: string)

  /** A row's values in the order of `ColunasOrdem`: one per column. */
  function Valores(l: Linha): (r: seq<Mostrado>)
    ensures |r| == |ColunasOrdem| == 18
  {
    [Celula(l.categoria), Celula(l.grupo), Inteiro(l.codigo), Celula(l.produto),
     Celula(l.estqLoja), Celula(l.estqMatriz), Figura(l.vendas), Figura(l.media),
     Escrito(l.dde), Celula(l.loja), Escrito(l.statusEstoque), Escrito(l.venda),
     Escrito(l.comprador), Escrito(l.ruptura), Escrito(l.valorEstoque), Escrito(l.preco),
     Celula(l.subgrupo), Celula(l.forn)]
  }

  /** Each field of a row sits under its own label: the code under
      `CÓDIGO`, the figures under the sales and average labels, the
      computed statuses under theirs, and the two blank columns last but
      two. */
  lemma ColunasDaLinha(l: Linha)
    ensures ColunasOrdem[2] == "C\U{D3}DIGO" && Valores(l)[2] == Inteiro(l.codigo)
    ensures ColunasOrdem[6] == "VENDAS M\U{CA}S ATUAL" && Valores(l)[6] == Figura(l.vendas)
    ensures ColunasOrdem[7] == "M\U{C9}DIA VENDA MENSAL" && Valores(l)[7] == Figura(l.media)
    ensures ColunasOrdem[8] == "DDE" && Valores(l)[8] == Escrito(l.dde)
    ensures ColunasOrdem[9] == "LOJA" && Valores(l)[9] == Celula(l.loja)
    ensures ColunasOrdem[10] == "STATUS DO ESTOQUE" && Valores(l)[10] == Escrito(l.statusEstoque)
    ensures ColunasOrdem[11] == "VENDA" && Valores(l)[11] == Escrito(l.venda)
    ensures ColunasOrdem[12] == "COMPRADOR" && Valores(l)[12] == Escrito(l.comprador)
    ensures ColunasOrdem[13] == "RUPTURA" && Valores(l)[13] == Escrito(l.ruptura)
  {
  }

  /** A column of the report taken from the stock table: the source label
      renamed, else a column already carrying the report's label, else
      blank. */
  function Campo(e: Frame, s: Row, origem: string, destino: string): (r: Cell)
    ensures HasCol(e, origem) ==> r == Get(e, s, origem)
    ensures !HasCol(e, origem) && !HasCol(e, destino) ==> r == Str("")
  {
    if HasCol(e, origem) then Get(e, s, origem)
    else if HasCol(e, destino) then Get(e, s, destino)
    else Str("")
  }

  /** The stock `_calcular_dde` and the statuses read: the row's
      `Estoque_Loja`, 0 when the table has no such column. */
  function EstoqueLoja(e: Frame, s: Row): Quantia
  {
    if HasCol(e, "Estoque_Loja") then QuantiaDe(Get(e, s, "Estoque_Loja")) else Valor(0.0)
  }

  /** The `COMPRADOR` column: the buyer the table `t` gives a non-blank
      text group, the sentinel otherwise. `processar` reads it from
      `GRUPO_COMPRADOR`. */
  function Comprador(t: Dicts.Dict<Buyer>, e: Frame, s: Row): (r: string)
    ensures r != NaoMapeado <==>
              HasCol(e, "Grupo") && Get(e, s, "Grupo").Str? && Get(e, s, "Grupo").s != ""
              && Get(e, s, "Grupo").s in t.vals
  {
    if HasCol(e, "Grupo") && Get(e, s, "Grupo").Str? && Get(e, s, "Grupo").s != "" then
      CompradorIn(t, Get(e, s, "Grupo").s)
    else NaoMapeado
  }

  /** The stock-out and sale columns agree with the average, stock and
      sales shown beside them; without an `Estoque_Loja` column the stock
      reads as 0. */
  predicate Coerente(e: Frame, l: Linha)
  {
    (l.ruptura == RupturaStatus <==> l.media > 0.0 && (!HasCol(e, "Estoque_Loja") || Zero(QuantiaDe(l.estqLoja))))
    && (l.venda == Venda <==> l.vendas >= 0.000001)
  }

  /** Steps 4 to 6 for one merged row: the computed columns, then the
      renamed and reordered ones. Raises when a classifier meets text. */
  function ClassificarLinha(t: Dicts.Dict<Buyer>, e: Frame, ce: nat, j: (Row, Cell, real, real)): (r: Result<Linha>)
    ensures r.Ok? <==> Dde(EstoqueLoja(e, j.0), Valor(j.3)).Ok?
                       && StatusEstoque(EstoqueLoja(e, j.0), QuantiaDe(j.1)).Ok?
    ensures r.Ok? ==> r.value.vendas == j.2 && r.value.media == j.3 && r.value.estqMatriz == j.1
    ensures r.Ok? ==> r.value.loja == Get(e, j.0, "Loja")
                      && r.value.codigo == CoerceInt(Str(NormEstoque(ce)(j.0)))
                      && r.value.estqLoja == Campo(e, j.0, "Estoque_Loja", "ESTQ LOJA")
    ensures r.Ok? ==> (r.value.ruptura == RupturaStatus <==> j.3 > 0.0 && Zero(EstoqueLoja(e, j.0)))
                      && (r.value.ruptura == RupturaStatus || r.value.ruptura == OkStatus)
    ensures r.Ok? ==> (r.value.venda == Venda <==> j.2 >= 0.000001)
                      && (r.value.venda == Venda || r.value.venda == SemVendaStatus)
    ensures r.Ok? ==> r.value.comprador == Comprador(t, e, j.0)
    ensures r.Ok? ==> Dde(EstoqueLoja(e, j.0), Valor(j.3)) == Ok(r.value.dde)
                      && StatusEstoque(EstoqueLoja(e, j.0), QuantiaDe(j.1)) == Ok(r.value.statusEstoque)
    ensures r.Ok? ==> Coerente(e, r.value)
  {
    var (s, matriz, vendas, media) := j;
    var estoque := EstoqueLoja(e, s);
    match Dde(estoque, Valor(media))
    case Err(msg) => Err(msg)
    case Ok(dde) =>
      match StatusEstoque(estoque, QuantiaDe(matriz))
      case Err(msg) => Err(msg)
      case Ok(status) =>
        var venda := StatusVenda(Valor(vendas)).value;
        var ruptura := StatusRuptura(Valor(media), estoque).value;
        Ok(Linha(
          categoria := Campo(e, s, "Categoria", "CATEGORIA"),
          grupo := Campo(e, s, "Grupo", "GRUPO"),
          codigo := CoerceInt(Str(NormEstoque(ce)(s))),
          produto := Campo(e, s, "Descricao", "PRODUTO"),
          estqLoja := Campo(e, s, "Estoque_Loja", "ESTQ LOJA"),
          estqMatriz := matriz,
          vendas := vendas,
          media := media,
          dde := dde,
          loja := Get(e, s, "Loja"),
          statusEstoque := status,
          venda := venda,
          comprador := Comprador(t, e, s),
          ruptura := ruptura,
          valorEstoque := "",
          preco := "",
          subgrupo := Campo(e, s, "Sub_Grupo", "Subgrupo"),
          forn := Campo(e, s, "Fornecedor_Razao", "Forn")))
  }

  function Classificar(t: Dicts.Dict<Buyer>, e: Frame, ce: nat): ((Row, Cell, real, real)) -> Result<Linha>
  {
    (j: (Row, Cell, real, real)) => ClassificarLinha(t, e, ce, j)
  }

  // ---------------------------------------------------------------------
  // processar

  /** A merge whose right side carries a label the left already has
      suffixes both, and the next read of that label raises: the head
      office's stock needs `Estoque_Loja` and must not meet an
      `Estoque_Matriz`, and the stock table must not hold `Vendas`, nor
      `Media_Vendas` when there are averages to merge. */
  predicate Colide(e: Frame, agg: seq<(string, real)>)
  {
    (LinhasMatriz(e) != [] && (!HasCol(e, "Estoque_Loja") || HasCol(e, "Estoque_Matriz")))
    || HasCol(e, "Vendas")
    || (agg != [] && HasCol(e, "Media_Vendas"))
  }

  /** Steps 4 to 6 over the merged rows. */
  function Gerar(t: Dicts.Dict<Buyer>, e: Frame, ce: nat, js: seq<(Row, Cell, real, real)>): (r: Result<Relatorio>)
    ensures r.Ok? ==> r.value.colunas == ColunasOrdem && |r.value.linhas| == |js|
    ensures r.Ok? ==> forall k :: 0 <= k < |js| ==>
              ClassificarLinha(t, e, ce, js[k]).Ok? && r.value.linhas[k] == ClassificarLinha(t, e, ce, js[k]).value
  {
    assert forall k :: 0 <= k < |js| ==> Classificar(t, e, ce)(js[k]) == ClassificarLinha(t, e, ce, js[k]);
    match Todas(js, Classificar(t, e, ce))
    case Err(msg) => Err(msg)
    case Ok(linhas) => Ok(Relatorio(ColunasOrdem, linhas))
  }

  /** Every row `Gerar` produces is coherent. */
  lemma {:induction false} GerarCoerente(t: Dicts.Dict<Buyer>, e: Frame, ce: nat, js: seq<(Row, Cell, real, real)>)
    ensures Gerar(t, e, ce, js).Ok? ==>
              forall k :: 0 <= k < |Gerar(t, e, ce, js).value.linhas| ==> Coerente(e, Gerar(t, e, ce, js).value.linhas[k])
  {
    if Gerar(t, e, ce, js).Ok? {
      var linhas := Gerar(t, e, ce, js).value.linhas;
      forall k | 0 <= k < |linhas|
        ensures Coerente(e, linhas[k])
      {
        var r := ClassificarLinha(t, e, ce, js[k]);
        assert r.Ok? && linhas[k] == r.value;
      }
    }
  }

  /** `processar(df_estoque, df_curva, df_media)`: the stock-out report,
      with the reload of a missing average-sales table given as `recarga`
      and the buyer table `GRUPO_COMPRADOR` given as `t`. It raises when the stock has no code column or no store column, when
      the curve lacks the columns it is read by, on a colliding merge, and
      when a classifier meets text. Every stock row reaches the report at
      least once (`ProcessarCobre`), and every row's stock-out and sale
      columns agree with the figures shown beside them. */
  function Processar(t: Dicts.Dict<Buyer>, e: Frame, c: Frame, media: Option<Frame>, recarga: Option<Frame>): (r: Result<Relatorio>)
    ensures ColunaCodigo(e.cols) == Err(SemColunaCodigo) ==> r == Err(SemColunaCodigo)
    ensures ColunaCodigo(e.cols).Ok? && !HasCol(e, "Loja") ==> r == Err(KeyError)
    ensures CurvaPares(c).Err? ==> r.Err?
    ensures r.Ok? ==> r.value.colunas == ColunasOrdem && |r.value.linhas| >= |e.rows|
    ensures r.Ok? ==> forall k :: 0 <= k < |r.value.linhas| ==> Coerente(e, r.value.linhas[k])
  {
    Etapas(t, e, c, Ok(Agregar(MediaEfetiva(media, recarga))))
  }

  /** The steps of `processar` in order, given the outcome of the grouping
      of the average-sales table: the stock's code and store columns, the
      curve's columns, then the grouping, the merges and the
      classification. */
  function Etapas(t: Dicts.Dict<Buyer>, e: Frame, c: Frame, agregado: Result<seq<(string, real)>>): (r: Result<Relatorio>)
    ensures ColunaCodigo(e.cols) == Err(SemColunaCodigo) ==> r == Err(SemColunaCodigo)
    ensures ColunaCodigo(e.cols).Ok? && !HasCol(e, "Loja") ==> r == Err(KeyError)
    ensures CurvaPares(c).Err? ==> r.Err?
    ensures ColunaCodigo(e.cols).Ok? && HasCol(e, "Loja") && CurvaPares(c).Ok? && agregado.Err? ==>
              r == Err(agregado.msg)
    ensures r.Ok? ==> r.value.colunas == ColunasOrdem && |r.value.linhas| >= |e.rows|
    ensures r.Ok? ==> forall k :: 0 <= k < |r.value.linhas| ==> Coerente(e, r.value.linhas[k])
  {
    match ColunaCodigo(e.cols)
    case Err(msg) => Err(msg)
    case Ok(ce) =>
      if !HasCol(e, "Loja") then Err(KeyError)
      else match CurvaPares(c)
        case Err(msg) => Err(msg)
        case Ok(curva) =>
          match agregado
          case Err(msg) => Err(msg)
          case Ok(agg) =>
            if Colide(e, agg) then Err(KeyError)
            else Montar(t, e, ce, curva, agg)
  }

  /** `processar` as written: the grouping of an average-sales table that
      has rows but no `Loja` column raises (`AgregarComoEscrito`). */
  function ProcessarComoEscrito(t: Dicts.Dict<Buyer>, e: Frame, c: Frame, media: Option<Frame>, recarga: Option<Frame>): Result<Relatorio>
  {
    Etapas(t, e, c, AgregarComoEscrito(MediaEfetiva(media, recarga)))
  }

  /** The program as written and the corrected `Processar` differ only
      where the grouping raises: a stock and a curve that get that far, and
      an average-sales table with rows and no `Loja` column. */
  lemma {:induction false} ProcessarComoEscritoDifere(t: Dicts.Dict<Buyer>, e: Frame, c: Frame, media: Option<Frame>, recarga: Option<Frame>)
    ensures var m := MediaEfetiva(media, recarga);
            (|m.rows| == 0 || HasCol(m, "Loja")) ==> ProcessarComoEscrito(t, e, c, media, recarga) == Processar(t, e, c, media, recarga)
    ensures var m := MediaEfetiva(media, recarga);
            ProcessarComoEscrito(t, e, c, media, recarga) != Processar(t, e, c, media, recarga) ==>
              ProcessarComoEscrito(t, e, c, media, recarga) == Err(KeyError)
              && |m.rows| > 0 && !HasCol(m, "Loja")
              && ColunaCodigo(e.cols).Ok? && HasCol(e, "Loja") && CurvaPares(c).Ok?
  {
  }

  /** The three merges followed by the classification of every merged row. */
  function Montar(t: Dicts.Dict<Buyer>, e: Frame, ce: nat, curva: seq<(string, real)>, agg: seq<(string, real)>): (r: Result<Relatorio>)
    ensures r.Ok? ==> r.value.colunas == ColunasOrdem && |r.value.linhas| >= |e.rows|
    ensures r.Ok? ==> forall k :: 0 <= k < |r.value.linhas| ==> Coerente(e, r.value.linhas[k])
  {
    var js := Juntar(e, ce, curva, agg);
    GerarCoerente(t, e, ce, js);
    Gerar(t, e, ce, js)
  }

  /** The stock's code column, once known to exist. */
  function Codigo(e: Frame): nat
    requires ColunaCodigo(e.cols).Ok?
  {
    ColunaCodigo(e.cols).value
  }

  function ChaveCurvaDe(c: Frame): Row -> string
  {
    (row: Row) => ChaveCurva(c, row)
  }

  /** With unique keys on every right side, the three merges keep the stock
      rows in order and give each the head office's stock, the sales and the
      average of its code and key. */
  lemma {:induction false} JuntarUnica(e: Frame, ce: nat, curva: seq<(string, real)>, agg: seq<(string, real)>)
    requires UniqueKeys(LinhasMatriz(e), NormEstoque(ce))
    requires UniqueKeys(curva, Chave) && UniqueKeys(agg, Chave)
    ensures |Juntar(e, ce, curva, agg)| == |e.rows|
    ensures forall i :: 0 <= i < |e.rows| ==>
              Juntar(e, ce, curva, agg)[i] == (e.rows[i], MatrizPara(e, ce, e.rows[i]),
                                               MediaPara(curva, ChaveEstoque(e, ce)(e.rows[i])),
                                               MediaPara(agg, ChaveEstoque(e, ce)(e.rows[i])))
  {
    var b1 := ComMatriz(e, ce);
    ComMatrizUnica(e, ce);
    var b2 := ComVendas(e, ce, b1, curva);
    ComVendasUnica(e, ce, b1, curva);
    ComMediaUnica(e, ce, b2, agg);
  }

  /** The head-office stock a head-office row gives. */
  function MatrizValor(e: Frame): Row -> Cell
  {
    (x: Row) => Fill0(Get(e, x, "Estoque_Loja"))
  }

  function ValorPar(): ((string, real)) -> real
  {
    (p: (string, real)) => p.1
  }

  /** The head-office stocks stock row `s` may receive in step 2: that of
      each head-office row of its code, or 0 when there is none. */
  predicate AdmiteMatriz(e: Frame, ce: nat, s: Row, a: Cell)
  {
    Admite(LinhasMatriz(e), NormEstoque(ce), MatrizValor(e), Int(0), NormEstoque(ce)(s), a)
  }

  /** The figures key `k` may receive from a merge with `ps`: that of each
      pair of key `k`, or 0 when there is none. */
  predicate AdmiteValor(ps: seq<(string, real)>, k: string, v: real)
  {
    Admite(ps, Chave, ValorPar(), 0.0, k, v)
  }

  /** Step 2 without assuming unique codes: every stock row is there with
      each head-office stock of its code, and with 0 when there is none. */
  lemma {:induction false} ComMatrizCompleta(e: Frame, ce: nat)
    ensures forall i, a :: 0 <= i < |e.rows| && AdmiteMatriz(e, ce, e.rows[i], a) ==> (e.rows[i], a) in ComMatriz(e, ce)
  {
    var ms := LinhasMatriz(e);
    var n := NormEstoque(ce);
    var r := ComMatriz(e, ce);
    if ms != [] {
      var lj := LeftJoin(e.rows, ms, n, n);
      LeftJoinRecebe(e.rows, ms, n, n, MatrizValor(e), Int(0));
      forall i, a | 0 <= i < |e.rows| && AdmiteMatriz(e, ce, e.rows[i], a)
        ensures (e.rows[i], a) in r
      {
        assert RecebeValor(lj, e.rows[i], MatrizValor(e), Int(0), a);
        var j :| 0 <= j < |lj| && lj[j].0 == e.rows[i] && ValOr(lj[j].1, MatrizValor(e), Int(0)) == a;
        assert r[j] == ComMatrizPar(e)(lj[j]);
      }
    } else {
      forall i, a | 0 <= i < |e.rows| && AdmiteMatriz(e, ce, e.rows[i], a)
        ensures (e.rows[i], a) in r
      {
        assert r[i] == (e.rows[i], a);
      }
    }
  }

  /** Step 2 gives nothing else: each of its rows is a stock row with a
      head-office stock admitted for its code. */
  lemma {:induction false} ComMatrizAdmitida(e: Frame, ce: nat)
    ensures forall k :: 0 <= k < |ComMatriz(e, ce)| ==>
              ComMatriz(e, ce)[k].0 in e.rows && AdmiteMatriz(e, ce, ComMatriz(e, ce)[k].0, ComMatriz(e, ce)[k].1)
  {
    var ms := LinhasMatriz(e);
    var n := NormEstoque(ce);
    var r := ComMatriz(e, ce);
    if ms != [] {
      var lj := LeftJoin(e.rows, ms, n, n);
      LeftJoinAdmitido(e.rows, ms, n, n, MatrizValor(e), Int(0));
      forall k | 0 <= k < |r|
        ensures r[k].0 in e.rows && AdmiteMatriz(e, ce, r[k].0, r[k].1)
      {
        assert r[k] == ComMatrizPar(e)(lj[k]);
        assert EstoqueMatrizDe(e, lj[k].1) == ValOr(lj[k].1, MatrizValor(e), Int(0));
      }
    } else {
      forall k | 0 <= k < |r|
        ensures r[k].0 in e.rows && AdmiteMatriz(e, ce, r[k].0, r[k].1)
      {
        assert r[k] == (e.rows[k], Int(0));
      }
    }
  }

  /** Step 3 without assuming unique keys: every input row is there with
      the sales of each curve pair of its key, and with 0 when there is
      none. */
  lemma {:induction false} ComVendasCompleta(e: Frame, ce: nat, base: seq<(Row, Cell)>, curva: seq<(string, real)>)
    ensures forall i, v :: 0 <= i < |base| && AdmiteValor(curva, ChaveEstoque(e, ce)(base[i].0), v) ==>
              (base[i].0, base[i].1, v) in ComVendas(e, ce, base, curva)
  {
    var r := ComVendas(e, ce, base, curva);
    var lj := LeftJoin(base, curva, ChaveBase(e, ce), Chave);
    LeftJoinRecebe(base, curva, ChaveBase(e, ce), Chave, ValorPar(), 0.0);
    forall i, v | 0 <= i < |base| && AdmiteValor(curva, ChaveEstoque(e, ce)(base[i].0), v)
      ensures (base[i].0, base[i].1, v) in r
    {
      assert ChaveBase(e, ce)(base[i]) == ChaveEstoque(e, ce)(base[i].0);
      assert RecebeValor(lj, base[i], ValorPar(), 0.0, v);
      var j :| 0 <= j < |lj| && lj[j].0 == base[i] && ValOr(lj[j].1, ValorPar(), 0.0) == v;
      assert r[j] == ComVendasPar()(lj[j]);
    }
  }

  /** Step 3 gives nothing else: each of its rows is an input row with
      sales admitted for its key. */
  lemma {:induction false} ComVendasAdmitida(e: Frame, ce: nat, base: seq<(Row, Cell)>, curva: seq<(string, real)>)
    ensures forall k :: 0 <= k < |ComVendas(e, ce, base, curva)| ==>
              (ComVendas(e, ce, base, curva)[k].0, ComVendas(e, ce, base, curva)[k].1) in base
              && AdmiteValor(curva, ChaveEstoque(e, ce)(ComVendas(e, ce, base, curva)[k].0), ComVendas(e, ce, base, curva)[k].2)
  {
    var r := ComVendas(e, ce, base, curva);
    var lj := LeftJoin(base, curva, ChaveBase(e, ce), Chave);
    LeftJoinAdmitido(base, curva, ChaveBase(e, ce), Chave, ValorPar(), 0.0);
    forall k | 0 <= k < |r|
      ensures (r[k].0, r[k].1) in base && AdmiteValor(curva, ChaveEstoque(e, ce)(r[k].0), r[k].2)
    {
      assert r[k] == ComVendasPar()(lj[k]);
      assert ValorDe(lj[k].1) == ValOr(lj[k].1, ValorPar(), 0.0);
    }
  }

  /** Step 4 without assuming unique keys: every input row is there with
      each average of its key, and with 0 when there is none. */
  lemma {:induction false} ComMediaCompleta(e: Frame, ce: nat, base: seq<(Row, Cell, real)>, agg: seq<(string, real)>)
    ensures forall i, w :: 0 <= i < |base| && AdmiteValor(agg, ChaveEstoque(e, ce)(base[i].0), w) ==>
              (base[i].0, base[i].1, base[i].2, w) in ComMedia(e, ce, base, agg)
  {
    var r := ComMedia(e, ce, base, agg);
    if agg != [] {
      var lj := LeftJoin(base, agg, ChaveTrio(e, ce), Chave);
      LeftJoinRecebe(base, agg, ChaveTrio(e, ce), Chave, ValorPar(), 0.0);
      forall i, w | 0 <= i < |base| && AdmiteValor(agg, ChaveEstoque(e, ce)(base[i].0), w)
        ensures (base[i].0, base[i].1, base[i].2, w) in r
      {
        assert ChaveTrio(e, ce)(base[i]) == ChaveEstoque(e, ce)(base[i].0);
        assert RecebeValor(lj, base[i], ValorPar(), 0.0, w);
        var j :| 0 <= j < |lj| && lj[j].0 == base[i] && ValOr(lj[j].1, ValorPar(), 0.0) == w;
        assert r[j] == ComMediaPar()(lj[j]);
      }
    } else {
      forall i, w | 0 <= i < |base| && AdmiteValor(agg, ChaveEstoque(e, ce)(base[i].0), w)
        ensures (base[i].0, base[i].1, base[i].2, w) in r
      {
        assert r[i] == (base[i].0, base[i].1, base[i].2, w);
      }
    }
  }

  /** Step 4 gives nothing else: each of its rows is an input row with an
      average admitted for its key. */
  lemma {:induction false} ComMediaAdmitida(e: Frame, ce: nat, base: seq<(Row, Cell, real)>, agg: seq<(string, real)>)
    ensures forall k :: 0 <= k < |ComMedia(e, ce, base, agg)| ==>
              (ComMedia(e, ce, base, agg)[k].0, ComMedia(e, ce, base, agg)[k].1, ComMedia(e, ce, base, agg)[k].2) in base
              && AdmiteValor(agg, ChaveEstoque(e, ce)(ComMedia(e, ce, base, agg)[k].0), ComMedia(e, ce, base, agg)[k].3)
  {
    var r := ComMedia(e, ce, base, agg);
    if agg != [] {
      var lj := LeftJoin(base, agg, ChaveTrio(e, ce), Chave);
      LeftJoinAdmitido(base, agg, ChaveTrio(e, ce), Chave, ValorPar(), 0.0);
      forall k | 0 <= k < |r|
        ensures (r[k].0, r[k].1, r[k].2) in base && AdmiteValor(agg, ChaveEstoque(e, ce)(r[k].0), r[k].3)
      {
        assert r[k] == ComMediaPar()(lj[k]);
        assert ValorDe(lj[k].1) == ValOr(lj[k].1, ValorPar(), 0.0);
      }
    } else {
      forall k | 0 <= k < |r|
        ensures (r[k].0, r[k].1, r[k].2) in base && AdmiteValor(agg, ChaveEstoque(e, ce)(r[k].0), r[k].3)
      {
        assert r[k] == SemMedia(base[k]);
      }
    }
  }

  /** A merged row the three merges admit: a head-office stock, sales and
      an average each admitted for its stock row. */
  predicate Admitida(e: Frame, ce: nat, curva: seq<(string, real)>, agg: seq<(string, real)>, x: (Row, Cell, real, real))
  {
    AdmiteMatriz(e, ce, x.0, x.1)
    && AdmiteValor(curva, ChaveEstoque(e, ce)(x.0), x.2)
    && AdmiteValor(agg, ChaveEstoque(e, ce)(x.0), x.3)
  }

  /** A stock row with figures the merges admit for it is merged. */
  lemma {:induction false} JuntarTem(e: Frame, ce: nat, curva: seq<(string, real)>, agg: seq<(string, real)>, x: (Row, Cell, real, real))
    requires x.0 in e.rows && Admitida(e, ce, curva, agg, x)
    ensures x in Juntar(e, ce, curva, agg)
  {
    var b1 := ComMatriz(e, ce);
    var b2 := ComVendas(e, ce, b1, curva);
    var i :| 0 <= i < |e.rows| && e.rows[i] == x.0;
    ComMatrizCompleta(e, ce);
    assert (x.0, x.1) in b1;
    var i1 :| 0 <= i1 < |b1| && b1[i1] == (x.0, x.1);
    ComVendasCompleta(e, ce, b1, curva);
    assert (x.0, x.1, x.2) in b2;
    var i2 :| 0 <= i2 < |b2| && b2[i2] == (x.0, x.1, x.2);
    ComMediaCompleta(e, ce, b2, agg);
  }

  /** A merged row is a stock row with figures the merges admit for it. */
  lemma {:induction false} JuntarSo(e: Frame, ce: nat, curva: seq<(string, real)>, agg: seq<(string, real)>, x: (Row, Cell, real, real))
    requires x in Juntar(e, ce, curva, agg)
    ensures x.0 in e.rows && Admitida(e, ce, curva, agg, x)
  {
    var b2 := ComVendas(e, ce, ComMatriz(e, ce), curva);
    var js := ComMedia(e, ce, b2, agg);
    var k :| 0 <= k < |js| && js[k] == x;
    ComMediaAdmitida(e, ce, b2, agg);
    JuntarSoVendas(e, ce, curva, (x.0, x.1, x.2));
  }

  /** The first two merges only give stock rows with admitted figures. */
  lemma {:induction false} JuntarSoVendas(e: Frame, ce: nat, curva: seq<(string, real)>, y: (Row, Cell, real))
    requires y in ComVendas(e, ce, ComMatriz(e, ce), curva)
    ensures y.0 in e.rows && AdmiteMatriz(e, ce, y.0, y.1) && AdmiteValor(curva, ChaveEstoque(e, ce)(y.0), y.2)
  {
    var b1 := ComMatriz(e, ce);
    var b2 := ComVendas(e, ce, b1, curva);
    var k :| 0 <= k < |b2| && b2[k] == y;
    ComVendasAdmitida(e, ce, b1, curva);
    var k1 :| 0 <= k1 < |b1| && b1[k1] == (y.0, y.1);
    ComMatrizAdmitida(e, ce);
  }

  /** The three merges without assuming unique keys: a merged row is
      present exactly when it is a stock row with figures the merges admit
      for it. */
  lemma {:induction false} JuntarCompleta(e: Frame, ce: nat, curva: seq<(string, real)>, agg: seq<(string, real)>)
    ensures forall x :: x in Juntar(e, ce, curva, agg) <==> x.0 in e.rows && Admitida(e, ce, curva, agg, x)
  {
    forall x: (Row, Cell, real, real) | x.0 in e.rows && Admitida(e, ce, curva, agg, x)
      ensures x in Juntar(e, ce, curva, agg)
    {
      JuntarTem(e, ce, curva, agg, x);
    }
    forall x: (Row, Cell, real, real) | x in Juntar(e, ce, curva, agg)
      ensures x.0 in e.rows && Admitida(e, ce, curva, agg, x)
    {
      JuntarSo(e, ce, curva, agg, x);
    }
  }

  /** A report that succeeds is the classification of the merged rows. */
  lemma ProcessarGera(t: Dicts.Dict<Buyer>, e: Frame, c: Frame, media: Option<Frame>, recarga: Option<Frame>)
    requires Processar(t, e, c, media, recarga).Ok?
    ensures ColunaCodigo(e.cols).Ok? && CurvaPares(c).Ok?
    ensures Processar(t, e, c, media, recarga)
            == Gerar(t, e, Codigo(e), Juntar(e, Codigo(e), CurvaPares(c).value, Agregar(MediaEfetiva(media, recarga))))
  {
    var agg := Agregar(MediaEfetiva(media, recarga));
    assert HasCol(e, "Loja") && !Colide(e, agg);
    assert Processar(t, e, c, media, recarga) == Montar(t, e, Codigo(e), CurvaPares(c).value, agg);
  }

  /** Distinct keys among the curve's rows are distinct keys among its
      pairs. */
  lemma {:induction false} CurvaChavesUnicas(c: Frame)
    requires CurvaPares(c).Ok? && UniqueKeys(c.rows, ChaveCurvaDe(c))
    ensures UniqueKeys(CurvaPares(c).value, Chave)
  {
    var curva := CurvaPares(c).value;
    forall a, b | 0 <= a < b < |curva|
      ensures Chave(curva[a]) != Chave(curva[b])
    {
      assert ChaveCurvaDe(c)(c.rows[a]) != ChaveCurvaDe(c)(c.rows[b]);
    }
  }

  /** A report row made from stock row `s`: its store, its code as an
      integer, the head office's stock for the code, the sales and average
      for its key, and the days of stock and stock status those give. */
  predicate LinhaDe(e: Frame, ce: nat, s: Row, curva: seq<(string, real)>, agg: seq<(string, real)>, l: Linha)
  {
    var k := ChaveEstoque(e, ce)(s);
    l.loja == Get(e, s, "Loja")
    && l.codigo == CoerceInt(Str(NormEstoque(ce)(s)))
    && l.estqMatriz == MatrizPara(e, ce, s)
    && l.vendas == MediaPara(curva, k)
    && l.media == MediaPara(agg, k)
    && Dde(EstoqueLoja(e, s), Valor(l.media)) == Ok(l.dde)
    && StatusEstoque(EstoqueLoja(e, s), QuantiaDe(l.estqMatriz)) == Ok(l.statusEstoque)
  }

  /** When no two curve rows share a key and no two head-office rows share a
      code, the report has exactly one row per stock row, in the stock's
      order, made from that stock row. */
  lemma {:induction false} ProcessarUnica(t: Dicts.Dict<Buyer>, e: Frame, c: Frame, media: Option<Frame>, recarga: Option<Frame>)
    requires Processar(t, e, c, media, recarga).Ok?
    requires UniqueKeys(c.rows, ChaveCurvaDe(c))
    requires UniqueKeys(LinhasMatriz(e), NormEstoque(Codigo(e)))
    ensures |Processar(t, e, c, media, recarga).value.linhas| == |e.rows|
    ensures forall i :: 0 <= i < |e.rows| ==>
              LinhaDe(e, Codigo(e), e.rows[i], CurvaPares(c).value, Agregar(MediaEfetiva(media, recarga)),
                      Processar(t, e, c, media, recarga).value.linhas[i])
  {
    CurvaChavesUnicas(c);
    ProcessarGera(t, e, c, media, recarga);
    GerarUnica(t, e, Codigo(e), CurvaPares(c).value, Agregar(MediaEfetiva(media, recarga)));
  }

  /** With unique keys on every right side, the classified rows follow the
      stock rows one for one. */
  lemma {:induction false} GerarUnica(t: Dicts.Dict<Buyer>, e: Frame, ce: nat, curva: seq<(string, real)>, agg: seq<(string, real)>)
    requires UniqueKeys(LinhasMatriz(e), NormEstoque(ce))
    requires UniqueKeys(curva, Chave) && UniqueKeys(agg, Chave)
    requires Gerar(t, e, ce, Juntar(e, ce, curva, agg)).Ok?
    ensures |Gerar(t, e, ce, Juntar(e, ce, curva, agg)).value.linhas| == |e.rows|
    ensures forall i :: 0 <= i < |e.rows| ==>
              LinhaDe(e, ce, e.rows[i], curva, agg, Gerar(t, e, ce, Juntar(e, ce, curva, agg)).value.linhas[i])
  {
    var js := Juntar(e, ce, curva, agg);
    JuntarUnica(e, ce, curva, agg);
    var linhas := Gerar(t, e, ce, js).value.linhas;
    forall i | 0 <= i < |e.rows|
      ensures LinhaDe(e, ce, e.rows[i], curva, agg, linhas[i])
    {
      assert linhas[i] == ClassificarLinha(t, e, ce, js[i]).value;
    }
  }

  /** Some merged row comes from stock row `s`. */
  ghost predicate Cobre(js: seq<(Row, Cell, real, real)>, s: Row)
  {
    exists x :: x in js && x.0 == s
  }

  /** Every stock row has a report row carrying its store and code. */
  ghost predicate Cobertura(e: Frame, ce: nat, linhas: seq<Linha>)
  {
    forall i :: 0 <= i < |e.rows| ==>
      exists k :: 0 <= k < |linhas| && linhas[k].loja == Get(e, e.rows[i], "Loja")
                  && linhas[k].codigo == CoerceInt(Str(NormEstoque(ce)(e.rows[i])))
  }

  /** Report row `l` classifies some merged row. */
  ghost predicate Classificada(t: Dicts.Dict<Buyer>, e: Frame, ce: nat, js: seq<(Row, Cell, real, real)>, l: Linha)
  {
    exists x :: x in js && ClassificarLinha(t, e, ce, x).Ok? && l == ClassificarLinha(t, e, ce, x).value
  }

  /** No stock row is lost by the merges: each one is merged at least
      once, with a matrix stock, curve sales and average the merges admit. */
  lemma {:induction false} JuntarCobre(e: Frame, ce: nat, curva: seq<(string, real)>, agg: seq<(string, real)>)
    ensures forall i :: 0 <= i < |e.rows| ==> Cobre(Juntar(e, ce, curva, agg), e.rows[i])
  {
    forall i | 0 <= i < |e.rows|
      ensures Cobre(Juntar(e, ce, curva, agg), e.rows[i])
    {
      JuntarCobreLinha(e, ce, curva, agg, e.rows[i]);
    }
  }

  /** One stock row is merged at least once. */
  lemma {:induction false} JuntarCobreLinha(e: Frame, ce: nat, curva: seq<(string, real)>, agg: seq<(string, real)>, s: Row)
    requires s in e.rows
    ensures Cobre(Juntar(e, ce, curva, agg), s)
  {
    var key := ChaveEstoque(e, ce)(s);
    var a := AdmiteAlgum(LinhasMatriz(e), NormEstoque(ce), MatrizValor(e), Int(0), NormEstoque(ce)(s));
    var v := AdmiteAlgum(curva, Chave, ValorPar(), 0.0, key);
    var w := AdmiteAlgum(agg, Chave, ValorPar(), 0.0, key);
    var x := (s, a, v, w);
    assert AdmiteMatriz(e, ce, s, a) && AdmiteValor(curva, key, v) && AdmiteValor(agg, key, w);
    JuntarTem(e, ce, curva, agg, x);
  }

  /** A report built from merged rows holds the classification of every
      merged row, and nothing else. */
  lemma {:induction false} GerarCompleta(t: Dicts.Dict<Buyer>, e: Frame, ce: nat, js: seq<(Row, Cell, real, real)>)
    requires Gerar(t, e, ce, js).Ok?
    ensures forall x :: x in js ==>
              ClassificarLinha(t, e, ce, x).Ok? && ClassificarLinha(t, e, ce, x).value in Gerar(t, e, ce, js).value.linhas
    ensures forall k :: 0 <= k < |Gerar(t, e, ce, js).value.linhas| ==>
              Classificada(t, e, ce, js, Gerar(t, e, ce, js).value.linhas[k])
  {
    var linhas := Gerar(t, e, ce, js).value.linhas;
    forall x | x in js
      ensures ClassificarLinha(t, e, ce, x).Ok? && ClassificarLinha(t, e, ce, x).value in linhas
    {
      var k :| 0 <= k < |js| && js[k] == x;
      assert linhas[k] == ClassificarLinha(t, e, ce, js[k]).value;
    }
    forall k | 0 <= k < |linhas|
      ensures Classificada(t, e, ce, js, linhas[k])
    {
      assert js[k] in js;
    }
  }

  /** A merged stock row reaches the report with its store and code. */
  lemma {:induction false} GerarCobre(t: Dicts.Dict<Buyer>, e: Frame, ce: nat, js: seq<(Row, Cell, real, real)>, s: Row)
    requires Gerar(t, e, ce, js).Ok? && Cobre(js, s)
    ensures exists k :: 0 <= k < |Gerar(t, e, ce, js).value.linhas|
                        && Gerar(t, e, ce, js).value.linhas[k].loja == Get(e, s, "Loja")
                        && Gerar(t, e, ce, js).value.linhas[k].codigo == CoerceInt(Str(NormEstoque(ce)(s)))
  {
    var linhas := Gerar(t, e, ce, js).value.linhas;
    var x :| x in js && x.0 == s;
    var k :| 0 <= k < |js| && js[k] == x;
    assert linhas[k] == ClassificarLinha(t, e, ce, x).value;
  }

  /** Every stock row that is merged reaches the report with its store
      and code. */
  lemma {:induction false} GerarCobreTodas(t: Dicts.Dict<Buyer>, e: Frame, ce: nat, js: seq<(Row, Cell, real, real)>)
    requires Gerar(t, e, ce, js).Ok?
    requires forall i :: 0 <= i < |e.rows| ==> Cobre(js, e.rows[i])
    ensures Cobertura(e, ce, Gerar(t, e, ce, js).value.linhas)
  {
    forall i | 0 <= i < |e.rows|
      ensures exists k :: 0 <= k < |Gerar(t, e, ce, js).value.linhas|
                          && Gerar(t, e, ce, js).value.linhas[k].loja == Get(e, e.rows[i], "Loja")
                          && Gerar(t, e, ce, js).value.linhas[k].codigo == CoerceInt(Str(NormEstoque(ce)(e.rows[i])))
    {
      GerarCobre(t, e, ce, js, e.rows[i]);
    }
  }

  /** A report that succeeds holds the classification of every merged row
      and nothing else; which rows are merged is `JuntarCompleta`. */
  lemma {:induction false} ProcessarCompleta(t: Dicts.Dict<Buyer>, e: Frame, c: Frame, media: Option<Frame>, recarga: Option<Frame>)
    requires Processar(t, e, c, media, recarga).Ok?
    ensures ColunaCodigo(e.cols).Ok? && CurvaPares(c).Ok?
    ensures var js := Juntar(e, Codigo(e), CurvaPares(c).value, Agregar(MediaEfetiva(media, recarga)));
            forall x :: x in js ==>
              ClassificarLinha(t, e, Codigo(e), x).Ok?
              && ClassificarLinha(t, e, Codigo(e), x).value in Processar(t, e, c, media, recarga).value.linhas
    ensures var js := Juntar(e, Codigo(e), CurvaPares(c).value, Agregar(MediaEfetiva(media, recarga)));
            var linhas := Processar(t, e, c, media, recarga).value.linhas;
            forall k :: 0 <= k < |linhas| ==> Classificada(t, e, Codigo(e), js, linhas[k])
  {
    ProcessarGera(t, e, c, media, recarga);
    GerarCompleta(t, e, Codigo(e), Juntar(e, Codigo(e), CurvaPares(c).value, Agregar(MediaEfetiva(media, recarga))));
  }

  /** Every stock row reaches the report: some row of it carries the stock
      row's store and code. */
  lemma {:induction false} ProcessarCobre(t: Dicts.Dict<Buyer>, e: Frame, c: Frame, media: Option<Frame>, recarga: Option<Frame>)
    requires Processar(t, e, c, media, recarga).Ok?
    ensures ColunaCodigo(e.cols).Ok?
    ensures Cobertura(e, Codigo(e), Processar(t, e, c, media, recarga).value.linhas)
  {
    ProcessarGera(t, e, c, media, recarga);
    var js := Juntar(e, Codigo(e), CurvaPares(c).value, Agregar(MediaEfetiva(media, recarga)));
    JuntarCobre(e, Codigo(e), CurvaPares(c).value, Agregar(MediaEfetiva(media, recarga)));
    GerarCobreTodas(t, e, Codigo(e), js);
  }
}

=== FILE: screen.dfy ===
/** Screen-dependent settings (`ScreenManager`): the screen's class by
    width, the main window's size as a share of the screen clamped to fixed
    bounds, the font size per class, and the summary record. The screen's
    width and height come from Tk and are parameters here. */
module Screen {
  import opened Text
  import opened Wrappers
  import opened Numbers

  datatype TipoTela = Pequena | Media | Grande

  /** The name `tipo_tela` holds. */
  function NomeTipo(t: TipoTela): string
  {
    match t
    case Pequena => "pequena"
    case Media => "media"
    case Grande => "grande"
  }

  /** Rank of a class, smallest screens first. */
  function Ordem(t: TipoTela): nat
  {
    match t
    case Pequena => 0
    case Media => 1
    case Grande => 2
  }

  /** `tipo_tela` from the screen width. */
  function Classificar(largura: int): (r: TipoTela)
    ensures r == Pequena <==> largura <= 1366
    ensures r == Media <==> 1366 < largura <= 1920
    ensures r == Grande <==> largura > 1920
  {
    if largura <= 1366 then Pequena
    else if largura <= 1920 then Media
    else Grande
  }

  /** A wider screen is never put in a smaller class. */
  lemma ClassificarMonotono(a: int, b: int)
    requires a <= b
    ensures Ordem(Classificar(a)) <= Ordem(Classificar(b))
  {
  }

  /** The screen as the manager records it once at start-up. */
  datatype Tela = Tela(largura: int, altura: int, tipo: TipoTela)

  function Inicializar(largura: int, altura: int): (r: Tela)
    ensures r.largura == largura && r.altura == altura
    ensures r.tipo == Classificar(largura)
  {
    Tela(largura, altura, Classificar(largura))
  }

  /** `max(lo, min(v, hi))`. */
  function Limitar(v: int, lo: int, hi: int): (r: int)
    requires lo <= hi
    ensures lo <= r <= hi
    ensures lo <= v <= hi ==> r == v
    ensures v < lo ==> r == lo
    ensures v > hi ==> r == hi
  {
    if v < lo then lo else if v > hi then hi else v
  }

  const LarguraMin := 1000
  const LarguraMax := 1600
  const AlturaMin := 600
  const AlturaMax := 900

  /** The default share of the screen a window takes. */
  const PorcentagemPadrao: real := 0.8

  /** `get_tamanho_janela(porcentagem)`: the truncated share of each side,
      kept within the bounds. */
  function TamanhoJanela(t: Tela, porcentagem: real): (r: (int, int))
    ensures LarguraMin <= r.0 <= LarguraMax
    ensures AlturaMin <= r.1 <= AlturaMax
    ensures LarguraMin <= Trunc(t.largura as real * porcentagem) <= LarguraMax ==>
              r.0 == Trunc(t.largura as real * porcentagem)
    ensures AlturaMin <= Trunc(t.altura as real * porcentagem) <= AlturaMax ==>
              r.1 == Trunc(t.altura as real * porcentagem)
  {
    var largura := Trunc(t.largura as real * porcentagem);
    var altura := Trunc(t.altura as real * porcentagem);
    (Limitar(largura, LarguraMin, LarguraMax), Limitar(altura, AlturaMin, AlturaMax))
  }

  lemma {:induction false} TruncMonotono(x: real, y: real)
    requires x <= y
    ensures Trunc(x) <= Trunc(y)
  {
    if x < 0.0 && y >= 0.0 {
      assert Trunc(x) <= 0;
    } else if x < 0.0 {
      assert (-y).Floor <= (-x).Floor;
    }
  }

  /** With the default share, a larger screen never gets a smaller window. */
  lemma TamanhoJanelaMonotono(a: Tela, b: Tela)
    requires a.largura <= b.largura && a.altura <= b.altura
    ensures TamanhoJanela(a, PorcentagemPadrao).0 <= TamanhoJanela(b, PorcentagemPadrao).0
    ensures TamanhoJanela(a, PorcentagemPadrao).1 <= TamanhoJanela(b, PorcentagemPadrao).1
  {
    TruncMonotono(a.largura as real * PorcentagemPadrao, b.largura as real * PorcentagemPadrao);
    TruncMonotono(a.altura as real * PorcentagemPadrao, b.altura as real * PorcentagemPadrao);
  }

  /** A 1920x1080 screen gets a 1536x864 window by default; a 1024x600 one
      is raised to the 1000x600 minimum. */
  lemma TamanhoJanelaExemplos()
    ensures TamanhoJanela(Inicializar(1920, 1080), PorcentagemPadrao) == (1536, 864)
    ensures TamanhoJanela(Inicializar(1024, 600), PorcentagemPadrao) == (1000, 600)
  {
    assert Trunc(1920.0 * 0.8) == 1536;
    assert Trunc(1080.0 * 0.8) == 864;
    assert Trunc(1024.0 * 0.8) == 819;
    assert Trunc(600.0 * 0.8) == 480;
  }

  /** `get_fonte_tamanho(base)`: one point more per class above the
      smallest. */
  function FonteTamanho(t: Tela, base: int): (r: int)
    ensures r - base == Ordem(t.tipo)
  {
    match t.tipo
    case Pequena => base
    case Media => base + 1
    case Grande => base + 2
  }

  /** The font grows with the screen's width, by at most two points. */
  lemma FonteMonotona(a: int, b: int, altura: int, base: int)
    requires a <= b
    ensures FonteTamanho(Inicializar(a, altura), base) <= FonteTamanho(Inicializar(b, altura), base)
    ensures base <= FonteTamanho(Inicializar(a, altura), base) <= base + 2
  {
    ClassificarMonotono(a, b);
  }

  /** `get_info_tela()`. */
  datatype Info = Info(largura: int, altura: int, tipo: string, proporcao: string)

  /** `f"{largura}x{altura}"`. */
  function Proporcao(largura: int, altura: int): (r: string)
    ensures |r| == |IntText(largura)| + 1 + |IntText(altura)|
    ensures BeforeFirst(r, 'x') == IntText(largura)
    ensures r[|IntText(largura)|] == 'x' && r[|IntText(largura)| + 1..] == IntText(altura)
  {
    IntTextSemX(largura);
    BeforeFirstAt(IntText(largura), IntText(altura), 'x');
    IntText(largura) + "x" + IntText(altura)
  }

  lemma IntTextSemX(n: int)
    ensures 'x' !in IntText(n)
  {
    assert AllDigits(NatText(if n < 0 then -n else n));
    if n < 0 {
      assert IntText(n) == "-" + NatText(-n);
    }
  }

  function Informacoes(t: Tela): (r: Info)
    ensures r.largura == t.largura && r.altura == t.altura
    ensures r.tipo in {"pequena", "media", "grande"}
    ensures r.tipo == "pequena" <==> t.tipo == Pequena
    ensures r.tipo == "media" <==> t.tipo == Media
    ensures r.tipo == "grande" <==> t.tipo == Grande
    ensures r.proporcao == Proporcao(t.largura, t.altura)
  {
    Info(t.largura, t.altura, NomeTipo(t.tipo), Proporcao(t.largura, t.altura))
  }

  /** For a freshly measured screen the reported class name follows the
      width alone: up to 1366 pixels small, up to 1920 medium, above large. */
  lemma InformacoesDaLargura(largura: int, altura: int)
    ensures var r := Informacoes(Inicializar(largura, altura));
            (r.tipo == "pequena" <==> largura <= 1366)
            && (r.tipo == "media" <==> 1366 < largura <= 1920)
            && (r.tipo == "grande" <==> largura > 1920)
  {
  }

  /** The ratio text splits at its `x` back into the two sides. */
  lemma ProporcaoDeVolta(largura: int, altura: int)
    ensures var p := Proporcao(largura, altura);
            var antes := BeforeFirst(p, 'x');
            |antes| < |p| && p[|antes|] == 'x'
            && ParseNumber(antes) == Some(Dec(largura, 0))
            && ParseNumber(p[|antes| + 1..]) == Some(Dec(altura, 0))
  {
    ParseIntText(largura);
    ParseIntText(altura);
  }
}

=== FILE: seqs.dfy ===
/** Sequence operations shared by the table code: filtering rows (a boolean
    mask), order-preserving subsequences, and de-duplication. */
module Seqs {
  import opened Wrappers

  function Min(a: int, b: int): int
  {
    if a <= b then a else b
  }

  /** `a` is `b` with some elements left out, the rest in their order. */
  predicate IsSubseq<T(==)>(a: seq<T>, b: seq<T>)
    decreases |b|
  {
    if a == [] then true
    else if b == [] then false
    else if a[0] == b[0] then IsSubseq(a[1..], b[1..])
    else IsSubseq(a, b[1..])
  }

  /** Dropping the first element of a subsequence keeps it a subsequence. */
  lemma {:induction false} SubseqTail<T>(a: seq<T>, c: seq<T>)
    requires a != [] && IsSubseq(a, c)
    ensures IsSubseq(a[1..], c)
    decreases |c|, 1
  {
    if a[0] == c[0] {
      SubseqSkip(a[1..], c);
    } else {
      SubseqTail(a, c[1..]);
      SubseqSkip(a[1..], c);
    }
  }

  /** A subsequence of the tail is a subsequence of the whole. */
  lemma {:induction false} SubseqSkip<T>(x: seq<T>, c: seq<T>)
    requires c != [] && IsSubseq(x, c[1..])
    ensures IsSubseq(x, c)
    decreases |c|, 0
  {
    if x != [] && x[0] == c[0] {
      SubseqTail(x, c[1..]);
    }
  }

  lemma {:induction false} SubseqTrans<T>(a: seq<T>, b: seq<T>, c: seq<T>)
    requires IsSubseq(a, b) && IsSubseq(b, c)
    ensures IsSubseq(a, c)
    decreases |c|
  {
    if a != [] {
      if b[0] == c[0] {
        if a[0] == b[0] {
          SubseqTrans(a[1..], b[1..], c[1..]);
        } else {
          SubseqTrans(a, b[1..], c[1..]);
        }
      } else {
        SubseqTrans(a, b, c[1..]);
        SubseqSkip(a, c);
      }
    }
  }

  /** A subsequence of a sequence without repeats has no repeats. */
  lemma {:induction false} SubseqDistinct<T>(a: seq<T>, b: seq<T>)
    requires IsSubseq(a, b) && Distinct(b)
    ensures Distinct(a)
    decreases |b|
  {
    if a != [] {
      assert Distinct(b[1..]) by {
        assert forall i :: 0 <= i < |b[1..]| ==> b[1..][i] == b[i + 1];
      }
      if a[0] == b[0] {
        SubseqDistinct(a[1..], b[1..]);
        SubseqMembers(a[1..], b[1..]);
        assert b[0] !in b[1..] by {
          forall i | 0 <= i < |b[1..]|
            ensures b[1..][i] != b[0]
          {
            assert b[1..][i] == b[i + 1];
          }
        }
        forall i, j | 0 <= i < j < |a|
          ensures a[i] != a[j]
        {
          assert a[j] == a[1..][j - 1];
          if i > 0 {
            assert a[i] == a[1..][i - 1];
          } else {
            assert a[j] in b[1..];
          }
        }
      } else {
        SubseqDistinct(a, b[1..]);
      }
    }
  }

  /** The elements of a subsequence come from the sequence. */
  lemma {:induction false} SubseqMembers<T>(a: seq<T>, b: seq<T>)
    requires IsSubseq(a, b)
    ensures forall x :: x in a ==> x in b
    decreases |b|
  {
    if a != [] {
      if a[0] == b[0] {
        SubseqMembers(a[1..], b[1..]);
        assert forall x :: x in a ==> x == a[0] || x in a[1..];
      } else {
        SubseqMembers(a, b[1..]);
      }
    }
  }

  /** `df[mask]`: the elements that pass `p`, in their order. */
  function Filter<T>(s: seq<T>, p: T -> bool): (r: seq<T>)
    ensures |r| <= |s|
  {
    if s == [] then [] else (if p(s[0]) then [s[0]] else []) + Filter(s[1..], p)
  }

  /** Every element the mask keeps passes it. */
  lemma {:induction false} FilterPasses<T>(s: seq<T>, p: T -> bool)
    ensures forall k :: 0 <= k < |Filter(s, p)| ==> p(Filter(s, p)[k])
  {
    if s != [] {
      FilterPasses(s[1..], p);
    }
  }

  /** Every element the mask keeps comes from the sequence. */
  lemma {:induction false} FilterMembers<T>(s: seq<T>, p: T -> bool)
    ensures forall k :: 0 <= k < |Filter(s, p)| ==> Filter(s, p)[k] in s
  {
    if s != [] {
      FilterMembers(s[1..], p);
      var r := Filter(s[1..], p);
      assert forall k :: 0 <= k < |r| ==> r[k] in s by {
        forall k | 0 <= k < |r|
          ensures r[k] in s
        {
          var j :| 0 <= j < |s[1..]| && s[1..][j] == r[k];
          assert s[j + 1] == r[k];
        }
      }
    }
  }

  /** Every element that passes the mask is kept. */
  lemma {:induction false} FilterContains<T>(s: seq<T>, p: T -> bool, k: nat)
    requires k < |s| && p(s[k])
    ensures s[k] in Filter(s, p)
  {
    if k > 0 {
      assert s[1..][k - 1] == s[k];
      FilterContains(s[1..], p, k - 1);
    }
  }

  lemma {:induction false} FilterIsSubseq<T>(s: seq<T>, p: T -> bool)
    ensures IsSubseq(Filter(s, p), s)
  {
    if s != [] {
      FilterIsSubseq(s[1..], p);
      var r := Filter(s, p);
      if p(s[0]) {
        assert r == [s[0]] + Filter(s[1..], p);
        assert r[0] == s[0] && r[1..] == Filter(s[1..], p);
      } else {
        assert r == Filter(s[1..], p);
        SubseqSkip(r, s);
      }
    }
  }

  /** Filtering distributes over concatenation. */
  lemma {:induction false} FilterAppend<T>(a: seq<T>, b: seq<T>, p: T -> bool)
    ensures Filter(a + b, p) == Filter(a, p) + Filter(b, p)
  {
    if a == [] {
      assert a + b == b;
    } else {
      assert (a + b)[0] == a[0] && (a + b)[1..] == a[1..] + b;
      FilterAppend(a[1..], b, p);
      var h := if p(a[0]) then [a[0]] else [];
      assert Filter(a + b, p) == h + Filter(a[1..] + b, p);
      assert Filter(a, p) == h + Filter(a[1..], p);
    }
  }

  /** A mask that keeps everything keeps the sequence. */
  lemma {:induction false} FilterAll<T>(s: seq<T>, p: T -> bool)
    requires forall k :: 0 <= k < |s| ==> p(s[k])
    ensures Filter(s, p) == s
  {
    if s != [] {
      FilterAll(s[1..], p);
      assert s == [s[0]] + s[1..];
    }
  }

  /** Two masks applied in turn are one mask testing both. */
  lemma {:induction false} FilterFilter<T>(s: seq<T>, p: T -> bool, q: T -> bool, pq: T -> bool)
    requires forall k :: 0 <= k < |s| ==> pq(s[k]) == (p(s[k]) && q(s[k]))
    ensures Filter(Filter(s, p), q) == Filter(s, pq)
  {
    if s != [] {
      assert forall k :: 0 <= k < |s[1..]| ==> s[1..][k] == s[k + 1];
      FilterFilter(s[1..], p, q, pq);
      assert pq(s[0]) == (p(s[0]) && q(s[0]));
      if p(s[0]) {
        assert Filter(s, p) == [s[0]] + Filter(s[1..], p);
        FilterAppend([s[0]], Filter(s[1..], p), q);
        assert [s[0]][1..] == [];
        assert Filter([s[0]], q) == if q(s[0]) then [s[0]] else [];
      } else {
        assert Filter(s, p) == Filter(s[1..], p);
      }
    }
  }

  /** A property every element has is kept by filtering. */
  lemma {:induction false} FilterKeeps<T>(s: seq<T>, p: T -> bool, q: T -> bool)
    requires forall k :: 0 <= k < |s| ==> q(s[k])
    ensures forall k :: 0 <= k < |Filter(s, p)| ==> q(Filter(s, p)[k])
  {
    if s != [] {
      assert forall k :: 0 <= k < |s[1..]| ==> s[1..][k] == s[k + 1];
      FilterKeeps(s[1..], p, q);
    }
  }

  /** `y` is the image under `g` of some element of `s` that passes `p`. */
  ghost predicate ImageOf<T, U>(s: seq<T>, p: T -> bool, g: T -> U, y: U)
  {
    exists j :: 0 <= j < |s| && p(s[j]) && y == g(s[j])
  }

  /** Mapping `g` over the kept elements gives the images of exactly the
      elements that pass the mask. */
  lemma {:induction false} FilterMap<T, U>(s: seq<T>, p: T -> bool, g: T -> U, r: seq<U>)
    requires |r| == |Filter(s, p)| && forall k :: 0 <= k < |r| ==> r[k] == g(Filter(s, p)[k])
    ensures forall k :: 0 <= k < |r| ==> ImageOf(s, p, g, r[k])
    ensures forall j :: 0 <= j < |s| && p(s[j]) ==> g(s[j]) in r
  {
    var kept := Filter(s, p);
    FilterMembers(s, p);
    FilterPasses(s, p);
    forall k | 0 <= k < |r|
      ensures ImageOf(s, p, g, r[k])
    {
      var j :| 0 <= j < |s| && s[j] == kept[k];
      assert p(s[j]) && r[k] == g(s[j]);
    }
    forall j | 0 <= j < |s| && p(s[j])
      ensures g(s[j]) in r
    {
      FilterContains(s, p, j);
      var k :| 0 <= k < |kept| && kept[k] == s[j];
      assert r[k] == g(s[j]);
    }
  }

  /** Number of elements that pass `p`. */
  function Count<T>(s: seq<T>, p: T -> bool): (r: nat)
    ensures r <= |s|
  {
    if s == [] then 0 else (if p(s[0]) then 1 else 0) + Count(s[1..], p)
  }

  lemma {:induction false} FilterCount<T>(s: seq<T>, p: T -> bool)
    ensures |Filter(s, p)| == Count(s, p)
  {
    if s != [] {
      FilterCount(s[1..], p);
    }
  }

  /** `[g(x) for x in s]`. */
  function Map<T, U>(s: seq<T>, g: T -> U): (r: seq<U>)
    ensures |r| == |s| && forall i :: 0 <= i < |s| ==> r[i] == g(s[i])
  {
    seq(|s|, i requires 0 <= i < |s| => g(s[i]))
  }

  /** Filtering the images is mapping the elements whose image passes. */
  lemma {:induction false} FilterOfMap<T, U>(s: seq<T>, g: T -> U, q: U -> bool, qg: T -> bool)
    requires forall i :: 0 <= i < |s| ==> qg(s[i]) == q(g(s[i]))
    ensures Filter(Map(s, g), q) == Map(Filter(s, qg), g)
  {
    if s != [] {
      assert forall i :: 0 <= i < |s[1..]| ==> s[1..][i] == s[i + 1];
      FilterOfMap(s[1..], g, q, qg);
      MapCons(s[0], s[1..], g);
      assert [s[0]] + s[1..] == s;
      assert Map(s, g)[1..] == Map(s[1..], g);
      var h := if qg(s[0]) then [s[0]] else [];
      assert Filter(s, qg) == h + Filter(s[1..], qg);
      if qg(s[0]) {
        MapCons(s[0], Filter(s[1..], qg), g);
      } else {
        assert h + Filter(s[1..], qg) == Filter(s[1..], qg);
      }
    }
  }

  lemma {:induction false} MapCons<T, U>(x: T, s: seq<T>, g: T -> U)
    ensures Map([x] + s, g) == [g(x)] + Map(s, g)
  {
    var l, r := Map([x] + s, g), [g(x)] + Map(s, g);
    forall i | 0 <= i < |l|
      ensures l[i] == r[i]
    {
      if i > 0 {
        assert ([x] + s)[i] == s[i - 1];
      }
    }
  }

  /** Two masks that agree position by position keep as many elements. */
  lemma {:induction false} CountSame<T, U>(s: seq<T>, p: T -> bool, t: seq<U>, q: U -> bool)
    requires |s| == |t| && forall i :: 0 <= i < |s| ==> p(s[i]) == q(t[i])
    ensures Count(s, p) == Count(t, q)
  {
    if s != [] {
      assert forall i :: 0 <= i < |s[1..]| ==> s[1..][i] == s[i + 1] && t[1..][i] == t[i + 1];
      CountSame(s[1..], p, t[1..], q);
    }
  }

  /** Counting images that pass `q` is counting elements whose image does. */
  lemma {:induction false} CountMap<T, U>(s: seq<T>, g: T -> U, q: U -> bool, qg: T -> bool)
    requires forall i :: 0 <= i < |s| ==> qg(s[i]) == q(g(s[i]))
    ensures Count(Map(s, g), q) == Count(s, qg)
  {
    if s != [] {
      assert Map(s, g)[1..] == Map(s[1..], g);
      assert forall i :: 0 <= i < |s[1..]| ==> s[1..][i] == s[i + 1];
      CountMap(s[1..], g, q, qg);
    }
  }

  /** The test `x == v`. */
  function Is<T(==)>(v: T): T -> bool
  {
    x => x == v
  }

  /** An element occurs once in a sequence without repeats that holds it. */
  lemma {:induction false} CountDistinct<T>(ds: seq<T>, v: T)
    requires Distinct(ds)
    ensures Count(ds, Is(v)) == if v in ds then 1 else 0
  {
    if ds != [] {
      assert Distinct(ds[1..]) by {
        assert forall i :: 0 <= i < |ds[1..]| ==> ds[1..][i] == ds[i + 1];
      }
      CountDistinct(ds[1..], v);
      assert forall x :: x in ds <==> x == ds[0] || x in ds[1..];
      if ds[0] == v {
        assert v !in ds[1..] by {
          forall i | 0 <= i < |ds[1..]|
            ensures ds[1..][i] != v
          {
            assert ds[1..][i] == ds[i + 1];
          }
        }
      }
    }
  }

  /** The occurrences in `vs` of each element of `ds`, added up. */
  function SumCounts<T(==)>(ds: seq<T>, vs: seq<T>): nat
  {
    if ds == [] then 0 else Count(vs, Is(ds[0])) + SumCounts(ds[1..], vs)
  }

  /** Adding up the counts of the first element separately. */
  lemma {:induction false} SumCountsHead<T>(ds: seq<T>, vs: seq<T>)
    requires vs != []
    ensures SumCounts(ds, vs) == Count(ds, Is(vs[0])) + SumCounts(ds, vs[1..])
  {
    if ds != [] {
      SumCountsHead(ds[1..], vs);
    }
  }

  /** Counting every element of `vs` against a list of its distinct values
      accounts for each element exactly once. */
  lemma {:induction false} SumCountsAll<T>(ds: seq<T>, vs: seq<T>)
    requires Distinct(ds)
    requires forall i :: 0 <= i < |vs| ==> vs[i] in ds
    ensures SumCounts(ds, vs) == |vs|
  {
    if vs == [] {
      SumCountsNone(ds, vs);
    } else {
      SumCountsHead(ds, vs);
      CountDistinct(ds, vs[0]);
      assert forall i :: 0 <= i < |vs[1..]| ==> vs[1..][i] == vs[i + 1];
      SumCountsAll(ds, vs[1..]);
    }
  }

  lemma {:induction false} SumCountsNone<T>(ds: seq<T>, vs: seq<T>)
    requires vs == []
    ensures SumCounts(ds, vs) == 0
  {
    if ds != [] {
      SumCountsNone(ds[1..], vs);
    }
  }

  /** No element occurs twice. */
  predicate Distinct<T(==)>(s: seq<T>)
  {
    forall i, j :: 0 <= i < j < |s| ==> s[i] != s[j]
  }

  /** The distinct elements of `s` in order of first occurrence (`unique()`). */
  function Dedup<T(==)>(s: seq<T>): (r: seq<T>)
    ensures Distinct(r)
    ensures forall k :: 0 <= k < |r| ==> r[k] in s
    ensures forall k :: 0 <= k < |s| ==> s[k] in r
    ensures |r| <= |s|
  {
    DedupFrom(s, [])
  }

  function DedupFrom<T(==)>(s: seq<T>, seen: seq<T>): (r: seq<T>)
    requires Distinct(seen)
    ensures Distinct(r)
    ensures forall k :: 0 <= k < |r| ==> r[k] in s || r[k] in seen
    ensures forall k :: 0 <= k < |s| ==> s[k] in r
    ensures |r| <= |s| + |seen|
    ensures seen <= r
    decreases |s|
  {
    if s == [] then seen
    else if s[0] in seen then DedupFrom(s[1..], seen)
    else
      var r := DedupFrom(s[1..], seen + [s[0]]);
      assert (seen + [s[0]])[|seen|] == s[0];
      r
  }

  /** The last position before `i` whose element passes `p`. */
  function LastBefore<T>(s: seq<T>, p: T -> bool, i: nat): (r: Option<nat>)
    requires i <= |s|
    ensures r.Some? ==> r.value < i && p(s[r.value])
    ensures r.Some? ==> forall j :: r.value < j < i ==> !p(s[j])
    ensures r.None? ==> forall j :: 0 <= j < i ==> !p(s[j])
  {
    if i == 0 then None
    else if p(s[i - 1]) then Some(i - 1)
    else LastBefore(s, p, i - 1)
  }

  /** Looking back from position `i + 1` of `s` is looking back from
      position `i` of its tail, unless the search reaches the first element. */
  lemma {:induction false} LastBeforeTail<T>(s: seq<T>, p: T -> bool, i: nat)
    requires 0 < |s| && i < |s|
    ensures LastBefore(s, p, i + 1) ==
      match LastBefore(s[1..], p, i)
      case Some(j) => Some(j + 1)
      case None => if p(s[0]) then Some(0) else None
    decreases i
  {
    if i > 0 {
      assert s[1..][i - 1] == s[i];
      if !p(s[i]) {
        LastBeforeTail(s, p, i - 1);
      }
    }
  }

  /** A left-to-right loop with one carried value: each element is emitted
      with the value carried so far, and an element that passes `reset`
      replaces the carried value by `start` of itself. */
  function ScanCarry<T, S, U>(s: seq<T>, reset: T -> bool, start: T -> S, emit: (T, S) -> U, cur: S): (r: seq<U>)
    ensures |r| == |s|
  {
    if s == [] then []
    else [emit(s[0], cur)] + ScanCarry(s[1..], reset, start, emit, if reset(s[0]) then start(s[0]) else cur)
  }

  /** The value carried to position `i`: `start` of the last resetting
      element before it, `cur` when there is none. */
  function CarryAt<T, S>(s: seq<T>, reset: T -> bool, start: T -> S, cur: S, i: nat): S
    requires i <= |s|
  {
    match LastBefore(s, reset, i)
    case None => cur
    case Some(j) => start(s[j])
  }

  /** Each element of the loop's output is emitted with the value carried to
      its position. */
  lemma {:induction false} ScanCarrySpec<T, S, U>(s: seq<T>, reset: T -> bool, start: T -> S, emit: (T, S) -> U, cur: S, i: nat)
    requires i < |s|
    ensures ScanCarry(s, reset, start, emit, cur)[i] == emit(s[i], CarryAt(s, reset, start, cur, i))
    decreases i
  {
    if i > 0 {
      var next := if reset(s[0]) then start(s[0]) else cur;
      assert ScanCarry(s, reset, start, emit, cur)[i] == ScanCarry(s[1..], reset, start, emit, next)[i - 1];
      ScanCarrySpec(s[1..], reset, start, emit, next, i - 1);
      LastBeforeTail(s, reset, i - 1);
      assert s[1..][i - 1] == s[i];
    }
  }

  /** The first position in `i..n` where `p` holds: the first-match search
      behind every ordered `if`/`elif` chain of the program. */
  function FirstFrom(p: nat -> bool, i: nat, n: nat): (r: Option<nat>)
    requires i <= n
    ensures r.Some? ==> i <= r.value < n
    decreases n - i
  {
    if i == n then None else if p(i) then Some(i) else FirstFrom(p, i + 1, n)
  }

  /** `FirstFrom` finds the earliest position where `p` holds, and finds none
      exactly when `p` holds nowhere in the range. */
  lemma {:induction false} FirstFromSpec(p: nat -> bool, i: nat, n: nat)
    requires i <= n
    ensures FirstFrom(p, i, n).Some? ==> p(FirstFrom(p, i, n).value)
    ensures FirstFrom(p, i, n).Some? ==> forall k :: i <= k < FirstFrom(p, i, n).value ==> !p(k)
    ensures FirstFrom(p, i, n).None? <==> forall k :: i <= k < n ==> !p(k)
    decreases n - i
  {
    if i < n && !p(i) {
      FirstFromSpec(p, i + 1, n);
      assert FirstFrom(p, i, n) == FirstFrom(p, i + 1, n);
    }
  }

  /** Applies `f` to every element in order: all the results, or the first
      error (`df.apply(f, axis=1)`, or a loop that stops at the first raise). */
  function Todas<T, U>(xs: seq<T>, f: T -> Result<U>): (r: Result<seq<U>>)
    ensures r.Ok? <==> forall i :: 0 <= i < |xs| ==> f(xs[i]).Ok?
    ensures r.Ok? ==> |r.value| == |xs| && forall i :: 0 <= i < |xs| ==> r.value[i] == f(xs[i]).value
  {
    if xs == [] then Ok([])
    else match f(xs[0])
      case Err(msg) => Err(msg)
      case Ok(y) =>
        match Todas(xs[1..], f)
        case Err(msg) =>
          Err(msg)
        case Ok(ys) =>
          assert forall i :: 1 <= i < |xs| ==> xs[i] == xs[1..][i - 1];
          Ok([y] + ys)
  }

  /** The elements whose box is ticked, in their order (`[xs[i] for i in
      range(len(xs)) if marcas[i]]`). */
  function Selecionados<T(==,!new)>(valores: seq<T>, marcas: seq<bool>): (r: seq<T>)
    requires |marcas| == |valores|
    ensures IsSubseq(r, valores)
    ensures forall v :: v in r <==> exists i :: 0 <= i < |valores| && marcas[i] && valores[i] == v
    ensures r == [] <==> forall i :: 0 <= i < |marcas| ==> !marcas[i]
    decreases |valores|
  {
    if valores == [] then []
    else
      var rest := Selecionados(valores[1..], marcas[1..]);
      assert forall i :: 1 <= i < |valores| ==> valores[1..][i - 1] == valores[i] && marcas[1..][i - 1] == marcas[i];
      if marcas[0] then
        var r := [valores[0]] + rest;
        assert r[0] == valores[0] && r[1..] == rest;
        r
      else
        SubseqSkip(rest, valores);
        rest
  }
}

=== FILE: text.dfy ===
/** String helpers that behave like the Python `str` methods the program uses.
    Character classes (digits, whitespace, case) are modelled on Latin-1. */
module Text {

  /** An ASCII decimal digit. */
  predicate IsAsciiDigit(c: char)
  {
    '0' <= c <= '9'
  }

  /** Python's `str.isdigit` on one Latin-1 character: the ASCII digits and
      the superscripts one, two and three. */
  predicate PyIsDigit(c: char)
  {
    IsAsciiDigit(c) || c == '\U{B9}' || c == '\U{B2}' || c == '\U{B3}'
  }

  /** Python's `str.isspace` on one Latin-1 character. */
  predicate IsSpace(c: char)
  {
    c == ' ' || c == '\t' || c == '\n' || c == '\r' || c == '\U{0B}' || c == '\U{0C}'
    || ('\U{1C}' <= c <= '\U{1F}') || c == '\U{85}' || c == '\U{A0}'
  }

  predicate AllDigits(s: string)
  {
    forall i :: 0 <= i < |s| ==> IsAsciiDigit(s[i])
  }

  /** `s.lstrip()`: drops leading whitespace. */
  function LStrip(s: string): (r: string)
    ensures |r| <= |s| && r == s[|s| - |r|..]
    ensures r == [] || !IsSpace(r[0])
    ensures forall i :: 0 <= i < |s| - |r| ==> IsSpace(s[i])
  {
    if |s| > 0 && IsSpace(s[0]) then LStrip(s[1..]) else s
  }

  /** `s.rstrip()`: drops trailing whitespace. */
  function RStrip(s: string): (r: string)
    ensures r <= s
    ensures r == [] || !IsSpace(r[|r| - 1])
    ensures forall i :: |r| <= i < |s| ==> IsSpace(s[i])
  {
    if |s| > 0 && IsSpace(s[|s| - 1]) then RStrip(s[..|s| - 1]) else s
  }

  /** `s.strip()`. */
  function Strip(s: string): (r: string)
    ensures r == [] || (!IsSpace(r[0]) && !IsSpace(r[|r| - 1]))
    ensures |r| <= |s|
  {
    RStrip(LStrip(s))
  }

  lemma StripNoSpace(s: string)
    requires forall i :: 0 <= i < |s| ==> !IsSpace(s[i])
    ensures Strip(s) == s
  {
    assert LStrip(s) == s;
  }

  /** Stripping never introduces a character. */
  lemma StripKeeps(s: string, c: char)
    requires c !in s
    ensures c !in Strip(s)
  {
    var l := LStrip(s);
    assert c !in l by {
      assert forall j :: 0 <= j < |l| ==> l[j] == s[|s| - |l| + j];
    }
    assert RStrip(l) <= l;
  }

  /** Python's `str.lower` on a Latin-1 character with a one-character mapping. */
  function LowerChar(c: char): char
  {
    if 'A' <= c <= 'Z' || ('\U{C0}' <= c <= '\U{DE}' && c != '\U{D7}') then (c as int + 32) as char else c
  }

  /** Python's `str.upper` on a Latin-1 character with a one-character mapping
      (the sharp s, which upper-cases to two letters, is left unchanged). */
  function UpperChar(c: char): char
  {
    if 'a' <= c <= 'z' || ('\U{E0}' <= c <= '\U{FE}' && c != '\U{F7}') then (c as int - 32) as char
    else if c == '\U{FF}' then '\U{0178}'
    else if c == '\U{B5}' then '\U{039C}'
    else c
  }

  function Lower(s: string): (r: string)
    ensures |r| == |s|
  {
    seq(|s|, i requires 0 <= i < |s| => LowerChar(s[i]))
  }

  function Upper(s: string): (r: string)
    ensures |r| == |s|
  {
    seq(|s|, i requires 0 <= i < |s| => UpperChar(s[i]))
  }

  /** Python's `sub in s`. */
  predicate Contains(s: string, sub: string)
  {
    exists i :: 0 <= i <= |s| && sub <= s[i..]
  }

  /** A witness position makes `Contains` true. */
  lemma ContainsAt(s: string, sub: string, i: nat)
    requires i + |sub| <= |s| && s[i..i + |sub|] == sub
    ensures Contains(s, sub)
  {
    assert sub <= s[i..];
  }

  /** A string that does not contain a character contains no text with it. */
  lemma NotContainsChar(s: string, sub: string, c: char)
    requires c in sub && c !in s
    ensures !Contains(s, sub)
  {
  }

  /** `s.replace(a, b)` for single characters. */
  function ReplaceChar(s: string, a: char, b: char): (r: string)
    ensures |r| == |s|
    ensures forall i :: 0 <= i < |s| ==> r[i] == if s[i] == a then b else s[i]
    ensures a != b ==> a !in r
  {
    seq(|s|, i requires 0 <= i < |s| => if s[i] == a then b else s[i])
  }

  /** `s.replace(a, '')`: deletes every occurrence of one character. */
  function RemoveChar(s: string, a: char): (r: string)
    ensures a !in r
    ensures |r| <= |s|
    ensures forall c :: c in r ==> c in s
  {
    if s == [] then [] else (if s[0] == a then [] else [s[0]]) + RemoveChar(s[1..], a)
  }

  lemma RemoveCharAppend(x: string, y: string, a: char)
    ensures RemoveChar(x + y, a) == RemoveChar(x, a) + RemoveChar(y, a)
  {
    if x != [] {
      assert (x + y)[1..] == x[1..] + y;
      RemoveCharAppend(x[1..], y, a);
    } else {
      assert x + y == y;
    }
  }

  lemma RemoveCharAbsent(x: string, a: char)
    requires a !in x
    ensures RemoveChar(x, a) == x
  {
  }

  /** `s.split(sep)[0]`: the text before the first `sep`, or all of `s`. */
  function BeforeFirst(s: string, sep: char): (r: string)
    ensures r <= s
    ensures sep !in r
    ensures |r| < |s| ==> s[|r|] == sep
  {
    if s == [] || s[0] == sep then [] else [s[0]] + BeforeFirst(s[1..], sep)
  }

  /** The text before the first separator is everything up to it. */
  lemma {:induction false} BeforeFirstAt(x: string, y: string, sep: char)
    requires sep !in x
    ensures BeforeFirst(x + [sep] + y, sep) == x
  {
    var s := x + [sep] + y;
    if x == [] {
      assert s[0] == sep;
    } else {
      assert s[0] == x[0] && s[1..] == x[1..] + [sep] + y;
      BeforeFirstAt(x[1..], y, sep);
    }
  }

  /** `s.lstrip(c)`: drops the leading run of `c`. */
  function LStripChar(s: string, c: char): (r: string)
    ensures |r| <= |s| && r == s[|s| - |r|..]
    ensures r == [] || r[0] != c
    ensures forall i :: 0 <= i < |s| - |r| ==> s[i] == c
  {
    if |s| > 0 && s[0] == c then LStripChar(s[1..], c) else s
  }

  /** `sep.join(xs)`. */
  function Join(xs: seq<string>, sep: string): string
  {
    if xs == [] then "" else if |xs| == 1 then xs[0] else xs[0] + sep + Join(xs[1..], sep)
  }

  function DigitChar(d: nat): char
    requires d < 10
  {
    ('0' as int + d) as char
  }

  function DigitOf(c: char): nat
    requires IsAsciiDigit(c)
  {
    c as int - '0' as int
  }

  /** The value of a string of ASCII digits, read in base ten. */
  function DigitsValue(s: string): nat
    requires AllDigits(s)
  {
    if s == [] then 0 else DigitsValue(s[..|s| - 1]) * 10 + DigitOf(s[|s| - 1])
  }

  /** `str(n)` for a natural number: no sign, no leading zero. */
  function NatText(n: nat): (r: string)
    ensures |r| >= 1 && AllDigits(r)
    ensures r[0] == '0' ==> n == 0 && |r| == 1
  {
    if n < 10 then [DigitChar(n)] else NatText(n / 10) + [DigitChar(n % 10)]
  }

  /** `str(n)` for any integer. */
  function IntText(n: int): (r: string)
    ensures |r| >= 1
  {
    if n < 0 then "-" + NatText(-n) else NatText(n)
  }

  /** Reading back the digits of `str(n)` gives `n`. */
  lemma {:induction false} NatTextValue(n: nat)
    ensures DigitsValue(NatText(n)) == n
  {
    var s := NatText(n);
    if n >= 10 {
      NatTextValue(n / 10);
      assert s[..|s| - 1] == NatText(n / 10);
    }
  }

  lemma AllDigitsAppend(a: string, b: string)
    requires AllDigits(a) && AllDigits(b)
    ensures AllDigits(a + b)
  {
  }

  lemma Distrib(whole: int, part: int, x: int, p: int, y: int, d: int, big: int, tail: int)
    requires whole == part * 10 + d && part == x * p + y
    requires big == 10 * p && tail == y * 10 + d
    ensures whole == x * big + tail
  {
    assert (x * p + y) * 10 + d == x * (10 * p) + (y * 10 + d);
  }

  lemma DigitsValueLast(s: string)
    requires AllDigits(s) && s != []
    ensures DigitsValue(s) == DigitsValue(s[..|s| - 1]) * 10 + DigitOf(s[|s| - 1])
  {
  }

  lemma {:induction false} DigitsValueAppend(a: string, b: string)
    requires AllDigits(a) && AllDigits(b)
    ensures AllDigits(a + b)
    ensures DigitsValue(a + b) == DigitsValue(a) * Pow10(|b|) + DigitsValue(b)
    decreases |b|
  {
    AllDigitsAppend(a, b);
    if b != [] {
      var b' := b[..|b| - 1];
      var ab := a + b;
      assert ab[..|ab| - 1] == a + b';
      assert ab[|ab| - 1] == b[|b| - 1];
      DigitsValueAppend(a, b');
      DigitsValueLast(ab);
      DigitsValueLast(b);
      Distrib(DigitsValue(ab), DigitsValue(a + b'), DigitsValue(a), Pow10(|b'|), DigitsValue(b'),
        DigitOf(b[|b| - 1]), Pow10(|b|), DigitsValue(b));
    } else {
      assert a + b == a;
    }
  }

  function Pow10(e: nat): (r: nat)
    ensures r >= 1
  {
    if e == 0 then 1 else 10 * Pow10(e - 1)
  }

  /** Left-pads with `'0'` to at least `w` characters. */
  function ZeroPad(s: string, w: nat): (r: string)
    ensures |r| == if |s| >= w then |s| else w
    ensures AllDigits(s) ==> AllDigits(r) && DigitsValue(r) == DigitsValue(s)
    decreases w - |s|
  {
    if |s| >= w then s
    else
      var r := ZeroPad(['0'] + s, w);
      assert AllDigits(s) ==> DigitsValue(['0'] + s) == DigitsValue(s) by {
        if AllDigits(s) { DigitsValueAppend(['0'], s); }
      }
      r
  }

  lemma DigitsValueBound(s: string)
    requires AllDigits(s)
    ensures DigitsValue(s) < Pow10(|s|)
  {
  }

  lemma NatTextLength(n: nat, w: nat)
    requires n < Pow10(w)
    ensures |NatText(n)| <= w || (w == 0 && n == 0)
  {
    if n >= 10 {
      assert w >= 1;
      NatTextLength(n / 10, w - 1);
    }
  }
}

=== FILE: wrappers.dfy ===
/** Option and Result datatypes shared by every module of the model. */
module Wrappers {

  /** A value that may be absent: Python's `None`, or a failed lookup. */
  datatype Option<+T> = None | Some(value: T) {

    /** The wrapped value, or `default` when absent. */
    function GetOr(default: T): T
    {
      match this
      case Some(v) => v
      case None => default
    }
  }

  /** The outcome of an operation that can raise: `Err` carries the message. */
  datatype Result<+R> = Ok(value: R) | Err(msg: string)
}
